=== FILE: README.md ===
# Lexers and parser combinators, modelled in Dafny

This project models the lexing and parsing core of a small library collection, written once in
Python and several times in C++, and a hand-written JSON reader and keyboard-and-mouse state
tracker that sit beside it. Every operation is a pure function over immutable values. A stream
is a record that holds its text and a cursor, and every read returns the new record.

The modules follow the repository's files:

- `Wrappers`, `Text`: the `Option`/`Result` types and small string helpers (decimal
  rendering, replace, join) shared by every module.
- `Longest`: the longest-match rule that every all-patterns lexer uses. Patterns are tried in
  registration order, and a later one wins only with a strictly longer match.
- `Lines`: conversion of an offset to a (line, column) position and back, over a table of line
  starts. It also derives the Python table (from `readlines()`) and the C++ table (one entry
  per newline) and relates the two.
- `PyStream`, `PyLexer`, `PyTokens`, `PyParser` (parser/parser.py). They cover the character
  stream, the longest-match lexer with its EOS and UNKNOWN sentinels, and the lazily filled
  token stream with its ignore list and cursor. They also cover the parser algebra: `Terminal`,
  `Sequence`, `Choice`, `Quantified`, `Separated` and `Lazy`, which put the cursor back and
  chain errors on failure.
- `PyParserCache`, `PyParserRuns`: what every parse keeps true of the token cache, and how
  parsers that ignore nothing behave on the next token.
- `GenLexer` (parser/parser_generator.py): the same stream and lexer with integer pattern IDs.
- `PyJsonLex`, `PyJsonTokens`, `PyJson`, `PyJsonProperties`
  (python/lpc/examples/json_parser.py): the JSON grammar written against the Python engine. It
  includes the token patterns, the string-unescaping action, and what the grammar accepts and
  yields.
- `CppStream` (c++/lpc/old/olpc.cpp and c++/lpc/lpc.cpp): the C++ string stream, lexer and
  token cache keyed by character offset. `size_t` arithmetic wraps at 2^64.
- `Lpc` (c++/lpc/lpc.h): the combinators with a trace-carrying `ParseError`. These are mapping,
  `Optional`, `Success`, `Named`, prefix and suffix, the pair and list operators, the
  longest-of-two `|`, `Quantified`, `Separated` and `LookAhead`.
- `Olpc`, `OlpcChoice`, `OlpcBinop` (c++/lpc/old/olpc.h, c++/lpc/old/olpc.cpp): the named
  combinators, the furthest-error `Choice`, precedence-climbing `BinopChain`, `Try`, `Not` and
  `LookAhead`, and the terminals by pattern ID and by regular expression.
- `TableStream`, `TableParser` (c++/lpc/parser.h): the generic vector stream, the numbered
  longest-match `PatternMatcher`, the lazily grown token stream, and the symbol-table parser
  with its validation.
- `FirstMatch` (parser/parser.h): the older stream with 0-based positions and the first-match
  lexer that skips unnamed patterns.
- `JsonReader`, `JsonProperties` (c++/json/json.h): the recursive-descent `JSONReader` with its
  line and column tracking, escapes, keywords, numbers, duplicate-key refusal and `FromStream`.
  `JsonProperties` proves that every written value reads back.
- `Input` (c++/rxd/src/input.cpp): the keyboard and mouse that buffer SDL events and work out
  which keys or buttons were pressed and released at each `Update`.

Some things are parameters rather than part of the model:

- Regular expressions are matchers: functions from the remaining text to an optional match
  length.
- Lexer and transformer actions are functions.
- SDL events are a datatype that the caller passes in.
- A parse that may loop forever takes a `fuel` argument and reports `Diverge` when the fuel runs
  out.

Where the source does something other than what it evidently means, the model keeps both
versions. One member follows the code as written, and a lemma exhibits the difference. The
corrected definition is what the rest of the model uses. The table under "## Findings" lists
these pairs, and the lines under "## Left out" that start with a member's name say which
operations are built on a corrected definition.

## Model

| member | source | states |
|---|---|---|
| Longest.Select | parser/parser.py:116-125 | The winning attempt is the first among the longest matches; there is none exactly when no pattern matched |
| Lines.PositionOf | parser/parser.py:57-67 | The line is the last one whose start is at or before the offset, and the column counts from 1 at that start |
| Lines.ScanFinds | parser/parser.py:58-65 | The scan over the line starts stops at the first start past the offset, having counted every start at or before it and remembered the last one |
| Lines.OffsetOf | parser/parser.py:69-79 | A position is refused exactly for line 0, a line past the table, column 0, or a column more than one past the end of its line; otherwise it names the line's start plus the column minus one |
| Lines.OffsetOfPositionOf | parser/parser.py:57-79 | Every offset of the text survives the round trip through its position and back |
| Lines.PositionOfOffsetOf | parser/parser.py:57-79 | A valid position survives the round trip through its offset exactly when it is not the column one past the end of a line that has a successor |
| Lines.LineUnique | parser/parser.py:60-65 | At most one line of a sorted table contains a given offset, so the position of an offset is unambiguous |
| Lines.CppLineStarts | c++/lpc/old/olpc.cpp:28-35 | The C++ table starts at 0 and records one past every newline, in increasing order and within the text |
| Lines.NewlineStartsComplete | c++/lpc/old/olpc.cpp:31-35 | Every newline of the text contributes the offset after it to the C++ table |
| Lines.ReadLines | parser/parser.py:25 | `readlines()` cuts the text after every newline into non-empty pieces |
| Lines.AccumulateReadLines | parser/parser.py:23-26 | The running sums over `readlines()[:-1]` are exactly the offsets just past a newline that is not the last character |
| Lines.PyLineStartsClosedForm | parser/parser.py:23-26 | The Python table is 0 followed by one past every newline except a final one |
| Lines.PyVersusCpp | parser/parser.py:23-26 | The Python and C++ tables agree except that C++ also records the start of the empty line after a final newline |
| Lines.PyLineStartsWellFormed | parser/parser.py:23-26 | The Python table starts at 0, increases strictly and stays within the text |
| PyStream.New | parser/parser.py:17-28 | A new stream holds the text and reads from offset 0 |
| PyStream.LineStarts | parser/parser.py:22-26 | The line-start table is well formed for the stream's text |
| PyStream.Peek | parser/parser.py:30-34 | The next character as a one-character string, empty exactly at the end of the text, without moving |
| PyStream.Get | parser/parser.py:36-37 | Gives what `Peek` gives and advances by its length |
| PyStream.PeekRemainder | parser/parser.py:39-43 | The text already read followed by the remainder is the whole text |
| PyStream.Ignore | parser/parser.py:45-46 | Skips the given number of characters, or stops at the end when fewer remain |
| PyStream.SetOffset | parser/parser.py:51-52 | Any integer offset is clamped into the text: negative to 0, past the end to the end |
| PyStream.GetPosition | parser/parser.py:57-67 | The line is the last line of the table starting at or before the offset and the column counts from 1 at its start |
| PyStream.SetPosition | parser/parser.py:69-79 | Refuses an invalid position with "Invalid position: (l, c)" and otherwise moves to the offset it names |
| PyStream.SetPositionGetPosition | parser/parser.py:57-79 | Setting the position read from a stream puts any stream on the same text back at that offset |
| PyStream.GetPositionSetPosition | parser/parser.py:57-79 | An accepted position reads back unchanged exactly when it is not the column past the end of a line with a successor |
| PyStream.TrailingNewlineStaysOnLastLine | parser/parser.py:23-26 | At the end of "a\n" the position is (1, 3): a final newline opens no line |
| PyLexer.Apply | parser/parser.py:133 | Without an action the token value is the matched text itself |
| PyLexer.New | parser/parser.py:90-96 | A new lexer has no patterns and uses the sentinel IDs "<EOS>" and "<UNKNOWN>" |
| PyLexer.AddPattern | parser/parser.py:98-103 | Appends the pattern under the given ID, or under the default "<Pattern: n>" of parser/parser.py:87-88 with n the number of patterns so far, and fails when that ID is already registered |
| PyLexer.AddPatternKeepsDistinct | parser/parser.py:98-103 | Registration keeps the pattern IDs distinct, so an ID names one pattern |
| PyLexer.Winner | parser/parser.py:116-129 | The winner is the first longest match, and there is none exactly when no pattern matched |
| PyLexer.Lex | parser/parser.py:105-136 | The token's position is the position before reading, the text is unchanged and the stream never moves back |
| PyLexer.LexSpec | parser/parser.py:105-136 | At the end: EOS with the EOS action applied to "" and nothing consumed; with no match: UNKNOWN over one character; otherwise the first longest pattern wins, its matcher reports exactly the length it is credited with, the stream advances by that raw match length and the value is the action applied to that text |
| GenLexer.New | parser/parser_generator.py:83-89 | A new integer-ID lexer has no patterns and is numbered |
| GenLexer.AddPattern | parser/parser_generator.py:91-93 | Appends the pattern with an ID that differs from both sentinels and from every earlier ID |
| GenLexer.LexIds | parser/parser_generator.py:83-126 | The token ID alone tells the outcomes apart: 0 exactly at the end, 1 exactly when nothing matched, otherwise the winning pattern's index plus 2 |
| CppStream.SizeT | c++/lpc/old/olpc.cpp:49 | A `size_t` result is the value reduced modulo 2^64: unchanged in range, less 2^64 above it, plus 2^64 below zero |
| CppStream.NewLexer | c++/lpc/old/olpc.cpp:143-150 | A new lexer has no registered patterns and keeps the two given sentinel actions |
| CppStream.AddPattern | c++/lpc/old/olpc.cpp:152-162 | Registers under the given ID or "<Pattern: n>", and refuses an ID already in the map, the sentinels included, with "Pattern with id '...' already exists!" |
| CppStream.AddPatternKeepsDistinct | c++/lpc/old/olpc.cpp:152-160 | Registration keeps the IDs distinct, so the map names one pattern per ID |
| CppStream.GetPattern | c++/lpc/old/olpc.cpp:218-224 | Succeeds exactly for a known ID, with the pattern of that ID; otherwise "Pattern with id '...' does not exist!" |
| CppStream.LineStarts | c++/lpc/old/olpc.cpp:28-35 | The stream's line-start table is well formed for its text |
| CppStream.New | c++/lpc/old/olpc.cpp:22-36 | Refuses exactly an ignore set holding EOS, with "<EOS> cannot be ignored!"; otherwise a stream at offset 0 with an empty cache |
| CppStream.GetChar | c++/lpc/old/olpc.cpp:48 | EOF exactly at the end, where the stream stays; otherwise the character at the offset and the stream one further |
| CppStream.PeekChar | c++/lpc/old/olpc.cpp:40-46 | Gives what `GetChar` gives and leaves the stream unchanged |
| CppStream.IgnoreChars | c++/lpc/old/olpc.cpp:49 | Skips the given count, stopping at the end, with the sum wrapping as a `size_t`; nothing but the offset changes |
| CppStream.SetOffset | c++/lpc/old/olpc.cpp:84 | Moves to the offset, or to the end of the text for an offset past it; nothing else changes |
| CppStream.Resume | c++/lpc/old/olpc.h:502-541 | Moving to the start plus the `size_t` length of a parse lands at the parse's end |
| CppStream.LengthRoundTrip | c++/lpc/old/olpc.h:502-541 | The wrapped difference and the wrapped sum cancel, even for an option that moved backwards |
| CppStream.GetOffsetOf | c++/lpc/old/olpc.cpp:87-99 | Fails exactly for a position that names no offset, with "Invaild position: (l, c)" as spelled there; otherwise an offset within the text |
| CppStream.GetPositionAt | c++/lpc/old/olpc.cpp:118-134 | Fails exactly past the end with "Offset is out of range of data!"; otherwise the line and column of the offset in the table |
| CppStream.GetPosition | c++/lpc/old/olpc.cpp:136 | The position of the read offset never fails |
| CppStream.SetPosition | c++/lpc/old/olpc.cpp:137 | Fails exactly when the offset lookup fails; otherwise only the offset changes, to the named one |
| CppStream.SetPositionOfGetPosition | c++/lpc/old/olpc.cpp:87-137 | Every offset of the text converts to a position and back to itself, so setting the current position leaves the stream unchanged |
| CppStream.SetPositionSameText | c++/lpc/old/olpc.cpp:87-137 | A position taken from one stream moves any stream over the same text to the first stream's offset |
| CppStream.GetData | c++/lpc/old/olpc.cpp:108-114 | Within the text, the requested slice; a sum past the text that does not wrap is refused with "Parameters out of range of data!"; any text given is a slice of the data |
| CppStream.GetDataFrom | c++/lpc/old/olpc.cpp:116 | Everything from the start when it lies within the text; otherwise the wrapped length reaches `substr`'s own error |
| CppStream.Match | c++/lpc/old/olpc.cpp:164-200 | The matched text is a slice of the data at the offset; at the end it is EOS over nothing with the EOS action |
| CppStream.Act | c++/lpc/old/olpc.cpp:210-211 | No action leaves the token; a function or procedure keeps its ID and position, and a procedure fails exactly when it throws |
| CppStream.LexAt | c++/lpc/old/olpc.cpp:164-214 | The position is taken before reading, the offset never moves back and stays in the text, and it stays put exactly when the match is empty |
| CppStream.MatchLongest | c++/lpc/old/olpc.cpp:173-199 | With a match, the first longest pattern wins and its match is the token text; with none, UNKNOWN over exactly one character |
| CppStream.Fetch | c++/lpc/old/olpc.cpp:53-69 | One pass of the loop reads what the lexer reads at the offset, from the cache or afresh, and changes nothing but the offset and the cache |
| CppStream.CachedFits | c++/lpc/old/olpc.cpp:56-63 | A cache entry at the offset records what the lexer reads there and ends within the text |
| CppStream.CacheExtend | c++/lpc/old/olpc.cpp:66-68 | Storing a fresh read keeps every cache entry faithful to the lexer |
| CppStream.GetToken | c++/lpc/old/olpc.cpp:51-74 | The token returned is not ignored, the offset never moves back, and only the offset and the cache change |
| CppStream.ReadToken | c++/lpc/old/olpc.cpp:51-74 | Reading afresh from an offset ends within the text at a token that is not ignored |
| CppStream.GetTokenReads | c++/lpc/old/olpc.cpp:51-74 | The cache is invisible: `GetToken` gives what lexing afresh from the offset gives |
| CppStream.GetTokenAtEnd | c++/lpc/old/olpc.cpp:22-26 | At the end of the text the reader stops at the EOS token unless the EOS action throws |
| CppStream.PeekToken | c++/lpc/old/olpc.cpp:76-82 | Gives the token `GetToken` gives, succeeds exactly when it does, and leaves the offset where it was |
| CppStream.PeekThenGet | c++/lpc/old/olpc.cpp:51-82 | Peeking first changes nothing a following read returns: same token, same end offset |
| Olpc.Report | c++/lpc/old/olpc.cpp:229-230 | What an error contributes to a combined error: its own line, then its details only when there are any |
| Olpc.Combine | c++/lpc/old/olpc.cpp:229-230 | A combined error keeps the first error's position and message, and puts the second's report above the first's details |
| Olpc.CombineStacks | c++/lpc/old/olpc.cpp:229-230 | Combining twice keeps the original position and stacks the reports, the most recent on top |
| Olpc.Expectation | c++/lpc/old/olpc.cpp:236-239 | An expectation error is "Expected X, but found Y" at the given position, with no details |
| Olpc.Pass | c++/lpc/old/olpc.h:200-210 | A failure or a runtime stop is passed on unchanged under any result type |
| Olpc.Parse | c++/lpc/old/olpc.h:200-210 | `Parse` succeeds or stops exactly as the function does; on a parse error it rewinds the stream and reports the inner error's position and message with "Unable to parse <name>" added to its details |
| Olpc.ParseKeepsInnermost | c++/lpc/old/olpc.h:200-210 | However many named parsers a failure passes through, the position and message reported are those of the error first thrown |
| Olpc.MapRun | c++/lpc/old/olpc.h:223-232 | A mapped parser succeeds exactly when the underlying function does, at the same position and stream, with the mapped value |
| Olpc.TryRun | c++/lpc/old/olpc.h:331-346 | `Try` never throws: the parser's value at its position, or the error value with the caught error at the start |
| Olpc.OptionalRun | c++/lpc/old/olpc.h:362-377 | `Optional` never throws: `Some` of the parser's result, or `None` at the start with the stream unmoved exactly when the parser fails |
| Olpc.ListPosition | c++/lpc/old/olpc.h:414 | A list's position is its first element's, or the start when it is empty |
| Olpc.QuantLoop | c++/lpc/old/olpc.h:398-411 | The loop only appends, returns at least `min` results, and fails only with fewer than `min` read |
| Olpc.QuantifiedAsWrittenRun | c++/lpc/old/olpc.h:389-417 | As written, the loop may return one result more than `max` |
| Olpc.QuantifiedRun | c++/lpc/old/olpc.h:389-417 | As corrected, between `min` and `max` results at the list's position; `max` of 0 parses nothing |
| Olpc.QuantifiedAsWrittenOverruns | c++/lpc/old/olpc.h:398-403 | An always-succeeding parser under `Exactly(1)` gives two results as written and one as corrected |
| Olpc.SumLoop | c++/lpc/old/olpc.h:672-676 | One result per remaining parser, appended in order, the first failure passed on as it is |
| Olpc.SumRun | c++/lpc/old/olpc.h:654-681 | A sum gives one result per parser at the first result's position, and fails with the first parser's error when that one fails |
| Olpc.PairRun | c++/lpc/old/olpc.h:445-452 | `a & b` succeeds exactly when `a` and then `b` succeed, giving both results at `a`'s position |
| Olpc.PrefixedRun | c++/lpc/old/olpc.h:861-869 | Succeeds exactly when the prefix and then the parser succeed, with the parser's result |
| Olpc.SuffixedRun | c++/lpc/old/olpc.h:871-880 | Succeeds exactly when the parser and then the suffix succeed, with the parser's result and the stream after the suffix |
| Olpc.Flatten | c++/lpc/old/olpc.h:809-815 | The list of `p & tail` is the first element followed by the tail's elements |
| Olpc.OrEmpty | c++/lpc/old/olpc.h:817-818 | An absent list counts as the empty list |
| Olpc.SeparatedCount | c++/lpc/old/olpc.h:797-821 | The corrected `Separated` returns between `min` and `max` elements |
| Olpc.QuantifiedCount | c++/lpc/old/olpc.h:389-417 | The corrected `Quantified` returns between `min` and `max` elements on every stream |
| Olpc.ListCount | c++/lpc/old/olpc.h:806-815 | A first element before a tail of `lo` to `hi` elements gives `lo + 1` to `hi + 1` |
| Olpc.OptionalListCount | c++/lpc/old/olpc.h:817-818 | An optional list of at most `hi` elements still has at most `hi` |
| Olpc.SeparatedAsWrittenAcceptsNone | c++/lpc/old/olpc.h:802-803 | As written, `max` of 1 ignores `min`, so a list that must hold one element is accepted empty |
| Olpc.NotAsWrittenRun | c++/lpc/old/olpc.h:823-834 | As written, `Not` never fails: when the parser succeeds it returns its own "Expected ... to fail" error as a value |
| Olpc.NotRun | c++/lpc/old/olpc.h:823-834 | As corrected, `Not` fails exactly when the parser succeeds, and otherwise returns the parser's error without reading |
| Olpc.NotAsWrittenAccepts | c++/lpc/old/olpc.h:827-832 | On an always-succeeding parser, `Not` as written succeeds and the corrected one fails |
| Olpc.LookAheadRun | c++/lpc/old/olpc.h:837-846 | `LookAhead` gives the parser's result or failure, moving the stream back to the start |
| Olpc.LookAheadRestores | c++/lpc/old/olpc.h:837-846 | Run through `Parse`, `LookAhead` gives the parser's result and leaves the offset where it was |
| Olpc.TerminalRun | c++/lpc/old/olpc.cpp:241-258 | Reads the next token that is not ignored, and succeeds exactly when it has the pattern and value asked for; a mismatch is reported at the token's position |
| Olpc.TerminalReads | c++/lpc/old/olpc.cpp:241-258 | A token terminal reads what the lexer reads afresh from the offset, whatever the cache holds |
| Olpc.TerminalRegexRun | c++/lpc/old/olpc.cpp:260-280 | A regex terminal fails at the start, stream unchanged, exactly when there is no match or the match is not the value asked for |
| Olpc.EOSRun | c++/lpc/old/olpc.cpp:294-304 | `EOS` succeeds, reading nothing, exactly at the end; elsewhere it expects "<EOS>" and reports the next character |
| Olpc.ErrorRun | c++/lpc/old/olpc.cpp:306-312 | `Error` always throws its message at the current position and never moves the stream |
| OlpcChoice.DecideTotal | c++/lpc/old/olpc.h:511-520 | Bookkeeping the failures never fails when every failure's position names an offset of the text |
| OlpcChoice.DecideKeepsLocated | c++/lpc/old/olpc.h:511-520 | Every error kept has a position that names an offset |
| OlpcChoice.Best | c++/lpc/old/olpc.h:500-508 | The winner chosen the way the loop chooses is a success, or none |
| OlpcChoice.BestIsLongest | c++/lpc/old/olpc.h:500-508 | The loop's winner is the first of the longest successes, and there is none exactly when every option failed |
| OlpcChoice.StepBest | c++/lpc/old/olpc.h:503-508 | A success replaces the kept result only when there is none yet or it is strictly longer; a failure never does |
| OlpcChoice.DecideBest | c++/lpc/old/olpc.h:496-522 | The loop keeps the result and length of the first of the longest successes |
| OlpcChoice.DecideNone | c++/lpc/old/olpc.h:496-522 | The loop keeps no result exactly when every option failed |
| OlpcChoice.DecideWinner | c++/lpc/old/olpc.h:496-522 | The kept result is the first of the longest successes, and there is none exactly when every option failed |
| OlpcChoice.StepLost | c++/lpc/old/olpc.h:511-520 | A failure while nothing has succeeded joins the kept errors when it got as far, replaces them when it got further, and is dropped otherwise |
| OlpcChoice.DecideErrors | c++/lpc/old/olpc.h:496-522 | When every option failed, the kept errors are exactly those that got furthest, in order |
| OlpcChoice.ErrorsStep | c++/lpc/old/olpc.h:511-520 | One more failure keeps the kept errors equal to those that got furthest |
| OlpcChoice.WinnerEnds | c++/lpc/old/olpc.h:541 | The winner's end, start plus its length as a `size_t`, lies within the text |
| OlpcChoice.AttemptOf | c++/lpc/old/olpc.h:500-501 | An option's attempt records its result and the `size_t` distance it moved, or its error |
| OlpcChoice.TryOptions | c++/lpc/old/olpc.h:496-523 | Each option runs from the start and the stream goes back there after each; the attempts made are those of the options in order |
| OlpcChoice.TryAll | c++/lpc/old/olpc.h:496-523 | Trying every option leaves the stream at the start with one attempt per option |
| OlpcChoice.Chosen | c++/lpc/old/olpc.h:525-542 | The choice succeeds exactly when some option did; on failure the stream is at the start |
| OlpcChoice.SomeWon | c++/lpc/old/olpc.h:541-542 | With a winner, the result is the winner's and the stream is at the start plus the winner's length |
| OlpcChoice.AllFailed | c++/lpc/old/olpc.h:525-538 | With every option failed, the sole furthest error is thrown as it is; otherwise "Expected one of the following: " and the options' names, at the start |
| OlpcChoice.ChoiceRun | c++/lpc/old/olpc.h:487-543 | A choice of at least two options stops exactly when an option stops, and otherwise is what the chosen attempts give |
| OlpcBinop.NextLevel | c++/lpc/old/olpc.h:740 | The right-hand side is parsed at the operator's own precedence when it is right associative, and one level tighter otherwise |
| OlpcBinop.ChainFunc | c++/lpc/old/olpc.h:721-751 | A chain needs an operand first and fails with the operand's error when the operand fails |
| OlpcBinop.ChainLoop | c++/lpc/old/olpc.h:725-748 | An operator parse that fails ends the chain with the chain built so far |
| OlpcBinop.FuncFuel | c++/lpc/old/olpc.h:721-751 | The step budget only bounds the recursion: any larger budget gives the same outcome |
| OlpcBinop.FuncUnfolds | c++/lpc/old/olpc.h:724-726 | After an operand, the chain is the loop from the operand's end |
| OlpcBinop.LoopFuel | c++/lpc/old/olpc.h:726-748 | A finished loop gives the same outcome with any larger budget |
| OlpcBinop.LoopUnfolds | c++/lpc/old/olpc.h:733-746 | One round: an operator at least as tight as the level, then the right-hand side, combined into the chain |
| OlpcBinop.FuncStops | c++/lpc/old/olpc.h:721-751 | A returned chain ended where the operator parse failed or read an operator binding looser than the level and was put back |
| OlpcBinop.LooseOperatorEndsChain | c++/lpc/old/olpc.h:736-740 | An operand followed by a looser operator is the whole chain, with the operator put back |
| OlpcBinop.RightHandSideStops | c++/lpc/old/olpc.h:740 | A left-associative right-hand side stops before an operator of its own precedence, so `a - b - c` is `(a - b) - c`; a right-associative one runs on through them |
| Lpc.Combine | c++/lpc/lpc.h:129-134 | A combined error keeps the first error's position, message and text, and its trace is the first's trace with the second error added at the end |
| Lpc.CombineMessage | c++/lpc/lpc.h:145-153 | The report of a combined error is the first's report followed by the second's, each of its lines indented |
| Lpc.Pass | c++/lpc/lpc.h:195-205 | A failure or a runtime stop is passed on unchanged under any result type |
| Lpc.Parse | c++/lpc/lpc.h:195-205 | `Parse` succeeds or stops exactly as the function does; on a parse error it rewinds the stream to its start and throws the same error on |
| Lpc.MappedRun | c++/lpc/lpc.h:238-245 | A mapped parser succeeds exactly when the parser does, at its position and stream, with the mapped value |
| Lpc.SuccessRun | c++/lpc/lpc.h:272-279 | `Success` never throws: the parser's outcome, or the default at the start with the stream unmoved |
| Lpc.OptionalRun | c++/lpc/lpc.h:359-373 | `Optional` never throws: `Some` of the parser's result, or `None` at the start with the stream unmoved |
| Lpc.NamedRun | c++/lpc/lpc.h:376-384 | `Named` fails exactly when the parser fails, with "Unable to parse <name>" at the start and the parser's error in its trace |
| Lpc.PrefixedRun | c++/lpc/lpc.h:386-394 | After a prefix that succeeds, the outcome is the parser's from where the prefix stopped |
| Lpc.SuffixedRun | c++/lpc/lpc.h:396-405 | Succeeds exactly when the parser and then the suffix succeed, with the parser's result |
| Lpc.ValueNeutral | c++/lpc/lpc.h:513-514 | `Value` returns its value at the start and reads nothing, so putting it before a parser changes nothing, and putting it after one keeps that parser's outcome, result and stream |
| Lpc.PairRun | c++/lpc/lpc.h:413-423 | `a + b` succeeds exactly when both sides succeed in turn, with the two results in order at the first's position |
| Lpc.AppendRun | c++/lpc/lpc.h:425-435 | A list plus a parser succeeds exactly when both do, with the parser's result after the list's |
| Lpc.PrependRun | c++/lpc/lpc.h:437-450 | A parser plus a list succeeds exactly when both do, with the parser's result before the list's, at the parser's position |
| Lpc.ConcatRun | c++/lpc/lpc.h:452-462 | A list plus a list succeeds exactly when both do, with both lists' elements in order |
| Lpc.OrRun | c++/lpc/lpc.h:465-511 | Both options run from the same start; a stop in either is passed on, and otherwise the outcome is `OrJoin`'s |
| Lpc.OrJoin | c++/lpc/lpc.h:489-510 | Throws exactly when both options failed, with "No option parsed!" at the start and both errors in the trace; otherwise the option that succeeded, the first on a tie, with the stream at its end |
| Lpc.FirstAtLeast | c++/lpc/lpc.h:502 | For parses that read forwards, comparing the `size_t` lengths is comparing the end offsets |
| Lpc.QuantLoop | c++/lpc/lpc.h:316-330 | The loop only appends, returns at least `min` results, and fails only with fewer than `min` read |
| Lpc.QuantifiedAsWrittenRun | c++/lpc/lpc.h:306-334 | As written, the loop may return one result more than `max` |
| Lpc.QuantifiedRun | c++/lpc/lpc.h:306-334 | As corrected, between `min` and `max` results at the list's position; `max` of 0 parses nothing |
| Lpc.QuantifiedAsWrittenOverruns | c++/lpc/lpc.h:316-318 | An always-succeeding parser under `Exactly(1)` gives two results as written and one as corrected |
| Lpc.OrEmpty | c++/lpc/lpc.h:532-535 | An absent list counts as the empty list |
| Lpc.SeparatedCount | c++/lpc/lpc.h:516-539 | `Separated` returns between `min` and `max` elements |
| Lpc.PrependCount | c++/lpc/lpc.h:538 | A first element before a list of `lo` to `hi` elements gives `lo + 1` to `hi + 1` |
| Lpc.OptionalCount | c++/lpc/lpc.h:529-535 | An optional list of at most `hi` elements still has at most `hi` |
| Lpc.LookAheadRun | c++/lpc/lpc.h:541-551 | `LookAhead` gives the parser's result or failure, moving the stream back to the start |
| Lpc.LookAheadRestores | c++/lpc/lpc.h:541-551 | Run through `Parse`, `LookAhead` gives the parser's result and leaves the offset where it was |
| TableStream.NewStream | c++/lpc/parser.h:43-46 | A stream exists exactly for non-empty data, and starts at offset 0 |
| TableStream.Ignore | c++/lpc/parser.h:50-61 | Ignoring `amt` elements moves the offset by exactly `amt`, even past the end |
| TableStream.Peek | c++/lpc/parser.h:48 | Always an element of the data: the one at the offset before the end, the last one at or past it |
| TableStream.Get | c++/lpc/parser.h:56-61 | Returns what `Peek` sees and moves the offset on by one over the same data, even past the end |
| TableStream.PeekPastEnd | c++/lpc/parser.h:48-61 | Past the end, `Peek` and `Get` keep answering the last element however far the stream is moved |
| TableStream.Starts | c++/lpc/parser.h:79-89 | The constructor's line-start table is well formed for the text |
| TableStream.DataAsStringAsWritten | c++/lpc/parser.h:93-100 | As written, a slice is given exactly when it ends before the last character |
| TableStream.DataAsString | c++/lpc/parser.h:93-100 | As corrected, a slice is given exactly when it lies within the data, and it holds the data's characters |
| TableStream.DataAsStringAsWrittenRefusesTail | c++/lpc/parser.h:95 | As written, the rest of the data from any offset is refused; as corrected, it is returned |
| TableStream.GetPositionAt | c++/lpc/parser.h:102-118 | Fails exactly past the end; otherwise the 1-based line and column of the offset in the line-start table |
| TableStream.GetPosition | c++/lpc/parser.h:120 | The stream's own position is found exactly when its offset is within the text |
| TableStream.SetPosition | c++/lpc/parser.h:122-133 | Refuses line 0, a line past the table, column 0 and a column more than one past its line's end, with "Invaild position: ..."; otherwise moves to the line start plus the column less one |
| TableStream.SetPositionOfGetPosition | c++/lpc/parser.h:102-133 | Setting the position of any offset within the text moves to that offset |
| TableStream.AddPattern | c++/lpc/parser.h:179-183 | Appends one pattern with the given template and action and returns its ID |
| TableStream.AddPatternNumbered | c++/lpc/parser.h:179-183 | IDs stay sequential from 2, so a new ID is neither EOS (0), UNKNOWN (1) nor an earlier pattern's |
| TableStream.LexGetMatch | c++/lpc/parser.h:185-238 | Lexing keeps the data and leaves the offset within the text |
| TableStream.LexGetMatchReads | c++/lpc/parser.h:185-238 | EOS at the end; otherwise the first strictly longest pattern with the stream moved past its match, or UNKNOWN over one character; each match is placed at its start |
| TableStream.Finish | c++/lpc/parser.h:227-235 | The token has the chosen pattern's ID and match, and the stream is where matching left it |
| TableStream.NewTokenStream | c++/lpc/parser.h:284 | A new token stream holds exactly one lexed token, at offset 0 |
| TableStream.Fill | c++/lpc/parser.h:290-291 | Filling only appends, stops once the cache covers the offset or ends at EOS, adds no EOS before its last token, and does nothing when there is nothing to do |
| TableStream.PeekToken | c++/lpc/parser.h:286-294 | `Peek` answers the cached token at the offset once the cache is filled |
| TableStream.GetToken | c++/lpc/parser.h:286-294 | `Get` answers what `Peek` answers and moves the offset on by one |
| TableStream.IgnoreTokens | c++/lpc/parser.h:50-54 | Ignoring `amt` tokens moves the offset by exactly `amt` |
| TableStream.PeekIsCached | c++/lpc/parser.h:286-294 | On a filled cache, `Peek` answers the token at the offset, or EOS past the end, never a stale token |
| TableParser.AppendRule | c++/lpc/parser.h:525 | Adding a rule to a non-terminal appends it under the next ID, marks the table unvalidated and changes no other symbol |
| TableParser.AddSymbol | c++/lpc/parser.h:428-440 | Refuses exactly an empty or taken ID, with "Symbol id must be non-empty!" or "Symbol ID '...' is already in use.", and leaves the table unchanged |
| TableParser.AddSymbolRegisters | c++/lpc/parser.h:428-440 | A registered symbol is added, with a `<SYMBOL>` rule, and a `<TERMINAL>` rule when it is a terminal; nothing else changes |
| TableParser.AddSymbolKeepsWf | c++/lpc/parser.h:428-440 | Registering keeps the table's invariant |
| TableParser.AddSymbolNamesTerminals | c++/lpc/parser.h:433-435 | A terminal's pattern ID is given its name unless it already has one |
| TableParser.AddSymbolNumbers | c++/lpc/parser.h:436-439 | Registering keeps every non-terminal's rule IDs sequential |
| TableParser.NewTable | c++/lpc/parser.h:420-426 | A new table holds `<TERMINAL>`, `<SYMBOL>` and `<INVALID>` for the UNKNOWN pattern ID, and keeps the invariant |
| TableParser.AddTerminal | c++/lpc/parser.h:512 | A terminal registered under a pattern ID is in the table, its ID named |
| TableParser.AddTerminalPattern | c++/lpc/parser.h:513 | The lexer keeps the new pattern even when the name is refused; the terminal is registered under the pattern's new ID |
| TableParser.AddRule | c++/lpc/parser.h:515-524 | Refuses exactly an empty name or a terminal's; otherwise creates the non-terminal if missing and appends the rule, marking the table unvalidated |
| TableParser.AppendKeepsWf | c++/lpc/parser.h:515-524 | Appending a rule keeps the table's invariant |
| TableParser.MissingIn | c++/lpc/parser.h:535-538 | Finds a component naming an unknown symbol exactly when there is one |
| TableParser.MissingInRules | c++/lpc/parser.h:533-540 | Finds an unknown symbol the rules name exactly when there is one |
| TableParser.ScanSymbols | c++/lpc/parser.h:528-542 | Finds a dangling reference exactly when some non-terminal has one |
| TableParser.Validate | c++/lpc/parser.h:526-545 | Succeeds exactly when every rule names known symbols, marking the table validated; otherwise throws "Nonterminal '...' references a symbol that does not exist: '...'" for a dangling reference |
| TableParser.ValidateKeepsWf | c++/lpc/parser.h:526-545 | Validating keeps the table's invariant |
| TableParser.MatchPosition | c++/lpc/parser.h:386-407 | As corrected, a match is placed at its first component, or where the stream stood when it has none |
| TableParser.MatchPositionAsWritten | c++/lpc/parser.h:396-399 | As written, a match is placed at its last component |
| TableParser.PairPlacedAtLastComponent | c++/lpc/parser.h:398 | For `pair := a b` over "a b", the pair is placed at column 3 as written and at column 1 as corrected |
| TableParser.ParseTerminal | c++/lpc/parser.h:442-468 | Reads on past tokens that are not terminals; succeeds with the first terminal when it is the one asked for; otherwise puts the offset back |
| TableParser.TerminalLoop | c++/lpc/parser.h:447-467 | The loop only extends the cache, and a failure puts the offset back to where the parse started |
| TableParser.ParseSymbol | c++/lpc/parser.h:484-509 | An unknown name throws "Symbol with id '...' does not exist!"; a success is a result for that symbol |
| TableParser.Unwrap | c++/lpc/parser.h:494-506 | A catch-all's match yields its one argument exactly when that is of the kind asked for |
| TableParser.ParseNonTerminal | c++/lpc/parser.h:470-482 | As corrected, a success is built from one of the non-terminal's rules, placed at its first component |
| TableParser.ParseNonTerminalChooses | c++/lpc/parser.h:470-482 | A non-terminal that parses had a token to read, and its match and end offset are those of the first strictly longest of all its rules' attempts from that offset |
| TableParser.NTGetMatch | c++/lpc/parser.h:185-238 | A rule match is built from one of the rules, and the stream never moves back |
| TableParser.NTGetMatchChooses | c++/lpc/parser.h:185-238 | Past the cached tokens the result is EOS with the stream unmoved; otherwise every rule is tried from the read offset and the result is UNKNOWN over one token when none matched, else the first strictly longest match with its rule's ID, the stream moved past its tokens |
| TableParser.RulesLoop | c++/lpc/parser.h:200-218 | Every rule is tried from the same offset; the kept match is built from its rule and reaches at least as far as the best so far |
| TableParser.RulesLoopChooses | c++/lpc/parser.h:200-218 | Given the attempts so far and the first strictly longest among them, a loop that returns has tried every rule and picked the first strictly longest attempt of all |
| TableParser.RuleMatch | c++/lpc/parser.h:386-407 | A rule matches with one argument per component, the match placed at its first |
| TableParser.ComponentsLoop | c++/lpc/parser.h:390-404 | A runtime error in a component means no match rather than an error |
| TableParser.Parse | c++/lpc/parser.h:546-563 | Validates first when needed, and fails with the table unchanged when a reference dangles; a failure puts the text stream back |
| FirstMatch.NewlinesFrom | parser/parser.h:38-43 | The indices of the newlines from an offset, in increasing order |
| FirstMatch.NewLines | parser/parser.h:37-44 | The constructor's index: 0, then the index of every '\n' |
| FirstMatch.LineStarts | parser/parser.h:37-44 | The first offset of every line: 0, then one past every '\n' |
| FirstMatch.PlaceIn | parser/parser.h:56-69 | The line is the last index whose start is at or before the offset, and the column is the distance from that start |
| FirstMatch.GetPositionAsWritten | parser/parser.h:56-69 | As written, over the index of 0 and of every newline: the line's entry is at or before the offset and the next entry, if any, after it, and the column is the distance from that entry |
| FirstMatch.GetPosition | parser/parser.h:56-69 | As corrected, the same choice over the line starts, 0 and one past every newline: the line starts at or before the offset and the next line, if any, after it, and the column is the distance from its start |
| FirstMatch.GetPositionCountsLines | parser/parser.h:56-69 | As corrected, the 0-based column counts back to the start of the text or to just after a '\n', with no '\n' in between |
| FirstMatch.NewlinesAroundLine | parser/parser.h:56-69 | No newline lies between the chosen line's start and the offset |
| FirstMatch.NewlineStartsNextLineAsWritten | parser/parser.h:37-44 | As written, in "a\nb" the '\n' is at (1, 0) and "b" at (1, 1) |
| FirstMatch.Peek | parser/parser.h:47 | The character at the offset, or EOF at the end |
| FirstMatch.Get | parser/parser.h:48 | Answers what `Peek` answers, moving on by one only before the end |
| FirstMatch.Ignore | parser/parser.h:49 | Moves the offset on as a `size_t`, with no check against the end |
| FirstMatch.IgnorePastEnd | parser/parser.h:47-49 | Past the end, the stream reads only EOF |
| FirstMatch.NewLexer | parser/parser.h:105-114 | A lexer exists exactly for non-empty, distinct EOF and invalid IDs |
| FirstMatch.AddUnnamed | parser/parser.h:116-117 | An unnamed pattern is appended and names nothing |
| FirstMatch.AddNamedAsWritten | parser/parser.h:119-130 | As written, refuses an empty ID, a named one, or the EOF ID, but accepts the invalid ID |
| FirstMatch.AddNamed | parser/parser.h:119-130 | As corrected, refuses both sentinel IDs as well |
| FirstMatch.Conclude | parser/parser.h:177-181 | A token is made exactly when the chosen pattern has a tokenizer, and carries the chosen pattern's ID |
| FirstMatch.Lex | parser/parser.h:132-182 | At EOF the EOF pattern decides: a token exactly when it has a tokenizer, under its ID. With no patterns only the invalid ID can come out. Every token carries the EOF ID, the invalid ID or the ID of a registered named pattern, and lexing never changes the text |
| FirstMatch.Scan | parser/parser.h:138-175 | Every token the scan makes carries a sentinel ID or a registered named pattern's ID, and skipping over unnamed patterns never changes the text |
| FirstMatch.Attempt | parser/parser.h:143-147 | A pattern's match at the offset ends within the text |
| FirstMatch.LexTakesFirstNamed | parser/parser.h:138-175 | When the first pattern to match is named, its token is made from its match: registration order decides, not length |
| FirstMatch.ScanTakesNamed | parser/parser.h:167-168 | A named pattern that matches ends the scan |
| FirstMatch.LexInvalidWhenNoneMatch | parser/parser.h:138-181 | When no pattern matches, `Lex` gives the invalid token over one character |
| FirstMatch.ScanSkipsFailures | parser/parser.h:147-151 | The scan passes over patterns that do not match |
| FirstMatch.NamedTokenKeepsItsText | parser/parser.h:177-181 | With the corrected IDs, a named token is made from its own text |
| FirstMatch.InvalidIdAcceptedAsWritten | parser/parser.h:124-129 | As written, a pattern under the invalid ID has its text replaced by the next character, which is consumed too |
| PyTokens.New | parser/parser.py:139-146 | Refuses exactly an ignore list holding EOS, with "<EOS> cannot be ignored!"; otherwise it keeps the given lexer and ignore list, with an empty cache and the cursor at 0 over a fresh character stream |
| PyTokens.LexRun | parser/parser.py:150-151 | Lexing `n` times gives `n` tokens and keeps the text |
| PyTokens.Fill | parser/parser.py:150-151 | Filling leaves the cursor inside the cache, only appends, and adds at most one token |
| PyTokens.FillKeepsValid | parser/parser.py:150-151 | Filling keeps the cache equal to the first tokens the lexer produces from the text |
| PyTokens.LexOneMore | parser/parser.py:151 | Appending the next token lexed keeps the cache a prefix of the whole run |
| PyTokens.Advance | parser/parser.py:154 | As corrected, the cursor moves one further but never past a cached EOS |
| PyTokens.Step | parser/parser.py:150-154 | One pass reads the token under the cursor from the filled cache and moves the cursor one on, or leaves it on the cached EOS it read |
| PyTokens.StepKeepsValid | parser/parser.py:150-154 | A pass keeps the cache equal to the lexer's run |
| PyTokens.StepProgress | parser/parser.py:149-157 | A pass that reads an ignored token makes progress unless the state is stuck |
| PyTokens.Get | parser/parser.py:148-159 | `Get` returns a token not ignored, at or after the cursor, leaves the cursor just after it (or on it when it is the cached EOS), and only grows the cache; a stuck state loops |
| PyTokens.GetFirstNotIgnored | parser/parser.py:148-159 | The token returned is the first not ignored at or after the cursor |
| PyTokens.GetKeepsValid | parser/parser.py:148-159 | `Get` keeps the cache equal to the lexer's run |
| PyTokens.LexNeverBacksUp | parser/parser.py:105-136 | Lexing never moves the character stream backwards |
| PyTokens.Peek | parser/parser.py:161-165 | `Peek` returns what `Get` returns, from the same slot, and leaves the cursor where it was |
| PyTokens.SetOffset | parser/parser.py:170-171 | Moves the cursor to the offset clamped into the cache, 0 when the cache is empty; nothing else changes |
| PyTokens.GetPosition | parser/parser.py:176-177 | The position of the token `Peek` returns, present exactly when `Peek` returns |
| PyTokens.StuckForever | parser/parser.py:149-157 | Once stuck on a zero-width ignored token, a pass reads it again and stays stuck |
| PyTokens.StuckLoops | parser/parser.py:149-157 | From a stuck state `Get` never returns |
| PyTokens.GetCacheIndependent | parser/parser.py:148-159 | The cache is transparent: two streams over the same text at the same cursor return the same token from the same slot, however much each has lexed |
| PyTokens.StepCacheIndependent | parser/parser.py:150-154 | One pass on two such streams reads the same token and leaves the same cursor |
| PyTokens.PeekThenGet | parser/parser.py:161-165 | Peeking first changes nothing about the following `Get` |
| PyTokens.Run | parser/parser.py:150-151 | A run of `n` steps yields `n` items |
| PyTokens.RunPrefix | parser/parser.py:150-151 | A run is never revised: a longer run agrees with a shorter one on its slots |
| PyTokens.LexRunIsRun | parser/parser.py:150-151 | Lexing repeatedly is a run of the lexer's step |
| PyTokens.LexRunPrefix | parser/parser.py:150-151 | Lexing more tokens keeps every token already cached |
| PyTokens.StepAsWritten | parser/parser.py:150-154 | As written, a pass reads the token under the cursor and never moves the cursor back |
| PyTokens.StepAsWrittenCursor | parser/parser.py:154 | As written, once EOS is cached the cursor goes to the last slot whatever slot was read |
| PyTokens.StepFills | parser/parser.py:150-153 | A pass reads from the filled cache |
| PyTokens.GetAsWritten | parser/parser.py:148-159 | As written, `Get` still returns a token not ignored at or after the cursor |
| PyTokens.AbLexAt | parser/parser.py:105-136 | Over "ab", lexing gives `a` at 0, `b` at 1 and EOS at 2 |
| PyTokens.AbRawValid | parser/parser.py:148-171 | The backtracked state over "ab" is one the stream reaches |
| PyTokens.AbBacktracked | parser/parser.py:170-171 | A valid stream over "ab" with every token cached and the cursor set back to 0 |
| PyTokens.AbRun | parser/parser.py:150-151 | Lexing "ab" three times gives `a`, `b`, EOS |
| PyTokens.RunThree | parser/parser.py:150-151 | Three steps of a run with known states |
| PyTokens.GetAsWrittenSkipsAfterEOS | parser/parser.py:154 | After backtracking over "ab", as written `Get` returns `a` then EOS, skipping `b`; as corrected it returns `a` then `b` |
| PyTokens.AbAsWritten | parser/parser.py:154 | As written, after `a` the cursor lands on the cached EOS |
| PyTokens.AbCorrected | parser/parser.py:154 | As corrected, after `a` comes `b` |
| PyParser.Combine | parser/parser.py:218-219 | A combined error keeps the first's position, and shows as the first error with the whole second error on the next line |
| PyParser.Expectation | parser/parser.py:215-222 | Shows as "Error @ (l, c): Expected X, but found Y" |
| PyParser.AtLeast1Reads | parser/parser.py:297-298 | `AtLeast1` yields a list of at least one result when it parses |
| PyParser.AtLeast1Shortfall | parser/parser.py:297-298 | When `AtLeast1` fails, the failure is the shortfall of zero results against its minimum of one |
| PyParser.AtMost1Reads | parser/parser.py:300-301 | `AtMost1` never fails, and yields a list of at most one result |
| PyParser.AtLeast0Reads | parser/parser.py:303-304 | `AtLeast0` never fails, and yields a list of results |
| PyParser.SeparatedInner | parser/parser.py:307-312 | The parser `Separated` builds is bounded in size by its parts |
| PyParser.TerminalExpected | parser/parser.py:234 | As corrected, the expected text names the pattern, followed by the literal when there is one |
| PyParser.TerminalExpectedAsWritten | parser/parser.py:234 | As written, the conditional binds loosest: without a literal the expected text is empty |
| PyParser.TerminalExpectedLosesPattern | parser/parser.py:234 | For a pattern `integer` with no literal, the text is empty as written and names the pattern as corrected |
| PyParser.Found | parser/parser.py:235 | The found text starts with the pattern ID and adds the value exactly when it is not empty |
| PyParser.Pack | parser/parser.py:253 | A list result holds the results, placed at the first, or at the start when empty |
| PyParser.Skip | parser/parser.py:202-203 | Skipping ignored tokens only moves the cursor forward over an extended cache |
| PyParser.Parse | parser/parser.py:198-209 | `parse` only extends the cache, and a failure puts the cursor back where it was |
| PyParser.Prepare | parser/parser.py:202-205 | After skipping, the next token is cached |
| PyParser.Finish | parser/parser.py:205-209 | A success is the transformed result, in place; a failure puts the cursor back and combines "Unable to parse <name>" with the inner error |
| PyParser.Body | parser/parser.py:230-318 | Every kind of parser only extends the cache |
| PyParser.TerminalBody | parser/parser.py:230-240 | Succeeds exactly when the token read has the pattern and, when required, the literal; a mismatch is an expectation error at the token's position |
| PyParser.SequenceLoop | parser/parser.py:250-251 | The sequence loop only extends the cache |
| PyParser.ChoiceLoop | parser/parser.py:262-269 | The choice loop only extends the cache |
| PyParser.Shortfall | parser/parser.py:289-291 | The shortfall error says "Expected at least N 'p', but found only k" at the position, above the error of the attempt that stopped it |
| PyParser.QuantLoop | parser/parser.py:285-293 | The repetition loop only extends the cache |
| PyParser.QuantAfter | parser/parser.py:286-293 | The rest of the loop once an attempt is known only extends the cache |
| PyParser.SequenceResults | parser/parser.py:247-253 | A sequence that succeeds holds one result per parser, in order, placed at the first or at the start |
| PyParser.ChoiceStep | parser/parser.py:262-267 | An alternative that succeeds is the choice's result, tagged when asked; one that fails passes on to the next |
| PyParser.ChoiceFirstSuccess | parser/parser.py:261-269 | A choice that succeeds took the first alternative that succeeds |
| PyParser.ChoiceAllFail | parser/parser.py:261-269 | A choice that fails tried every alternative at the same cursor and reports "Expected one of [...]" with all their names at the start |
| PyParser.QuantifiedCount | parser/parser.py:282-295 | A repetition that succeeds read between the minimum and the maximum results, placed at the first or at the start |
| PyParser.QuantAfterCount | parser/parser.py:286-295 | The count bounds hold once the attempt is known |
| PyParser.QuantifiedShortfall | parser/parser.py:288-291 | A repetition that fails read fewer than the minimum, and its error says so above the error that stopped it |
| PyParser.QuantAfterShortfall | parser/parser.py:288-291 | The shortfall holds once the attempt is known |
| PyParser.RepetitionIsList | parser/parser.py:311 | The tail repetition inside `Separated` always yields a list |
| PyParser.SeparatedNeverFails | parser/parser.py:314-318 | `Separated` never fails, and whatever it yields is a list of results |
| PyParser.SeparatedParseNeverFails | parser/parser.py:314-318 | A `Separated` parser never fails as a whole |
| PyParser.ParseFailure | parser/parser.py:207-209 | A failed parse puts the cursor back where it was, and its error is "Unable to parse <name>" at the restored position, followed by the error of its rule |
| PyParser.LazyDelegates | parser/parser.py:328-329 | `Lazy` hands the stream to its rule untouched |
| PyParser.FinishError | parser/parser.py:207-209 | A failed parse reports "Unable to parse <name>" at the position of the restored cursor, followed by the inner error |
| PyParser.ParsedBody | parser/parser.py:198-206 | A successful parse is its rule's success after the ignored tokens, transformed, at the rule's position |
| PyParser.SequenceYields | parser/parser.py:247-253 | What a `Sequence` yields is one result per member parser, in order, each one that parser yields, placed at the first |
| PyParser.QuantifiedYieldsAll | parser/parser.py:282-295 | Every result collected by `Quantified` is one its parser yields |
| PyParser.StepValue | parser/parser.py:310 | A separator-then-value step of `Separated` keeps only the value, which the value parser yields after the separator parser yielded something |
| PyParser.TailValues | parser/parser.py:311 | The tail of `Separated` is a list of values each preceded by a separator |
| PyParser.SeparatedValues | parser/parser.py:307-318 | A `Separated` result is a list: empty at the start, or placed at a first value followed only by values that came after a separator |
| PyParser.SeparatedYields | parser/parser.py:307-318 | Every value `Separated` yields is one its value parser yields, separators dropped |
| PyParser.TaggedYields | parser/parser.py:261-265 | A tagged `Choice` yields the name of one of its alternatives paired with what that alternative yields |
| PyParser.UntaggedYields | parser/parser.py:261-265 | An untagged `Choice` yields exactly what one of its alternatives yields |
| PyParserCache.AlikeGet | parser/parser.py:148-159 | Two streams over the same text and lexer, with the same ignores and cursor, get the same token and the same new cursor whatever they have cached |
| PyParserCache.SkipValid | parser/parser.py:202-203 | Skipping ignored tokens keeps the cache the exact prefix of the lexed tokens |
| PyParserCache.ParseValid | parser/parser.py:198-209 | Any parse, successful or failed, keeps the cache the exact prefix of the lexed tokens |
| PyParserCache.FailedAlike | parser/parser.py:207-209 | A failed parse leaves a stream from which every later `Get` reads what it would have read from the stream the parse started on |
| PyParserCache.FinishFailed | parser/parser.py:207-209 | Putting the cursor back after a failed rule leaves a stream alike to the one the parse started on |
| PyParserCache.PrepareNothing | parser/parser.py:202-205 | A parser that ignores nothing starts its rule on the stream it was given, at the position of its next token |
| PyParserCache.PeekAlike | parser/parser.py:161-165 | `Peek` leaves a stream from which every later read gives what the stream before it gives |
| PyParserCache.SetOffsetValid | parser/parser.py:170-171 | Moving the cursor keeps the cache the exact prefix of the lexed tokens |
| PyParserRuns.TerminalOn | parser/parser.py:230-240 | A terminal parses exactly when it accepts the next token, yielding that token's value transformed at its position and moving past it; otherwise it fails with the stream put back |
| PyParserRuns.TerminalFailsOn | parser/parser.py:233-238 | A terminal fails on every stream whose next token it does not accept |
| PyParserRuns.LazyFailsOn | parser/parser.py:328-329 | A `Lazy` parser fails on a token exactly where the parser it stands for does |
| PyParserRuns.SequenceFailsOn | parser/parser.py:250-251 | A `Sequence` fails on a token its first member fails on |
| PyParserRuns.ChoiceFailsOn | parser/parser.py:261-269 | A `Choice` fails on a token every alternative fails on |
| PyParserRuns.SeparatedEmptyOn | parser/parser.py:314-318 | `Separated` yields the empty list at the next token's position, with the stream reading as before, when its value parser fails on that token |
| PyParserRuns.SequenceOn | parser/parser.py:247-253 | A `Sequence` that ignores nothing runs its members in order from the next token's position, on a stream that reads as the one given, then finishes as every parser does |
| PyParserRuns.ChoiceOn | parser/parser.py:261-269 | A `Choice` that ignores nothing tries its alternatives in order from the first, at the next token's position, on a stream that reads as the one given |
| PyParserRuns.SequenceOfThree | parser/parser.py:250-253 | Three members that parse one after the other make the sequence's results, the second parsed where the first stopped |
| PyParserRuns.EmptyBetweenOn | parser/parser.py:242-253 | An open terminal, a `Separated` whose value fails on the close, and the close: the sequence parses with an empty list in the middle |
| PyParserRuns.SequenceFailsAt | parser/parser.py:250-251 | A `Sequence` whose first member fails on the next token fails, with the stream reading as before |
| PyParserRuns.ChoiceFailsAt | parser/parser.py:261-269 | A `Choice` all of whose alternatives fail on the next token fails |
| PyJsonLex.DigitsEnd | python/lpc/examples/json_parser.py:21-22 | The end of the run of digits from an index: every character before it is a digit and the one at it is not |
| PyJsonLex.SpacesEnd | python/lpc/examples/json_parser.py:18 | The end of the run of whitespace from an index, likewise |
| PyJsonLex.WsMatch | python/lpc/examples/json_parser.py:18 | "WS" matches exactly when the text starts with whitespace, and takes at least one character |
| PyJsonLex.SymbolMatch | python/lpc/examples/json_parser.py:19 | "SYMBOL" matches exactly one of `{ } [ ] , :` at the start, one character long |
| PyJsonLex.KeywordLanguage | python/lpc/examples/json_parser.py:20 | "KEYWORD" matches a prefix of length `n` exactly when that prefix is `true`, `false` or `null` |
| PyJsonLex.IntegerLanguage | python/lpc/examples/json_parser.py:21-22 | "integer" matches an optional `-` and a run of digits with no leading zero, and it takes the longest such prefix: no integer prefix is longer than its match |
| PyJsonLex.DecimalMatch | python/lpc/examples/json_parser.py:21 | "decimal" matches only where "integer" does, followed by a '.' and at least one digit |
| PyJsonLex.StringBodyEnd | python/lpc/examples/json_parser.py:23 | The scan of a string body stops at a '"' |
| PyJsonLex.StringLanguage | python/lpc/examples/json_parser.py:23 | "string" matches a prefix of length `n` exactly when that prefix is a double-quoted literal whose body has no bare `"` or backslash and whose escapes are each a backslash and one character other than a newline |
| PyJsonLex.Inner | python/lpc/examples/json_parser.py:5 | The literal less its first and last characters, or nothing when it is shorter than two |
| PyJsonLex.Unescape | python/lpc/examples/json_parser.py:4-13 | The intended one-pass decoding never lengthens the text |
| PyJsonLex.EscapeChar | python/lpc/examples/json_parser.py:6-12 | A writer spells a character as itself, never a quote or a backslash, or as a backslash escape that decodes to it |
| PyJsonLex.UnescapeStep | python/lpc/examples/json_parser.py:6-12 | Decoding a written character, then more text, gives the character, then the decoded rest |
| PyJsonLex.UnescapeEscape | python/lpc/examples/json_parser.py:4-13 | The one-pass decoding reads back every written text |
| PyJsonLex.FormatRoundTrip | python/lpc/examples/json_parser.py:4-13 | As corrected, the action on a written literal gives back the text |
| PyJsonLex.FormatAsWrittenMisreadsBackslashN | python/lpc/examples/json_parser.py:6-12 | As written, the text backslash-n, written as `"\\n"`, comes back as a backslash and a line break; as corrected it comes back unchanged |
| PyJsonLex.ReplaceMiss2 | python/lpc/examples/json_parser.py:6-12 | A two-character text other than the pattern is left alone by a replacement |
| PyJsonLex.NoBackslashVerbatim | python/lpc/examples/json_parser.py:4-13 | Without a backslash, both decoders give exactly the text between the quotes |
| PyJsonLex.NoBackslashReplace | python/lpc/examples/json_parser.py:6-12 | A replacement of a backslash pattern leaves a text with no backslash alone |
| PyJsonLex.NoBackslashUnescape | python/lpc/examples/json_parser.py:4-13 | The one-pass decoding leaves a text with no backslash alone |
| PyJsonLex.StringMatchesLiteral | python/lpc/examples/json_parser.py:23 | The string pattern takes exactly one written literal, whatever follows it |
| PyJsonLex.BodyEndOfEscape | python/lpc/examples/json_parser.py:23 | Scanning a written text stops at the quote after it |
| PyJsonLex.JsonPatterns | python/lpc/examples/json_parser.py:18-23 | Six patterns, in the order they are added |
| PyJsonLex.JsonLexer | python/lpc/examples/json_parser.py:17-23 | The lexer holds the six patterns |
| PyJsonLex.NumberChoice | python/lpc/examples/json_parser.py:21-22 | When only the number patterns match, longest match picks "decimal" if it matched and "integer" otherwise |
| PyJsonLex.OnlyNumbersMatch | python/lpc/examples/json_parser.py:18-23 | A text starting with a digit or '-' matches no space, symbol, keyword or string |
| PyJsonTokens.NumberWinner | python/lpc/examples/json_parser.py:21-22 | On a number, "decimal" wins when it matches and "integer" otherwise |
| PyJsonTokens.JsonAttempt | python/lpc/examples/json_parser.py:18-23 | What each of the six patterns makes of the rest of the text |
| PyJsonTokens.DecimalWins | python/lpc/examples/json_parser.py:21 | "2.5" is one decimal token |
| PyJsonTokens.DecimalOf25 | python/lpc/examples/json_parser.py:21 | "decimal" takes all of "2.5" |
| PyJsonTokens.IntegerWins | python/lpc/examples/json_parser.py:22 | "25" is one integer token |
| PyJsonTokens.IntegerOf25 | python/lpc/examples/json_parser.py:21-22 | "integer" takes all of "25" and "decimal" does not match |
| PyJsonTokens.WsIgnorable | python/lpc/examples/json_parser.py:49 | A token stream ignoring "WS" can be made |
| PyJson.DictOf | python/lpc/examples/json_parser.py:42 | The dictionary's keys are exactly the pairs' keys |
| PyJson.LastKeyWins | python/lpc/examples/json_parser.py:42 | A repeated key keeps the value of its last pair |
| PyJson.ObjectOf | python/lpc/examples/json_parser.py:42 | The object transformer makes the dictionary of the pairs read between the braces |
| PyJson.ArrayOf | python/lpc/examples/json_parser.py:47 | The array transformer gives the untagged values in the order read |
| PyJson.ValueParser | python/lpc/examples/json_parser.py:27-36 | A tagged choice of eight alternatives: string, number, number, true, false, null, object, array |
| PyJson.Grammar | python/lpc/examples/json_parser.py:34-47 | Every rule the `Lazy` alternatives name exists |
| PyJson.ValueClosed | python/lpc/examples/json_parser.py:26-47 | The value, pair, object and array parsers name only existing rules |
| PyJson.JsonParser | python/lpc/examples/json_parser.py:49 | The top level names only existing rules |
| PyJsonProperties.ValueFailsOn | python/lpc/examples/json_parser.py:27-36 | A JSON value cannot start at a symbol other than '{' or '[' |
| PyJsonProperties.ScalarRefused | python/lpc/examples/json_parser.py:49 | The top-level parser refuses every token that is not the symbol '[' or '{', so a lone string, number or keyword is no document |
| PyJsonProperties.TopLevelStart | python/lpc/examples/json_parser.py:49 | A successful top-level parse started at the symbol '[' or '{' |
| PyJsonProperties.ParseJsonStart | python/lpc/examples/json_parser.py:49 | A text that parses has '[' or '{' as its first token once whitespace is ignored |
| PyJsonProperties.EmptyArrayOn | python/lpc/examples/json_parser.py:43-47 | The tokens '[' then ']' make the array parser yield the empty list |
| PyJsonProperties.JsonEmptyArrayOn | python/lpc/examples/json_parser.py:43-49 | The tokens '[' then ']' make the whole document the empty list |
| PyJsonProperties.ValueTagged | python/lpc/examples/json_parser.py:27-36 | Every JSON value is tagged with the name of its alternative |
| PyJsonProperties.ArrayItems | python/lpc/examples/json_parser.py:43-47 | An array yields a list of exactly the values it read, in order, each one with its tag removed |
| PyJsonProperties.ObjectIsDict | python/lpc/examples/json_parser.py:38-42 | An object always yields a dictionary |
| PyJsonProperties.TopLevelValue | python/lpc/examples/json_parser.py:49 | The top level yields a list or a dictionary, never a scalar |
| PyJsonProperties.ParseJsonValue | python/lpc/examples/json_parser.py:49 | A text that parses is a list or a dictionary |
| JsonReader.Get | c++/json/json.h:99-110 | The character handed out is the one `Peek` sees; the reader moves one place unless at the end, where only the column grows; a position that agrees with the text stays in agreement |
| JsonReader.LineColumnCounts | c++/json/json.h:99-110 | The line and column `Get` keeps by counting are the ones computed from a table of line starts: line 1 plus the '\n' before the offset, column counted from the last line start |
| JsonReader.FirstPosition | c++/json/json.h:99-110 | Offset 0 is line 1, column 1 |
| JsonReader.NewlineCounts | c++/json/json.h:104-108 | The character after a '\n' is column 1 of the next line |
| JsonReader.StartAfterNewline | c++/json/json.h:104-108 | One past a '\n' is an entry of the line-start table after its first |
| JsonReader.CharacterCounts | c++/json/json.h:101-102 | After any character other than '\n' the next offset is one column on, on the same line |
| JsonReader.Take | c++/json/json.h:99-110 | Taking a character that is there moves exactly one place and keeps the position in agreement with the text |
| JsonReader.SkipWhitespace | c++/json/json.h:112-116 | Everything skipped is a space and the reader stops at a non-space or the end |
| JsonReader.Unescape | c++/json/json.h:162-174 | An escape is accepted exactly for `"`, `\`, `/`, b, f, n, r, t and u |
| JsonReader.ReadString | c++/json/json.h:146-182 | Without an opening '"' the read throws at the current position and takes nothing; a string read takes at least both quotes |
| JsonReader.StringLoop | c++/json/json.h:154-179 | The loop takes at least the closing quote when it succeeds |
| JsonReader.Agree | c++/json/json.h:189-193 | The count of agreeing characters is the whole keyword exactly when the keyword is spelled there |
| JsonReader.KeywordLoop | c++/json/json.h:189-196 | The loop succeeds exactly when the rest of the keyword is spelled at the reader; it takes the agreeing characters and reports the character that stopped it |
| JsonReader.ReadKeyword | c++/json/json.h:184-197 | A keyword is read exactly when it is spelled at the reader; on failure the agreeing prefix is consumed and the error names the keyword and the next character, at the starting position |
| JsonReader.Keyword | c++/json/json.h:199-215 | `true`, `false` and `null` give their value exactly when spelled at the reader, taking the keyword's length |
| JsonReader.Run | c++/json/json.h:123-139 | A run stays within the text and stops before a character outside the class |
| JsonReader.RunHolds | c++/json/json.h:123-139 | Every character of a run is of the run's class |
| JsonReader.MinusLoop | c++/json/json.h:123-124 | The leading '-' loop, read as taking each '-', moves past exactly the run of '-' |
| JsonReader.DigitsLoop | c++/json/json.h:126-139 | A number read by the loop is exactly the non-empty text from its start to where the reader stops |
| JsonReader.NumberEnd | c++/json/json.h:141-143 | The lexeme is accepted exactly when it is non-empty and ends in neither '-' nor '.' |
| JsonReader.ReadNumber | c++/json/json.h:118-143 | A number read is exactly the non-empty text the reader moved over |
| JsonReader.ReadNumberAsWritten | c++/json/json.h:123-124 | As written, the call never returns exactly when the next character is '-' |
| JsonReader.Open | c++/json/json.h:238-239 | The opening bracket is taken exactly when it is next; otherwise the error is at the current position, naming the bracket and the character found, and nothing is taken |
| JsonReader.OpenAsWritten | c++/json/json.h:236-239 | As written, a wrong opening character is reported at line 1, column 1 wherever the reader stands |
| JsonReader.ReadValue | c++/json/json.h:217-231 | A value read always consumes input and keeps the position in agreement with the text |
| JsonReader.ReadObject | c++/json/json.h:233-273 | An object read consumes input and never holds two members of the same name |
| JsonReader.MembersLoop | c++/json/json.h:245-265 | The loop only extends the members read so far and keeps their names distinct |
| JsonReader.MemberEnd | c++/json/json.h:259-268 | After a member the loop only extends the members read so far and keeps their names distinct |
| JsonReader.ReadArray | c++/json/json.h:275-304 | An array read consumes input and gives an array |
| JsonReader.ItemsLoop | c++/json/json.h:287-296 | The loop only extends the items read so far |
| JsonReader.FromStream | c++/json/json.h:359-370 | A document read is an object or an array, and the position where reading stopped agrees with the text |
| JsonProperties.NumberSpan | c++/json/json.h:118-143 | A span found is non-empty, lies within the text and is followed by neither a digit nor a '.' |
| JsonProperties.NumberSpanReads | c++/json/json.h:118-143 | `ReadNumber` succeeds exactly where a span of '-'s, digits and an optional '.' with digits is found, and moves over exactly that span |
| JsonProperties.NumberReads | c++/json/json.h:118-143 | Every number lexeme not followed by a digit or '.' is read whole, as itself |
| JsonProperties.NumberShape | c++/json/json.h:118-143 | Whatever `ReadNumber` reads is a number lexeme and is followed by neither a digit nor a '.' (the converse of `NumberReads`) |
| JsonProperties.EscapeChar | c++/json/json.h:158-178 | A character written alone is neither '"' nor '\', and a two-character escape is one that `ReadString` turns back into that character |
| JsonProperties.StringReads | c++/json/json.h:146-182 | A quoted, escaped text reads back as the text, and the reader stands just after the closing quote |
| JsonProperties.UnterminatedString | c++/json/json.h:177 | A string the input ends inside throws "Expected \" but found EOF" at the opening quote |
| JsonProperties.BadEscape | c++/json/json.h:173 | A backslash before a character that is no escape throws, at the opening quote, the list of escapes and the character found |
| JsonProperties.EscapeAtEnd | c++/json/json.h:160-173 | A backslash that ends the input throws, at the opening quote, the list of escapes and EOF |
| JsonProperties.UnicodeKept | c++/json/json.h:172 | `\u` is not decoded: it and the text after it read back as the two characters `\u` followed by the text |
| JsonProperties.WriteFirst | c++/json/json.h:221-229 | The first character of each kind of value is the one `ReadValue` dispatches on, so each kind reaches its own reader |
| JsonProperties.ValueReads | c++/json/json.h:217-231 | Every well-formed written value reads back as itself and the reader stands just after it |
| JsonProperties.ArrayReads | c++/json/json.h:275-304 | A written array, empty or not, reads back as the same items in the same order |
| JsonProperties.ItemsReads | c++/json/json.h:287-299 | The item loop reads written items, then ']', back in order after the items already held |
| JsonProperties.ItemStep | c++/json/json.h:289-295 | One turn of the item loop reads the first item and either closes at ']' or goes on after ',' with the rest |
| JsonProperties.ObjectReads | c++/json/json.h:233-273 | A written object with distinct names reads back as the same members in the same order |
| JsonProperties.MembersReads | c++/json/json.h:245-268 | The member loop reads written members, then '}', back in order after the members already held |
| JsonProperties.MemberLast | c++/json/json.h:259-268 | The last written member, then '}': the loop reads it and closes the object with the members so far plus it |
| JsonProperties.MemberMore | c++/json/json.h:245-265 | A written member then ',' and more: the loop reads the member and goes on after the ',' |
| JsonProperties.MemberLoop | c++/json/json.h:247-259 | A new name, a ':' and a value that reads add exactly that member and leave the loop after the value |
| JsonProperties.KeyReads | c++/json/json.h:247-257 | A written member's name reads back and the ':' stands where the name ends, with the value right after it |
| JsonProperties.FromStreamReads | c++/json/json.h:359-366 | Whitespace, then a written object or array, then anything: the document reads back as that value and reading stops where it ends |
| JsonProperties.FromStreamNeedsContainer | c++/json/json.h:359-368 | After whitespace, any character but '{' and '[' is refused, at the line and column where it stands |
| JsonProperties.FromStreamEmpty | c++/json/json.h:359-368 | Input of whitespace only is refused, the character found being the end-of-stream value |
| JsonProperties.DuplicateKeyRefused | c++/json/json.h:247-250 | An object that repeats a name is refused, at the line and column where the repeated name starts |
| JsonProperties.NegativeNumber | c++/json/json.h:123-124 | As written, `-1` is never read; corrected, it reads as `-1` |
| JsonProperties.DigitsErrorAt | c++/json/json.h:126-139 | Every error of the digit loop is reported at the position it was given |
| JsonProperties.NumberErrorAt | c++/json/json.h:118-143 | Corrected, a number's errors are reported where the number starts |
| JsonProperties.NumberErrorAtOrigin | c++/json/json.h:121-142 | As written, a number's errors are all reported at line 1, column 1 |
| JsonProperties.NumberErrorPositionAsWritten | c++/json/json.h:121-141 | In `[1, x]` the error for 'x' says (1, 1) as written and (1, 5) corrected |
| JsonProperties.OpenPositionAsWritten | c++/json/json.h:236-238 | At a wrong opening character the error says (1, 1) as written and the reader's position corrected |
| JsonProperties.NumberValue | c++/json/json.h:229 | A written number followed by a delimiter reaches the number reader and reads back as its lexeme, the reader just after it |
| JsonProperties.StringValue | c++/json/json.h:225 | A quoted, escaped text reaches the string reader and reads back as the text |
| JsonProperties.KeywordValue | c++/json/json.h:226-228 | `true`, `false` and `null` as written reach the keyword reader and read back as themselves |
| JsonProperties.ArrayValue | c++/json/json.h:224 | A written array reaches the array reader and reads back as itself, the reader just after it |
| JsonProperties.ObjectValue | c++/json/json.h:223 | A written object with distinct names reaches the object reader and reads back as itself |
| JsonProperties.MemberReads | c++/json/json.h:245-265 | One written member whose name is new: the loop adds it, the names stay distinct, and the reader stands just after its value |
| Input.ToUInt32 | c++/rxd/src/input.cpp:60-61 | A signed motion coordinate stored into the unsigned position keeps a non-negative value and wraps a negative one by 2^32 |
| Input.NoSwitches | c++/rxd/src/input.cpp:6-9 | A new keyboard or button set has nothing down, pressed, released or buffered |
| Input.Press | c++/rxd/src/input.cpp:15 | A key or button going down joins the buffer and touches nothing the queries read |
| Input.Release | c++/rxd/src/input.cpp:16 | A key or button coming up leaves the buffer and touches nothing the queries read |
| Input.Update | c++/rxd/src/input.cpp:21-39 | Released is exactly what was down and is no longer buffered, pressed exactly what is buffered and was not down, and down becomes the buffer |
| Input.UpdateDisjoint | c++/rxd/src/input.cpp:21-39 | After an update nothing is both pressed and released, what was pressed is down and what was released is not |
| Input.UpdateTwice | c++/rxd/src/input.cpp:21-39 | A second update with no events between reports nothing pressed and nothing released, and keeps what is down |
| Input.KeyboardEvent | c++/rxd/src/input.cpp:11-19 | A key down buffers the key, a key up unbuffers it, and any other event leaves the keyboard as it was |
| Input.KeyboardEvents | c++/rxd/src/input.cpp:11-19 | Handling events changes only the buffer, never what the queries report before the next update |
| Input.KeyboardBuffer | c++/rxd/src/input.cpp:15-16 | After a run of events a key is buffered exactly when the last event about it was a key down, or no event named it and it was buffered before |
| Input.KeyboardFrame | c++/rxd/src/input.cpp:11-43 | Over a frame, a key was pressed exactly when it was up and its last event went down (or it stayed buffered), released symmetrically, and is down exactly when buffered |
| Input.NewMouse | c++/rxd/src/input.cpp:47-50 | A new mouse has no buttons down, buffered or changed, and position and delta (0, 0) |
| Input.MouseEvent | c++/rxd/src/input.cpp:52-67 | A button event buffers or unbuffers the button, a motion overwrites the buffered position (wrapped unsigned) and delta, and nothing else changes anything |
| Input.MouseUpdate | c++/rxd/src/input.cpp:69-89 | Buttons follow the keyboard's update rule, and position and delta latch what was buffered |
| Input.MouseEvents | c++/rxd/src/input.cpp:52-67 | Handling events never changes the reported position, delta or buttons down before the next update |
| Input.LastMotion | c++/rxd/src/input.cpp:58-64 | The motion a frame leaves buffered is a motion event of that frame |
| Input.MouseMotionBuffer | c++/rxd/src/input.cpp:58-64 | After a run of events the buffered position and delta are the last motion's, or the earlier ones when there was no motion |
| Input.MouseFrame | c++/rxd/src/input.cpp:52-100 | After a frame a button was pressed exactly when it was up and the events left it buffered, released exactly when it was down and they left it unbuffered, and is down exactly when buffered; the getters report the last motion's coordinates and delta, and with no motion what they reported before |

## Left out

- PyTokens.Get: when EOS is already cached, `Get` here moves the cursor one token on. It does not jump to the last cached token, which is what parser/parser.py:154 does. `PyParser.Parse`, `PyJson.ParseJson` and every lemma over them run on this corrected `Get`. The code as written is `PyTokens.GetAsWritten`, and the first row of "## Findings" shows how the two differ after backtracking.
- PyParser.TerminalBody: a failing terminal builds its "Expected …" message with the corrected `TerminalExpected`, which names the pattern even when no literal is given. parser/parser.py:234 leaves the expected part empty in that case. The message as written is `PyParser.TerminalExpectedAsWritten`.
- PyJsonLex.StringPattern: the string token's action is the corrected `Format`, so `PyJsonLex.JsonLexer`, `PyJson.ParseJson` and everything built on them decode `\\n` as a backslash followed by `n`. The program's fixed replacement order (python/lpc/examples/json_parser.py:4-13) is `PyJsonLex.FormatAsWritten`.
- PyJsonLex.IsDigit: `\d` and `\s` in the JSON patterns are read as ASCII digits and ASCII whitespace (`PyJsonLex.IsSpace`). Python's `re` also matches other Unicode digits and spaces in `str` patterns, so a text that uses them lexes differently in the program.
- PyJson.ParseJson: the round trip `parse(json.dumps(v)) == v` of the JSON example's test is not stated, because Python's `json.dumps` is not modelled. In its place, `PyJsonProperties` proves what any successful parse yields: a list or a dictionary, the array items untagged and in order, and `[]` as the empty list. That last fact is proved for the token stream '[' ']', not by evaluating the lexer on the concrete text "[]".
- Lpc.AppendRun: models the intended `push_back` of the right-hand parser's result onto the list. c++/lpc/lpc.h:431 calls `result.value.pushback(...)`, which `std::vector` does not have, so `QuantifiedParser + Parser` does not compile once it is used.
- PyStream.SetPosition: positions have natural-number lines and columns. parser/parser.py:70 refuses only line 0, a line past the table and column 0. A negative line, which indexes the line-start list from its end at parser/parser.py:72, is not modelled. Neither is a negative column, whose target offset can fall before the line and which `SetOffset` clamps at 0 (parser/parser.py:52).
- Lpc.ManyOrOne, Lpc.ZeroOrOne, Lpc.ZeroOrMore, Lpc.Exactly and Lpc.Separated are built on the corrected `Lpc.Quantified`, which stops at `max` results. c++/lpc/lpc.h:317 loops while `results.size() <= _max` and so admits `max + 1`. The loop as written is `Lpc.QuantifiedAsWritten`.
- Olpc.ManyOrOne, Olpc.ZeroOrOne, Olpc.ZeroOrMore, Olpc.Exactly, Olpc.SeparatedList and Olpc.Separated are built on the corrected `Olpc.Quantified` in the same way (c++/lpc/old/olpc.h:400). The loop as written is `Olpc.QuantifiedAsWritten`.
- Olpc.PairRun and Olpc.SumRun run their parsers left to right. c++/lpc/old/olpc.h:449 builds the result with `std::make_tuple(_args.Parse(_stream)...)`, and C++ leaves the evaluation order of those arguments unspecified. A compiler that evaluates them right to left reads the components in the opposite order.
- TableParser.RuleMatch places a rule's match at its first component, and so do TableParser.NTGetMatch, TableParser.ParseNonTerminal and TableParser.Parse, which are built on it. c++/lpc/parser.h:398 overwrites the position for every component and so leaves the last one's. The placement as written is `TableParser.MatchPositionAsWritten`.
- FirstMatch.Lex and FirstMatch.GetPosition use the corrected line-start table, in which a line starts after its newline. parser/parser.h:37-44 records the index of the newline itself, so token positions as written differ after every newline. The table as written is `FirstMatch.GetPositionAsWritten`.
- JsonReader.ReadValue, JsonReader.ReadArray, JsonReader.ReadObject and JsonReader.FromStream read numbers with the corrected `JsonReader.ReadNumber`. It consumes a leading '-' and reports errors where the number starts. As written (`JsonReader.ReadNumberAsWritten`), c++/json/json.h:123 never terminates on a '-', and json.h:119 reports every number error at (1, 1).
- JsonReader.Open is also the corrected version, which reports a wrong opening character at the reader's position rather than at (1, 1) (json.h:238). Inside `ReadValue` the difference cannot be observed, because `ReadValue` has already dispatched on '{' or '['. Only a direct call to `ReadObject` or `ReadArray` at another character would show it.
- JsonReader.Get counts one column per character of a `string`. c++/json/json.h counts one per byte of a `char` stream, so a text with multi-byte UTF-8 characters gets larger columns in the program.
- CppStream.Act: an action receives only the token, not the `StringStream&` of c++/lpc/old/olpc.h:68-69. So no action can read or move the character stream, a `Function` cannot throw, and the only effect a `Procedure` keeps is throwing (c++/lpc/old/olpc.cpp:210-211).
- CppStream.LexAt: the length cached at c++/lpc/old/olpc.cpp:67 is measured after the action has run. Because actions cannot move the stream here, that length is always the raw match length. An action that moved the stream would make the cached length differ.
- CppStream.GetPattern: c++/lpc/old/olpc.cpp:159 stores `&patterns.back()` in `patternsMap`, and `patterns` is a vector that reallocates as it grows. An ID registered earlier can therefore point at freed memory after a later `AddPattern`. The model keeps patterns by value, so a lookup always returns the registered pattern.
- TableStream.Finish: a pattern action receives only the match, not the `TStream&` of c++/lpc/parser.h:147-148 and 234-235. So no action can move the character stream, a `Function` cannot throw, and the only effect a `Procedure` keeps is throwing. The stream after a match is always where matching left it.
- Longest.Within treats a match length longer than the remaining text as no match. The regex engines of the source never report such a length, so the case only arises for a matcher that breaks that promise.
- Regular-expression engines (`std::regex`, Python `re`): every pattern is a matcher that returns an optional prefix length. parser/parser_generator.py anchors with an ungrouped `'^' + regex`, so a match there is assumed to be a prefix.
- Numeric conversion (`int()`, `float()`, `std::stod`): only the shape of the number lexeme is modelled. A decimal keeps its lexeme, and an integer lexeme is read as a whole number.
- `\u` escapes: c++/json/json.h keeps them undecoded, and the model does the same.
- JSON output (`Output`/`ToString` in c++/json/json.h): it is not modelled. The round trip in `JsonProperties` is stated against a writer defined in the model, not against the program's serialiser.
- python/lpc/lpc.py, which the JSON example imports, is not part of this model. The example runs on the engine of parser/parser.py instead.
- Combinators outside the named core are not modelled: `Satisfy`, `Chain`, `FoldL`, the character-class terminals (`Chars`, `Letters`, `Digits`, `AlphaNums`, `Whitespace`, `Char`) and `AsTerminal` of c++/lpc/old/olpc.h. Neither are `Chained`, `Satisfied` and `Failure` of c++/lpc/lpc.h, which do not compile as written.
- The terminals declared at c++/lpc/lpc.h:556-565 are not modelled: `Token` (over a lexer or a regex), `Chars`, `Letters`, `Digits`, `AlphaNums`, `Whitespace`, `Char`, `EOS` and `Error`. Their definitions are in a source file that is not part of this model, so `Lpc` runs over an abstract stream of items instead.
- The `Parser` class and template loading of parser/parser_generator.py are not modelled. They refer to an undefined `lexer`. The side-effecting and printing actions of its demonstration are not modelled either.
- SDL itself, window handling and the rest of the rxd stack are not modelled. Events arrive as a datatype.
- Test and demonstration drivers, console output and file I/O are not modelled.
- Fuel: parses and token reads that may loop take a fuel bound and report `Diverge` when it runs out. Nothing is claimed about inputs that need more fuel than given. `PyTokens.StuckForever` shows that the Python token stream really can loop.
- Sizes are unbounded integers, except where `size_t` wrap-around changes the result (`CppStream.SizeT`, the `BinopChain` precedence step). Memory exhaustion is not modelled.

## Findings

| source | as written | input that shows it | evidently intended | confidence | as-written member | corrected member |
|---|---|---|---|---|---|---|
| parser/parser.py:154 | once EOS is cached, `Get` sets the cursor to the last cached token | lex "ab" to EOS and set the cursor back to 0: `Get` returns `a`, then EOS, skipping `b` | move the cursor one token on, clamped at EOS | high, not executed | PyTokens.GetAsWrittenSkipsAfterEOS | PyTokens.Get |
| python/lpc/examples/json_parser.py:6-12 | `\n` is replaced before `\\` | the literal `"\\n"` (backslash, backslash, n) decodes to a backslash and a line break | each escape decoded once, left to right | high, not executed | PyJsonLex.FormatAsWrittenMisreadsBackslashN | PyJsonLex.FormatRoundTrip |
| parser/parser.py:234 | the conditional expression binds the whole concatenation | `Terminal("n", "integer")` on a string token reports "Expected , but found …" | the pattern name, followed by the literal in parentheses when there is one | high, not executed | PyParser.TerminalExpectedLosesPattern | PyParser.TerminalExpected |
| c++/lpc/lpc.h:317 | the loop runs while `results.size() <= _max` | `Exactly(1)` over a parser that always succeeds returns two results | at most `_max` results | high, not executed | Lpc.QuantifiedAsWrittenOverruns | Lpc.QuantifiedRun |
| c++/lpc/old/olpc.h:400 | the same `<= _max` guard | bounds (1, 1) over a parser that always succeeds return two results | at most `_max` results | high, not executed | Olpc.QuantifiedAsWrittenOverruns | Olpc.QuantifiedRun |
| c++/lpc/old/olpc.h:823-835 | the "to fail" error is thrown inside the `try` whose handler catches it | `Not` over a parser that always succeeds still succeeds | fail when the inner parser succeeds | high, not executed | Olpc.NotAsWrittenAccepts | Olpc.NotRun |
| c++/lpc/old/olpc.h:803 | `_max == 1` gives `ZeroOrOne` whatever `_min` is | bounds (1, 1) over a value parser that always fails return the empty list | `Exactly(1)` when `_min` is 1, as c++/lpc/lpc.h:524 does | medium, not executed | Olpc.SeparatedAsWrittenAcceptsNone | Olpc.SeparatedCount |
| c++/lpc/parser.h:95 | refuses when `start + length >= size` | asking for the rest of the data from any offset is refused, e.g. start 1 and length 1 of "ab" | refuse only when `start + length > size` | high, not executed | TableStream.DataAsStringAsWrittenRefusesTail | TableStream.DataAsString |
| c++/lpc/parser.h:398 | the match position is overwritten for every component | the rule `pair := a b` over "a b" is placed at `b`, (1, 3) | the position of the first component, where the rule starts | medium, not executed | TableParser.PairPlacedAtLastComponent | TableParser.MatchPosition |
| parser/parser.h:37-44 | the newline index records the offset of each '\n' itself | in "a\nb" the '\n' is at (1, 0) and `b` at (1, 1) | a line starts just after its newline, so `b` is at (1, 0) | high, not executed | FirstMatch.NewlineStartsNextLineAsWritten | FirstMatch.GetPositionCountsLines |
| parser/parser.h:123 | the named `AddPattern` refuses the EOF ID but not the invalid ID | a pattern registered under the invalid ID is accepted, and its tokens are taken for invalid ones | refuse both sentinel IDs | medium, not executed | FirstMatch.InvalidIdAcceptedAsWritten | FirstMatch.AddNamed |
| c++/json/json.h:123 | `while (Peek() == '-') str += '-';` appends without consuming | `[-1]` never finishes reading | consume each '-' it appends | high, not executed | JsonProperties.NegativeNumber | JsonReader.ReadNumber |
| c++/json/json.h:119 | number errors use a default-constructed `Position`, which is (1, 1) | in `[1, x]` the error for `x` says (1, 1) | the position where the number starts, (1, 5) here | high, not executed | JsonProperties.NumberErrorPositionAsWritten | JsonProperties.NumberErrorAt |
| c++/json/json.h:238 | the opening-character error uses a default-constructed `Position` | the opening check at the `x` of `[1, x]` says (1, 1) | the reader's position, (1, 5) here | medium, not executed | JsonProperties.OpenPositionAsWritten | JsonReader.Open |

=== FILE: cpp_stream.dfy ===
/** The string stream, lexer and token cache of the C++ parser-combinator library
    (c++/lpc/old/olpc.cpp, whose declarations are in c++/lpc/old/olpc.h; c++/lpc/lpc.cpp repeats
    the same code and differs only in handing a pattern action the matched text rather than
    the token).  A stream holds a text, a read offset, the line-start table, a lexer, the set of
    pattern IDs to skip, and a cache of the tokens already read, keyed by the offset each was
    read from.  The generic parse-outcome types that both combinator headers build on are
    declared here as well. */
module CppStream {
  import opened Wrappers
  import opened Lines
  import opened Longest
  import Text

  /** The largest `size_t`; `size_t` arithmetic wraps modulo `SIZE_MAX + 1`. */
  const SIZE_MAX: nat := 0xFFFF_FFFF_FFFF_FFFF

  /** A `size_t` result: the value reduced modulo 2^64. */
  function SizeT(n: int): (r: nat)
    ensures r <= SIZE_MAX
    ensures 0 <= n <= SIZE_MAX ==> r == n
    ensures SIZE_MAX < n <= 2 * SIZE_MAX + 1 ==> r == n - SIZE_MAX - 1
    ensures -(SIZE_MAX as int) - 1 <= n < 0 ==> r == n + SIZE_MAX + 1
  {
    n % (SIZE_MAX + 1)
  }

  const EOS_PATTERN_ID: string := "<EOS>"
  const UNKNOWN_PATTERN_ID: string := "<UNKNOWN>"

  datatype Token = Token(patternID: string, position: Position, value: string)

  /** A pattern action: none, a `Function` whose result replaces the token value, or a
      `Procedure` run for its effect.  The only effect of a procedure kept here is throwing a
      runtime error, given as its message. */
  datatype Action = NoAction | Function(f: Token -> string) | Procedure(run: Token -> Option<string>)

  datatype Pattern = Pattern(id: string, matcher: Matcher, action: Action)

  /** The actions of the two sentinel patterns and the registered patterns in order. */
  datatype Lexer = Lexer(onEOS: Action, onUnknown: Action, patterns: seq<Pattern>)

  /** The default UNKNOWN action of c++/lpc/lpc.h: a runtime error naming the character. */
  function OnLexUnknown(): Action
  {
    Procedure((t: Token) => Some("Unrecognized token: '" + t.value + "' at " + PositionString(t.position)))
  }

  /** A lexer with no registered patterns. */
  function NewLexer(onEOS: Action, onUnknown: Action): (lx: Lexer)
    ensures lx.patterns == [] && lx.onEOS == onEOS && lx.onUnknown == onUnknown
  {
    Lexer(onEOS, onUnknown, [])
  }

  /** The IDs of the registered patterns, in order. */
  function Ids(lx: Lexer): (ids: seq<string>)
    ensures |ids| == |lx.patterns|
    ensures forall i :: 0 <= i < |ids| ==> ids[i] == lx.patterns[i].id
  {
    seq(|lx.patterns|, i requires 0 <= i < |lx.patterns| => lx.patterns[i].id)
  }

  /** The pattern map holds the two sentinels from construction on. */
  predicate HasPattern(lx: Lexer, id: string)
  {
    id == EOS_PATTERN_ID || id == UNKNOWN_PATTERN_ID || id in Ids(lx)
  }

  /** The ID given to a pattern registered without one: its index among the patterns. */
  function PatternIdFromIndex(n: nat): string
  {
    "<Pattern: " + Text.NatToString(n) + ">"
  }

  /** Registers a pattern, under "<Pattern: n>" when no ID is given.  An ID already in the
      map, the sentinel IDs included, is refused with a runtime error.  The empty ID is a
      failed assertion in the source, so callers must not pass it. */
  function AddPattern(lx: Lexer, id: Option<string>, m: Matcher, action: Action): (r: Result<Lexer, string>)
    requires id.Some? ==> id.value != ""
    ensures var chosen := if id.Some? then id.value else PatternIdFromIndex(|lx.patterns|);
      && (r.Err? <==> HasPattern(lx, chosen))
      && (r.Err? ==> r.error == "Pattern with id '" + chosen + "' already exists!")
      && (r.Ok? ==> r.value == lx.(patterns := lx.patterns + [Pattern(chosen, m, action)]))
  {
    var chosen := if id.Some? then id.value else PatternIdFromIndex(|lx.patterns|);
    if HasPattern(lx, chosen) then Err("Pattern with id '" + chosen + "' already exists!")
    else Ok(lx.(patterns := lx.patterns + [Pattern(chosen, m, action)]))
  }

  /** Registered IDs are distinct and none is a sentinel ID. */
  ghost predicate IdsDistinct(lx: Lexer)
  {
    && (forall i, j :: 0 <= i < j < |lx.patterns| ==> lx.patterns[i].id != lx.patterns[j].id)
    && (forall i :: 0 <= i < |lx.patterns| ==> lx.patterns[i].id != EOS_PATTERN_ID && lx.patterns[i].id != UNKNOWN_PATTERN_ID)
  }

  /** `AddPattern` keeps the IDs distinct, so `GetPattern` names one pattern per ID. */
  lemma AddPatternKeepsDistinct(lx: Lexer, id: Option<string>, m: Matcher, action: Action)
    requires id.Some? ==> id.value != ""
    requires IdsDistinct(lx)
    requires AddPattern(lx, id, m, action).Ok?
    ensures IdsDistinct(AddPattern(lx, id, m, action).value)
  {
    var chosen := if id.Some? then id.value else PatternIdFromIndex(|lx.patterns|);
    assert chosen !in Ids(lx);
  }

  /** The sentinel patterns: no expression, their actions from the constructor. */
  function NoMatch(): Matcher
  {
    _ => None
  }

  /** `GetPattern`: the pattern an ID names, or a runtime error for an unknown ID. */
  function GetPattern(lx: Lexer, id: string): (r: Result<Pattern, string>)
    ensures r.Ok? <==> HasPattern(lx, id)
    ensures r.Ok? ==> r.value.id == id
    ensures r.Ok? && id in Ids(lx) && IdsDistinct(lx) ==> r.value in lx.patterns
    ensures r.Err? ==> r.error == "Pattern with id '" + id + "' does not exist!"
  {
    if id == EOS_PATTERN_ID then Ok(Pattern(EOS_PATTERN_ID, NoMatch(), lx.onEOS))
    else if id == UNKNOWN_PATTERN_ID then Ok(Pattern(UNKNOWN_PATTERN_ID, NoMatch(), lx.onUnknown))
    else
      match Find(lx.patterns, id)
      case Some(p) => Ok(p)
      case None => Err("Pattern with id '" + id + "' does not exist!")
  }

  /** The first pattern registered under `id`. */
  function Find(ps: seq<Pattern>, id: string): (r: Option<Pattern>)
    ensures r.None? <==> forall i :: 0 <= i < |ps| ==> ps[i].id != id
    ensures r.Some? ==> r.value in ps && r.value.id == id
  {
    if |ps| == 0 then None
    else if ps[0].id == id then Some(ps[0])
    else
      var r := Find(ps[1..], id);
      assert forall i :: 0 < i < |ps| ==> ps[i] == ps[1..][i - 1];
      r
  }

  datatype StreamState = StreamState(data: string, offset: nat, lexer: Lexer,
                                     tokens: map<nat, (Token, nat)>, ignores: set<string>)

  /** A stream whose offset lies inside its text, a text no longer than a `size_t` can count, and whose cache holds, for every offset it
      has an entry for, what the lexer reads there: the token and the distance to its end.
      Only the token reader writes the cache, and it stores exactly that. */
  type Stream = s: StreamState | s.offset <= |s.data| <= SIZE_MAX && CacheCoherent(s.lexer, s.data, s.tokens)
    witness StreamState("", 0, Lexer(NoAction, NoAction, []), map[], {})

  /** The constructor's line-start table: 0, then one past every '\n'. */
  function LineStarts(s: Stream): (starts: seq<nat>)
    ensures WellFormed(starts, |s.data|)
  {
    CppLineStarts(s.data)
  }

  /** A stream at offset 0 with an empty token cache; ignoring EOS is refused, since the
      token reader could then never stop at the end of the text. */
  function New(data: string, lexer: Lexer, ignores: set<string>): (r: Result<Stream, string>)
    requires |data| <= SIZE_MAX
    ensures r.Err? <==> EOS_PATTERN_ID in ignores
    ensures r.Err? ==> r.error == "<EOS> cannot be ignored!"
    ensures r.Ok? ==> r.value == StreamState(data, 0, lexer, map[], ignores)
  {
    if EOS_PATTERN_ID in ignores then Err("<EOS> cannot be ignored!")
    else Ok(StreamState(data, 0, lexer, map[], ignores))
  }

  predicate IsEOS(s: Stream)
  {
    s.offset >= |s.data|
  }

  /** `GetChar`: the next character and the stream past it; `None` (EOF) at the end, where the
      stream does not move. */
  function GetChar(s: Stream): (r: (Option<char>, Stream))
    ensures r.0.None? <==> IsEOS(s)
    ensures r.0.None? ==> r.1 == s
    ensures r.0.Some? ==> r.0.value == s.data[s.offset] && r.1 == s.(offset := s.offset + 1)
  {
    if IsEOS(s) then (None, s) else (Some(s.data[s.offset]), s.(offset := s.offset + 1))
  }

  /** `PeekChar`: what `GetChar` would return, with the offset put back. */
  function PeekChar(s: Stream): (r: (Option<char>, Stream))
    ensures r.1 == s
    ensures r.0 == GetChar(s).0
  {
    var g := GetChar(s);
    (g.0, g.1.(offset := s.offset))
  }

  /** `IgnoreChars`: skips `amt` characters, stopping at the end; the sum wraps as a `size_t`. */
  function IgnoreChars(s: Stream, amt: nat): (r: Stream)
    requires amt <= SIZE_MAX
    ensures r == s.(offset := r.offset)
    ensures s.offset + amt <= SIZE_MAX ==>
      r.offset == if s.offset + amt <= |s.data| then s.offset + amt else |s.data|
  {
    var target := SizeT(s.offset + amt);
    s.(offset := if target <= |s.data| then target else |s.data|)
  }

  /** `SetOffset`: moves to `o`, or to the end of the text when `o` lies past it. */
  function SetOffset(s: Stream, o: nat): (r: Stream)
    ensures r == s.(offset := r.offset)
    ensures o <= |s.data| ==> r.offset == o
    ensures o > |s.data| ==> r.offset == |s.data|
  {
    s.(offset := if o <= |s.data| then o else |s.data|)
  }

  /** `SetOffset(start + length)` with `length = end - start`, both as `size_t`: the stream at
      `end`, since the two wrap-arounds cancel. */
  function Resume(st: Stream, start: nat, end: nat): (r: Stream)
    requires start <= SIZE_MAX && end <= |st.data|
    ensures r == st.(offset := end)
  {
    LengthRoundTrip(start, end);
    SetOffset(st, SizeT(start + SizeT(end - start)))
  }

  /** The `size_t` length of a parse and the `size_t` sum that moves back to its end cancel:
      the stream lands where the option left it, even one that moved backwards. */
  lemma LengthRoundTrip(start: nat, end: nat)
    requires start <= SIZE_MAX && end <= SIZE_MAX
    ensures SizeT(start + SizeT(end - start)) == end
  {
    if end < start {
      assert SizeT(end - start) == end - start + SIZE_MAX + 1;
    }
  }

  /** `GetOffset(Position)`: the offset a position names, or a runtime error when the line
      does not exist, line or column is 0, or the column lies more than one past the line. */
  function GetOffsetOf(s: Stream, pos: Position): (r: Result<nat, string>)
    ensures r.Err? <==> OffsetOf(LineStarts(s), |s.data|, pos).None?
    ensures r.Err? ==> r.error == "Invaild position: " + PositionString(pos)
    ensures r.Ok? ==> r.value <= |s.data|
  {
    match OffsetOf(LineStarts(s), |s.data|, pos)
    case None => Err("Invaild position: " + PositionString(pos))
    case Some(o) => Ok(o)
  }

  /** `GetPosition(offset)`: the 1-based line and column of an offset, or a runtime error
      past the end of the text. */
  function GetPositionAt(s: Stream, o: nat): (r: Result<Position, string>)
    ensures r.Err? <==> o > |s.data|
    ensures r.Err? ==> r.error == "Offset is out of range of data!"
    ensures r.Ok? ==> r.value == PositionOf(LineStarts(s), o)
  {
    if o > |s.data| then Err("Offset is out of range of data!")
    else Ok(PositionOf(LineStarts(s), o))
  }

  /** The position of the read offset, which always lies within the text. */
  function GetPosition(s: Stream): (p: Position)
    ensures GetPositionAt(s, s.offset) == Ok(p)
  {
    PositionOf(LineStarts(s), s.offset)
  }

  /** `SetPosition`: moves to the offset a position names, or fails as `GetOffsetOf` does. */
  function SetPosition(s: Stream, pos: Position): (r: Result<Stream, string>)
    ensures r.Err? <==> GetOffsetOf(s, pos).Err?
    ensures r.Ok? ==> r.value == s.(offset := GetOffsetOf(s, pos).value)
  {
    match GetOffsetOf(s, pos)
    case Err(e) => Err(e)
    case Ok(o) => Ok(s.(offset := o))
  }

  /** Converting an offset of the text to its position and back gives the offset again, so
      `SetPosition(GetPosition())` leaves a stream where it was. */
  lemma SetPositionOfGetPosition(s: Stream, o: nat)
    requires o <= |s.data|
    ensures GetPositionAt(s, o).Ok?
    ensures GetOffsetOf(s, GetPositionAt(s, o).value) == Ok(o)
    ensures SetPosition(s, GetPosition(s)) == Ok(s)
  {
    OffsetOfPositionOf(LineStarts(s), |s.data|, o);
    OffsetOfPositionOf(LineStarts(s), |s.data|, s.offset);
  }

  /** A position taken from one stream names the same offset in any stream over the same
      text, so moving another stream there lands on the first one's offset. */
  lemma SetPositionSameText(s: Stream, t: Stream)
    requires t.data == s.data
    ensures SetPosition(t, GetPosition(s)).Ok?
    ensures SetPosition(t, GetPosition(s)).value.offset == s.offset
  {
    assert LineStarts(t) == LineStarts(s);
    OffsetOfPositionOf(LineStarts(s), |s.data|, s.offset);
  }

  /** `GetData(start, length)`: the `length` characters from `start`.  The range check adds
      as `size_t`, so a wrapped sum passes it; `substr` then clamps the length, and throws
      its own out-of-range error (`None` here) when `start` lies past the end. */
  function GetData(s: Stream, start: nat, length: nat): (r: Result<string, Option<string>>)
    requires start <= SIZE_MAX && length <= SIZE_MAX
    ensures start + length <= |s.data| ==> r == Ok(s.data[start..start + length])
    ensures start + length <= SIZE_MAX && start + length > |s.data| ==>
      r == Err(Some("Parameters out of range of data!"))
    ensures r.Ok? ==> start + |r.value| <= |s.data| && r.value == s.data[start..start + |r.value|]
  {
    if SizeT(start + length) > |s.data| then Err(Some("Parameters out of range of data!"))
    else if start > |s.data| then Err(None)
    else Ok(s.data[start..if start + length <= |s.data| then start + length else |s.data|])
  }

  /** `GetData(start)`: everything from `start`; the length `size - start` wraps for a start
      past the end, which the range check then lets through to `substr`'s own error. */
  function GetDataFrom(s: Stream, start: nat): (r: Result<string, Option<string>>)
    requires start <= SIZE_MAX
    ensures start <= |s.data| ==> r == Ok(s.data[start..])
    ensures start > |s.data| ==> r == Err(None)
  {
    var r := GetData(s, start, SizeT(|s.data| - start));
    assert start <= |s.data| ==> s.data[start..start + (|s.data| - start)] == s.data[start..];
    r
  }

  /** What the lexer reads at offset `k`, before the action: the pattern ID and the matched
      text.  At the end it is EOS over nothing; otherwise the longest match wins, the earliest
      pattern on a tie; with no match it is UNKNOWN over one character. */
  function Match(lx: Lexer, data: string, k: nat): (r: (string, string, Action))
    requires k <= |data|
    ensures k + |r.1| <= |data| && r.1 == data[k..k + |r.1|]
    ensures k == |data| ==> r == (EOS_PATTERN_ID, "", lx.onEOS)
  {
    if k == |data| then (EOS_PATTERN_ID, "", lx.onEOS)
    else
      var ms := seq(|lx.patterns|, i requires 0 <= i < |lx.patterns| => lx.patterns[i].matcher);
      var lens := Attempts(ms, data[k..]);
      match Select(lens)
      case None => (UNKNOWN_PATTERN_ID, [data[k]], lx.onUnknown)
      case Some(w) =>
        var p := lx.patterns[w];
        (p.id, data[k..k + lens[w].value], p.action)
  }

  /** Applies an action to a token just read: a function replaces the value, a procedure
      may throw. */
  function Act(a: Action, t: Token): (r: Result<Token, string>)
    ensures a.NoAction? ==> r == Ok(t)
    ensures r.Ok? ==> r.value.patternID == t.patternID && r.value.position == t.position
    ensures a.Procedure? ==> (r.Ok? <==> a.run(t).None?)
  {
    match a
    case NoAction => Ok(t)
    case Function(f) => Ok(t.(value := f(t)))
    case Procedure(run) => if run(t).Some? then Err(run(t).value) else Ok(t)
  }

  /** `Lex` from offset `k`: the token and the offset after it, or the action's runtime
      error.  The position is taken before reading; the offset advances by the raw match
      length whatever a function action makes of the value. */
  function LexAt(lx: Lexer, data: string, k: nat): (r: Result<(Token, nat), string>)
    requires k <= |data|
    ensures r.Ok? ==> k <= r.value.1 <= |data|
    ensures r.Ok? ==> r.value.0.position == PositionOf(CppLineStarts(data), k)
    ensures r.Ok? ==> (r.value.1 == k <==> Match(lx, data, k).1 == "")
  {
    var pos := PositionOf(CppLineStarts(data), k);
    var m := Match(lx, data, k);
    match Act(m.2, Token(m.0, pos, m.1))
    case Err(e) => Err(e)
    case Ok(t) => Ok((t, k + |m.1|))
  }

  /** The matcher of every registered pattern, in order. */
  function Matchers(lx: Lexer): (ms: seq<Matcher>)
    ensures |ms| == |lx.patterns|
    ensures forall i :: 0 <= i < |ms| ==> ms[i] == lx.patterns[i].matcher
  {
    seq(|lx.patterns|, i requires 0 <= i < |lx.patterns| => lx.patterns[i].matcher)
  }

  /** The lexing rule: the token ends where no registered pattern's match would reach past
      it, every pattern before the winner matches strictly less, and with no match at all the
      token is UNKNOWN over exactly one character. */
  lemma MatchLongest(lx: Lexer, data: string, k: nat)
    requires k < |data|
    ensures var lens := Attempts(Matchers(lx), data[k..]);
      var m := Match(lx, data, k);
      && (Select(lens).None? <==> forall j :: 0 <= j < |lens| ==> lens[j].None?)
      && (Select(lens).None? ==> m == (UNKNOWN_PATTERN_ID, [data[k]], lx.onUnknown))
      && (Select(lens).Some? ==>
            var w := Select(lens).value;
            && m.0 == lx.patterns[w].id && m.2 == lx.patterns[w].action
            && lens[w] == Some(|m.1|)
            && (forall j :: 0 <= j < |lens| && lens[j].Some? ==> lens[j].value <= |m.1|)
            && (forall j :: 0 <= j < w && lens[j].Some? ==> lens[j].value < |m.1|))
  {
    var lens := Attempts(Matchers(lx), data[k..]);
    assert Matchers(lx) == seq(|lx.patterns|, i requires 0 <= i < |lx.patterns| => lx.patterns[i].matcher);
    if Select(lens).Some? {
      assert IsChoice(lens, Select(lens).value);
    }
  }

  /** Is `entry` the cache entry for what the lexer read at offset `k`? */
  predicate Cached(lexed: Result<(Token, nat), string>, k: nat, entry: (Token, nat))
  {
    lexed.Ok? && lexed.value.0 == entry.0 && lexed.value.1 == k + entry.1
  }

  /** Did the lexer read token `t`, ending at offset `end`? */
  predicate Lexed(lexed: Result<(Token, nat), string>, t: Token, end: nat)
  {
    lexed.Ok? && lexed.value.0 == t && lexed.value.1 == end
  }

  /** The cache invariant, over the parts of a stream it depends on. */
  ghost predicate CacheCoherent(lx: Lexer, data: string, tokens: map<nat, (Token, nat)>)
  {
    forall k :: k in tokens ==> k <= |data| && Cached(LexAt(lx, data, k), k, tokens[k])
  }

  /** One pass of the `GetToken` loop: the cached token at the offset, skipping its cached
      length, or a fresh `Lex` whose token and length are stored.  The pair stored is built
      in a braced initialiser, which evaluates `Lex` before the length it moved. */
  function Fetch(s: Stream): (r: Result<(Token, Stream), string>)
    ensures r.Ok? ==> Lexed(LexAt(s.lexer, s.data, s.offset), r.value.0, r.value.1.offset)
    ensures r.Ok? ==> r.value.1 == s.(offset := r.value.1.offset, tokens := r.value.1.tokens)
    ensures r.Err? ==> LexAt(s.lexer, s.data, s.offset) == Err(r.error)
  {
    if s.offset in s.tokens then
      var entry := s.tokens[s.offset];
      CachedFits(s);
      Ok((entry.0, Moved(s, s.offset + entry.1)))
    else
      var lexed := LexAt(s.lexer, s.data, s.offset);
      if lexed.Err? then Err(lexed.error)
      else Ok((lexed.value.0, Stored(s, lexed.value.0, lexed.value.1)))
  }

  /** A cache entry at the offset records what the lexer reads there. */
  lemma CachedFits(s: Stream)
    requires s.offset in s.tokens
    ensures Lexed(LexAt(s.lexer, s.data, s.offset), s.tokens[s.offset].0, s.offset + s.tokens[s.offset].1)
    ensures s.offset + s.tokens[s.offset].1 <= |s.data|
  {
    assert Cached(LexAt(s.lexer, s.data, s.offset), s.offset, s.tokens[s.offset]);
  }

  /** The stream moved to offset `o`. */
  function Moved(s: Stream, o: nat): (r: Stream)
    requires o <= |s.data|
    ensures r == s.(offset := o)
  {
    s.(offset := o)
  }

  /** The stream after a fresh read of `t` ending at `end`, with the read stored in the cache. */
  function Stored(s: Stream, t: Token, end: nat): (r: Stream)
    requires Lexed(LexAt(s.lexer, s.data, s.offset), t, end)
    ensures r == s.(offset := end, tokens := s.tokens[s.offset := (t, end - s.offset)])
  {
    CacheExtend(s.lexer, s.data, s.tokens, s.offset, t, end);
    s.(offset := end, tokens := s.tokens[s.offset := (t, end - s.offset)])
  }

  /** Storing what the lexer reads at an offset keeps the cache coherent. */
  lemma CacheExtend(lx: Lexer, data: string, tokens: map<nat, (Token, nat)>, k: nat, t: Token, end: nat)
    requires CacheCoherent(lx, data, tokens)
    requires k <= |data| && Lexed(LexAt(lx, data, k), t, end)
    ensures CacheCoherent(lx, data, tokens[k := (t, end - k)])
  {
  }

  /** What `GetToken` does: its token and the stream after it, the runtime error of a pattern
      action, or no return at all. */
  datatype Got = Got(token: Token, stream: Stream) | Failed(error: string) | Hangs

  /** `GetToken`: the first token at or after the offset whose pattern is not ignored.  An
      ignored token of width zero is found again at the same offset forever, so the loop does
      not return. */
  function GetToken(s: Stream): (r: Got)
    ensures r.Got? ==> r.token.patternID !in s.ignores
    ensures r.Got? ==> s.offset <= r.stream.offset
    ensures r.Got? ==> r.stream == s.(offset := r.stream.offset, tokens := r.stream.tokens)
    decreases |s.data| - s.offset
  {
    match Fetch(s)
    case Err(e) => Failed(e)
    case Ok(step) =>
      if step.0.patternID !in s.ignores then Got(step.0, step.1)
      else if step.1.offset == s.offset then Hangs
      else GetToken(step.1)
  }

  /** The reference reader with no cache: lex from offset `k` until a token whose pattern is
      not ignored, giving that token and the offset after it. */
  datatype Read = Read(token: Token, end: nat) | ReadFailed(error: string) | ReadHangs

  function ReadToken(lx: Lexer, ignores: set<string>, data: string, k: nat): (r: Read)
    requires k <= |data|
    ensures r.Read? ==> k <= r.end <= |data| && r.token.patternID !in ignores
    decreases |data| - k
  {
    match LexAt(lx, data, k)
    case Err(e) => ReadFailed(e)
    case Ok(lexed) =>
      if lexed.0.patternID !in ignores then Read(lexed.0, lexed.1)
      else if lexed.1 == k then ReadHangs
      else ReadToken(lx, ignores, data, lexed.1)
  }

  /** Does a token-reader outcome match the uncached reference? */
  predicate Agrees(g: Got, r: Read)
  {
    match g
    case Got(t, s) => r == Read(t, s.offset)
    case Failed(e) => r == ReadFailed(e)
    case Hangs => r == ReadHangs
  }

  /** The cache is invisible: `GetToken` reads exactly what lexing afresh from the offset
      reads, whatever entries the cache holds. */
  lemma {:induction false} GetTokenReads(s: Stream)
    ensures Agrees(GetToken(s), ReadToken(s.lexer, s.ignores, s.data, s.offset))
    decreases |s.data| - s.offset
  {
    match Fetch(s)
    case Err(e) =>
    case Ok(step) =>
      if step.0.patternID in s.ignores && step.1.offset != s.offset {
        GetTokenReads(step.1);
      }
  }

  /** At the end of the text the reader stops at the EOS token, unless the EOS action throws:
      the constructor refuses to ignore EOS. */
  lemma GetTokenAtEnd(s: Stream)
    requires IsEOS(s)
    requires EOS_PATTERN_ID !in s.ignores
    ensures GetToken(s).Got? || GetToken(s).Failed?
    ensures GetToken(s).Got? ==> GetToken(s).token.patternID == EOS_PATTERN_ID && GetToken(s).stream.offset == |s.data|
  {
    GetTokenReads(s);
  }

  /** `PeekToken`: the token `GetToken` reads, with the offset put back; the cache keeps what
      was read. */
  function PeekToken(s: Stream): (r: Got)
    ensures r.Got? ==> r.stream.offset == s.offset
    ensures r.Got? <==> GetToken(s).Got?
    ensures r.Got? ==> r.token == GetToken(s).token
  {
    match GetToken(s)
    case Got(t, after) => Got(t, after.(offset := s.offset))
    case Failed(e) => Failed(e)
    case Hangs => Hangs
  }

  /** Peeking and then reading gives the token a plain read gives, at the same offset. */
  lemma PeekThenGet(s: Stream)
    requires PeekToken(s).Got?
    ensures GetToken(PeekToken(s).stream).Got?
    ensures GetToken(PeekToken(s).stream).token == GetToken(s).token
    ensures GetToken(PeekToken(s).stream).stream.offset == GetToken(s).stream.offset
  {
    GetTokenReads(s);
    GetTokenReads(PeekToken(s).stream);
  }

  /** A value read by a parser and the position it is reported at. */
  datatype ParseResult<T> = ParseResult(position: Position, value: T)

  /** Ways a parse can end other than returning or throwing a parse error: a loop that never
      ends, or a runtime error, which no combinator catches. */
  datatype Stop = Hang | RuntimeError(message: string)

  /** What a parse function does to a stream: returns a result, throws a parse error of type
      `E` (with the stream as the throw leaves it), or stops. */
  datatype Outcome<T, E> =
    | Returned(result: ParseResult<T>, stream: Stream)
    | Raised(error: E, stream: Stream)
    | Stopped(stop: Stop)

  /** A parse function only moves the offset and fills the cache; the text, the lexer and
      the ignore set of a stream are fixed at construction. */
  ghost predicate Keeps<T, E>(o: Outcome<T, E>, s: Stream)
  {
    o.Stopped? || o.stream == s.(offset := o.stream.offset, tokens := o.stream.tokens)
  }

  type ParseFunction<T, E> = (Position, Stream) -> Outcome<T, E>

  ghost predicate Respects<T, E>(f: ParseFunction<T, E>)
  {
    forall pos, s :: Keeps(f(pos, s), s)
  }

  /** The parse functions the combinators are built from and build. */
  type Fn<T, E> = f: ParseFunction<T, E> | Respects(f) witness (pos: Position, s: Stream) => Stopped(Hang)
}

=== FILE: first_match.dfy ===
/** The older lexer of parser/parser.h: a text stream that indexes its newlines and reports
    0-based positions, and a lexer that takes the FIRST pattern, in registration order, that
    matches at the offset.  Unnamed patterns only skip text: after one matches, the scan starts
    over from the first pattern at the new offset. */
module FirstMatch {
  import opened Wrappers
  import opened Lines
  import opened Longest
  import CppStream
  import TableStream

  // ---------------------------------------------------------------------------------------
  // Stream

  /** The text and the read offset, which may run past the end. */
  datatype Stream = Stream(data: string, offset: nat)

  /** The indices of the '\n' characters of `data` at or after `from`, in order. */
  function NewlinesFrom(data: string, from: nat): (r: seq<nat>)
    requires from <= |data|
    ensures forall i | 0 <= i < |r| :: from <= r[i] < |data| && data[r[i]] == '\n'
    ensures forall i, j | 0 <= i < j < |r| :: r[i] < r[j]
    ensures forall k | from <= k < |data| && data[k] == '\n' :: k in r
    decreases |data| - from
  {
    if from == |data| then []
    else if data[from] == '\n' then [from] + NewlinesFrom(data, from + 1)
    else NewlinesFrom(data, from + 1)
  }

  /** The constructor's newline index as written: 0, then the index of every '\n' itself. */
  function NewLines(data: string): (r: seq<nat>)
    ensures |r| > 0 && r[0] == 0 && r[1..] == NewlinesFrom(data, 0)
  {
    [0] + NewlinesFrom(data, 0)
  }

  /** The first offset of every line: 0, then the offset just past every '\n'. */
  function LineStarts(data: string): (r: seq<nat>)
    ensures |r| > 0 && r[0] == 0
    ensures r[1..] == Successors(NewlinesFrom(data, 0))
  {
    [0] + Successors(NewlinesFrom(data, 0))
  }

  /** The line-start table elementwise: line `i > 0` starts one past the `i`-th newline. */
  lemma LineStartsFollowNewlines(data: string)
    ensures var starts := LineStarts(data);
      var nl := NewlinesFrom(data, 0);
      && |starts| == |nl| + 1
      && forall i | 1 <= i < |starts| :: starts[i] == nl[i - 1] + 1
  {
    var starts := LineStarts(data);
    var nl := NewlinesFrom(data, 0);
    forall i | 1 <= i < |starts|
      ensures starts[i] == nl[i - 1] + 1
    {
      assert starts[i] == starts[1..][i - 1];
    }
  }

  /** Each offset moved on by one. */
  function Successors(xs: seq<nat>): (r: seq<nat>)
    ensures |r| == |xs| && forall i | 0 <= i < |xs| :: r[i] == xs[i] + 1
  {
    seq(|xs|, i requires 0 <= i < |xs| => xs[i] + 1)
  }

  /** The loop of `GetPosition`: the LAST index whose start is at or before the offset gives
      the line, and the distance from that start the column. */
  function PlaceIn(starts: seq<nat>, offset: nat): (p: Position)
    requires |starts| > 0 && starts[0] <= offset
    ensures p.line < |starts| && starts[p.line] <= offset && p.column == offset - starts[p.line]
    ensures forall i | p.line < i < |starts| :: starts[i] > offset
  {
    var last := |starts| - 1;
    if starts[last] <= offset then Position(last, offset - starts[last])
    else PlaceIn(starts[..last], offset)
  }

  /** `GetPosition` as written, over the newline index. */
  function GetPositionAsWritten(s: Stream): (p: Position)
    ensures var starts := NewLines(s.data);
      && p.line < |starts| && starts[p.line] <= s.offset && p.column == s.offset - starts[p.line]
      && (p.line + 1 < |starts| ==> starts[p.line + 1] > s.offset)
  {
    PlaceIn(NewLines(s.data), s.offset)
  }

  /** `GetPosition` over the line starts, with 0-based lines and columns. */
  function GetPosition(s: Stream): (p: Position)
    ensures var starts := LineStarts(s.data);
      && p.line < |starts| && starts[p.line] <= s.offset && p.column == s.offset - starts[p.line]
      && (p.line + 1 < |starts| ==> starts[p.line + 1] > s.offset)
  {
    PlaceIn(LineStarts(s.data), s.offset)
  }

  /** A 0-based position within the text: the column counts back to the start of the line,
      which is the start of the text exactly on line 0 and otherwise just after a '\n', and no
      '\n' lies between the line's start and the offset. */
  lemma GetPositionCountsLines(s: Stream)
    requires s.offset <= |s.data|
    ensures var p := GetPosition(s);
      && p.column <= s.offset
      && (p.line == 0 <==> p.column == s.offset)
      && (p.line > 0 ==> s.data[s.offset - p.column - 1] == '\n')
      && forall k | s.offset - p.column <= k < s.offset :: s.data[k] != '\n'
  {
    LineStartFollowsNewline(s);
    NoNewlineBeforeOffset(s);
  }

  /** The line's start is the start of the text, or just after a '\n'. */
  lemma LineStartFollowsNewline(s: Stream)
    requires s.offset <= |s.data|
    ensures var p := GetPosition(s);
      && p.column <= s.offset
      && (p.line == 0 <==> p.column == s.offset)
      && (p.line > 0 ==> s.data[s.offset - p.column - 1] == '\n')
  {
    var p := GetPosition(s);
    LineStartsFollowNewlines(s.data);
    if p.line > 0 {
      var nl := NewlinesFrom(s.data, 0);
      assert LineStarts(s.data)[p.line] == nl[p.line - 1] + 1;
    }
  }

  /** No '\n' lies between the line's start and the offset. */
  lemma NoNewlineBeforeOffset(s: Stream)
    requires s.offset <= |s.data|
    ensures var p := GetPosition(s);
      forall k | s.offset - p.column <= k < s.offset :: s.data[k] != '\n'
  {
    var starts := LineStarts(s.data);
    var nl := NewlinesFrom(s.data, 0);
    var p := GetPosition(s);
    LineStartsFollowNewlines(s.data);
    NewlinesAroundLine(nl, starts, p.line, s.offset);
    forall k | s.offset - p.column <= k < s.offset
      ensures s.data[k] != '\n'
    {
    }
  }

  /** Every newline lies before the line start `starts[line]`, or at or after `offset`, when
      `line` is the last line starting at or before `offset`. */
  lemma NewlinesAroundLine(nl: seq<nat>, starts: seq<nat>, line: nat, offset: nat)
    requires |starts| == |nl| + 1 && starts[0] == 0
    requires forall i | 1 <= i < |starts| :: starts[i] == nl[i - 1] + 1
    requires forall i, j | 0 <= i < j < |nl| :: nl[i] < nl[j]
    requires line < |starts| && starts[line] <= offset
    requires line + 1 < |starts| ==> starts[line + 1] > offset
    ensures forall j | 0 <= j < |nl| :: nl[j] < starts[line] || nl[j] >= offset
  {
    forall j | 0 <= j < |nl|
      ensures nl[j] < starts[line] || nl[j] >= offset
    {
      if j + 1 <= line {
        if j + 1 < line {
          assert nl[j] < nl[line - 1];
        }
      } else {
        assert starts[line + 1] == nl[line] + 1 > offset;
        if line < j {
          assert nl[line] < nl[j];
        }
      }
    }
  }

  /** The newline index counts a '\n' as the first character of the line it ends, so in
      "a\nb" the '\n' is at (1, 0) and "b" at column 1, while "a" is at column 0. */
  lemma NewlineStartsNextLineAsWritten()
    ensures GetPositionAsWritten(Stream("a\nb", 0)) == Position(0, 0)
    ensures GetPositionAsWritten(Stream("a\nb", 1)) == Position(1, 0)
    ensures GetPositionAsWritten(Stream("a\nb", 2)) == Position(1, 1)
    ensures GetPosition(Stream("a\nb", 1)) == Position(0, 1)
    ensures GetPosition(Stream("a\nb", 2)) == Position(1, 0)
  {
    var data := "a\nb";
    assert NewlinesFrom(data, 3) == [];
    assert NewlinesFrom(data, 2) == [];
    assert NewlinesFrom(data, 1) == [1];
    assert NewlinesFrom(data, 0) == [1];
    assert NewLines(data) == [0, 1];
    assert LineStarts(data) == [0, 2];
  }

  function IsEOF(s: Stream): bool
  {
    s.offset >= |s.data|
  }

  /** `Peek`: the character at the offset, or `(char)EOF` past the end. */
  function Peek(s: Stream): (c: char)
    ensures !IsEOF(s) ==> c == s.data[s.offset]
  {
    if IsEOF(s) then TableStream.EOF_CHAR else s.data[s.offset]
  }

  /** `Get`: what `Peek` answers, moving on by one only before the end. */
  function Get(s: Stream): (r: (char, Stream))
    ensures r.0 == Peek(s) && r.1.data == s.data
    ensures IsEOF(s) ==> r.1 == s
    ensures !IsEOF(s) ==> r.1.offset == s.offset + 1
  {
    if IsEOF(s) then (TableStream.EOF_CHAR, s) else (s.data[s.offset], s.(offset := s.offset + 1))
  }

  /** `Ignore`: the offset moves on with no check against the end (as a `size_t`). */
  function Ignore(s: Stream, amt: nat): (r: Stream)
    ensures r.data == s.data
    ensures s.offset + amt <= CppStream.SIZE_MAX ==> r.offset == s.offset + amt
  {
    s.(offset := CppStream.SizeT(s.offset + amt))
  }

  /** Ignoring past the end leaves a stream at EOF, which reads only `(char)EOF`. */
  lemma IgnorePastEnd(s: Stream, amt: nat)
    requires |s.data| <= s.offset + amt <= CppStream.SIZE_MAX
    ensures IsEOF(Ignore(s, amt)) && Peek(Ignore(s, amt)) == TableStream.EOF_CHAR && Get(Ignore(s, amt)).1 == Ignore(s, amt)
  {
  }

  // ---------------------------------------------------------------------------------------
  // Lexer

  /** `Lexer::Match`: the text and where it starts. */
  datatype LexMatch = LexMatch(value: string, position: Position)

  /** A pattern's action.  Both kinds receive the stream and may move its offset: a procedure
      only does that, a tokenizer also makes the token. */
  datatype Action<T> =
    | Procedure(run: (LexMatch, nat) -> nat)
    | Tokenizer(make: (LexMatch, nat) -> (T, nat))
    | NoAction

  /** A pattern; the empty ID marks one that defines no token. */
  datatype Pattern<T> = Pattern(id: string, matcher: Matcher, action: Action<T>)

  /** The patterns in registration order, the index of every named one, and the EOF and
      invalid patterns. */
  datatype Lexer<T> = Lexer(patterns: seq<Pattern<T>>, named: map<string, nat>, eof: Pattern<T>, invalid: Pattern<T>)

  const DEFAULT_EOF_ID: string := "<EOF>"
  const DEFAULT_INVALID_ID: string := "<INVALID>"

  /** A pattern that never matches: the sentinels' empty regular expression is never tried. */
  function NoMatch(): Matcher
  {
    (rest: string) => None
  }

  /** The lexer's invariant: distinct non-empty sentinel IDs, every named pattern indexed
      under its ID, and no pattern carrying a sentinel's ID. */
  ghost predicate Wf<T>(lx: Lexer<T>)
  {
    && lx.eof.id != "" && lx.invalid.id != "" && lx.eof.id != lx.invalid.id
    && (forall i | 0 <= i < |lx.patterns| :: lx.patterns[i].id != lx.eof.id && lx.patterns[i].id != lx.invalid.id)
    && (forall i | 0 <= i < |lx.patterns| && lx.patterns[i].id != "" :: lx.patterns[i].id in lx.named && lx.named[lx.patterns[i].id] == i)
    && (forall id | id in lx.named :: lx.named[id] < |lx.patterns| && lx.patterns[lx.named[id]].id == id)
  }

  /** The constructor: the two sentinel IDs must be non-empty and distinct. */
  function NewLexer<T>(eofTokenizer: (LexMatch, nat) -> (T, nat), invalidTokenizer: (LexMatch, nat) -> (T, nat),
                       eofID: string, invalidID: string): (r: Result<Lexer<T>, string>)
    ensures r.Ok? <==> eofID != "" && invalidID != "" && eofID != invalidID
    ensures r.Ok? ==> Wf(r.value) && r.value.patterns == [] && r.value.eof.id == eofID && r.value.invalid.id == invalidID
    ensures eofID == "" ==> r == Err("EOF token pattern id must be non-empty!")
    ensures eofID != "" && invalidID == "" ==> r == Err("Invalid token pattern id must be non-empty!")
    ensures eofID != "" && invalidID != "" && eofID == invalidID ==> r == Err("EOF and invalid token pattern ids must be distinct!")
  {
    if eofID == "" then Err("EOF token pattern id must be non-empty!")
    else if invalidID == "" then Err("Invalid token pattern id must be non-empty!")
    else if eofID == invalidID then Err("EOF and invalid token pattern ids must be distinct!")
    else Ok(Lexer([], map[], Pattern(eofID, NoMatch(), Tokenizer(eofTokenizer)), Pattern(invalidID, NoMatch(), Tokenizer(invalidTokenizer))))
  }

  /** The unnamed `AddPattern`s: a pattern that skips text, with or without a procedure. */
  function AddUnnamed<T>(lx: Lexer<T>, matcher: Matcher, procedure: Option<(LexMatch, nat) -> nat>): (r: Lexer<T>)
    requires Wf(lx)
    ensures Wf(r) && r.named == lx.named
    ensures r.patterns == lx.patterns + [Pattern("", matcher, if procedure.Some? then Procedure(procedure.value) else NoAction)]
  {
    lx.(patterns := lx.patterns + [Pattern("", matcher, if procedure.Some? then Procedure(procedure.value) else NoAction)])
  }

  /** The named `AddPattern` as written: the ID must be non-empty, new, and not the EOF
      pattern's, but it may be the invalid pattern's. */
  function AddNamedAsWritten<T>(lx: Lexer<T>, id: string, matcher: Matcher, action: Action<T>): (r: Result<Lexer<T>, string>)
    ensures r.Ok? <==> id != "" && id !in lx.named && id != lx.eof.id
    ensures r.Ok? ==> r.value.patterns == lx.patterns + [Pattern(id, matcher, action)]
  {
    if id == "" then Err("ID must be non-empty!")
    else if id in lx.named || id == lx.eof.id then Err("Pattern with name '" + id + "' already exists.")
    else Ok(lx.(named := lx.named[id := |lx.patterns|], patterns := lx.patterns + [Pattern(id, matcher, action)]))
  }

  /** The named `AddPattern`, refusing both sentinels' IDs. */
  function AddNamed<T>(lx: Lexer<T>, id: string, matcher: Matcher, action: Action<T>): (r: Result<Lexer<T>, string>)
    requires Wf(lx)
    ensures r.Ok? <==> id != "" && id !in lx.named && id != lx.eof.id && id != lx.invalid.id
    ensures r.Ok? ==> Wf(r.value) && r.value.patterns == lx.patterns + [Pattern(id, matcher, action)] && id in r.value.named && r.value.named[id] == |lx.patterns|
    ensures id == "" ==> r == Err("ID must be non-empty!")
    ensures id != "" && (id in lx.named || id == lx.eof.id || id == lx.invalid.id) ==> r == Err("Pattern with name '" + id + "' already exists.")
  {
    if id == "" then Err("ID must be non-empty!")
    else if id in lx.named || id == lx.eof.id || id == lx.invalid.id then Err("Pattern with name '" + id + "' already exists.")
    else Ok(lx.(named := lx.named[id := |lx.patterns|], patterns := lx.patterns + [Pattern(id, matcher, action)]))
  }

  /** A pattern ID paired with its token and the stream after it; or the stream when the
      chosen pattern's action is no tokenizer (`std::get` throws); or a skipping loop that
      would not end. */
  datatype Lexed<T> = Lexed(patternID: string, token: T, stream: Stream) | NoTokenizer(stream: Stream) | OutOfFuel

  /** The end of `Lex`: EOF's text becomes `(char)EOF`, the invalid pattern's the one character
      read past; then the chosen pattern's tokenizer makes the token. */
  function Conclude<T>(lx: Lexer<T>, chosen: Pattern<T>, m: LexMatch, s: Stream): (r: Lexed<T>)
    ensures r.Lexed? <==> chosen.action.Tokenizer?
    ensures r.Lexed? ==> r.patternID == chosen.id
    ensures !r.OutOfFuel? && r.stream.data == s.data
  {
    var (text, after) :=
      if chosen.id == lx.eof.id then ([TableStream.EOF_CHAR], s)
      else if chosen.id == lx.invalid.id then ([Get(s).0], Get(s).1)
      else (m.value, s);
    match chosen.action
    case Tokenizer(make) =>
      var (token, offset) := make(m.(value := text), after.offset);
      Lexed(chosen.id, token, after.(offset := offset))
    case _ => NoTokenizer(after)
  }

  /** The text the pattern at index `i` matches at the offset, if any. */
  function Attempt<T>(lx: Lexer<T>, s: Stream, i: nat): (r: Option<nat>)
    requires i < |lx.patterns| && s.offset <= |s.data|
    ensures r.Some? ==> s.offset + r.value <= |s.data|
  {
    Within(lx.patterns[i].matcher(s.data[s.offset..]), s.data[s.offset..])
  }

  /** An ID a token of `lx` can carry: a sentinel's, or a named pattern's. */
  predicate Registered<T>(lx: Lexer<T>, id: string)
  {
    id == lx.eof.id || id == lx.invalid.id || (id != "" && exists i | 0 <= i < |lx.patterns| :: lx.patterns[i].id == id)
  }

  /** `Lex`: EOF at the end; no patterns means invalid; otherwise the scan. */
  function Lex<T>(lx: Lexer<T>, s: Stream, fuel: nat): (r: Lexed<T>)
    ensures IsEOF(s) ==> (r.Lexed? <==> lx.eof.action.Tokenizer?) && (r.Lexed? ==> r.patternID == lx.eof.id)
    ensures !IsEOF(s) && |lx.patterns| == 0 && r.Lexed? ==> r.patternID == lx.invalid.id
    ensures r.Lexed? ==> Registered(lx, r.patternID)
    ensures !r.OutOfFuel? ==> r.stream.data == s.data
  {
    var m := LexMatch("", GetPosition(s));
    if IsEOF(s) then Conclude(lx, lx.eof, m, s)
    else if |lx.patterns| == 0 then Conclude(lx, lx.invalid, m, s)
    else Scan(lx, s, 0, m, fuel)
  }

  /** The scan from pattern `i`: the first pattern that matches wins.  A named one is the
      token; an unnamed one is skipped (its procedure runs), the match's position moves to the
      new offset, and the scan restarts at the first pattern, ending at EOF if the text is
      used up.  Each restart costs one unit of `fuel`. */
  function Scan<T>(lx: Lexer<T>, s: Stream, i: nat, m: LexMatch, fuel: nat): (r: Lexed<T>)
    requires i <= |lx.patterns| && !IsEOF(s)
    ensures r.Lexed? ==> Registered(lx, r.patternID)
    ensures !r.OutOfFuel? ==> r.stream.data == s.data
    decreases fuel, |lx.patterns| - i
  {
    if i == |lx.patterns| then Conclude(lx, lx.invalid, m, s)
    else
      match Attempt(lx, s, i)
      case None => Scan(lx, s, i + 1, m, fuel)
      case Some(len) =>
        var text := s.data[s.offset..s.offset + len];
        var skipped := Ignore(s, len);
        var p := lx.patterns[i];
        if p.id != "" then Conclude(lx, p, m.(value := text), skipped)
        else
          var moved := if p.action.Procedure? then skipped.(offset := p.action.run(m.(value := text), skipped.offset)) else skipped;
          var next := LexMatch(text, GetPosition(moved));
          if IsEOF(moved) then Conclude(lx, lx.eof, next, moved)
          else if fuel == 0 then OutOfFuel
          else Scan(lx, moved, 0, next, fuel - 1)
  }

  /** The reference rule: the least index of an attempt that matched. */
  ghost predicate IsFirst(lens: seq<Option<nat>>, k: nat)
  {
    k < |lens| && lens[k].Some? && forall i | 0 <= i < k :: lens[i].None?
  }

  function Attempts<T>(lx: Lexer<T>, s: Stream): (lens: seq<Option<nat>>)
    requires s.offset <= |s.data|
    ensures |lens| == |lx.patterns|
    ensures forall i | 0 <= i < |lens| :: lens[i] == Attempt(lx, s, i)
  {
    seq(|lx.patterns|, i requires 0 <= i < |lx.patterns| => Attempt(lx, s, i))
  }

  /** When the first pattern to match at the offset is named, `Lex` makes its token from the
      text it matched, placed at the offset: registration order decides, not length. */
  lemma LexTakesFirstNamed<T>(lx: Lexer<T>, s: Stream, k: nat, fuel: nat)
    requires !IsEOF(s)
    requires IsFirst(Attempts(lx, s), k) && lx.patterns[k].id != ""
    ensures var len := Attempt(lx, s, k).value;
      Lex(lx, s, fuel) == Conclude(lx, lx.patterns[k], LexMatch(s.data[s.offset..s.offset + len], GetPosition(s)), Ignore(s, len))
  {
    var m := LexMatch("", GetPosition(s));
    var len := Attempt(lx, s, k).value;
    assert Lex(lx, s, fuel) == Scan(lx, s, 0, m, fuel);
    ScanSkipsFailures(lx, s, 0, k, m, fuel);
    ScanTakesNamed(lx, s, k, m, fuel);
  }

  /** A named pattern that matches where the scan stands ends the scan. */
  lemma ScanTakesNamed<T>(lx: Lexer<T>, s: Stream, k: nat, m: LexMatch, fuel: nat)
    requires k < |lx.patterns| && !IsEOF(s)
    requires Attempt(lx, s, k).Some? && lx.patterns[k].id != ""
    ensures var len := Attempt(lx, s, k).value;
      Scan(lx, s, k, m, fuel) == Conclude(lx, lx.patterns[k], m.(value := s.data[s.offset..s.offset + len]), Ignore(s, len))
  {
  }

  /** When no pattern matches at the offset, `Lex` gives the invalid pattern's token. */
  lemma LexInvalidWhenNoneMatch<T>(lx: Lexer<T>, s: Stream, fuel: nat)
    requires !IsEOF(s)
    requires forall i | 0 <= i < |lx.patterns| :: Attempt(lx, s, i).None?
    ensures Lex(lx, s, fuel) == Conclude(lx, lx.invalid, LexMatch("", GetPosition(s)), s)
  {
    if |lx.patterns| > 0 {
      ScanSkipsFailures(lx, s, 0, |lx.patterns|, LexMatch("", GetPosition(s)), fuel);
    }
  }

  /** The scan passes over patterns that do not match. */
  lemma {:induction false} ScanSkipsFailures<T>(lx: Lexer<T>, s: Stream, i: nat, k: nat, m: LexMatch, fuel: nat)
    requires i <= k <= |lx.patterns| && !IsEOF(s)
    requires forall j | i <= j < k :: Attempt(lx, s, j).None?
    ensures Scan(lx, s, i, m, fuel) == Scan(lx, s, k, m, fuel)
  {
    var j := k;
    while j > i
      invariant i <= j <= k
      invariant Scan(lx, s, j, m, fuel) == Scan(lx, s, k, m, fuel)
      decreases j
    {
      ScanSkipsOne(lx, s, j - 1, m, fuel);
      j := j - 1;
    }
  }

  /** One step of `ScanSkipsFailures`. */
  lemma ScanSkipsOne<T>(lx: Lexer<T>, s: Stream, i: nat, m: LexMatch, fuel: nat)
    requires i < |lx.patterns| && !IsEOF(s) && Attempt(lx, s, i).None?
    ensures Scan(lx, s, i, m, fuel) == Scan(lx, s, i + 1, m, fuel)
  {
  }

  /** With the IDs `AddNamed` allows, a named pattern's token is made from its own text at the
      stream it left. */
  lemma NamedTokenKeepsItsText<T>(lx: Lexer<T>, k: nat, m: LexMatch, s: Stream)
    requires Wf(lx) && k < |lx.patterns| && lx.patterns[k].action.Tokenizer?
    ensures var (token, offset) := lx.patterns[k].action.make(m, s.offset);
      Conclude(lx, lx.patterns[k], m, s) == Lexed(lx.patterns[k].id, token, s.(offset := offset))
  {
  }

  /** `AddNamedAsWritten` accepts the invalid pattern's ID, and a pattern under that ID is
      then concluded like the invalid pattern: its text is dropped for the next character,
      which is consumed as well. */
  lemma InvalidIdAcceptedAsWritten<T>(lx: Lexer<T>, matcher: Matcher, make: (LexMatch, nat) -> (T, nat), m: LexMatch, s: Stream)
    requires Wf(lx) && lx.invalid.id !in lx.named && !IsEOF(s)
    ensures var r := AddNamedAsWritten(lx, lx.invalid.id, matcher, Tokenizer(make));
      && r.Ok?
      && AddNamed(lx, lx.invalid.id, matcher, Tokenizer(make)).Err?
      && var (token, offset) := make(m.(value := [s.data[s.offset]]), s.offset + 1);
         Conclude(r.value, Pattern(lx.invalid.id, matcher, Tokenizer(make)), m, s) == Lexed(lx.invalid.id, token, s.(offset := offset))
  {
  }
}

=== FILE: gen_lexer.dfy ===
/** The lexer of parser/parser_generator.py: the Python lexer with integer pattern IDs.  EOS is
    0, UNKNOWN is 1, and the n-th registered pattern (from 0) gets n + 2.  Its stream is the
    Python `StringStream` and its `Lex` the Python algorithm, so both are reused here. */
module GenLexer {
  import opened Wrappers
  import opened Longest
  import PyLexer
  import PyStream

  const EOS_PATTERN_ID: int := 0
  const UNKNOWN_PATTERN_ID: int := 1

  type Lexer = PyLexer.Lexer<int>

  function New(onEOS: PyLexer.Action, onUnknown: PyLexer.Action): (lx: Lexer)
    ensures lx.patterns == [] && Numbered(lx)
  {
    PyLexer.Lexer(EOS_PATTERN_ID, UNKNOWN_PATTERN_ID, onEOS, onUnknown, [])
  }

  /** The sentinels are 0 and 1 and pattern i carries the ID i + 2: what a lexer built by
      `AddPattern` calls looks like. */
  ghost predicate Numbered(lx: Lexer)
  {
    && lx.eosId == EOS_PATTERN_ID && lx.unknownId == UNKNOWN_PATTERN_ID
    && forall i :: 0 <= i < |lx.patterns| ==> lx.patterns[i].id == i + 2
  }

  /** Registers a pattern and returns its ID, which is fresh: different from both sentinels
      and from every ID registered before. */
  function AddPattern(lx: Lexer, m: Matcher, action: PyLexer.Action): (r: (Lexer, int))
    ensures r.0.patterns == lx.patterns + [PyLexer.Pattern(r.1, m, action)]
    ensures Numbered(lx) ==> Numbered(r.0)
    ensures Numbered(lx) ==> r.1 != EOS_PATTERN_ID && r.1 != UNKNOWN_PATTERN_ID
    ensures Numbered(lx) ==> forall i :: 0 <= i < |lx.patterns| ==> lx.patterns[i].id != r.1
  {
    var id := |lx.patterns| + 2;
    (lx.(patterns := lx.patterns + [PyLexer.Pattern(id, m, action)]), id)
  }

  /** On a numbered lexer the token ID alone tells the three outcomes of `Lex` apart: 0 exactly
      at the end of the text, 1 exactly when no pattern matches, and otherwise the winning
      pattern's index plus 2. */
  lemma LexIds(lx: Lexer, s: PyStream.Stream)
    requires Numbered(lx)
    ensures var id := PyLexer.Lex(lx, s).0.patternID;
      && (id == EOS_PATTERN_ID <==> PyStream.IsEOS(s))
      && (id == UNKNOWN_PATTERN_ID <==> !PyStream.IsEOS(s) && PyLexer.Winner(lx, s).None?)
      && (id >= 2 ==> PyLexer.Winner(lx, s) == Some(id - 2))
  {
    var w := PyLexer.Winner(lx, s);
    if !PyStream.IsEOS(s) && w.Some? {
      assert lx.patterns[w.value].id == w.value + 2;
    }
  }
}

=== FILE: input.dfy ===
/** The input state of c++/rxd/src/input.cpp: a keyboard and a mouse that collect SDL events
    into a buffer, and once a frame (`Update`) work out which keys or buttons went down and
    which came up since the frame before. */
module Input {
  import opened Wrappers

  /** `SDL_KeyCode`: any 32-bit key code. */
  type Key = int

  /** `MouseButton`, cast from SDL's 8-bit button number: LEFT is 1, MIDDLE 2, RIGHT 3, X1 4
      and X2 5, and the cast keeps any other number too. */
  type Button = b: int | 0 <= b < 256

  const LEFT: Button := 1
  const MIDDLE: Button := 2
  const RIGHT: Button := 3
  const X1: Button := 4
  const X2: Button := 5

  /** `Sint32` and `uint32_t`. */
  type Int32 = x: int | -0x8000_0000 <= x < 0x8000_0000
  type UInt32 = x: int | 0 <= x < 0x1_0000_0000

  /** The conversion of a signed 32-bit coordinate to `uint32_t`, which wraps modulo 2^32. */
  function ToUInt32(x: Int32): (u: UInt32)
    ensures x >= 0 ==> u == x
    ensures x < 0 ==> u == x + 0x1_0000_0000
  {
    x % 0x1_0000_0000
  }

  /** The `SDL_Event`s the two classes look at; everything else is `Other`. */
  datatype Event =
    | KeyDown(key: Key)
    | KeyUp(key: Key)
    | ButtonDown(button: Button)
    | ButtonUp(button: Button)
    | Motion(x: Int32, y: Int32, xrel: Int32, yrel: Int32)
    | Other

  // ---------------------------------------------------------------------------------------
  // The edge detection both classes share

  /** The four sets of `Keyboard` and of `Mouse`: what was down at the last `Update`, what
      came up and what went down then, and the buffer the events since have changed. */
  datatype Switches<T> = Switches(down: set<T>, released: set<T>, pressed: set<T>, buffer: set<T>)

  /** All four sets empty, as the constructors leave them. */
  function NoSwitches<T>(): (s: Switches<T>)
    ensures s.down == s.released == s.pressed == s.buffer == {}
  {
    Switches({}, {}, {}, {})
  }

  /** A key or button going down: `downKeysBuffer.insert`. */
  function Press<T>(s: Switches<T>, x: T): (t: Switches<T>)
    ensures t.buffer == s.buffer + {x}
    ensures t.down == s.down && t.released == s.released && t.pressed == s.pressed
  {
    s.(buffer := s.buffer + {x})
  }

  /** A key or button coming up: `downKeysBuffer.erase`. */
  function Release<T>(s: Switches<T>, x: T): (t: Switches<T>)
    ensures t.buffer == s.buffer - {x}
    ensures t.down == s.down && t.released == s.released && t.pressed == s.pressed
  {
    s.(buffer := s.buffer - {x})
  }

  /** `Update`'s two loops: released are the ones down before and not in the buffer, pressed
      the ones in the buffer and not down before; then the buffer becomes what is down. */
  method Update<T>(s: Switches<T>) returns (t: Switches<T>)
    ensures forall x :: x in t.released <==> x in s.down && x !in s.buffer
    ensures forall x :: x in t.pressed <==> x in s.buffer && x !in s.down
    ensures t.down == s.buffer && t.buffer == s.buffer
  {
    var released: set<T> := {};
    var rest := s.down;
    while rest != {}
      invariant rest <= s.down
      invariant forall x :: x in released <==> x in s.down && x !in rest && x !in s.buffer
      decreases rest
    {
      var x :| x in rest;
      if x !in s.buffer {
        released := released + {x};
      }
      rest := rest - {x};
    }
    var pressed: set<T> := {};
    rest := s.buffer;
    while rest != {}
      invariant rest <= s.buffer
      invariant forall x :: x in pressed <==> x in s.buffer && x !in rest && x !in s.down
      decreases rest
    {
      var x :| x in rest;
      if x !in s.down {
        pressed := pressed + {x};
      }
      rest := rest - {x};
    }
    t := Switches(s.buffer, released, pressed, s.buffer);
  }

  /** Nothing both went down and came up in the same `Update`; what went down is down, and
      what came up is not. */
  method UpdateDisjoint<T>(s: Switches<T>) returns (t: Switches<T>)
    ensures t.pressed !! t.released
    ensures t.pressed <= t.down && t.released !! t.down
  {
    t := Update(s);
  }

  /** A second `Update` with no event in between reports nothing pressed or released, and
      leaves the same things down. */
  method UpdateTwice<T>(s: Switches<T>) returns (t: Switches<T>)
    ensures t.pressed == {} && t.released == {}
    ensures t.down == s.buffer
  {
    var u := Update(s);
    t := Update(u);
  }

  // ---------------------------------------------------------------------------------------
  // Keyboard

  type Keyboard = Switches<Key>

  /** `Keyboard::HandleEvent`: a key down inserts the key into the buffer, a key up erases it,
      and any other event changes nothing. */
  function KeyboardEvent(k: Keyboard, e: Event): (l: Keyboard)
    ensures e.KeyDown? ==> l == Press(k, e.key)
    ensures e.KeyUp? ==> l == Release(k, e.key)
    ensures !e.KeyDown? && !e.KeyUp? ==> l == k
  {
    match e
    case KeyDown(key) => Press(k, key)
    case KeyUp(key) => Release(k, key)
    case _ => k
  }

  /** `IsKeyDown`, `WasKeyReleased` and `WasKeyPressed`. */
  predicate IsKeyDown(k: Keyboard, key: Key) { key in k.down }
  predicate WasKeyReleased(k: Keyboard, key: Key) { key in k.released }
  predicate WasKeyPressed(k: Keyboard, key: Key) { key in k.pressed }

  /** The events of a frame, handled in order. */
  function KeyboardEvents(k: Keyboard, events: seq<Event>): (l: Keyboard)
    ensures l.down == k.down && l.released == k.released && l.pressed == k.pressed
    decreases |events|
  {
    if |events| == 0 then k else KeyboardEvents(KeyboardEvent(k, events[0]), events[1..])
  }

  /** What the last event about `key` says: `Some(true)` for a key down, `Some(false)` for a
      key up, `None` when no event names it. */
  function LastKeyEvent(events: seq<Event>, key: Key): Option<bool>
    decreases |events|
  {
    if |events| == 0 then None
    else
      var later := LastKeyEvent(events[1..], key);
      if later.Some? then later
      else if events[0] == KeyDown(key) then Some(true)
      else if events[0] == KeyUp(key) then Some(false)
      else None
  }

  /** After a frame's events a key is in the buffer exactly when the last event about it was
      a key down, or when no event named it and it was in the buffer before. */
  lemma {:induction false} KeyboardBuffer(k: Keyboard, events: seq<Event>, key: Key)
    ensures key in KeyboardEvents(k, events).buffer <==>
            LastKeyEvent(events, key) == Some(true) || (LastKeyEvent(events, key).None? && key in k.buffer)
    decreases |events|
  {
    if |events| > 0 {
      KeyboardBuffer(KeyboardEvent(k, events[0]), events[1..], key);
    }
  }

  /** The frame as a whole: the events, then `Update`.  A key was pressed in the frame exactly
      when it was not down before and the last event about it was a key down, or it was
      already in the buffer and no event named it; and symmetrically for released. */
  method KeyboardFrame(k: Keyboard, events: seq<Event>) returns (l: Keyboard)
    ensures forall key :: WasKeyPressed(l, key) <==>
              !IsKeyDown(k, key) && (LastKeyEvent(events, key) == Some(true) || (LastKeyEvent(events, key).None? && key in k.buffer))
    ensures forall key :: WasKeyReleased(l, key) <==>
              IsKeyDown(k, key) && !(LastKeyEvent(events, key) == Some(true) || (LastKeyEvent(events, key).None? && key in k.buffer))
    ensures forall key :: IsKeyDown(l, key) <==> key in KeyboardEvents(k, events).buffer
  {
    var handled := KeyboardEvents(k, events);
    forall key: Key
      ensures key in handled.buffer <==>
              LastKeyEvent(events, key) == Some(true) || (LastKeyEvent(events, key).None? && key in k.buffer)
    {
      KeyboardBuffer(k, events, key);
    }
    l := Update(handled);
  }

  // ---------------------------------------------------------------------------------------
  // Mouse

  /** `Mouse`: the button sets, and the position and motion of the last `Update` beside the
      buffered ones. */
  datatype Mouse = Mouse(
    buttons: Switches<Button>,
    position: (UInt32, UInt32), positionBuffer: (UInt32, UInt32),
    delta: (Int32, Int32), deltaBuffer: (Int32, Int32))

  /** The constructor: no button down, and both vectors value-initialised to zero. */
  function NewMouse(): (m: Mouse)
    ensures m.buttons == NoSwitches() && m.position == m.positionBuffer == (0, 0)
    ensures m.delta == m.deltaBuffer == (0, 0)
  {
    Mouse(NoSwitches(), (0, 0), (0, 0), (0, 0), (0, 0))
  }

  /** `Mouse::HandleEvent`: button events as for keys; a motion overwrites the position
      buffer, converted to unsigned, and the delta buffer; anything else changes nothing. */
  function MouseEvent(m: Mouse, e: Event): (n: Mouse)
    ensures e.ButtonDown? ==> n == m.(buttons := Press(m.buttons, e.button))
    ensures e.ButtonUp? ==> n == m.(buttons := Release(m.buttons, e.button))
    ensures e.Motion? ==> n == m.(positionBuffer := (ToUInt32(e.x), ToUInt32(e.y)), deltaBuffer := (e.xrel, e.yrel))
    ensures !e.ButtonDown? && !e.ButtonUp? && !e.Motion? ==> n == m
  {
    match e
    case ButtonDown(b) => m.(buttons := Press(m.buttons, b))
    case ButtonUp(b) => m.(buttons := Release(m.buttons, b))
    case Motion(x, y, xrel, yrel) => m.(positionBuffer := (ToUInt32(x), ToUInt32(y)), deltaBuffer := (xrel, yrel))
    case _ => m
  }

  /** `Mouse::Update`: the buttons as for keys, and the buffered position and delta become
      the ones the getters return. */
  method MouseUpdate(m: Mouse) returns (n: Mouse)
    ensures forall b :: b in n.buttons.released <==> b in m.buttons.down && b !in m.buttons.buffer
    ensures forall b :: b in n.buttons.pressed <==> b in m.buttons.buffer && b !in m.buttons.down
    ensures n.buttons.down == n.buttons.buffer == m.buttons.buffer
    ensures n.position == n.positionBuffer == m.positionBuffer
    ensures n.delta == n.deltaBuffer == m.deltaBuffer
  {
    var buttons := Update(m.buttons);
    n := m.(buttons := buttons, position := m.positionBuffer, delta := m.deltaBuffer);
  }

  /** `IsButtonDown`, `WasButtonReleased` and `WasButtonPressed`. */
  predicate IsButtonDown(m: Mouse, b: Button) { b in m.buttons.down }
  predicate WasButtonReleased(m: Mouse, b: Button) { b in m.buttons.released }
  predicate WasButtonPressed(m: Mouse, b: Button) { b in m.buttons.pressed }

  /** `GetX`, `GetY`, `GetDX` and `GetDY`. */
  function GetX(m: Mouse): UInt32 { m.position.0 }
  function GetY(m: Mouse): UInt32 { m.position.1 }
  function GetDX(m: Mouse): Int32 { m.delta.0 }
  function GetDY(m: Mouse): Int32 { m.delta.1 }

  /** The events of a frame, handled in order. */
  function MouseEvents(m: Mouse, events: seq<Event>): (n: Mouse)
    ensures n.position == m.position && n.delta == m.delta && n.buttons.down == m.buttons.down
    decreases |events|
  {
    if |events| == 0 then m else MouseEvents(MouseEvent(m, events[0]), events[1..])
  }

  /** The last motion event among `events`, if any. */
  function LastMotion(events: seq<Event>): (e: Option<Event>)
    ensures e.Some? ==> e.value.Motion?
    decreases |events|
  {
    if |events| == 0 then None
    else
      var later := LastMotion(events[1..]);
      if later.Some? then later
      else if events[0].Motion? then Some(events[0])
      else None
  }

  /** After a frame's events the buffered position and delta are those of the last motion,
      or the ones before when there was none. */
  lemma {:induction false} MouseMotionBuffer(m: Mouse, events: seq<Event>)
    ensures var n := MouseEvents(m, events);
            match LastMotion(events)
            case Some(e) => n.positionBuffer == (ToUInt32(e.x), ToUInt32(e.y)) && n.deltaBuffer == (e.xrel, e.yrel)
            case None => n.positionBuffer == m.positionBuffer && n.deltaBuffer == m.deltaBuffer
    decreases |events|
  {
    if |events| > 0 {
      MouseMotionBuffer(MouseEvent(m, events[0]), events[1..]);
    }
  }

  /** The frame as a whole: after the events and `Update`, the getters report the last
      motion of the frame; when the mouse did not move they report what was buffered, which
      after the constructor or an earlier `Update` is what they reported before, the delta
      of the last motion included. */
  method MouseFrame(m: Mouse, events: seq<Event>) returns (n: Mouse)
    ensures forall b :: WasButtonPressed(n, b) <==> !IsButtonDown(m, b) && b in MouseEvents(m, events).buttons.buffer
    ensures forall b :: WasButtonReleased(n, b) <==> IsButtonDown(m, b) && b !in MouseEvents(m, events).buttons.buffer
    ensures forall b :: IsButtonDown(n, b) <==> b in MouseEvents(m, events).buttons.buffer
    ensures n.position == n.positionBuffer && n.delta == n.deltaBuffer
    ensures LastMotion(events).Some? ==>
              var e := LastMotion(events).value;
              GetX(n) == ToUInt32(e.x) && GetY(n) == ToUInt32(e.y) && GetDX(n) == e.xrel && GetDY(n) == e.yrel
    ensures LastMotion(events).None? ==> n.position == m.positionBuffer && n.delta == m.deltaBuffer
    ensures LastMotion(events).None? && m.position == m.positionBuffer && m.delta == m.deltaBuffer ==>
              GetX(n) == GetX(m) && GetY(n) == GetY(m) && GetDX(n) == GetDX(m) && GetDY(n) == GetDY(m)
  {
    var handled := MouseEvents(m, events);
    MouseMotionBuffer(m, events);
    n := MouseUpdate(handled);
  }
}

=== FILE: json_properties.dfy ===
/** What `JSONReader` of c++/json/json.h promises about the texts it reads: the shape of the
    numbers it accepts, the escapes of its strings, that a written value reads back, and the
    two places where the reader does not do what it evidently means to. */
module JsonProperties {
  import opened Wrappers
  import opened Lines
  import opened JsonReader
  import TableStream

  // ---------------------------------------------------------------------------------------
  // Taking characters

  /** The reader after `k` characters are taken. */
  function Skip(r: Reader, k: nat): (s: Reader)
    requires r.offset + k <= |r.data|
    ensures s.data == r.data && s.offset == r.offset + k
    decreases k
  {
    if k == 0 then r else Skip(Take(r), k - 1)
  }

  /** `data[offset..]` begins with `a + b` exactly when it begins with `a` and the text after
      `a` begins with `b`. */
  lemma SpelledSplit(data: string, offset: nat, a: string, b: string)
    ensures SpelledAt(data, offset, a + b) <==> SpelledAt(data, offset, a) && SpelledAt(data, offset + |a|, b)
  {
    if SpelledAt(data, offset, a) && SpelledAt(data, offset + |a|, b) {
      assert data[offset..offset + |a + b|] == data[offset..offset + |a|] + data[offset + |a|..offset + |a| + |b|];
    }
    if SpelledAt(data, offset, a + b) {
      assert data[offset..offset + |a|] == data[offset..offset + |a + b|][..|a|];
      assert data[offset + |a|..offset + |a| + |b|] == data[offset..offset + |a + b|][|a|..];
    }
  }

  /** The character at `offset` of a text that begins with `word` there. */
  lemma SpelledFirst(data: string, offset: nat, word: string, k: nat)
    requires SpelledAt(data, offset, word) && k < |word|
    ensures offset + k < |data| && data[offset + k] == word[k]
  {
    assert data[offset + k] == data[offset..offset + |word|][k];
  }

  // ---------------------------------------------------------------------------------------
  // Numbers

  /** The run from `i` in a slice of `data` is the run in `data`, cut at the slice's end. */
  lemma {:induction false} RunSlice(data: string, o: nat, e: nat, i: nat, c: Class)
    requires o + i <= e <= |data|
    ensures Run(data[o..e], i, c) == if Run(data, o + i, c) < e - o - i then Run(data, o + i, c) else e - o - i
    decreases e - o - i
  {
    if o + i < e {
      assert data[o..e][i] == data[o + i];
      RunSlice(data, o, e, i + 1, c);
    }
  }

  /** A run that meets a character outside its class, or the end, stops there. */
  lemma RunStops(data: string, i: nat, c: Class, n: nat)
    requires i + n <= |data| && n <= Run(data, i, c)
    requires i + n == |data| || !Is(data[i + n], c)
    ensures Run(data, i, c) == n
  {
    if Run(data, i, c) > n {
      RunHolds(data, i, c, i + n);
    }
  }

  /** What may follow a number: the end of the text, or neither a digit nor a '.'. */
  predicate Delimited(data: string, end: nat)
  {
    end >= |data| || !(IsDigit(data[end]) || data[end] == '.')
  }

  /** The lexemes `ReadNumber` accepts: '-'s, digits, and optionally a '.' and more digits. */
  ghost predicate NumberLexeme(s: string)
  {
    var m := Run(s, 0, Minus);
    var a := Run(s, m, Digit);
    a > 0 && (m + a == |s| || (s[m + a] == '.' && Run(s, m + a + 1, Digit) > 0 && m + a + 1 + Run(s, m + a + 1, Digit) == |s|))
  }

  /** The digit loop passes over a run of digits unchanged. */
  lemma {:induction false} DigitsSkip(r: Reader, start: nat, hasDecimal: bool, pos: Position, k: nat)
    requires start <= r.offset && r.offset + k <= |r.data|
    requires k <= Run(r.data, r.offset, Digit)
    ensures DigitsLoop(r, start, hasDecimal, pos) == DigitsLoop(Skip(r, k), start, hasDecimal, pos)
    decreases k
  {
    if k > 0 {
      DigitsSkip(Take(r), start, hasDecimal, pos, k - 1);
    }
  }

  /** Past its digits, the loop ends with the checks after it. */
  lemma DigitsEnd(r: Reader, start: nat, hasDecimal: bool, pos: Position)
    requires start <= r.offset && Delimited(r.data, r.offset)
    ensures DigitsLoop(r, start, hasDecimal, pos) == NumberEnd(r, start, pos)
  {
  }

  /** The first '.' after a digit is taken, and the loop goes on with a decimal. */
  lemma DigitsPoint(r: Reader, start: nat, pos: Position)
    requires start < r.offset < |r.data| && r.data[r.offset] == '.' && IsDigit(r.data[r.offset - 1])
    ensures DigitsLoop(r, start, false, pos) == DigitsLoop(Take(r), start, true, pos)
  {
  }

  /** The runs a number lexeme is made of, found in a text that spells it. */
  lemma LexemeRuns(data: string, o: nat, lex: string, m: nat, a: nat)
    requires NumberLexeme(lex) && SpelledAt(data, o, lex) && Delimited(data, o + |lex|)
    requires m == Run(lex, 0, Minus) && a == Run(lex, m, Digit)
    ensures Run(data, o, Minus) == m && Run(data, o + m, Digit) == a
    ensures m + a < |lex| ==> data[o + m + a] == '.' && Run(data, o + m + a + 1, Digit) == |lex| - m - a - 1
  {
    SliceRun(data, o, lex, 0, Minus);
    if m + a < |lex| {
      PointRuns(data, o, lex, m, a);
    } else {
      TailRun(data, o, lex, m);
    }
  }

  /** A number lexeme with a '.': its digits, the '.', and the digits after it, in the text. */
  lemma PointRuns(data: string, o: nat, lex: string, m: nat, a: nat)
    requires NumberLexeme(lex) && SpelledAt(data, o, lex) && Delimited(data, o + |lex|)
    requires m == Run(lex, 0, Minus) && a == Run(lex, m, Digit) && m + a < |lex|
    ensures Run(data, o + m, Digit) == a
    ensures data[o + m + a] == '.' && Run(data, o + m + a + 1, Digit) == |lex| - m - a - 1
  {
    assert lex[m + a] == '.' && Run(lex, m + a + 1, Digit) == |lex| - (m + a + 1);
    SliceRun(data, o, lex, m, Digit);
    SpelledFirst(data, o, lex, m + a);
    TailRun(data, o, lex, m + a + 1);
  }

  /** A run inside a spelled word is the run in the text, cut at the word's end. */
  lemma SliceRun(data: string, o: nat, lex: string, i: nat, c: Class)
    requires SpelledAt(data, o, lex) && i <= |lex|
    ensures Run(lex, i, c) == if Run(data, o + i, c) < |lex| - i then Run(data, o + i, c) else |lex| - i
  {
    assert lex == data[o..o + |lex|];
    RunSlice(data, o, o + |lex|, i, c);
  }

  /** A run of digits that ends a spelled word, when no digit follows the word, ends there in
      the text too. */
  lemma TailRun(data: string, o: nat, lex: string, i: nat)
    requires SpelledAt(data, o, lex) && Delimited(data, o + |lex|)
    requires i <= |lex| && Run(lex, i, Digit) == |lex| - i
    ensures Run(data, o + i, Digit) == |lex| - i
  {
    SliceRun(data, o, lex, i, Digit);
    RunStops(data, o + i, Digit, |lex| - i);
  }

  /** The text `ReadNumber` takes from `o`, as a length, or `None` where it throws: '-'s, at
      least one digit, and then either no '.' or a '.', at least one digit and no second '.'. */
  function NumberSpan(data: string, o: nat): (n: Option<nat>)
    requires o <= |data|
    ensures n.Some? ==> 0 < n.value && o + n.value <= |data| && Delimited(data, o + n.value)
  {
    var m := Run(data, o, Minus);
    var a := Run(data, o + m, Digit);
    var p := o + m + a;
    if a == 0 then None
    else if p < |data| && data[p] == '.' then
      var f := Run(data, p + 1, Digit);
      var q := p + 1 + f;
      if f == 0 || (q < |data| && data[q] == '.') then None else Some(q - o)
    else Some(p - o)
  }

  /** `ReadNumber` after its '-'s and its first digits. */
  lemma IntegerDigits(r: Reader) returns (r2: Reader)
    ensures var m := Run(r.data, r.offset, Minus);
            r2.data == r.data && r2.offset == r.offset + m + Run(r.data, r.offset + m, Digit)
    ensures ReadNumber(r) == DigitsLoop(r2, r.offset, false, r.pos)
  {
    var r1 := MinusLoop(r);
    var a := Run(r.data, r1.offset, Digit);
    DigitsSkip(r1, r.offset, false, r.pos, a);
    r2 := Skip(r1, a);
  }

  /** Without digits, the loop throws: it stops at once, or at a '.' after a '-'. */
  lemma NoDigits(r: Reader, r2: Reader)
    requires var m := Run(r.data, r.offset, Minus);
             r2.data == r.data && r2.offset == r.offset + m && Run(r.data, r.offset + m, Digit) == 0
    ensures DigitsLoop(r2, r.offset, false, r.pos).Thrown?
  {
    var m := r2.offset - r.offset;
    if m > 0 {
      RunHolds(r.data, r.offset, Minus, r2.offset - 1);
    }
  }

  /** Digits not followed by a '.' end the loop: it reads them, with the '-'s before. */
  lemma IntegerEnd(r: Reader, r2: Reader)
    requires r.offset < r2.offset <= |r.data| && r2.data == r.data
    requires IsDigit(r.data[r2.offset - 1]) && Delimited(r.data, r2.offset)
    ensures DigitsLoop(r2, r.offset, false, r.pos) == Read(JNumber(r.data[r.offset..r2.offset]), r2)
  {
    DigitsEnd(r2, r.offset, false, r.pos);
  }

  /** A '.' after digits goes on with the fraction: its digits, and the checks after them. */
  lemma Fraction(r: Reader, r2: Reader) returns (r3: Reader)
    requires r.offset < r2.offset < |r.data| && r2.data == r.data
    requires IsDigit(r.data[r2.offset - 1]) && r.data[r2.offset] == '.'
    ensures r3.data == r.data && r3.offset == r2.offset + 1 + Run(r.data, r2.offset + 1, Digit)
    ensures var o := DigitsLoop(r2, r.offset, false, r.pos);
            if r3.offset < |r.data| && r.data[r3.offset] == '.' then o.Thrown?
            else o == NumberEnd(r3, r.offset, r.pos)
  {
    DigitsPoint(r2, r.offset, r.pos);
    var f := Run(r.data, r2.offset + 1, Digit);
    DigitsSkip(Take(r2), r.offset, true, r.pos, f);
    r3 := Skip(Take(r2), f);
  }

  /** After a '.', the loop reads up to the end of the fraction's digits, unless there are none
      or a second '.' follows them. */
  lemma FractionEnd(r: Reader, r2: Reader)
    requires r.offset < r2.offset < |r.data| && r2.data == r.data
    requires IsDigit(r.data[r2.offset - 1]) && r.data[r2.offset] == '.'
    ensures var f := Run(r.data, r2.offset + 1, Digit);
            var q := r2.offset + 1 + f;
            var o := DigitsLoop(r2, r.offset, false, r.pos);
            && (o.Read? <==> f > 0 && !(q < |r.data| && r.data[q] == '.'))
            && (o.Read? ==> o.rest.offset == q)
  {
    var r3 := Fraction(r, r2);
    if !(r3.offset < |r.data| && r.data[r3.offset] == '.') {
      EndOfFraction(r, r2, r3);
    }
    FractionOutcome(r, r2, r3, DigitsLoop(r2, r.offset, false, r.pos));
  }

  /** `FractionEnd` for the outcome `o` of the loop, given what `Fraction` says of it. */
  lemma FractionOutcome(r: Reader, r2: Reader, r3: Reader, o: Outcome<Json>)
    requires r.offset < r2.offset < |r.data| && r2.data == r.data && r.data[r2.offset] == '.'
    requires r3.data == r.data && r3.offset == r2.offset + 1 + Run(r.data, r2.offset + 1, Digit)
    requires if r3.offset < |r.data| && r.data[r3.offset] == '.' then o.Thrown?
             else o == NumberEnd(r3, r.offset, r.pos)
                  && (NumberEnd(r3, r.offset, r.pos).Read? <==> Run(r.data, r2.offset + 1, Digit) > 0)
    ensures var f := Run(r.data, r2.offset + 1, Digit);
            var q := r2.offset + 1 + f;
            && (o.Read? <==> f > 0 && !(q < |r.data| && r.data[q] == '.'))
            && (o.Read? ==> o.rest.offset == q)
  {
  }

  /** The checks after the loop pass at the end of a fraction exactly when it has digits. */
  lemma EndOfFraction(r: Reader, r2: Reader, r3: Reader)
    requires r.offset < r2.offset < |r.data| && r2.data == r.data && r.data[r2.offset] == '.'
    requires r3.data == r.data && r3.offset == r2.offset + 1 + Run(r.data, r2.offset + 1, Digit)
    ensures NumberEnd(r3, r.offset, r.pos).rest == r3
    ensures NumberEnd(r3, r.offset, r.pos).Read? <==> Run(r.data, r2.offset + 1, Digit) > 0
  {
    LastOfFraction(r.data, r2.offset);
  }

  /** What ends a '.' and the digits after it: the last digit, or the '.' when there are
      none. */
  lemma LastOfFraction(data: string, p: nat)
    requires p < |data| && data[p] == '.'
    ensures var q := p + 1 + Run(data, p + 1, Digit);
            data[q - 1] != '-' && data[q - 1] != '.' <==> Run(data, p + 1, Digit) > 0
  {
    var f := Run(data, p + 1, Digit);
    if f > 0 {
      RunHolds(data, p + 1, Digit, p + f);
    }
  }

  /** The span of a number whose integer digits are followed by a '.'. */
  lemma SpanOfFraction(data: string, o: nat, p: nat)
    requires o <= |data| && var m := Run(data, o, Minus); o + m < p == o + m + Run(data, o + m, Digit)
    requires p < |data| && data[p] == '.'
    ensures var f := Run(data, p + 1, Digit);
            var q := p + 1 + f;
            NumberSpan(data, o) == if f == 0 || (q < |data| && data[q] == '.') then None else Some(q - o)
  {
  }

  /** The span of a number whose integer digits are not followed by a '.'. */
  lemma SpanOfInteger(data: string, o: nat, p: nat)
    requires o <= |data| && var m := Run(data, o, Minus); o + m < p == o + m + Run(data, o + m, Digit)
    requires !(p < |data| && data[p] == '.')
    ensures NumberSpan(data, o) == Some(p - o)
  {
  }

  /** `ReadNumber` reads exactly the span `NumberSpan` finds, and throws where it finds none. */
  lemma NumberSpanReads(r: Reader)
    ensures ReadNumber(r).Read? <==> NumberSpan(r.data, r.offset).Some?
    ensures ReadNumber(r).Read? ==> ReadNumber(r).rest.offset == r.offset + NumberSpan(r.data, r.offset).value
  {
    var r2 := IntegerDigits(r);
    if r2.offset == r.offset + Run(r.data, r.offset, Minus) {
      NoDigits(r, r2);
      NoSpan(r.data, r.offset);
    } else {
      SpanAfterDigits(r, r2);
    }
  }

  lemma NoSpan(data: string, o: nat)
    requires o <= |data| && Run(data, o + Run(data, o, Minus), Digit) == 0
    ensures NumberSpan(data, o) == None
  {
  }

  /** The part of `NumberSpanReads` where there are integer digits. */
  lemma SpanAfterDigits(r: Reader, r2: Reader)
    requires var m := Run(r.data, r.offset, Minus);
             r2.data == r.data && r.offset + m < r2.offset == r.offset + m + Run(r.data, r.offset + m, Digit)
    ensures var d := DigitsLoop(r2, r.offset, false, r.pos);
            var n := NumberSpan(r.data, r.offset);
            && (d.Read? <==> n.Some?)
            && (d.Read? ==> d.rest.offset == r.offset + n.value)
  {
    var o, p := r.offset, r2.offset;
    RunHolds(r.data, o + Run(r.data, o, Minus), Digit, p - 1);
    if p < |r.data| && r.data[p] == '.' {
      SpanAfterFraction(r, r2);
    } else {
      SpanOfInteger(r.data, o, p);
      IntegerEnd(r, r2);
    }
  }

  /** `SpanAfterDigits` where a '.' follows the integer digits. */
  lemma SpanAfterFraction(r: Reader, r2: Reader)
    requires var m := Run(r.data, r.offset, Minus);
             r2.data == r.data && r.offset + m < r2.offset == r.offset + m + Run(r.data, r.offset + m, Digit)
    requires r2.offset < |r.data| && r.data[r2.offset] == '.' && IsDigit(r.data[r2.offset - 1])
    ensures var d := DigitsLoop(r2, r.offset, false, r.pos);
            var n := NumberSpan(r.data, r.offset);
            && (d.Read? <==> n.Some?)
            && (d.Read? ==> d.rest.offset == r.offset + n.value)
  {
    var o, p := r.offset, r2.offset;
    SpanOfFraction(r.data, o, p);
    var f := Run(r.data, p + 1, Digit);
    var q := p + 1 + f;
    var fails := f == 0 || (q < |r.data| && r.data[q] == '.');
    var n := NumberSpan(r.data, o);
    assert n == if fails then None else Some(q - o);
    FractionEnd(r, r2);
    var d := DigitsLoop(r2, o, false, r.pos);
    assert (d.Read? <==> !fails) && (d.Read? ==> d.rest.offset == q);
  }

  /** The span `NumberSpan` finds is a number lexeme. */
  lemma SpanLexeme(data: string, o: nat)
    requires o <= |data| && NumberSpan(data, o).Some?
    ensures NumberLexeme(data[o..o + NumberSpan(data, o).value])
  {
    var m := Run(data, o, Minus);
    var a := Run(data, o + m, Digit);
    var p := o + m + a;
    if p < |data| && data[p] == '.' {
      SpanShape(data, o, m, a, Run(data, p + 1, Digit));
    } else {
      SpanShape(data, o, m, a, 0);
    }
  }

  /** Runs of '-'s, of `a > 0` digits, and, when `f > 0`, a '.' and `f` digits make a number
      lexeme. */
  lemma SpanShape(data: string, o: nat, m: nat, a: nat, f: nat)
    requires o + m + a <= |data| && a > 0
    requires Run(data, o, Minus) == m && Run(data, o + m, Digit) == a
    requires f > 0 ==> o + m + a + 1 + f <= |data| && data[o + m + a] == '.' && Run(data, o + m + a + 1, Digit) == f
    ensures NumberLexeme(data[o..if f == 0 then o + m + a else o + m + a + 1 + f])
  {
    if f == 0 {
      var lex := data[o..o + m + a];
      SliceKeeps(data, o, o + m + a, 0, Minus, m);
      SliceKeeps(data, o, o + m + a, m, Digit, a);
      LexemeOf(lex, m, a, 0);
    } else {
      FractionShape(data, o, m, a, f);
    }
  }

  /** `SpanShape` when there is a fraction. */
  lemma FractionShape(data: string, o: nat, m: nat, a: nat, f: nat)
    requires o + m + a + 1 + f <= |data| && a > 0 && f > 0
    requires Run(data, o, Minus) == m && Run(data, o + m, Digit) == a
    requires data[o + m + a] == '.' && Run(data, o + m + a + 1, Digit) == f
    ensures NumberLexeme(data[o..o + m + a + 1 + f])
  {
    var e := o + m + a + 1 + f;
    var lex := data[o..e];
    SliceKeeps(data, o, e, 0, Minus, m);
    SliceKeeps(data, o, e, m, Digit, a);
    SliceKeeps(data, o, e, m + a + 1, Digit, f);
    assert lex[m + a] == '.';
    LexemeOf(lex, m, a, f);
  }

  /** A run that ends inside a slice has the same length in the slice. */
  lemma SliceKeeps(data: string, o: nat, e: nat, i: nat, c: Class, n: nat)
    requires o + i + n <= e <= |data| && Run(data, o + i, c) == n
    ensures Run(data[o..e], i, c) == n
  {
    RunSlice(data, o, e, i, c);
  }

  /** A number lexeme followed by neither a digit nor a '.' is the span `NumberSpan` finds. */
  lemma LexemeSpan(data: string, o: nat, lex: string)
    requires NumberLexeme(lex) && SpelledAt(data, o, lex) && Delimited(data, o + |lex|)
    ensures NumberSpan(data, o) == Some(|lex|)
  {
    var m := Run(lex, 0, Minus);
    var a := Run(lex, m, Digit);
    LexemeRuns(data, o, lex, m, a);
    if m + a < |lex| {
      assert a > 0 && m + a + 1 < |lex|;
      FractionSpan(data, o, m, a, |lex|);
    } else {
      IntegerSpan(data, o, m, a);
    }
  }

  /** '-'s, digits, a '.', digits and then neither a digit nor a '.' make one span. */
  lemma FractionSpan(data: string, o: nat, m: nat, a: nat, n: nat)
    requires o + n <= |data| && a > 0 && m + a + 1 < n
    requires Run(data, o, Minus) == m && Run(data, o + m, Digit) == a
    requires data[o + m + a] == '.' && Run(data, o + m + a + 1, Digit) == n - m - a - 1
    requires Delimited(data, o + n)
    ensures NumberSpan(data, o) == Some(n)
  {
    SpanOfFraction(data, o, o + m + a);
  }

  /** '-'s and digits followed by neither a digit nor a '.' make one span. */
  lemma IntegerSpan(data: string, o: nat, m: nat, a: nat)
    requires o + m + a <= |data| && a > 0
    requires Run(data, o, Minus) == m && Run(data, o + m, Digit) == a
    requires Delimited(data, o + m + a)
    ensures NumberSpan(data, o) == Some(m + a)
  {
    SpanOfInteger(data, o, o + m + a);
  }

  /** A number lexeme followed by neither a digit nor a '.' is read whole. */
  lemma NumberReads(r: Reader, lex: string)
    requires NumberLexeme(lex) && SpelledAt(r.data, r.offset, lex) && Delimited(r.data, r.offset + |lex|)
    ensures ReadNumber(r).Read? && ReadNumber(r).value == JNumber(lex)
    ensures ReadNumber(r).rest.offset == r.offset + |lex|
  {
    LexemeSpan(r.data, r.offset, lex);
    NumberSpanReads(r);
  }

  /** Whatever `ReadNumber` reads is a number lexeme followed by neither a digit nor a '.'.
      With `NumberReads`, these are exactly the lexemes it reads. */
  lemma NumberShape(r: Reader)
    requires ReadNumber(r).Read?
    ensures NumberLexeme(ReadNumber(r).value.lexeme)
    ensures Delimited(r.data, ReadNumber(r).rest.offset)
  {
    var e := ReadEnd(r);
    SpanLexemeAt(r.data, r.offset, e);
  }

  /** Where a number that reads ends, and what it holds. */
  lemma ReadEnd(r: Reader) returns (e: nat)
    requires ReadNumber(r).Read?
    ensures r.offset <= e <= |r.data| && NumberSpan(r.data, r.offset) == Some(e - r.offset)
    ensures ReadNumber(r).rest.offset == e && ReadNumber(r).value.lexeme == r.data[r.offset..e]
  {
    NumberSpanReads(r);
    e := ReadNumber(r).rest.offset;
  }

  /** `SpanLexeme` with the span's end named. */
  lemma SpanLexemeAt(data: string, o: nat, e: nat)
    requires o <= e <= |data| && NumberSpan(data, o) == Some(e - o)
    ensures NumberLexeme(data[o..e])
  {
    SpanLexeme(data, o);
  }

  /** A text whose runs are `m` '-'s, `a > 0` digits, and, when `f > 0`, a '.' and `f` digits
      is a number lexeme. */
  lemma LexemeOf(s: string, m: nat, a: nat, f: nat)
    requires m + a <= |s| && a > 0
    requires Run(s, 0, Minus) == m && Run(s, m, Digit) == a
    requires if f == 0 then m + a == |s| else m + a + 1 + f == |s| && s[m + a] == '.' && Run(s, m + a + 1, Digit) == f
    ensures NumberLexeme(s)
  {
  }

  // ---------------------------------------------------------------------------------------
  // Strings

  /** How a character is written inside quotes so that `ReadString` gives it back: '"', '\'
      and the control characters with a short escape are escaped, the rest stand for
      themselves. */
  function EscapeChar(c: char): (t: string)
    ensures |t| == 1 ==> t == [c] && c != '"' && c != '\\'
    ensures |t| == 2 ==> t[0] == '\\' && Unescape(t[1]) == Some([c])
    ensures |t| == 1 || |t| == 2
  {
    if c == '"' then "\\\""
    else if c == '\\' then "\\\\"
    else if c == BACKSPACE then "\\b"
    else if c == FORM_FEED then "\\f"
    else if c == '\n' then "\\n"
    else if c == '\r' then "\\r"
    else if c == '\t' then "\\t"
    else [c]
  }

  /** The escaped text of `s`. */
  function Escape(s: string): (t: string)
    decreases |s|
  {
    if |s| == 0 then "" else EscapeChar(s[0]) + Escape(s[1..])
  }

  /** `s` written as a JSON string. */
  function Quote(s: string): string
  {
    "\"" + Escape(s) + "\""
  }

  /** Taking `a` characters and then `b` is taking `a + b`. */
  lemma {:induction false} SkipAdd(r: Reader, a: nat, b: nat)
    requires r.offset + a + b <= |r.data|
    ensures Skip(Skip(r, a), b) == Skip(r, a + b)
    decreases a
  {
    if a > 0 {
      SkipAdd(Take(r), a - 1, b);
    }
  }

  /** `SkipAdd` with the sum named. */
  lemma SkipSum(r: Reader, a: nat, b: nat, n: nat)
    requires n == a + b && r.offset + n <= |r.data|
    ensures r.offset + a + b <= |r.data| && Skip(Skip(r, a), b) == Skip(r, n)
  {
    SkipAdd(r, a, b);
  }

  /** The loop of `ReadString` passes over one escaped character, adding it to the text. */
  lemma EscapedChar(r: Reader, pos: Position, text: string, c: char)
    requires SpelledAt(r.data, r.offset, EscapeChar(c))
    ensures StringLoop(r, pos, text) == StringLoop(Skip(r, |EscapeChar(c)|), pos, text + [c])
  {
    var t := EscapeChar(c);
    SpelledFirst(r.data, r.offset, t, 0);
    if |t| == 2 {
      SpelledFirst(r.data, r.offset, t, 1);
      assert Skip(r, 2) == Take(Take(r));
    } else {
      assert Skip(r, 1) == Take(r);
    }
  }

  /** The loop of `ReadString` passes over an escaped text, adding what it stands for. */
  lemma {:induction false} EscapedPrefix(r: Reader, pos: Position, text: string, s: string)
    requires SpelledAt(r.data, r.offset, Escape(s))
    ensures StringLoop(r, pos, text) == StringLoop(Skip(r, |Escape(s)|), pos, text + s)
    decreases |s|
  {
    if |s| > 0 {
      var t := EscapeChar(s[0]);
      SpelledSplit(r.data, r.offset, t, Escape(s[1..]));
      EscapedChar(r, pos, text, s[0]);
      var r1 := Skip(r, |t|);
      EscapedPrefix(r1, pos, text + [s[0]], s[1..]);
      EscapeSplit(r, text, s);
    } else {
      assert text + s == text;
    }
  }

  /** Taking the escape of the first character and then the escape of the rest is taking the
      escape of the whole text. */
  lemma EscapeSplit(r: Reader, text: string, s: string)
    requires |s| > 0 && r.offset + |Escape(s)| <= |r.data|
    ensures var t := EscapeChar(s[0]);
            && r.offset + |t| + |Escape(s[1..])| <= |r.data|
            && Skip(Skip(r, |t|), |Escape(s[1..])|) == Skip(r, |Escape(s)|)
    ensures text + [s[0]] + s[1..] == text + s
  {
    EscapeLength(s);
    SkipSum(r, |EscapeChar(s[0])|, |Escape(s[1..])|, |Escape(s)|);
    ConsText(text, s);
  }

  /** The escape of a text is as long as the escapes of its first character and of the rest. */
  lemma EscapeLength(s: string)
    requires |s| > 0
    ensures |Escape(s)| == |EscapeChar(s[0])| + |Escape(s[1..])|
  {
  }

  /** Appending the first character and then the rest is appending the text. */
  lemma ConsText(text: string, s: string)
    requires |s| > 0
    ensures text + [s[0]] + s[1..] == text + s
  {
    assert text + [s[0]] + s[1..] == text + s;
  }

  /** After the opening quote and an escaped text, `ReadString` is in its loop holding the
      text. */
  lemma StringAfter(r: Reader, s: string) returns (r1: Reader)
    requires SpelledAt(r.data, r.offset, "\"" + Escape(s))
    ensures r1.data == r.data && r1.offset == r.offset + 1 + |Escape(s)|
    ensures ReadString(r) == StringLoop(r1, r.pos, s)
  {
    SpelledSplit(r.data, r.offset, "\"", Escape(s));
    SpelledFirst(r.data, r.offset, "\"", 0);
    EscapedPrefix(Take(r), r.pos, "", s);
    assert "" + s == s;
    r1 := Skip(Take(r), |Escape(s)|);
  }

  /** A quoted, escaped text reads back as the text, and the reader stands after the closing
      quote. */
  lemma StringReads(r: Reader, s: string)
    requires SpelledAt(r.data, r.offset, Quote(s))
    ensures ReadString(r).Read? && ReadString(r).value == s
    ensures ReadString(r).rest.offset == r.offset + |Quote(s)|
  {
    SpelledSplit(r.data, r.offset, "\"" + Escape(s), "\"");
    var r1 := StringAfter(r, s);
    SpelledFirst(r.data, r1.offset, "\"", 0);
  }

  /** A string the text ends inside throws "Expected \" but found EOF." at the opening quote. */
  lemma UnterminatedString(r: Reader, s: string)
    requires SpelledAt(r.data, r.offset, "\"" + Escape(s)) && r.offset + 1 + |Escape(s)| == |r.data|
    ensures ReadString(r).Thrown? && ReadString(r).error == Expectation(r.pos, "\"", "EOF")
  {
    var r1 := StringAfter(r, s);
  }

  /** A backslash followed by a character that is not an escape throws, at the opening quote,
      the list of escapes and the character found. */
  lemma BadEscape(r: Reader, s: string, e: char)
    requires SpelledAt(r.data, r.offset, "\"" + Escape(s) + ['\\', e]) && Unescape(e).None?
    ensures ReadString(r).Thrown? && ReadString(r).error == Expectation(r.pos, ESCAPES, [e])
  {
    SpelledSplit(r.data, r.offset, "\"" + Escape(s), ['\\', e]);
    var r1 := StringAfter(r, s);
    SpelledFirst(r.data, r1.offset, ['\\', e], 0);
    SpelledFirst(r.data, r1.offset, ['\\', e], 1);
    LoopBadEscape(r1, r.pos, s, e);
  }

  /** The loop of `ReadString` at a backslash and a character that is not an escape. */
  lemma LoopBadEscape(r: Reader, pos: Position, text: string, e: char)
    requires r.offset + 2 <= |r.data| && r.data[r.offset] == '\\' && r.data[r.offset + 1] == e
    requires Unescape(e).None?
    ensures StringLoop(r, pos, text).Thrown? && StringLoop(r, pos, text).error == Expectation(pos, ESCAPES, [e])
  {
    var r1 := Take(r);
    assert Peek(r) == Some('\\');
    assert Peek(r1) == Some(e);
  }

  /** A backslash that ends the text throws, at the opening quote, the list of escapes and
      "EOF". */
  lemma EscapeAtEnd(r: Reader, s: string)
    requires SpelledAt(r.data, r.offset, "\"" + Escape(s) + "\\") && r.offset + 2 + |Escape(s)| == |r.data|
    ensures ReadString(r).Thrown? && ReadString(r).error == Expectation(r.pos, ESCAPES, "EOF")
  {
    SpelledSplit(r.data, r.offset, "\"" + Escape(s), "\\");
    var r1 := StringAfter(r, s);
    SpelledFirst(r.data, r1.offset, "\\", 0);
  }

  /** `\u` is not decoded: a backslash-u and the escaped text after it read back as the
      backslash, the `u` and the text, as in `"\u00e9"` reading as the six characters `\u00e9`. */
  lemma UnicodeKept(r: Reader, s: string)
    requires SpelledAt(r.data, r.offset, "\"\\u" + (Escape(s) + "\""))
    ensures ReadString(r).Read? && ReadString(r).value == "\\u" + s
    ensures ReadString(r).rest.offset == r.offset + 4 + |Escape(s)|
  {
    SpelledSplit(r.data, r.offset, "\"\\u", Escape(s) + "\"");
    var r3 := UnicodeOpening(r);
    ClosingQuote(r3, r.pos, "\\u", s);
  }

  /** In the loop, an escaped text and the closing quote finish the string: the text is
      appended and the reader stands after the quote. */
  lemma ClosingQuote(r: Reader, pos: Position, text: string, s: string)
    requires SpelledAt(r.data, r.offset, Escape(s) + "\"")
    ensures StringLoop(r, pos, text).Read? && StringLoop(r, pos, text).value == text + s
    ensures StringLoop(r, pos, text).rest.offset == r.offset + |Escape(s)| + 1
  {
    var q := Skip(r, |Escape(s)|);
    CharAfter(r.data, r.offset, Escape(s), '"');
    EscapedPrefix(r, pos, text, s);
    QuoteCloses(q, pos, text + s);
  }

  /** A text that begins with `head` and `c`: `head` is there and `c` follows it. */
  lemma CharAfter(data: string, offset: nat, head: string, c: char)
    requires SpelledAt(data, offset, head + [c])
    ensures SpelledAt(data, offset, head)
    ensures offset + |head| < |data| && data[offset + |head|] == c
  {
    HeadTail(data, offset, head, [c]);
  }

  /** The loop at a '"' is done: it gives its text and stands after the quote. */
  lemma QuoteCloses(r: Reader, pos: Position, text: string)
    requires r.offset < |r.data| && r.data[r.offset] == '"'
    ensures StringLoop(r, pos, text) == Read(text, Take(r))
  {
    assert Peek(r) == Some('"');
  }

  /** The opening quote, a backslash and a `u`: `ReadString` is in its loop holding the
      backslash and the `u`. */
  lemma UnicodeOpening(r: Reader) returns (r3: Reader)
    requires SpelledAt(r.data, r.offset, "\"\\u")
    ensures r3.data == r.data && r3.offset == r.offset + 3
    ensures ReadString(r) == StringLoop(r3, r.pos, "\\u")
  {
    var head := "\"\\u";
    SpelledFirst(r.data, r.offset, head, 0);
    SpelledFirst(r.data, r.offset, head, 1);
    SpelledFirst(r.data, r.offset, head, 2);
    var r1 := Take(r);
    var r2 := Take(r1);
    r3 := Take(r2);
    assert Peek(r1) == Some('\\') && Peek(r2) == Some('u') && Unescape('u') == Some("\\u");
    assert "" + "\\u" == "\\u";
  }

  // ---------------------------------------------------------------------------------------
  // Values written and read back

  /** A value written compactly, as the reader accepts it: objects and arrays without
      whitespace, numbers as their lexemes, strings quoted and escaped. */
  function Write(v: Json): string
    decreases v
  {
    match v
    case JString(s) => Quote(s)
    case JNumber(lexeme) => lexeme
    case JArray(items) => "[" + (WriteItems(items) + "]")
    case JObject(members) => "{" + (WriteMembers(members) + "}")
    case JBool(truth) => if truth then "true" else "false"
    case JNull => "null"
  }

  /** Items separated by ','. */
  function WriteItems(items: seq<Json>): string
    decreases items
  {
    if |items| == 0 then ""
    else if |items| == 1 then Write(items[0])
    else Write(items[0]) + "," + WriteItems(items[1..])
  }

  /** A member: its quoted name, ':', and its value. */
  function WriteMember(m: Member): string
    decreases m
  {
    Quote(m.name) + (":" + Write(m.value))
  }

  /** Members separated by ','. */
  function WriteMembers(members: seq<Member>): string
    decreases members
  {
    if |members| == 0 then ""
    else if |members| == 1 then WriteMember(members[0])
    else WriteMember(members[0]) + "," + WriteMembers(members[1..])
  }

  /** The values that can be read at all: numbers are number lexemes and no object repeats a
      name. */
  ghost predicate Wf(v: Json)
    decreases v
  {
    match v
    case JNumber(lexeme) => NumberLexeme(lexeme)
    case JArray(items) => forall i :: 0 <= i < |items| ==> Wf(items[i])
    case JObject(members) => DistinctNames(members) && forall i :: 0 <= i < |members| ==> Wf(members[i].value)
    case _ => true
  }

  /** The first character of a number lexeme is a '-' or a digit. */
  lemma LexemeFirst(lex: string)
    requires NumberLexeme(lex)
    ensures |lex| > 0 && (lex[0] == '-' || IsDigit(lex[0]))
  {
    if Run(lex, 0, Minus) == 0 {
      RunHolds(lex, 0, Digit, 0);
    } else {
      RunHolds(lex, 0, Minus, 0);
    }
  }

  /** The first character of a written value is the one `ReadValue` chooses its reader by. */
  lemma WriteFirst(v: Json)
    requires Wf(v)
    ensures |Write(v)| > 0
    ensures var c := Write(v)[0];
            && (v.JObject? <==> c == '{') && (v.JArray? <==> c == '[') && (v.JString? <==> c == '"')
            && (v == JBool(true) <==> c == 't') && (v == JBool(false) <==> c == 'f') && (v == JNull <==> c == 'n')
            && (v.JNumber? ==> c == '-' || IsDigit(c))
  {
    if v.JNumber? {
      LexemeFirst(v.lexeme);
    }
  }

  /** The first character of written items is that of the first item. */
  lemma ItemsFirst(items: seq<Json>)
    requires |items| > 0 && |Write(items[0])| > 0
    ensures |WriteItems(items)| > 0 && WriteItems(items)[0] == Write(items[0])[0]
  {
  }

  /** Written members begin with the quote of the first name. */
  lemma MembersFirst(members: seq<Member>)
    requires |members| > 0
    ensures |WriteMembers(members)| > 0 && WriteMembers(members)[0] == '"'
  {
    assert WriteMember(members[0])[0] == '"';
  }

  /** Whitespace skipping leaves a reader at a non-space character where it is. */
  lemma SkipNone(r: Reader)
    requires r.offset < |r.data| && !IsSpace(r.data[r.offset])
    ensures SkipWhitespace(r) == r
  {
  }

  /** A written value reads back as itself, and the reader stands after it.  A number is read
      whole only if neither a digit nor a '.' follows it. */
  lemma ValueReads(v: Json, r: Reader)
    requires Wf(v) && SpelledAt(r.data, r.offset, Write(v))
    requires v.JNumber? ==> Delimited(r.data, r.offset + |Write(v)|)
    ensures ReadValue(r).Read? && ReadValue(r).value == v
    ensures ReadValue(r).rest.offset == r.offset + |Write(v)|
    decreases v, 1
  {
    match v
    case JString(s) => StringValue(s, r);
    case JNumber(lexeme) => NumberValue(lexeme, r);
    case JArray(_) => ArrayValue(v, r);
    case JObject(_) => ObjectValue(v, r);
    case _ => KeywordValue(v, r);
  }

  /** `ValueReads` for a string. */
  lemma StringValue(s: string, r: Reader)
    requires SpelledAt(r.data, r.offset, Quote(s))
    ensures ReadValue(r).Read? && ReadValue(r).value == JString(s)
    ensures ReadValue(r).rest.offset == r.offset + |Quote(s)|
  {
    SpelledFirst(r.data, r.offset, Quote(s), 0);
    StringReads(r, s);
  }

  /** `ValueReads` for a number. */
  lemma NumberValue(lex: string, r: Reader)
    requires NumberLexeme(lex) && SpelledAt(r.data, r.offset, lex) && Delimited(r.data, r.offset + |lex|)
    ensures ReadValue(r).Read? && ReadValue(r).value == JNumber(lex)
    ensures ReadValue(r).rest.offset == r.offset + |lex|
  {
    LexemeFirst(lex);
    SpelledFirst(r.data, r.offset, lex, 0);
    NumberReads(r, lex);
  }

  /** `ValueReads` for `true`, `false` and `null`. */
  lemma KeywordValue(v: Json, r: Reader)
    requires (v.JBool? || v.JNull?) && SpelledAt(r.data, r.offset, Write(v))
    ensures ReadValue(r).Read? && ReadValue(r).value == v
    ensures ReadValue(r).rest.offset == r.offset + |Write(v)|
  {
    SpelledFirst(r.data, r.offset, Write(v), 0);
  }

  /** `ValueReads` for an array. */
  lemma ArrayValue(v: Json, r: Reader)
    requires v.JArray? && Wf(v) && SpelledAt(r.data, r.offset, Write(v))
    ensures ReadValue(r).Read? && ReadValue(r).value == v
    ensures ReadValue(r).rest.offset == r.offset + |Write(v)|
    decreases v, 0
  {
    SpelledFirst(r.data, r.offset, Write(v), 0);
    ArrayReads(v.items, r);
  }

  /** `ValueReads` for an object. */
  lemma ObjectValue(v: Json, r: Reader)
    requires v.JObject? && Wf(v) && SpelledAt(r.data, r.offset, Write(v))
    ensures ReadValue(r).Read? && ReadValue(r).value == v
    ensures ReadValue(r).rest.offset == r.offset + |Write(v)|
    decreases v, 0
  {
    SpelledFirst(r.data, r.offset, Write(v), 0);
    ObjectReads(v.members, r);
  }

  /** A written array reads back as itself. */
  lemma ArrayReads(items: seq<Json>, r: Reader)
    requires (forall i :: 0 <= i < |items| ==> Wf(items[i])) && SpelledAt(r.data, r.offset, "[" + (WriteItems(items) + "]"))
    ensures ReadArray(r).Read? && ReadArray(r).value == JArray(items)
    ensures ReadArray(r).rest.offset == r.offset + |WriteItems(items)| + 2
    decreases items, 2
  {
    var w := WriteItems(items);
    SpelledSplit(r.data, r.offset, "[", w + "]");
    SpelledFirst(r.data, r.offset, "[", 0);
    var r1 := Take(r);
    if |items| == 0 {
      SpelledFirst(r.data, r1.offset, "]", 0);
      SkipNone(r1);
    } else {
      WriteFirst(items[0]);
      ItemsFirst(items);
      SpelledFirst(r.data, r1.offset, w + "]", 0);
      SkipNone(r1);
      ItemsReads(items, r1, []);
      EmptyPrefix(items);
    }
  }

  /** Written items, then ']', read back after the items already read. */
  lemma ItemsReads(items: seq<Json>, r: Reader, acc: seq<Json>)
    requires |items| > 0 && forall i :: 0 <= i < |items| ==> Wf(items[i])
    requires SpelledAt(r.data, r.offset, WriteItems(items) + "]")
    ensures ItemsLoop(r, acc).Read? && ItemsLoop(r, acc).value == JArray(acc + items)
    ensures ItemsLoop(r, acc).rest.offset == r.offset + |WriteItems(items)| + 1
    decreases items, 1
  {
    var r1 := ItemStep(items, r, acc);
    if |items| > 1 {
      ItemsTail(items, acc);
      ItemsReads(items[1..], Take(r1), acc + [items[0]]);
    }
  }

  /** The rest of the items after the first: still readable, and what the array is made of. */
  lemma ItemsTail(items: seq<Json>, acc: seq<Json>)
    requires |items| > 1 && forall i :: 0 <= i < |items| ==> Wf(items[i])
    ensures forall i :: 0 <= i < |items[1..]| ==> Wf(items[1..][i])
    ensures acc + [items[0]] + items[1..] == acc + items
    ensures |WriteItems(items)| == |Write(items[0])| + 1 + |WriteItems(items[1..])|
  {
    ConsSplit(acc, items);
  }

  /** Appending to nothing. */
  lemma EmptyPrefix<X>(xs: seq<X>)
    ensures [] + xs == xs
  {
  }

  /** Appending the one element of `xs`. */
  lemma OneMore<X>(acc: seq<X>, xs: seq<X>)
    requires |xs| == 1
    ensures acc + [xs[0]] == acc + xs
  {
    assert [xs[0]] == xs;
  }

  /** Written items, then ']', are the first item and what follows it. */
  lemma ItemsSplit(items: seq<Json>)
    requires |items| > 0
    ensures WriteItems(items) + "]" == Write(items[0]) + if |items| == 1 then "]" else "," + (WriteItems(items[1..]) + "]")
  {
  }

  /** With no name repeated in `acc + members`, `acc` and `acc` with the first of `members`
      repeat none, and that member's name is new to `acc`. */
  lemma DistinctStep(acc: seq<Member>, members: seq<Member>)
    requires |members| > 0 && DistinctNames(acc + members)
    ensures DistinctNames(acc) && DistinctNames(acc + [members[0]]) && !HasName(acc, members[0].name)
  {
    assert forall i :: 0 <= i < |acc| ==> (acc + members)[i] == acc[i];
    assert (acc + members)[|acc|] == members[0];
    assert forall i :: 0 <= i <= |acc| ==> (acc + [members[0]])[i] == (acc + members)[i];
  }

  /** Moving the first of `xs` over to `acc`. */
  lemma ConsSplit<X>(acc: seq<X>, xs: seq<X>)
    requires |xs| > 0
    ensures acc + [xs[0]] + xs[1..] == acc + xs
  {
    assert [xs[0]] + xs[1..] == xs;
  }

  /** What `MembersReads` needs of the members after the first. */
  lemma MembersTail(members: seq<Member>, acc: seq<Member>)
    requires |members| > 1 && DistinctNames(acc + members)
    requires forall i :: 0 <= i < |members| ==> Wf(members[i].value)
    ensures DistinctNames(acc + [members[0]] + members[1..])
    ensures forall i :: 0 <= i < |members[1..]| ==> Wf(members[1..][i].value)
    ensures acc + [members[0]] + members[1..] == acc + members
    ensures |WriteMembers(members)| == |WriteMember(members[0])| + 1 + |WriteMembers(members[1..])|
  {
    ConsSplit(acc, members);
  }

  /** One written item reads back, and the loop ends at the ']' or goes on after the ','. */
  lemma ItemStep(items: seq<Json>, r: Reader, acc: seq<Json>) returns (r1: Reader)
    requires |items| > 0 && forall i :: 0 <= i < |items| ==> Wf(items[i])
    requires SpelledAt(r.data, r.offset, WriteItems(items) + "]")
    ensures r1.data == r.data && r1.offset == r.offset + |Write(items[0])| < |r.data|
    ensures |items| > 1 ==> SpelledAt(Take(r1).data, Take(r1).offset, WriteItems(items[1..]) + "]")
    ensures ItemsLoop(r, acc) == if |items| == 1 then Read(JArray(acc + items), Take(r1))
                                 else ItemsLoop(Take(r1), acc + [items[0]])
    decreases items, 0
  {
    var v := items[0];
    var tail := if |items| == 1 then "]" else "," + (WriteItems(items[1..]) + "]");
    ItemsSplit(items);
    SpelledSplit(r.data, r.offset, Write(v), tail);
    var e := r.offset + |Write(v)|;
    SpelledFirst(r.data, e, tail, 0);
    ValueReads(v, r);
    r1 := ReadValue(r).rest;
    if |items| > 1 {
      var w := WriteItems(items[1..]);
      SpelledSplit(r.data, e, ",", w + "]");
      WriteFirst(items[1]);
      ItemsFirst(items[1..]);
      SpelledFirst(r.data, e + 1, w + "]", 0);
      ItemsTurn(r, acc, v, r1, r.data, e);
      SpelledAfter(r1, r.data, e, w + "]");
    } else {
      ItemsClose(r, acc, v, r1, r.data, e);
      OneMore(acc, items);
    }
  }

  /** What the item loop does once a value has been read and `r1` stands after it. */
  ghost function ItemsNext(r1: Reader, more: seq<Json>): Outcome<Json>
  {
    var r2 := SkipWhitespace(r1);
    if Peek(r2) == Some(',') then ItemsLoop(SkipWhitespace(Take(r2)), more)
    else if Peek(r2) != Some(']') then Thrown(Expectation(r2.pos, "]", Shown(Peek(r2))), r2)
    else Read(JArray(more), Take(r2))
  }

  /** The item loop reads a value and goes on as `ItemsNext` after it. */
  lemma ItemsUnfold(r: Reader, acc: seq<Json>)
    requires ReadValue(r).Read?
    ensures ItemsLoop(r, acc) == ItemsNext(ReadValue(r).rest, acc + [ReadValue(r).value])
  {
  }

  /** A value read, then, at `at` in `data`, a ',' and no whitespace: the item loop goes on
      after the ','. */
  lemma ItemsTurn(r: Reader, acc: seq<Json>, v: Json, r1: Reader, data: string, at: nat)
    requires ReadValue(r).Read? && ReadValue(r).value == v && ReadValue(r).rest == r1
    requires r1.data == data && r1.offset == at
    requires at + 1 < |data| && data[at] == ',' && !IsSpace(data[at + 1])
    ensures ItemsLoop(r, acc) == ItemsLoop(Take(r1), acc + [v])
  {
    ItemsUnfold(r, acc);
    SkipNone(r1);
    SkipNone(Take(r1));
  }

  /** A value read, then, at `at` in `data`, a ']': the item loop ends with the value as the
      last item. */
  lemma ItemsClose(r: Reader, acc: seq<Json>, v: Json, r1: Reader, data: string, at: nat)
    requires ReadValue(r).Read? && ReadValue(r).value == v && ReadValue(r).rest == r1
    requires r1.data == data && r1.offset == at
    requires at < |data| && data[at] == ']'
    ensures ItemsLoop(r, acc) == Read(JArray(acc + [v]), Take(r1))
  {
    SkipNone(r1);
  }

  /** A word spelled just after `at`, where a reader stands: taking one character puts the
      reader at the word. */
  lemma SpelledAfter(r: Reader, data: string, at: nat, word: string)
    requires r.data == data && r.offset == at && at < |data| && SpelledAt(data, at + 1, word)
    ensures SpelledAt(Take(r).data, Take(r).offset, word)
  {
  }

  /** A written object reads back as itself. */
  lemma ObjectReads(members: seq<Member>, r: Reader)
    requires DistinctNames(members) && forall i :: 0 <= i < |members| ==> Wf(members[i].value)
    requires SpelledAt(r.data, r.offset, "{" + (WriteMembers(members) + "}"))
    ensures ReadObject(r).Read? && ReadObject(r).value == JObject(members)
    ensures ReadObject(r).rest.offset == r.offset + |WriteMembers(members)| + 2
    decreases members, 4
  {
    var w := WriteMembers(members);
    SpelledSplit(r.data, r.offset, "{", w + "}");
    SpelledFirst(r.data, r.offset, "{", 0);
    var r1 := Take(r);
    if |members| == 0 {
      SpelledFirst(r.data, r1.offset, "}", 0);
      SkipNone(r1);
    } else {
      MembersFirst(members);
      SpelledFirst(r.data, r1.offset, w + "}", 0);
      SkipNone(r1);
      EmptyPrefix(members);
      MembersReads(members, r1, []);
    }
  }

  /** Written members, then '}', read back after the members already read. */
  lemma MembersReads(members: seq<Member>, r: Reader, acc: seq<Member>)
    requires |members| > 0 && DistinctNames(acc + members)
    requires forall i :: 0 <= i < |members| ==> Wf(members[i].value)
    requires SpelledAt(r.data, r.offset, WriteMembers(members) + "}")
    ensures DistinctNames(acc)
    ensures MembersLoop(r, acc).Read? && MembersLoop(r, acc).value == JObject(acc + members)
    ensures MembersLoop(r, acc).rest.offset == r.offset + |WriteMembers(members)| + 1
    decreases members, 3
  {
    if |members| == 1 {
      LastMemberReads(members, r, acc);
    } else {
      MoreMembersRead(members, r, acc);
    }
  }

  /** One written member, then '}', read back after the members already read. */
  lemma LastMemberReads(members: seq<Member>, r: Reader, acc: seq<Member>)
    requires |members| == 1 && DistinctNames(acc + members) && Wf(members[0].value)
    requires SpelledAt(r.data, r.offset, WriteMembers(members) + "}")
    ensures DistinctNames(acc)
    ensures MembersLoop(r, acc).Read? && MembersLoop(r, acc).value == JObject(acc + members)
    ensures MembersLoop(r, acc).rest.offset == r.offset + |WriteMembers(members)| + 1
    decreases members, 2
  {
    LastSplit(members);
    var r3 := MemberLast(members, r, acc, WriteMembers(members) + "}");
  }

  /** Two or more written members, then '}', read back after the members already read. */
  lemma MoreMembersRead(members: seq<Member>, r: Reader, acc: seq<Member>)
    requires |members| > 1 && DistinctNames(acc + members)
    requires forall i :: 0 <= i < |members| ==> Wf(members[i].value)
    requires SpelledAt(r.data, r.offset, WriteMembers(members) + "}")
    ensures DistinctNames(acc)
    ensures MembersLoop(r, acc).Read? && MembersLoop(r, acc).value == JObject(acc + members)
    ensures MembersLoop(r, acc).rest.offset == r.offset + |WriteMembers(members)| + 1
    decreases members, 2
  {
    MoreSplit(members);
    var r3 := MemberMore(members, r, acc, WriteMembers(members) + "}");
    MembersTail(members, acc);
    MembersReads(members[1..], Take(r3), acc + [members[0]]);
  }

  /** The last written member, then '}': the loop reads the member and closes the object. */
  lemma MemberLast(members: seq<Member>, r: Reader, acc: seq<Member>, text: string) returns (r3: Reader)
    requires |members| == 1 && DistinctNames(acc + members) && Wf(members[0].value)
    requires SpelledAt(r.data, r.offset, text) && text == WriteMember(members[0]) + "}"
    ensures DistinctNames(acc) && DistinctNames(acc + [members[0]])
    ensures r3.data == r.data && r3.offset == r.offset + |WriteMember(members[0])| < |r.data|
    ensures MembersLoop(r, acc) == Read(JObject(acc + members), Take(r3))
    decreases members, 1
  {
    CloseLayout(r.data, r.offset, text, WriteMember(members[0]));
    r3 := MemberThenClose(members, r, acc);
    OneMore(acc, members);
  }

  /** A written member standing just before a '}': the loop reads it and closes the object. */
  lemma MemberThenClose(members: seq<Member>, r: Reader, acc: seq<Member>) returns (r3: Reader)
    requires |members| > 0 && DistinctNames(acc + members) && Wf(members[0].value)
    requires SpelledAt(r.data, r.offset, WriteMember(members[0]))
    requires var end := r.offset + |WriteMember(members[0])|; end < |r.data| && r.data[end] == '}'
    ensures DistinctNames(acc) && DistinctNames(acc + [members[0]])
    ensures r3.data == r.data && r3.offset == r.offset + |WriteMember(members[0])|
    ensures MembersLoop(r, acc) == Read(JObject(acc + [members[0]]), Take(r3))
    decreases members, 0
  {
    r3 := MemberReads(members[0], r, acc, members);
    MemberClose(r3, acc + [members[0]], r.data, r.offset + |WriteMember(members[0])|);
  }

  /** A written member followed by ',' and more members: the loop reads the member and goes
      on after the ','. */
  lemma MemberMore(members: seq<Member>, r: Reader, acc: seq<Member>, text: string) returns (r3: Reader)
    requires |members| > 1 && DistinctNames(acc + members) && Wf(members[0].value)
    requires SpelledAt(r.data, r.offset, text)
    requires text == WriteMember(members[0]) + ("," + (WriteMembers(members[1..]) + "}"))
    ensures DistinctNames(acc) && DistinctNames(acc + [members[0]])
    ensures r3.data == r.data && r3.offset == r.offset + |WriteMember(members[0])| < |r.data|
    ensures SpelledAt(Take(r3).data, Take(r3).offset, WriteMembers(members[1..]) + "}")
    ensures MembersLoop(r, acc) == MembersLoop(Take(r3), acc + [members[0]])
    decreases members, 1
  {
    MembersFirst(members[1..]);
    CommaLayout(r.data, r.offset, text, WriteMember(members[0]), WriteMembers(members[1..]));
    r3 := MemberThenComma(members, r, acc);
    var at := r.offset + |WriteMember(members[0])| + 1;
    assert Take(r3).data == r.data && Take(r3).offset == at;
  }

  /** A written member standing just before a ',' and a key: the loop reads the member and
      goes on at the key. */
  lemma MemberThenComma(members: seq<Member>, r: Reader, acc: seq<Member>) returns (r3: Reader)
    requires |members| > 0 && DistinctNames(acc + members) && Wf(members[0].value)
    requires SpelledAt(r.data, r.offset, WriteMember(members[0]))
    requires var end := r.offset + |WriteMember(members[0])|;
      end + 1 < |r.data| && r.data[end] == ',' && r.data[end + 1] == '"'
    ensures DistinctNames(acc) && DistinctNames(acc + [members[0]])
    ensures r3.data == r.data && r3.offset == r.offset + |WriteMember(members[0])|
    ensures MembersLoop(r, acc) == MembersLoop(Take(r3), acc + [members[0]])
    decreases members, 0
  {
    r3 := MemberReads(members[0], r, acc, members);
    MemberTurn(r3, acc + [members[0]], r.data, r.offset + |WriteMember(members[0])|);
  }

  /** After a member, at `at` in `data`, a ',' and a key: the member loop goes on at the key. */
  lemma MemberTurn(r: Reader, members: seq<Member>, data: string, at: nat)
    requires DistinctNames(members) && r.data == data && r.offset == at
    requires at + 1 < |data| && data[at] == ',' && data[at + 1] == '"'
    ensures MemberEnd(r, members) == MembersLoop(Take(r), members)
  {
    SkipNone(r);
    SkipNone(Take(r));
  }

  /** After a member, at `at` in `data`, a '}': the member loop ends with the members read. */
  lemma MemberClose(r: Reader, members: seq<Member>, data: string, at: nat)
    requires DistinctNames(members) && r.data == data && r.offset == at
    requires at < |data| && data[at] == '}'
    ensures MemberEnd(r, members) == Read(JObject(members), Take(r))
  {
    SkipNone(r);
  }

  /** A text that begins with `head` and '}': the '}' follows `head`. */
  lemma CloseLayout(data: string, offset: nat, text: string, head: string)
    requires SpelledAt(data, offset, text) && text == head + "}"
    ensures SpelledAt(data, offset, head)
    ensures offset + |head| < |data| && data[offset + |head|] == '}'
    ensures Delimited(data, offset + |head|)
  {
    HeadTail(data, offset, head, "}");
  }

  /** Written members, then '}', when there is one member. */
  lemma LastSplit(members: seq<Member>)
    requires |members| == 1
    ensures WriteMembers(members) + "}" == WriteMember(members[0]) + "}"
  {
  }

  /** Written members, then '}', when there is more than one member. */
  lemma MoreSplit(members: seq<Member>)
    requires |members| > 1
    ensures WriteMembers(members) + "}" == WriteMember(members[0]) + ("," + (WriteMembers(members[1..]) + "}"))
  {
  }

  /** A text that begins with `head`, a ',', a member list `w` and '}': the ',' follows `head`
      and `w`, starting with its quote, follows the ','. */
  lemma CommaLayout(data: string, offset: nat, text: string, head: string, w: string)
    requires SpelledAt(data, offset, text) && text == head + ("," + (w + "}")) && |w| > 0 && w[0] == '"'
    ensures SpelledAt(data, offset, head)
    ensures offset + |head| < |data| && data[offset + |head|] == ','
    ensures Delimited(data, offset + |head|)
    ensures SpelledAt(data, offset + |head| + 1, w + "}")
    ensures offset + |head| + 1 < |data| && data[offset + |head| + 1] == '"'
  {
    HeadTail(data, offset, head, "," + (w + "}"));
    HeadTail(data, offset + |head|, ",", w + "}");
    SpelledFirst(data, offset + |head| + 1, w + "}", 0);
  }

  /** A text that begins with `head + tail` begins with `head`, and `tail` follows it. */
  lemma HeadTail(data: string, offset: nat, head: string, tail: string)
    requires SpelledAt(data, offset, head + tail) && |tail| > 0
    ensures SpelledAt(data, offset, head) && SpelledAt(data, offset + |head|, tail)
    ensures offset + |head| < |data| && data[offset + |head|] == tail[0]
    ensures Delimited(data, offset + |head|) <==> !(IsDigit(tail[0]) || tail[0] == '.')
  {
    SpelledSplit(data, offset, head, tail);
    SpelledFirst(data, offset + |head|, tail, 0);
  }

  /** One written member reads back: its name is new, and the loop goes on after its value. */
  lemma MemberReads(m: Member, r: Reader, acc: seq<Member>, members: seq<Member>) returns (r3: Reader)
    requires |members| > 0 && m == members[0] && DistinctNames(acc + members) && Wf(m.value)
    requires SpelledAt(r.data, r.offset, WriteMember(m))
    requires Delimited(r.data, r.offset + |WriteMember(m)|)
    ensures DistinctNames(acc) && DistinctNames(acc + [m])
    ensures r3.data == r.data && r3.offset == r.offset + |WriteMember(m)| && (Tracks(r) ==> Tracks(r3))
    ensures MembersLoop(r, acc) == MemberEnd(r3, acc + [m])
    decreases m
  {
    DistinctStep(acc, members);
    WriteSolid(m.value);
    MemberText(m);
    var r1 := KeyReads(m.name, Write(m.value), r);
    var r2 := Take(r1);
    ValueReads(m.value, r2);
    r3 := ReadValue(r2).rest;
    assert Tracks(r) ==> Tracks(r1) ==> Tracks(r2) ==> Tracks(r3);
    MemberLoop(r, acc, m, r1);
  }

  /** One turn of the member loop: a new name, a ':' with no whitespace around it, and a value
      that reads, leave the loop after the value with the member added. */
  lemma MemberLoop(r: Reader, acc: seq<Member>, m: Member, r1: Reader)
    requires DistinctNames(acc) && DistinctNames(acc + [m]) && !HasName(acc, m.name)
    requires ReadString(r).Read? && ReadString(r).value == m.name && ReadString(r).rest == r1
    requires SkipWhitespace(r1) == r1 && Peek(r1) == Some(':') && SkipWhitespace(Take(r1)) == Take(r1)
    requires ReadValue(Take(r1)).Read? && ReadValue(Take(r1)).value == m.value
    ensures MembersLoop(r, acc) == MemberEnd(ReadValue(Take(r1)).rest, acc + [m])
  {
    assert m == Member(m.name, m.value);
  }

  /** A quoted name, then ':' and a text `w` that does not begin with whitespace, read back:
      the loop finds the ':' where the name ends, and `w` starts after it. */
  lemma KeyReads(name: string, w: string, r: Reader) returns (r1: Reader)
    requires |w| > 0 && !IsSpace(w[0]) && SpelledAt(r.data, r.offset, Quote(name) + (":" + w))
    ensures ReadString(r).Read? && ReadString(r).value == name && ReadString(r).rest == r1
    ensures r1.data == r.data && r1.offset == r.offset + |Quote(name)| < |r.data|
    ensures r.data[r1.offset] == ':' && SkipWhitespace(r1) == r1
    ensures SkipWhitespace(Take(r1)) == Take(r1)
    ensures SpelledAt(Take(r1).data, Take(r1).offset, w)
    ensures Take(r1).offset + |w| == r.offset + |Quote(name) + (":" + w)|
  {
    KeyLayout(r.data, r.offset, Quote(name) + (":" + w), Quote(name), w);
    StringReads(r, name);
    r1 := ReadString(r).rest;
    SkipNone(r1);
    SkipNone(Take(r1));
  }

  /** A text that begins with a quoted name, ':' and a value that does not begin with
      whitespace: the ':' follows the name and the value follows the ':'. */
  lemma KeyLayout(data: string, offset: nat, text: string, key: string, w: string)
    requires SpelledAt(data, offset, text) && text == key + (":" + w) && |w| > 0 && !IsSpace(w[0])
    ensures SpelledAt(data, offset, key)
    ensures offset + |key| + 1 < |data| && data[offset + |key|] == ':' && !IsSpace(data[offset + |key| + 1])
    ensures SpelledAt(data, offset + |key| + 1, w)
    ensures offset + |key| + 1 + |w| == offset + |text|
  {
    HeadTail(data, offset, key, ":" + w);
    HeadTail(data, offset + |key|, ":", w);
  }

  /** A member is written as its quoted name, ':' and its value. */
  lemma MemberText(m: Member)
    ensures WriteMember(m) == Quote(m.name) + (":" + Write(m.value))
  {
  }

  /** A written value does not begin with a space. */
  lemma WriteSolid(v: Json)
    requires Wf(v)
    ensures |Write(v)| > 0 && !IsSpace(Write(v)[0])
  {
    WriteFirst(v);
  }

  // ---------------------------------------------------------------------------------------
  // Whole texts

  /** Whitespace skipping stops at the first character that is not a space. */
  lemma SkipTo(r: Reader, k: nat)
    requires r.offset <= k <= |r.data| && (k == |r.data| || !IsSpace(r.data[k]))
    requires forall i :: r.offset <= i < k ==> IsSpace(r.data[i])
    ensures SkipWhitespace(r).offset == k
  {
    var s := SkipWhitespace(r);
    if s.offset < k {
      assert false;
    }
  }

  /** Whitespace, a written object or array, and any text after it: `FromStream` reads the
      value back and stops where it ends. */
  lemma FromStreamReads(ws: string, v: Json, after: string)
    requires forall i :: 0 <= i < |ws| ==> IsSpace(ws[i])
    requires (v.JObject? || v.JArray?) && Wf(v)
    ensures var o := FromStream(ws + Write(v) + after);
            o.Read? && o.value == v && o.rest.offset == |ws| + |Write(v)|
  {
    var data := ws + Write(v) + after;
    WriteFirst(v);
    assert data[|ws|..|ws| + |Write(v)|] == Write(v);
    assert forall i :: 0 <= i < |ws| ==> data[i] == ws[i];
    SkipTo(NewReader(data), |ws|);
    var r := SkipWhitespace(NewReader(data));
    if v.JObject? {
      ObjectReads(v.members, r);
    } else {
      ArrayReads(v.items, r);
    }
  }

  /** After whitespace, any character but '{' and '[' is refused, at the line and column it
      stands at. */
  lemma FromStreamNeedsContainer(ws: string, c: char, after: string)
    requires forall i :: 0 <= i < |ws| ==> IsSpace(ws[i])
    requires !IsSpace(c) && c != '{' && c != '['
    ensures var data := ws + [c] + after;
            FromStream(data).Thrown? && FromStream(data).error == Expectation(LineColumn(data, |ws|), "{ or [", [c])
  {
    var data := ws + [c] + after;
    assert forall i :: 0 <= i < |ws| ==> data[i] == ws[i];
    SkipTo(NewReader(data), |ws|);
  }

  /** A text of whitespace only is refused with the character `(char)EOF` as the one found. */
  lemma FromStreamEmpty(ws: string)
    requires forall i :: 0 <= i < |ws| ==> IsSpace(ws[i])
    ensures FromStream(ws).Thrown?
    ensures FromStream(ws).error == Expectation(LineColumn(ws, |ws|), "{ or [", [TableStream.EOF_CHAR])
  {
    SkipTo(NewReader(ws), |ws|);
  }

  /** Where the parts of `{m1,m2}` stand in its text. */
  lemma PairLayout(data: string, w1: string, w2: string, q2: string)
    requires data == "{" + w1 + "," + w2 + "}" && |q2| <= |w2| && w2[..|q2|] == q2
    ensures data[0] == '{' && SpelledAt(data, 1, w1) && data[1 + |w1|] == ','
    ensures SpelledAt(data, 2 + |w1|, q2) && data[2 + |w1|..] == w2 + "}"
  {
    assert data[1..1 + |w1|] == w1;
    assert data[2 + |w1|..2 + |w1| + |q2|] == w2[..|q2|];
    assert data[2 + |w1|..] == w2 + "}";
  }

  /** An object that repeats a name is refused at the line and column where the repeated name
      starts. */
  lemma DuplicateKeyRefused(m1: Member, m2: Member)
    requires Wf(m1.value) && m1.name == m2.name
    ensures var data := "{" + WriteMember(m1) + "," + WriteMember(m2) + "}";
            && FromStream(data).Thrown?
            && FromStream(data).error == DuplicateKey(LineColumn(data, 2 + |WriteMember(m1)|), m1.name)
  {
    var data := "{" + WriteMember(m1) + "," + WriteMember(m2) + "}";
    var q2 := Quote(m2.name);
    assert WriteMember(m2)[..|q2|] == q2;
    PairLayout(data, WriteMember(m1), WriteMember(m2), q2);
    var r4 := SecondMember(data, m1);
    StringReads(r4, m2.name);
    assert HasName([m1], m2.name) by {
      assert [m1][0].name == m2.name;
    }
  }

  /** In `{m1,...`, `FromStream` reads the first member and goes on with the loop at the
      second name. */
  lemma SecondMember(data: string, m1: Member) returns (r4: Reader)
    requires Wf(m1.value)
    requires 2 + |WriteMember(m1)| < |data| && data[0] == '{' && SpelledAt(data, 1, WriteMember(m1))
    requires data[1 + |WriteMember(m1)|] == ',' && data[2 + |WriteMember(m1)|] == '"'
    ensures r4.data == data && r4.offset == 2 + |WriteMember(m1)| && Tracks(r4)
    ensures FromStream(data) == MembersLoop(r4, [m1])
  {
    var r := NewReader(data);
    SkipNone(r);
    var r1 := Take(r);
    SpelledFirst(data, 1, WriteMember(m1), 0);
    assert WriteMember(m1)[0] == '"';
    SkipNone(r1);
    EmptyPrefix([m1]);
    var r3 := MemberReads(m1, r1, [], [m1]);
    SkipNone(r3);
    r4 := Take(r3);
    SkipNone(r4);
  }

  // ---------------------------------------------------------------------------------------
  // Where the reader as written differs

  /** The '-' loop as written never takes its '-', so `-1` is not read, where the corrected
      loop reads it. */
  lemma NegativeNumber()
    ensures ReadNumberAsWritten(NewReader("-1")).None?
    ensures ReadNumber(NewReader("-1")).Read? && ReadNumber(NewReader("-1")).value == JNumber("-1")
  {
    assert Run("-1", 1, Digit) == 1;
    assert Run("-1", 0, Minus) == 1;
    NumberReads(NewReader("-1"), "-1");
  }

  /** Every error of the digit loop is reported at the position it is given. */
  lemma {:induction false} DigitsErrorAt(r: Reader, start: nat, hasDecimal: bool, pos: Position)
    requires start <= r.offset
    ensures DigitsLoop(r, start, hasDecimal, pos).Thrown? ==> DigitsLoop(r, start, hasDecimal, pos).error.pos == pos
    decreases |r.data| - r.offset
  {
    var c := Peek(r).GetOr(' ');
    if Peek(r).Some? && (c == '.' || IsDigit(c)) {
      if !(c == '.' && (hasDecimal || start == r.offset || !IsDigit(r.data[r.offset - 1]))) {
        DigitsErrorAt(Take(r), start, hasDecimal || c == '.', pos);
      }
    }
  }

  /** The corrected `ReadNumber` reports its errors where the number starts. */
  lemma NumberErrorAt(r: Reader)
    ensures ReadNumber(r).Thrown? ==> ReadNumber(r).error.pos == r.pos
  {
    DigitsErrorAt(MinusLoop(r), r.offset, false, r.pos);
  }

  /** `ReadNumber` as written reports every error at line 1, column 1, wherever the number
      is. */
  lemma NumberErrorAtOrigin(r: Reader)
    requires Peek(r) != Some('-')
    ensures ReadNumberAsWritten(r).value.Thrown? ==> ReadNumberAsWritten(r).value.error.pos == Position(1, 1)
  {
    DigitsErrorAt(r, r.offset, false, Position(1, 1));
  }

  /** In `[1, x]` the 'x' is read as a number at line 1, column 5: as written the error says
      (1, 1), corrected it says (1, 5). */
  lemma NumberErrorPositionAsWritten()
    ensures var r: Reader := Cursor("[1, x]", 4, Position(1, 5));
            && Tracks(r)
            && ReadNumberAsWritten(r) == Some(Thrown(Expectation(Position(1, 1), "number", "x"), r))
            && ReadNumber(r) == Thrown(Expectation(Position(1, 5), "number", "x"), r)
  {
    var r: Reader := Cursor("[1, x]", 4, Position(1, 5));
    assert LineColumn("[1, x]", 4) == Position(1, 5) by {
      assert LineColumn("[1, x]", 1) == Position(1, 2);
      assert LineColumn("[1, x]", 2) == Position(1, 3);
      assert LineColumn("[1, x]", 3) == Position(1, 4);
    }
  }

  /** The opening check of `ReadObject` as written reports a wrong character at line 1,
      column 1; corrected, at the reader's position. */
  lemma OpenPositionAsWritten()
    ensures var r: Reader := Cursor("[1, x]", 4, Position(1, 5));
            && OpenAsWritten(r, '{') == Thrown(Expectation(Position(1, 1), "{", "x"), r)
            && Open(r, '{') == Thrown(Expectation(Position(1, 5), "{", "x"), r)
  {
  }
}

=== FILE: json_reader.dfy ===
/** `JSONReader` of c++/json/json.h: a recursive-descent reader over the characters of a
    stream.  Every read peeks at the next character and takes it with `Get`, which keeps a
    1-based line and column; a malformed text is reported by throwing a `std::runtime_error`
    whose message starts with the "(line, column)" of a position.  Here the stream is the text
    and an offset into it, and a throw is an `Outcome` carrying the message and the reader as
    the throw left it. */
module JsonReader {
  import opened Wrappers
  import opened Lines
  import TableStream

  // ---------------------------------------------------------------------------------------
  // The reader's state

  /** The characters of the stream, how many of them have been taken, and the position `Get`
      keeps. */
  datatype Cursor = Cursor(data: string, offset: nat, pos: Position)

  /** A cursor never stands past the end of its stream. */
  type Reader = c: Cursor | c.offset <= |c.data| witness Cursor("", 0, Position(1, 1))

  /** The constructor: nothing taken, at line 1, column 1. */
  function NewReader(data: string): Reader
  {
    Cursor(data, 0, Position(1, 1))
  }

  /** Where taking `c` leaves a reader standing at `p`: a '\n' starts the next line, anything
      else moves the column on. */
  function Step(p: Position, c: char): Position
  {
    if c == '\n' then Position(p.line + 1, 1) else Position(p.line, p.column + 1)
  }

  /** The position `Get` reaches after taking the first `offset` characters of `data`. */
  function LineColumn(data: string, offset: nat): Position
    requires offset <= |data|
    decreases offset
  {
    if offset == 0 then Position(1, 1) else Step(LineColumn(data, offset - 1), data[offset - 1])
  }

  /** The reader's position is the one its offset is reached at. */
  ghost predicate Tracks(r: Reader)
  {
    r.pos == LineColumn(r.data, r.offset)
  }

  /** `Peek`: the next character, or `None` for `EOF`. */
  function Peek(r: Reader): Option<char>
  {
    if r.offset < |r.data| then Some(r.data[r.offset]) else None
  }

  /** `Get`: the next character, and the reader past it.  The column moves on with every call,
      at the end of the stream too where nothing is taken; a '\n' starts the next line. */
  function Get(r: Reader): (g: (Option<char>, Reader))
    ensures g.0 == Peek(r) && g.1.data == r.data
    ensures g.1.offset == if r.offset < |r.data| then r.offset + 1 else r.offset
    ensures r.offset == |r.data| ==> g.1.pos == Position(r.pos.line, r.pos.column + 1)
    ensures r.offset < |r.data| && Tracks(r) ==> Tracks(g.1)
  {
    match Peek(r)
    case Some(c) => (Some(c), Cursor(r.data, r.offset + 1, Step(r.pos, c)))
    case None => (None, r.(pos := Position(r.pos.line, r.pos.column + 1)))
  }

  /** The positions `Get` keeps are the ones the C++ streams compute from their table of line
      starts: line 1 plus the count of '\n' before the offset, and the column counted from the
      last line start. */
  lemma {:induction false} LineColumnCounts(data: string, offset: nat)
    requires offset <= |data|
    ensures LineColumn(data, offset) == PositionOf(CppLineStarts(data), offset)
    decreases offset
  {
    if offset == 0 {
      FirstPosition(data);
    } else {
      LineColumnCounts(data, offset - 1);
      if data[offset - 1] == '\n' {
        NewlineCounts(data, offset - 1);
      } else {
        CharacterCounts(data, offset - 1);
      }
    }
  }

  lemma FirstPosition(data: string)
    ensures PositionOf(CppLineStarts(data), 0) == Position(1, 1)
  {
  }

  /** After a '\n' at `o`, the table puts `o + 1` at column 1 of the line after `o`'s. */
  lemma NewlineCounts(data: string, o: nat)
    requires o < |data| && data[o] == '\n'
    ensures var starts := CppLineStarts(data);
            var p := PositionOf(starts, o);
            PositionOf(starts, o + 1) == Position(p.line + 1, 1)
  {
    var starts := CppLineStarts(data);
    var m := StartAfterNewline(data, o);
    LineUnique(starts, o, PositionOf(starts, o).line, m);
    LineUnique(starts, o + 1, PositionOf(starts, o + 1).line, m + 1);
  }

  /** One past a '\n' is a line start of the C++ table, found at index `m`. */
  lemma StartAfterNewline(data: string, o: nat) returns (m: nat)
    requires o < |data| && data[o] == '\n'
    ensures 1 <= m < |CppLineStarts(data)| && CppLineStarts(data)[m] == o + 1
  {
    var starts := CppLineStarts(data);
    var rest := NewlineStarts(data, 0);
    assert starts == [0] + rest;
    NewlineStartsComplete(data, 0, o);
    var k :| 0 <= k < |rest| && rest[k] == o + 1;
    m := k + 1;
  }

  /** After any other character at `o`, `o + 1` is on the same line, one column on. */
  lemma CharacterCounts(data: string, o: nat)
    requires o < |data| && data[o] != '\n'
    ensures var starts := CppLineStarts(data);
            var p := PositionOf(starts, o);
            PositionOf(starts, o + 1) == Position(p.line, p.column + 1)
  {
    var starts := CppLineStarts(data);
    var rest := NewlineStarts(data, 0);
    assert starts == [0] + rest;
    var p := PositionOf(starts, o);
    var q := PositionOf(starts, o + 1);
    if p.line < |starts| {
      assert starts[p.line] == rest[p.line - 1];
      assert data[starts[p.line] - 1] == '\n';
    }
    LineUnique(starts, o + 1, q.line, p.line);
  }

  /** `Get` after a `Peek` that saw a character. */
  function Take(r: Reader): (s: Reader)
    requires r.offset < |r.data|
    ensures s == Get(r).1 && s.data == r.data && s.offset == r.offset + 1
    ensures Tracks(r) ==> Tracks(s)
  {
    Get(r).1
  }

  /** `std::isspace` in the "C" locale. */
  predicate IsSpace(c: char)
  {
    c == ' ' || '\t' <= c <= '\r'
  }

  /** `std::isdigit`. */
  predicate IsDigit(c: char)
  {
    '0' <= c <= '9'
  }

  /** `SkipWhitespace`: takes characters while the next one is a space. */
  function SkipWhitespace(r: Reader): (s: Reader)
    ensures s.data == r.data && r.offset <= s.offset
    ensures forall i :: r.offset <= i < s.offset ==> IsSpace(r.data[i])
    ensures s.offset < |s.data| ==> !IsSpace(s.data[s.offset])
    ensures Tracks(r) ==> Tracks(s)
    decreases |r.data| - r.offset
  {
    if r.offset < |r.data| && IsSpace(r.data[r.offset]) then SkipWhitespace(Take(r)) else r
  }

  // ---------------------------------------------------------------------------------------
  // Messages

  /** `CreateError`: the message behind the position it is reported at. */
  function At(p: Position, message: string): string
  {
    PositionString(p) + " " + message
  }

  /** `EXPECTATION`'s message. */
  function Expected(expected: string, found: string): string
  {
    "Expected " + expected + " but found " + found + "."
  }

  /** `std::string(1, Peek())`: the character, with `EOF` converted to `(char)EOF`. */
  function Shown(c: Option<char>): string
  {
    [c.GetOr(TableStream.EOF_CHAR)]
  }

  /** `c == EOF ? "EOF" : std::string(1, c)`. */
  function ShownOrEof(c: Option<char>): string
  {
    if c.None? then "EOF" else [c.value]
  }

  // ---------------------------------------------------------------------------------------
  // Values

  /** `JSONValue`: the variant of string, number, array, object, bool and null.  A number is
      kept as the lexeme `ReadNumber` accepted; an object keeps its members in the order they
      were read. */
  datatype Json =
    | JString(text: string)
    | JNumber(lexeme: string)
    | JArray(items: seq<Json>)
    | JObject(members: seq<Member>)
    | JBool(truth: bool)
    | JNull

  datatype Member = Member(name: string, value: Json)

  /** `result.find(name) != result.end()`. */
  predicate HasName(members: seq<Member>, name: string)
  {
    exists i :: 0 <= i < |members| && members[i].name == name
  }

  /** No two members share a name, as in the `unordered_map` the object is read into. */
  ghost predicate DistinctNames(members: seq<Member>)
  {
    forall i, j :: 0 <= i < j < |members| ==> members[i].name != members[j].name
  }

  /** The two kinds of `runtime_error` the reader throws: `EXPECTATION` and `DUPLICATE_KEY`. */
  datatype Error =
    | Expectation(pos: Position, expected: string, found: string)
    | DuplicateKey(pos: Position, key: string)

  /** The `what()` of the thrown error, as `CreateError` builds it. */
  function Message(e: Error): string
  {
    match e
    case Expectation(p, expected, found) => At(p, Expected(expected, found))
    case DuplicateKey(p, key) => At(p, "Duplicate key \"" + key + "\" found.")
  }

  /** What a read gives back: the value and the reader past it, or the error it throws and
      the reader as the throw left it. */
  datatype Outcome<+X> = Read(value: X, rest: Reader) | Thrown(error: Error, rest: Reader)

  // ---------------------------------------------------------------------------------------
  // Strings

  /** What `ESCAPES` lists as the characters allowed after a backslash. */
  const ESCAPES: string := "\", \\, /, b, f, n, r, t, or uXXXX"

  const BACKSPACE: char := 8 as char
  const FORM_FEED: char := 12 as char

  /** The text an escape `\e` stands for; `\u` is kept as the two characters `\u`, and the
      hexadecimal digits after it are read as plain characters. */
  function Unescape(e: char): (t: Option<string>)
    ensures t.Some? <==> e in "\"\\/bfnrtu"
  {
    match e
    case '"' => Some("\"")
    case '\\' => Some("\\")
    case '/' => Some("/")
    case 'b' => Some([BACKSPACE])
    case 'f' => Some([FORM_FEED])
    case 'n' => Some("\n")
    case 'r' => Some("\r")
    case 't' => Some("\t")
    case 'u' => Some("\\u")
    case _ => None
  }

  /** `ReadString`: a '"', then characters and escapes up to the closing '"'.  Errors are
      reported at the position of the opening quote. */
  function ReadString(r: Reader): (o: Outcome<string>)
    ensures o.rest.data == r.data
    ensures o.Read? ==> r.offset + 2 <= o.rest.offset && (Tracks(r) ==> Tracks(o.rest))
    ensures Peek(r) != Some('"') ==> o == Thrown(Expectation(r.pos, "\"", Shown(Peek(r))), r)
  {
    if Peek(r) != Some('"') then Thrown(Expectation(r.pos, "\"", Shown(Peek(r))), r)
    else StringLoop(Take(r), r.pos, "")
  }

  /** The loop of `ReadString` after the opening quote, holding the text read so far. */
  function StringLoop(r: Reader, pos: Position, text: string): (o: Outcome<string>)
    ensures o.rest.data == r.data
    ensures o.Read? ==> r.offset < o.rest.offset && (Tracks(r) ==> Tracks(o.rest))
    decreases |r.data| - r.offset
  {
    match Peek(r)
    case None => Thrown(Expectation(pos, "\"", "EOF"), Get(r).1)
    case Some(c) =>
      var r1 := Take(r);
      if c == '\\' then
        (match Peek(r1)
         case None => Thrown(Expectation(pos, ESCAPES, "EOF"), Get(r1).1)
         case Some(e) =>
           var r2 := Take(r1);
           (match Unescape(e)
            case Some(t) => StringLoop(r2, pos, text + t)
            case None => Thrown(Expectation(pos, ESCAPES, [e]), r2)))
      else if c == '"' then Read(text, r1)
      else StringLoop(r1, pos, text + [c])
  }

  // ---------------------------------------------------------------------------------------
  // Keywords

  /** Does `word` stand in `data` at `offset`? */
  predicate SpelledAt(data: string, offset: nat, word: string)
  {
    offset + |word| <= |data| && data[offset..offset + |word|] == word
  }

  /** How many characters of `word` agree with `data` from `offset` on. */
  function Agree(data: string, offset: nat, word: string): (n: nat)
    requires offset <= |data|
    ensures n <= |word| && offset + n <= |data|
    ensures n == |word| <==> SpelledAt(data, offset, word)
    decreases |word|
  {
    if |word| > 0 && offset < |data| && data[offset] == word[0] then
      var n := 1 + Agree(data, offset + 1, word[1..]);
      assert SpelledAt(data, offset, word) <==> SpelledAt(data, offset + 1, word[1..]) by {
        if SpelledAt(data, offset + 1, word[1..]) {
          assert data[offset..offset + |word|] == [data[offset]] + data[offset + 1..offset + 1 + |word[1..]|];
        }
        if SpelledAt(data, offset, word) {
          assert data[offset + 1..offset + 1 + |word[1..]|] == data[offset..offset + |word|][1..];
        }
      }
      n
    else 0
  }

  /** The loop of `ReadKeyword` over the characters still `left` to match. */
  function KeywordLoop(r: Reader, left: string, keyword: string, pos: Position): (o: Outcome<()>)
    ensures o.rest.data == r.data && (Tracks(r) ==> Tracks(o.rest))
    ensures o.Read? <==> SpelledAt(r.data, r.offset, left)
    ensures o.rest.offset == r.offset + Agree(r.data, r.offset, left)
    ensures o.Thrown? ==> o.error == Expectation(pos, keyword, Shown(Peek(o.rest)))
    decreases |left|
  {
    if |left| > 0 && Peek(r) == Some(left[0]) then KeywordLoop(Take(r), left[1..], keyword, pos)
    else if |left| > 0 then Thrown(Expectation(pos, keyword, Shown(Peek(r))), r)
    else Read((), r)
  }

  /** `ReadKeyword`: takes the characters of the keyword as long as they agree with the
      stream, and throws, at the position it started from, unless all of them did. */
  function ReadKeyword(r: Reader, keyword: string): (o: Outcome<()>)
    ensures o.rest.data == r.data && (Tracks(r) ==> Tracks(o.rest))
    ensures o.Read? <==> SpelledAt(r.data, r.offset, keyword)
    ensures o.Read? ==> o.rest.offset == r.offset + |keyword|
    ensures o.Thrown? ==> o.rest.offset == r.offset + Agree(r.data, r.offset, keyword)
    ensures o.Thrown? ==> o.error == Expectation(r.pos, keyword, Shown(Peek(o.rest)))
  {
    KeywordLoop(r, keyword, keyword, r.pos)
  }

  /** `ReadKWTrue`, `ReadKWFalse`, `ReadKWNull`: the keyword, then its value. */
  function Keyword(r: Reader, keyword: string, value: Json): (o: Outcome<Json>)
    requires |keyword| > 0
    ensures o.rest.data == r.data
    ensures o.Read? <==> SpelledAt(r.data, r.offset, keyword)
    ensures o.Read? ==> o.value == value && o.rest.offset == r.offset + |keyword| && (Tracks(r) ==> Tracks(o.rest))
  {
    match ReadKeyword(r, keyword)
    case Read(_, next) => Read(value, next)
    case Thrown(m, next) => Thrown(m, next)
  }

  // ---------------------------------------------------------------------------------------
  // Numbers

  /** The two kinds of character a number's runs are made of. */
  datatype Class = Minus | Digit

  predicate Is(c: char, k: Class)
  {
    if k == Minus then c == '-' else IsDigit(c)
  }

  /** The length of the run of characters of class `k` from `i` on. */
  function Run(data: string, i: nat, k: Class): (n: nat)
    requires i <= |data|
    ensures i + n <= |data|
    ensures i + n < |data| ==> !Is(data[i + n], k)
    decreases |data| - i
  {
    if i < |data| && Is(data[i], k) then 1 + Run(data, i + 1, k) else 0
  }

  /** Every character of a run is of its class. */
  lemma {:induction false} RunHolds(data: string, i: nat, k: Class, j: nat)
    requires i <= |data| && i <= j < i + Run(data, i, k)
    ensures Is(data[j], k)
    decreases j - i
  {
    if i < j {
      RunHolds(data, i + 1, k, j);
    }
  }

  /** The leading loop of `ReadNumber`, taking every '-' (see `ReadNumberAsWritten` for the
      loop as the source writes it, which never takes them). */
  function MinusLoop(r: Reader): (s: Reader)
    ensures s.data == r.data && s.offset == r.offset + Run(r.data, r.offset, Minus)
    ensures Tracks(r) ==> Tracks(s)
    decreases |r.data| - r.offset
  {
    if Peek(r) == Some('-') then MinusLoop(Take(r)) else r
  }

  /** The main loop of `ReadNumber`: digits, and one '.' that must follow a digit.  The
      lexeme read so far is the text from `start` to the reader, and every error is reported
      at `pos`. */
  function DigitsLoop(r: Reader, start: nat, hasDecimal: bool, pos: Position): (o: Outcome<Json>)
    requires start <= r.offset
    ensures o.rest.data == r.data && r.offset <= o.rest.offset && (Tracks(r) ==> Tracks(o.rest))
    ensures o.Read? ==> start < o.rest.offset && o.value == JNumber(r.data[start..o.rest.offset])
    decreases |r.data| - r.offset
  {
    var c := Peek(r).GetOr(' ');
    if Peek(r).Some? && (c == '.' || IsDigit(c)) then
      if c == '.' && (hasDecimal || start == r.offset || !IsDigit(r.data[r.offset - 1])) then
        Thrown(Expectation(pos, "digit", "'.'"), r)
      else DigitsLoop(Take(r), start, hasDecimal || c == '.', pos)
    else NumberEnd(r, start, pos)
  }

  /** The checks of `ReadNumber` after its loop: the lexeme must not be empty and must not end
      in '-' or '.'. */
  function NumberEnd(r: Reader, start: nat, pos: Position): (o: Outcome<Json>)
    requires start <= r.offset
    ensures o.rest == r
    ensures o.Read? <==> start < r.offset && r.data[r.offset - 1] != '-' && r.data[r.offset - 1] != '.'
    ensures o.Read? ==> o.value == JNumber(r.data[start..r.offset])
  {
    if start == r.offset then Thrown(Expectation(pos, "number", ShownOrEof(Peek(r))), r)
    else if r.data[r.offset - 1] == '-' || r.data[r.offset - 1] == '.' then
      Thrown(Expectation(pos, "number", r.data[start..r.offset]), r)
    else Read(JNumber(r.data[start..r.offset]), r)
  }

  /** `ReadNumber`: the lexeme of a number, read from the current position and reported
      there.  The conversion by `std::stod` is not modelled: the value is the lexeme. */
  function ReadNumber(r: Reader): (o: Outcome<Json>)
    ensures o.rest.data == r.data && r.offset <= o.rest.offset && (Tracks(r) ==> Tracks(o.rest))
    ensures o.Read? ==> o.value == JNumber(r.data[r.offset..o.rest.offset]) && r.offset < o.rest.offset
  {
    DigitsLoop(MinusLoop(r), r.offset, false, r.pos)
  }

  /** `ReadNumber` as written: `while (Peek() == '-') str += '-';` never takes the '-', so on a
      '-' the loop only grows the string and the call does not return (`None`); otherwise
      every error is reported at a default-constructed `Position`, line 1, column 1. */
  function ReadNumberAsWritten(r: Reader): (o: Option<Outcome<Json>>)
    ensures o.None? <==> Peek(r) == Some('-')
  {
    if Peek(r) == Some('-') then None else Some(DigitsLoop(r, r.offset, false, Position(1, 1)))
  }

  // ---------------------------------------------------------------------------------------
  // Arrays, objects and values

  /** The opening check of `ReadObject` and `ReadArray`, reported at the current position. */
  function Open(r: Reader, open: char): (o: Outcome<()>)
    ensures o.rest.data == r.data && (Tracks(r) ==> Tracks(o.rest))
    ensures o.Read? <==> Peek(r) == Some(open)
    ensures o.Read? ==> o.rest.offset == r.offset + 1
    ensures o.Thrown? ==> o == Thrown(Expectation(r.pos, [open], Shown(Peek(r))), r)
  {
    if Peek(r) != Some(open) then Thrown(Expectation(r.pos, [open], Shown(Peek(r))), r)
    else Read((), Take(r))
  }

  /** The opening check as written: `Position pos;` is never set, so a wrong first character
      is reported at line 1, column 1 wherever the reader stands. */
  function OpenAsWritten(r: Reader, open: char): (o: Outcome<()>)
    ensures o.Read? <==> Peek(r) == Some(open)
    ensures o.Thrown? ==> o.error == Expectation(Position(1, 1), [open], Shown(Peek(r)))
  {
    if Peek(r) != Some(open) then Thrown(Expectation(Position(1, 1), [open], Shown(Peek(r))), r)
    else Read((), Take(r))
  }

  /** `ReadValue`: the first character chooses the reader; anything unlisted is a number. */
  function ReadValue(r: Reader): (o: Outcome<Json>)
    ensures o.rest.data == r.data
    ensures o.Read? ==> r.offset < o.rest.offset && (Tracks(r) ==> Tracks(o.rest))
    decreases |r.data| - r.offset, 1
  {
    match Peek(r)
    case Some('{') => ReadObject(r)
    case Some('[') => ReadArray(r)
    case Some('"') =>
      (match ReadString(r)
       case Read(s, next) => Read(JString(s), next)
       case Thrown(m, next) => Thrown(m, next))
    case Some('t') => Keyword(r, "true", JBool(true))
    case Some('f') => Keyword(r, "false", JBool(false))
    case Some('n') => Keyword(r, "null", JNull)
    case _ => ReadNumber(r)
  }

  /** `ReadObject`: '{', then either '}' or members separated by ',' and closed by '}'. */
  function ReadObject(r: Reader): (o: Outcome<Json>)
    ensures o.rest.data == r.data
    ensures o.Read? ==> r.offset < o.rest.offset && (Tracks(r) ==> Tracks(o.rest))
    ensures o.Read? ==> o.value.JObject? && DistinctNames(o.value.members)
    decreases |r.data| - r.offset, 0
  {
    match Open(r, '{')
    case Thrown(m, next) => Thrown(m, next)
    case Read(_, r1) =>
      var r2 := SkipWhitespace(r1);
      if Peek(r2) == Some('}') then Read(JObject([]), Take(r2))
      else MembersLoop(r2, [])
  }

  /** The loop of `ReadObject` from a member's key on, holding the members read so far.  A
      key already read is refused at the position the key starts; a missing ':' is reported
      where it was expected. */
  function MembersLoop(r: Reader, members: seq<Member>): (o: Outcome<Json>)
    requires DistinctNames(members)
    ensures o.rest.data == r.data
    ensures o.Read? ==> r.offset < o.rest.offset && (Tracks(r) ==> Tracks(o.rest))
    ensures o.Read? ==> o.value.JObject? && DistinctNames(o.value.members) && members <= o.value.members
    decreases |r.data| - r.offset, 2
  {
    match ReadString(r)
    case Thrown(m, next) => Thrown(m, next)
    case Read(name, r1) =>
      if HasName(members, name) then Thrown(DuplicateKey(r.pos, name), r1)
      else
        var r2 := SkipWhitespace(r1);
        if Peek(r2) != Some(':') then Thrown(Expectation(r2.pos, ":", Shown(Peek(r2))), r2)
        else
          (match ReadValue(SkipWhitespace(Take(r2)))
           case Thrown(m, next) => Thrown(m, next)
           case Read(v, r3) => MemberEnd(r3, members + [Member(name, v)]))
  }

  /** The loop of `ReadObject` after a member's value: a ',' and the next member, or the
      closing '}', reported where it was expected when missing. */
  function MemberEnd(r: Reader, members: seq<Member>): (o: Outcome<Json>)
    requires DistinctNames(members)
    ensures o.rest.data == r.data
    ensures o.Read? ==> r.offset < o.rest.offset && (Tracks(r) ==> Tracks(o.rest))
    ensures o.Read? ==> o.value.JObject? && DistinctNames(o.value.members) && members <= o.value.members
    decreases |r.data| - r.offset, 3
  {
    var r1 := SkipWhitespace(r);
    if Peek(r1) == Some(',') then MembersLoop(SkipWhitespace(Take(r1)), members)
    else if Peek(r1) != Some('}') then Thrown(Expectation(r1.pos, "}", Shown(Peek(r1))), r1)
    else Read(JObject(members), Take(r1))
  }

  /** `ReadArray`: '[', then either ']' or values separated by ',' and closed by ']'. */
  function ReadArray(r: Reader): (o: Outcome<Json>)
    ensures o.rest.data == r.data
    ensures o.Read? ==> r.offset < o.rest.offset && (Tracks(r) ==> Tracks(o.rest))
    ensures o.Read? ==> o.value.JArray?
    decreases |r.data| - r.offset, 0
  {
    match Open(r, '[')
    case Thrown(m, next) => Thrown(m, next)
    case Read(_, r1) =>
      var r2 := SkipWhitespace(r1);
      if Peek(r2) == Some(']') then Read(JArray([]), Take(r2))
      else ItemsLoop(r2, [])
  }

  /** The loop of `ReadArray` from an item on, holding the items read so far. */
  function ItemsLoop(r: Reader, items: seq<Json>): (o: Outcome<Json>)
    ensures o.rest.data == r.data
    ensures o.Read? ==> r.offset < o.rest.offset && (Tracks(r) ==> Tracks(o.rest))
    ensures o.Read? ==> o.value.JArray? && items <= o.value.items
    decreases |r.data| - r.offset, 2
  {
    match ReadValue(r)
    case Thrown(m, next) => Thrown(m, next)
    case Read(v, r1) =>
      var more := items + [v];
      var r2 := SkipWhitespace(r1);
      if Peek(r2) == Some(',') then ItemsLoop(SkipWhitespace(Take(r2)), more)
      else if Peek(r2) != Some(']') then Thrown(Expectation(r2.pos, "]", Shown(Peek(r2))), r2)
      else Read(JArray(more), Take(r2))
  }

  /** `FromStream`: whitespace, then an object or an array; what follows it is not looked at. */
  function FromStream(data: string): (o: Outcome<Json>)
    ensures o.rest.data == data
    ensures o.Read? ==> o.value.JObject? || o.value.JArray?
    ensures o.Read? ==> Tracks(o.rest)
  {
    var r := SkipWhitespace(NewReader(data));
    match Peek(r)
    case Some('{') => ReadObject(r)
    case Some('[') => ReadArray(r)
    case _ => Thrown(Expectation(r.pos, "{ or [", Shown(Peek(r))), r)
  }
}

=== FILE: lines.dfy ===
/** Line-and-column positions over a text, shared by every string stream of the repository.
    A stream keeps a table of line starts (the offset at which each line begins) and converts
    an offset to a 1-based (line, column) pair and back with it.  The streams differ only in
    how they build the table: the Python one from `readlines()`, the C++ ones by scanning for
    '\n'. */
module Lines {
  import opened Wrappers
  import Text

  /** A 1-based line and column. */
  datatype Position = Position(line: nat, column: nat)

  /** The rendering "(line, column)" that every error message of the repository embeds. */
  function PositionString(p: Position): string
  {
    "(" + Text.NatToString(p.line) + ", " + Text.NatToString(p.column) + ")"
  }

  /** Strictly increasing. */
  ghost predicate Increasing(xs: seq<nat>)
  {
    forall i, j :: 0 <= i < j < |xs| ==> xs[i] < xs[j]
  }

  /** A line-start table for a text of `size` characters: the first line starts at 0, starts
      strictly increase, and no line starts past the end of the text. */
  ghost predicate WellFormed(starts: seq<nat>, size: nat)
  {
    |starts| > 0 && starts[0] == 0 && Increasing(starts) && starts[|starts| - 1] <= size
  }

  /** The loop of `GetPosition`: walk the starts in order, stop at the first one past `offset`,
      counting the lines passed and remembering the last start passed. */
  function Scan(starts: seq<nat>, offset: nat, i: nat, line: nat, closest: nat): (r: (nat, nat))
    requires i <= |starts|
    requires closest <= offset
    ensures r.1 <= offset
    decreases |starts| - i
  {
    if i == |starts| || starts[i] > offset then (line, closest)
    else Scan(starts, offset, i + 1, line + 1, starts[i])
  }

  /** The position of `offset`: its line is the last one starting at or before it, and its
      column counts from 1 at that line's start. */
  function PositionOf(starts: seq<nat>, offset: nat): (p: Position)
    requires |starts| > 0 && starts[0] == 0 && Increasing(starts)
    ensures 1 <= p.line <= |starts|
    ensures starts[p.line - 1] <= offset
    ensures p.line < |starts| ==> offset < starts[p.line]
    ensures p.column == offset - starts[p.line - 1] + 1
  {
    var r := Scan(starts, offset, 0, 0, 0);
    ScanFinds(starts, offset, 0, 0, 0);
    Position(r.0, offset - r.1 + 1)
  }

  /** What `Scan` computes on a sorted table: the count of starts at or before `offset`, and
      the last of them. */
  lemma {:induction false} ScanFinds(starts: seq<nat>, offset: nat, i: nat, line: nat, closest: nat)
    requires Increasing(starts)
    requires i <= |starts|
    requires closest <= offset
    requires line == i
    requires i == 0 ==> closest == 0
    requires 0 < i ==> closest == starts[i - 1]
    requires forall j :: 0 <= j < i ==> starts[j] <= offset
    requires |starts| > 0 && starts[0] == 0
    ensures var r := Scan(starts, offset, i, line, closest);
      && 1 <= r.0 <= |starts|
      && r.1 == starts[r.0 - 1]
      && starts[r.0 - 1] <= offset
      && (r.0 < |starts| ==> offset < starts[r.0])
    decreases |starts| - i
  {
    if i < |starts| && starts[i] <= offset {
      ScanFinds(starts, offset, i + 1, line + 1, starts[i]);
    }
  }

  /** The width of line `line` (1-based): up to the next line start, or to the end of the
      text for the last line. */
  function LineWidth(starts: seq<nat>, size: nat, line: nat): int
    requires 1 <= line <= |starts|
  {
    (if line == |starts| then size else starts[line]) - starts[line - 1]
  }

  /** The offset a position denotes, or `None` for an invalid one: a line outside the table,
      line or column 0, or a column more than one past the end of its line. */
  function OffsetOf(starts: seq<nat>, size: nat, p: Position): (r: Option<nat>)
    requires WellFormed(starts, size)
    ensures r.None? <==>
      (p.line > |starts| || p.line == 0 || p.column == 0 || p.column - 1 > LineWidth(starts, size, p.line))
    ensures r.Some? ==> r.value <= size && r.value == starts[p.line - 1] + p.column - 1
  {
    if p.line > |starts| || p.line == 0 || p.column == 0 then None
    else
      var width := LineWidth(starts, size, p.line);
      if p.column - 1 > width then None
      else
        assert p.line < |starts| ==> starts[p.line] <= starts[|starts| - 1];
        Some(starts[p.line - 1] + p.column - 1)
  }

  /** Round trip: the position of any offset of the text converts back to that offset. */
  lemma {:induction false} OffsetOfPositionOf(starts: seq<nat>, size: nat, offset: nat)
    requires WellFormed(starts, size)
    requires offset <= size
    ensures OffsetOf(starts, size, PositionOf(starts, offset)) == Some(offset)
  {
    var p := PositionOf(starts, offset);
    if p.line < |starts| {
      assert offset < starts[p.line];
    }
  }

  /** The converse round trip: a valid position comes back unchanged from its offset exactly
      when its column lies inside its line, or the line is the last one.  A column one past
      the end of a line that has a successor names the successor's first column instead. */
  lemma {:induction false} PositionOfOffsetOf(starts: seq<nat>, size: nat, p: Position)
    requires WellFormed(starts, size)
    requires OffsetOf(starts, size, p).Some?
    ensures PositionOf(starts, OffsetOf(starts, size, p).value) == p <==>
      (p.line == |starts| || p.column - 1 < LineWidth(starts, size, p.line))
  {
    var o := OffsetOf(starts, size, p).value;
    var q := PositionOf(starts, o);
    if p.line == |starts| || p.column - 1 < LineWidth(starts, size, p.line) {
      LineUnique(starts, o, q.line, p.line);
    } else {
      assert o == starts[p.line];
      assert q.line != p.line;
    }
  }

  /** At most one line of a sorted table contains a given offset. */
  lemma {:induction false} LineUnique(starts: seq<nat>, offset: nat, l1: nat, l2: nat)
    requires Increasing(starts)
    requires 1 <= l1 <= |starts| && 1 <= l2 <= |starts|
    requires starts[l1 - 1] <= offset && (l1 < |starts| ==> offset < starts[l1])
    requires starts[l2 - 1] <= offset && (l2 < |starts| ==> offset < starts[l2])
    ensures l1 == l2
  {
  }

  // ---------------------------------------------------------------------------------------
  // Building the table: C++ streams record i + 1 for every '\n' at index i.

  /** The starts after index `i` that a scan for '\n' records: one past every newline. */
  function NewlineStarts(text: string, i: nat): (r: seq<nat>)
    requires i <= |text|
    ensures forall k :: 0 <= k < |r| ==> i < r[k] <= |text| && text[r[k] - 1] == '\n'
    ensures Increasing(r)
    decreases |text| - i
  {
    if i == |text| then []
    else (if text[i] == '\n' then [i + 1] else []) + NewlineStarts(text, i + 1)
  }

  /** The table of the C++ streams: 0, then one past every '\n'. */
  function CppLineStarts(text: string): (r: seq<nat>)
    ensures WellFormed(r, |text|)
  {
    var rest := NewlineStarts(text, 0);
    var r := [0] + rest;
    assert forall k :: 0 < k < |r| ==> r[k] == rest[k - 1];
    r
  }

  /** Every '\n' contributes a line start to the C++ table. */
  lemma {:induction false} NewlineStartsComplete(text: string, i: nat, j: nat)
    requires i <= j < |text| && text[j] == '\n'
    ensures j + 1 in NewlineStarts(text, i)
    decreases j - i
  {
    if i < j {
      NewlineStartsComplete(text, i + 1, j);
    }
  }

  // ---------------------------------------------------------------------------------------
  // Building the table: Python's stream adds up the lengths of `readlines()[:-1]`.

  /** The index of the first '\n' at or after `i`, if any. */
  function NextNewline(text: string, i: nat): (r: Option<nat>)
    requires i <= |text|
    ensures r.Some? ==> i <= r.value < |text| && text[r.value] == '\n'
    ensures r.Some? ==> forall k :: i <= k < r.value ==> text[k] != '\n'
    ensures r.None? ==> forall k :: i <= k < |text| ==> text[k] != '\n'
    decreases |text| - i
  {
    if i == |text| then None
    else if text[i] == '\n' then Some(i)
    else NextNewline(text, i + 1)
  }

  /** Python's `readlines()` on a `StringIO` (newline translation off): the text cut after every
      '\n', with a final piece only when the text does not end with '\n'. */
  function ReadLines(text: string): (r: seq<string>)
    ensures forall k :: 0 <= k < |r| ==> |r[k]| > 0
    decreases |text|
  {
    match NextNewline(text, 0)
    case None => if |text| == 0 then [] else [text]
    case Some(j) => [text[..j + 1]] + ReadLines(text[j + 1..])
  }

  /** The running sums of the line lengths, leaving out the last line, starting from `base`. */
  function Accumulate(lines: seq<string>, base: nat): seq<nat>
    decreases |lines|
  {
    if |lines| <= 1 then [] else [base + |lines[0]|] + Accumulate(lines[1..], base + |lines[0]|)
  }

  /** The table of the Python stream: `[0]` followed by the running sums over `readlines()[:-1]`. */
  function PyLineStarts(text: string): seq<nat>
  {
    [0] + Accumulate(ReadLines(text), 0)
  }

  /** The C++ starts after index `i` that lie strictly inside the text, each plus `base`. */
  function InnerStarts(text: string, i: nat, base: nat): seq<nat>
    requires i <= |text|
    decreases |text| - i
  {
    if i == |text| then []
    else (if text[i] == '\n' && i + 1 < |text| then [base + i + 1] else []) + InnerStarts(text, i + 1, base)
  }

  lemma {:induction false} InnerStartsNone(text: string, i: nat, j: nat, base: nat)
    requires i <= j <= |text|
    requires forall k :: i <= k < j ==> text[k] != '\n'
    ensures InnerStarts(text, i, base) == InnerStarts(text, j, base)
    decreases j - i
  {
    if i < j {
      InnerStartsNone(text, i + 1, j, base);
    }
  }

  /** Dropping a prefix of `d` characters moves the offsets into the base. */
  lemma {:induction false} InnerStartsSuffix(text: string, d: nat, i: nat, base: nat)
    requires d <= i <= |text|
    ensures InnerStarts(text, i, base) == InnerStarts(text[d..], i - d, base + d)
    decreases |text| - i
  {
    var t := text[d..];
    if i < |text| {
      var tail := InnerStarts(text, i + 1, base);
      assert tail == InnerStarts(t, i - d + 1, base + d) by {
        InnerStartsSuffix(text, d, i + 1, base);
      }
      var head: seq<nat> := if text[i] == '\n' && i + 1 < |text| then [base + i + 1] else [];
      assert InnerStarts(text, i, base) == head + tail;
      assert InnerStarts(t, i - d, base + d) == head + tail by {
        assert |t| == |text| - d && t[i - d] == text[i];
      }
    }
  }

  /** The running sums over `readlines()[:-1]` are exactly the offsets just past a '\n' that
      is not the last character. */
  lemma {:induction false} AccumulateReadLines(text: string, base: nat)
    ensures Accumulate(ReadLines(text), base) == InnerStarts(text, 0, base)
    decreases |text|
  {
    match NextNewline(text, 0)
    case None =>
      InnerStartsNone(text, 0, |text|, base);
    case Some(j) =>
      var rest := text[j + 1..];
      var lines := ReadLines(text);
      assert lines == [text[..j + 1]] + ReadLines(rest);
      InnerStartsNone(text, 0, j, base);
      if |rest| == 0 {
        assert InnerStarts(text, j, base) == [];
      } else {
        ReadLinesNonEmpty(rest);
        assert Accumulate(lines, base) == [base + j + 1] + Accumulate(ReadLines(rest), base + j + 1);
        AccumulateReadLines(rest, base + j + 1);
        assert InnerStarts(text, j, base) == [base + j + 1] + InnerStarts(text, j + 1, base);
        InnerStartsSuffix(text, j + 1, j + 1, base);
      }
  }

  lemma {:induction false} ReadLinesNonEmpty(text: string)
    requires |text| > 0
    ensures |ReadLines(text)| >= 1
  {
    match NextNewline(text, 0)
    case None =>
    case Some(j) =>
  }

  /** Python's table in closed form: 0, then one past every '\n' except a final one. */
  lemma {:induction false} PyLineStartsClosedForm(text: string)
    ensures PyLineStarts(text) == [0] + InnerStarts(text, 0, 0)
  {
    AccumulateReadLines(text, 0);
  }

  /** The two tables agree except that C++ also records the start of the empty line after a
      final '\n', which Python's `readlines()[:-1]` drops. */
  lemma {:induction false} PyVersusCpp(text: string)
    ensures |text| > 0 && text[|text| - 1] == '\n' ==>
      PyLineStarts(text) + [|text|] == CppLineStarts(text)
    ensures !(|text| > 0 && text[|text| - 1] == '\n') ==>
      PyLineStarts(text) == CppLineStarts(text)
  {
    PyLineStartsClosedForm(text);
    InnerVersusNewline(text, 0);
    if |text| == 0 {
      assert InnerStarts(text, 0, 0) == [];
    }
  }

  /** The start of the empty line after a final '\n', when it lies after offset `i`. */
  function FinalStart(text: string, i: nat): seq<nat>
  {
    if |text| > 0 && text[|text| - 1] == '\n' && i < |text| then [|text|] else []
  }

  lemma {:induction false} InnerVersusNewline(text: string, i: nat)
    requires i <= |text|
    ensures InnerStarts(text, i, 0) + FinalStart(text, i) == NewlineStarts(text, i)
    decreases |text| - i
  {
    if i < |text| {
      var inner := InnerStarts(text, i + 1, 0);
      var newline := NewlineStarts(text, i + 1);
      assert inner + FinalStart(text, i + 1) == newline by {
        InnerVersusNewline(text, i + 1);
      }
      if text[i] != '\n' {
        assert InnerStarts(text, i, 0) == inner && NewlineStarts(text, i) == newline;
      } else if i + 1 < |text| {
        assert InnerStarts(text, i, 0) == [i + 1] + inner;
        assert NewlineStarts(text, i) == [i + 1] + newline;
        assert ([i + 1] + inner) + FinalStart(text, i) == [i + 1] + (inner + FinalStart(text, i + 1));
      } else {
        assert InnerStarts(text, i, 0) == [] && newline == [];
        assert NewlineStarts(text, i) == [|text|];
      }
    }
  }

  /** Python's table is well formed too. */
  lemma {:induction false} PyLineStartsWellFormed(text: string)
    ensures WellFormed(PyLineStarts(text), |text|)
  {
    PyVersusCpp(text);
    var c := CppLineStarts(text);
    var p := PyLineStarts(text);
    if |text| > 0 && text[|text| - 1] == '\n' {
      assert p == c[..|c| - 1];
    }
  }
}

=== FILE: longest.dfy ===
/** The longest-match rule shared by every lexer of the repository that tries all of its
    patterns: patterns are tried in registration order from the same offset, and a later
    pattern replaces the current choice only when its match is STRICTLY longer, so ties go
    to the pattern registered first. */
module Longest {
  import opened Wrappers

  /** An anchored regular expression, reduced to what the lexers use of it: the length of the
      prefix of the remaining input it matches, or `None`. */
  type Matcher = string -> Option<nat>

  /** A reported length, kept only when it fits the input. A regular-expression match is a
      prefix of the text it is tried on, so for every real pattern this is the length itself. */
  function Within(len: Option<nat>, rest: string): (r: Option<nat>)
    ensures r.Some? ==> r.value <= |rest|
    ensures len.Some? && len.value <= |rest| ==> r == len
    ensures len.None? ==> r.None?
  {
    if len.Some? && len.value > |rest| then None else len
  }

  /** Is `k` the index the longest-match rule picks among the attempt lengths `lens`? */
  ghost predicate IsChoice(lens: seq<Option<nat>>, k: nat)
  {
    && k < |lens|
    && lens[k].Some?
    && (forall i :: 0 <= i < |lens| && lens[i].Some? ==> lens[i].value <= lens[k].value)
    && (forall i :: 0 <= i < k && lens[i].Some? ==> lens[i].value < lens[k].value)
  }

  /** The longest-match rule picks at most one index. */
  lemma ChoiceUnique(lens: seq<Option<nat>>, k: nat, k2: nat)
    requires IsChoice(lens, k) && IsChoice(lens, k2)
    ensures k == k2
  {
  }

  /** The first attempt that matches is the choice so far. */
  lemma ChoiceFirst(lens: seq<Option<nat>>, x: nat)
    requires forall j :: 0 <= j < |lens| ==> lens[j].None?
    ensures IsChoice(lens + [Some(x)], |lens|)
  {
  }

  /** One more matching attempt after the choice `k`: it takes over exactly when it is strictly
      longer. */
  lemma ChoiceExtends(lens: seq<Option<nat>>, x: nat, k: nat)
    requires IsChoice(lens, k)
    ensures x > lens[k].value ==> IsChoice(lens + [Some(x)], |lens|)
    ensures x <= lens[k].value ==> IsChoice(lens + [Some(x)], k)
  {
  }

  /** An attempt that does not match leaves the choice as it was. */
  lemma ChoiceSkips(lens: seq<Option<nat>>, k: nat)
    requires IsChoice(lens, k)
    ensures IsChoice(lens + [None], k)
  {
  }

  /** The scan over the attempts from index `i` on, with `best` the choice made on `lens[..i]`. */
  function SelectFrom(lens: seq<Option<nat>>, i: nat, best: Option<nat>): (r: Option<nat>)
    requires i <= |lens|
    requires best.None? ==> forall j :: 0 <= j < i ==> lens[j].None?
    requires best.Some? ==> IsChoice(lens[..i], best.value)
    ensures r.None? <==> forall j :: 0 <= j < |lens| ==> lens[j].None?
    ensures r.Some? ==> IsChoice(lens, r.value)
    decreases |lens| - i
  {
    if i == |lens| then
      assert lens[..i] == lens;
      best
    else
      var next :=
        if lens[i].Some? && (best.None? || lens[i].value > lens[best.value].value) then Some(i) else best;
      assert lens[..i + 1][..i] == lens[..i];
      SelectFrom(lens, i + 1, next)
  }

  /** The index of the winning attempt, or `None` when no pattern matched. */
  function Select(lens: seq<Option<nat>>): (r: Option<nat>)
    ensures r.None? <==> forall j :: 0 <= j < |lens| ==> lens[j].None?
    ensures r.Some? ==> IsChoice(lens, r.value)
  {
    SelectFrom(lens, 0, None)
  }

  /** Every matcher of `ms` tried on the same remaining input. */
  function Attempts(ms: seq<Matcher>, rest: string): (r: seq<Option<nat>>)
    ensures |r| == |ms|
    ensures forall i :: 0 <= i < |ms| ==> r[i] == Within(ms[i](rest), rest)
  {
    seq(|ms|, i requires 0 <= i < |ms| => Within(ms[i](rest), rest))
  }
}

=== FILE: lpc.dfy ===
/** The parser combinators of c++/lpc/lpc.h.  A parser is a function from the position of
    the read offset and a stream to an outcome; `Parse` runs it and, when it throws a parse
    error, moves the stream back to where it started.  Errors carry a trace: the errors they
    were raised from. */
module Lpc {
  import opened Wrappers
  import opened Lines
  import opened CppStream
  import Text

  /** A parse error: where, what, and the errors it was raised from. */
  datatype ParseError = ParseError(position: Position, message: string, trace: seq<ParseError>)

  /** `what()`: "Error @ (line, column): message". */
  function What(e: ParseError): string
  {
    "Error @ " + PositionString(e.position) + ": " + e.message
  }

  /** The error `e1` with `e2` added at the end of its trace. */
  function Combine(e1: ParseError, e2: ParseError): (e: ParseError)
    ensures What(e) == What(e1)
    ensures e.position == e1.position && e.message == e1.message
    ensures |e.trace| == |e1.trace| + 1 && e.trace[..|e1.trace|] == e1.trace && e.trace[|e1.trace|] == e2
  {
    ParseError(e1.position, e1.message, e1.trace + [e2])
  }

  /** "Expected X, but found Y" at a position, with no trace. */
  function Expectation(expected: string, found: string, pos: Position): ParseError
  {
    ParseError(pos, "Expected " + expected + ", but found " + found, [])
  }

  /** Every line break of a nested message indented by one tab. */
  function Indent(m: string): string
  {
    Text.Replace(m, "\n", "\n\t")
  }

  /** `GetMessageWithTrace`: the error's own line, then each traced error's message on the
      following lines, indented one level deeper. */
  function MessageWithTrace(e: ParseError): string
    decreases e, 1
  {
    What(e) + TraceMessage(e.trace)
  }

  function TraceMessage(trace: seq<ParseError>): string
    decreases trace, 0
  {
    if |trace| == 0 then ""
    else TraceMessage(trace[..|trace| - 1]) + "\n" + Indent(MessageWithTrace(trace[|trace| - 1]))
  }

  /** Combining adds one entry to the report: the first error's report, then the second's,
      indented, on the following line. */
  lemma CombineMessage(e1: ParseError, e2: ParseError)
    ensures MessageWithTrace(Combine(e1, e2)) == MessageWithTrace(e1) + "\n" + Indent(MessageWithTrace(e2))
  {
    var t := Combine(e1, e2).trace;
    assert t[..|t| - 1] == e1.trace;
  }

  type P<T> = Fn<T, ParseError>
  type R<T> = Outcome<T, ParseError>

  /** A failed or stopped outcome, retyped for the combinator that passes it on. */
  function Pass<A, B>(o: R<A>): (r: R<B>)
    requires !o.Returned?
    ensures r.Raised? <==> o.Raised?
    ensures r.Raised? ==> r.error == o.error && r.stream == o.stream
    ensures r.Stopped? ==> r.stop == o.stop
  {
    match o
    case Raised(e, st) => Raised(e, st)
    case Stopped(w) => Stopped(w)
  }

  /** `Parser::Parse`: runs the function at the position of the offset; on a parse error the
      stream goes back to where it started and the same error is thrown on. */
  function Parse<T>(p: P<T>, s: Stream): (r: R<T>)
    ensures Keeps(r, s)
    ensures r.Raised? ==> r.stream.offset == s.offset
    ensures r.Raised? <==> p(GetPosition(s), s).Raised?
    ensures r.Raised? ==> r.error == p(GetPosition(s), s).error
    ensures !r.Raised? ==> r == p(GetPosition(s), s)
  {
    match p(GetPosition(s), s)
    case Raised(e, after) => Raised(e, SetOffset(after, s.offset))
    case Returned(res, after) => Returned(res, after)
    case Stopped(w) => Stopped(w)
  }

  /** `Mapped`: the parser's result position with the mapped value. */
  function MappedRun<A, B>(p: P<A>, f: ParseResult<A> -> B, s: Stream): (r: R<B>)
    ensures Keeps(r, s)
    ensures r.Returned? <==> Parse(p, s).Returned?
    ensures r.Returned? ==>
      r.result == ParseResult(Parse(p, s).result.position, f(Parse(p, s).result)) && r.stream == Parse(p, s).stream
    ensures !r.Returned? ==> r == Pass(Parse(p, s))
  {
    var o := Parse(p, s);
    if o.Returned? then Returned(ParseResult(o.result.position, f(o.result)), o.stream) else Pass(o)
  }

  function Mapped<A, B>(p: P<A>, f: ParseResult<A> -> B): P<B>
  {
    (pos: Position, s: Stream) => MappedRun(p, f, s)
  }

  /** `Success`: the parser's result, or the default at the start when it fails; it never
      throws a parse error. */
  function SuccessRun<T>(p: P<T>, default: T, pos: Position, s: Stream): (r: R<T>)
    ensures Keeps(r, s)
    ensures !r.Raised?
    ensures Parse(p, s).Raised? ==> r.Returned? && r.result == ParseResult(pos, default) && r.stream.offset == s.offset
    ensures !Parse(p, s).Raised? ==> r == Parse(p, s)
  {
    var o := Parse(p, s);
    if o.Raised? then Returned(ParseResult(pos, default), o.stream) else o
  }

  function Success<T>(p: P<T>, default: T): P<T>
  {
    (pos: Position, s: Stream) => SuccessRun(p, default, pos, s)
  }

  /** `Optional`: `Some` of the parser's value at its position, or `None` at the start when
      it fails; it never throws a parse error. */
  function OptionalRun<T>(p: P<T>, pos: Position, s: Stream): (r: R<Option<T>>)
    ensures Keeps(r, s)
    ensures !r.Raised?
    ensures r.Stopped? <==> Parse(p, s).Stopped?
    ensures r.Returned? ==> (r.result.value.None? <==> Parse(p, s).Raised?)
    ensures r.Returned? && r.result.value.None? ==> r.result.position == pos && r.stream.offset == s.offset
    ensures r.Returned? && r.result.value.Some? ==>
      && r.result == ParseResult(Parse(p, s).result.position, Some(Parse(p, s).result.value))
      && r.stream == Parse(p, s).stream
  {
    match Parse(p, s)
    case Returned(res, after) => Returned(ParseResult(res.position, Some(res.value)), after)
    case Raised(_, after) => Returned(ParseResult(pos, None), after)
    case Stopped(w) => Stopped(w)
  }

  function Optional<T>(p: P<T>): P<Option<T>>
  {
    (pos: Position, s: Stream) => OptionalRun(p, pos, s)
  }

  /** `Named`: on failure, an "Unable to parse <name>" error at the start position whose
      trace ends with the parser's own error. */
  function NamedRun<T>(name: string, p: P<T>, s: Stream): (r: R<T>)
    ensures Keeps(r, s)
    ensures r.Raised? <==> Parse(p, s).Raised?
    ensures r.Raised? ==>
      && r.error.position == GetPosition(s)
      && r.error.message == "Unable to parse " + name
      && r.error.trace == [Parse(p, s).error]
      && r.stream.offset == s.offset
    ensures !r.Raised? ==> r == Parse(p, s)
  {
    match Parse(p, s)
    case Raised(e, after) => Raised(Combine(ParseError(GetPosition(after), "Unable to parse " + name, []), e), after)
    case Returned(res, after) => Returned(res, after)
    case Stopped(w) => Stopped(w)
  }

  function Named<T>(name: string, p: P<T>): P<T>
  {
    (pos: Position, s: Stream) => NamedRun(name, p, s)
  }

  /** `Prefixed` (`>>`): the prefix, then the parser, whose result is kept. */
  function PrefixedRun<D, T>(prefix: P<D>, p: P<T>, s: Stream): (r: R<T>)
    ensures Keeps(r, s)
    ensures Parse(prefix, s).Returned? ==> r == Parse(p, Parse(prefix, s).stream)
    ensures !Parse(prefix, s).Returned? ==> r == Pass(Parse(prefix, s))
  {
    var o := Parse(prefix, s);
    if o.Returned? then Parse(p, o.stream) else Pass(o)
  }

  function Prefixed<D, T>(prefix: P<D>, p: P<T>): P<T>
  {
    (pos: Position, s: Stream) => PrefixedRun(prefix, p, s)
  }

  /** `Suffixed` (`<<`): the parser, whose result is kept, then the suffix. */
  function SuffixedRun<T, D>(p: P<T>, suffix: P<D>, s: Stream): (r: R<T>)
    ensures Keeps(r, s)
    ensures r.Returned? <==> Parse(p, s).Returned? && Parse(suffix, Parse(p, s).stream).Returned?
    ensures r.Returned? ==>
      r.result == Parse(p, s).result && r.stream == Parse(suffix, Parse(p, s).stream).stream
  {
    var o := Parse(p, s);
    if !o.Returned? then Pass(o)
    else
      var t := Parse(suffix, o.stream);
      if t.Returned? then Returned(o.result, t.stream) else Pass(t)
  }

  function Suffixed<T, D>(p: P<T>, suffix: P<D>): P<T>
  {
    (pos: Position, s: Stream) => SuffixedRun(p, suffix, s)
  }

  /** `Between`: `prefix >> p << suffix`. */
  function Between<A, T, B>(prefix: P<A>, p: P<T>, suffix: P<B>): P<T>
  {
    Suffixed(Prefixed(prefix, p), suffix)
  }

  /** `Value`: the value at the start, reading nothing. */
  function ValueRun<T>(v: T, pos: Position, s: Stream): (r: R<T>)
    ensures r == Returned(ParseResult(pos, v), s)
  {
    Returned(ParseResult(pos, v), s)
  }

  function Value<T>(v: T): P<T>
  {
    (pos: Position, s: Stream) => ValueRun(v, pos, s)
  }

  /** `Value` reads nothing and never fails, so it is neutral next to another parser:
      `Value(v) >> p` parses exactly as `p` does, and `p << Value(v)` succeeds exactly when `p`
      does, with `p`'s result and stream. */
  lemma ValueNeutral<T, D>(v: D, p: P<T>, s: Stream)
    ensures Parse(Value(v), s) == Returned(ParseResult(GetPosition(s), v), s)
    ensures PrefixedRun(Value(v), p, s) == Parse(p, s)
    ensures SuffixedRun(p, Value(v), s).Returned? <==> Parse(p, s).Returned?
    ensures SuffixedRun(p, Value(v), s).Returned? ==>
      SuffixedRun(p, Value(v), s).result == Parse(p, s).result && SuffixedRun(p, Value(v), s).stream == Parse(p, s).stream
  {
  }

  type Results<T> = seq<ParseResult<T>>

  /** The position of a list of results: the first one's, or the start's when there is none. */
  function ListPosition<T>(rs: Results<T>, pos: Position): Position
  {
    if |rs| == 0 then pos else rs[0].position
  }

  /** The sequence operators `+`: the two sides in order, their results concatenated; a
      side that is itself a list contributes its elements.  `Parser + Parser`: */
  function PairRun<T>(lhs: P<T>, rhs: P<T>, s: Stream): (r: R<Results<T>>)
    ensures Keeps(r, s)
    ensures r.Returned? <==> Parse(lhs, s).Returned? && Parse(rhs, Parse(lhs, s).stream).Returned?
    ensures r.Returned? ==>
      && r.result.value == [Parse(lhs, s).result, Parse(rhs, Parse(lhs, s).stream).result]
      && r.result.position == Parse(lhs, s).result.position
  {
    var a := Parse(lhs, s);
    if !a.Returned? then Pass(a)
    else
      var b := Parse(rhs, a.stream);
      if !b.Returned? then Pass(b)
      else Returned(ParseResult(a.result.position, [a.result, b.result]), b.stream)
  }

  function Pair<T>(lhs: P<T>, rhs: P<T>): P<Results<T>>
  {
    (pos: Position, s: Stream) => PairRun(lhs, rhs, s)
  }

  /** `QuantifiedParser + Parser`: the list's result with the right side's result appended. */
  function AppendRun<T>(lhs: P<Results<T>>, rhs: P<T>, s: Stream): (r: R<Results<T>>)
    ensures Keeps(r, s)
    ensures r.Returned? <==> Parse(lhs, s).Returned? && Parse(rhs, Parse(lhs, s).stream).Returned?
    ensures r.Returned? ==>
      && r.result.value == Parse(lhs, s).result.value + [Parse(rhs, Parse(lhs, s).stream).result]
      && r.result.position == Parse(lhs, s).result.position
  {
    var a := Parse(lhs, s);
    if !a.Returned? then Pass(a)
    else
      var b := Parse(rhs, a.stream);
      if !b.Returned? then Pass(b)
      else Returned(ParseResult(a.result.position, a.result.value + [b.result]), b.stream)
  }

  function Append<T>(lhs: P<Results<T>>, rhs: P<T>): P<Results<T>>
  {
    (pos: Position, s: Stream) => AppendRun(lhs, rhs, s)
  }

  /** `Parser + QuantifiedParser`: the left side's result before the list's elements, at the
      left side's position. */
  function PrependRun<T>(lhs: P<T>, rhs: P<Results<T>>, s: Stream): (r: R<Results<T>>)
    ensures Keeps(r, s)
    ensures r.Returned? <==> Parse(lhs, s).Returned? && Parse(rhs, Parse(lhs, s).stream).Returned?
    ensures r.Returned? ==>
      && r.result.value == [Parse(lhs, s).result] + Parse(rhs, Parse(lhs, s).stream).result.value
      && r.result.position == Parse(lhs, s).result.position
      && r.stream == Parse(rhs, Parse(lhs, s).stream).stream
  {
    var a := Parse(lhs, s);
    if !a.Returned? then Pass(a)
    else
      var b := Parse(rhs, a.stream);
      if !b.Returned? then Pass(b)
      else Returned(ParseResult(a.result.position, [a.result] + b.result.value), b.stream)
  }

  function Prepend<T>(lhs: P<T>, rhs: P<Results<T>>): P<Results<T>>
  {
    (pos: Position, s: Stream) => PrependRun(lhs, rhs, s)
  }

  /** `QuantifiedParser + QuantifiedParser`: both lists' elements, at the left's position. */
  function ConcatRun<T>(lhs: P<Results<T>>, rhs: P<Results<T>>, s: Stream): (r: R<Results<T>>)
    ensures Keeps(r, s)
    ensures r.Returned? <==> Parse(lhs, s).Returned? && Parse(rhs, Parse(lhs, s).stream).Returned?
    ensures r.Returned? ==>
      && r.result.value == Parse(lhs, s).result.value + Parse(rhs, Parse(lhs, s).stream).result.value
      && r.result.position == Parse(lhs, s).result.position
  {
    var a := Parse(lhs, s);
    if !a.Returned? then Pass(a)
    else
      var b := Parse(rhs, a.stream);
      if !b.Returned? then Pass(b)
      else Returned(ParseResult(a.result.position, a.result.value + b.result.value), b.stream)
  }

  function Concat<T>(lhs: P<Results<T>>, rhs: P<Results<T>>): P<Results<T>>
  {
    (pos: Position, s: Stream) => ConcatRun(lhs, rhs, s)
  }

  /** `|`: both options from the same start, the second after the stream is moved back;
      a stop in either is passed on, and `OrJoin` decides between the two outcomes. */
  function OrRun<T>(o1: P<T>, o2: P<T>, pos: Position, s: Stream): (r: R<T>)
    ensures Keeps(r, s)
  {
    var a := Parse(o1, s);
    if a.Stopped? then Stopped(a.stop)
    else
      var b := Parse(o2, SetOffset(a.stream, s.offset));
      if b.Stopped? then Stopped(b.stop)
      else OrJoin(a, b, pos, s)
  }

  /** The decision of `|` between the two options' outcomes `a` and `b`: it throws exactly
      when both failed, at the start position, listing both errors; otherwise it returns the
      result of an option that succeeded, with the stream where that option left it.  When
      both succeeded, the one whose length (a `size_t` difference of offsets) is at least
      the other's wins, so for parses that read forwards the one that reads further wins,
      the first on a tie. */
  function OrJoin<T>(a: R<T>, b: R<T>, pos: Position, s: Stream): (r: R<T>)
    requires !a.Stopped? && !b.Stopped?
    requires Keeps(a, s) && Keeps(b, s)
    requires b.Raised? ==> b.stream.offset == s.offset
    ensures Keeps(r, s)
    ensures r.Raised? <==> a.Raised? && b.Raised?
    ensures r.Raised? ==> r.error == ParseError(pos, "No option parsed!", [a.error, b.error]) && r.stream.offset == s.offset
    ensures a.Returned? && b.Raised? ==> r.Returned? && r.result == a.result && r.stream.offset == a.stream.offset
    ensures a.Raised? && b.Returned? ==> r.Returned? && r.result == b.result && r.stream.offset == b.stream.offset
    ensures a.Returned? && b.Returned? && s.offset <= a.stream.offset && s.offset <= b.stream.offset ==>
      r.Returned? &&
      if a.stream.offset >= b.stream.offset then r.result == a.result && r.stream.offset == a.stream.offset
      else r.result == b.result && r.stream.offset == b.stream.offset
  {
    var start := s.offset;
    if a.Raised? && b.Raised? then Raised(ParseError(pos, "No option parsed!", [a.error, b.error]), b.stream)
    else if a.Returned? && (b.Raised? || FirstAtLeast(start, a.stream.offset, b.stream.offset))
    then Returned(a.result, Resume(b.stream, start, a.stream.offset))
    else Returned(b.result, Resume(b.stream, start, b.stream.offset))
  }

  /** `result1Length >= result2Length`, the lengths being `size_t` differences from `start`:
      for parses that read forwards, the first reads at least as far. */
  predicate FirstAtLeast(start: nat, end1: nat, end2: nat)
    requires start <= SIZE_MAX && end1 <= SIZE_MAX && end2 <= SIZE_MAX
    ensures start <= end1 && start <= end2 ==> (FirstAtLeast(start, end1, end2) <==> end1 >= end2)
  {
    SizeT(end1 - start) >= SizeT(end2 - start)
  }

  function Or<T>(o1: P<T>, o2: P<T>): P<T>
  {
    (pos: Position, s: Stream) => OrRun(o1, o2, pos, s)
  }

  /** The loop of `Quantified`: parse again while the list is not past `bound`, and stop at the
      first failure, which is an error only when fewer than `min` results were read.  The
      source's `bound` is `max` itself (the loop runs while the size is at most `max`), so it
      admits `max + 1` results; the corrected loop bounds by `max - 1`.  */
  function QuantLoop<T>(p: P<T>, min: nat, bound: int, pos: Position, s: Stream, rs: Results<T>): (r: R<Results<T>>)
    requires |rs| <= bound + 1
    requires min <= bound + 1
    ensures Keeps(r, s)
    ensures r.Returned? ==> min <= |r.result.value| <= bound + 1 && r.result.position == ListPosition(r.result.value, pos)
    ensures r.Returned? ==> |rs| <= |r.result.value| && r.result.value[..|rs|] == rs
    decreases bound + 1 - |rs|
  {
    if |rs| > bound then Returned(ParseResult(ListPosition(rs, pos), rs), s)
    else
      match Parse(p, s)
      case Returned(res, after) => QuantLoop(p, min, bound, pos, after, rs + [res])
      case Raised(e, after) =>
        if |rs| >= min then Returned(ParseResult(ListPosition(rs, pos), rs), after)
        else
          var error := Expectation("at least " + Text.NatToString(min), "only " + Text.NatToString(|rs|), GetPosition(after));
          Raised(Combine(e, error), after)
      case Stopped(w) => Stopped(w)
  }

  /** `Quantified` as written: no parse at all when `max` is 0, else the loop bounded by
      `max` itself. */
  function QuantifiedAsWrittenRun<T>(p: P<T>, min: nat, max: nat, pos: Position, s: Stream): (r: R<Results<T>>)
    requires min <= max <= SIZE_MAX
    ensures Keeps(r, s)
    ensures r.Returned? ==> min <= |r.result.value| <= max + 1
  {
    if max == 0 then Returned(ParseResult(pos, []), s) else QuantLoop(p, min, max, pos, s, [])
  }

  function QuantifiedAsWritten<T>(p: P<T>, min: nat, max: nat): P<Results<T>>
    requires min <= max <= SIZE_MAX
  {
    (pos: Position, s: Stream) => QuantifiedAsWrittenRun(p, min, max, pos, s)
  }

  /** `Quantified` as intended: between `min` and `max` results, the loop stopping once it
      holds `max`. */
  function QuantifiedRun<T>(p: P<T>, min: nat, max: nat, pos: Position, s: Stream): (r: R<Results<T>>)
    requires min <= max <= SIZE_MAX
    ensures Keeps(r, s)
    ensures r.Returned? ==> min <= |r.result.value| <= max
    ensures r.Returned? ==> r.result.position == ListPosition(r.result.value, pos)
  {
    if max == 0 then Returned(ParseResult(pos, []), s) else QuantLoop(p, min, max - 1, pos, s, [])
  }

  function Quantified<T>(p: P<T>, min: nat, max: nat): P<Results<T>>
    requires min <= max <= SIZE_MAX
  {
    (pos: Position, s: Stream) => QuantifiedRun(p, min, max, pos, s)
  }

  /** The four shorthands; `-1` as a `size_t` is `SIZE_MAX`, no upper bound in practice. */
  function ManyOrOne<T>(p: P<T>): P<Results<T>> { Quantified(p, 1, SIZE_MAX) }
  function ZeroOrOne<T>(p: P<T>): P<Results<T>> { Quantified(p, 0, 1) }
  function ZeroOrMore<T>(p: P<T>): P<Results<T>> { Quantified(p, 0, SIZE_MAX) }

  function Exactly<T>(p: P<T>, n: nat): P<Results<T>>
    requires n <= SIZE_MAX
  {
    Quantified(p, n, n)
  }

  /** With `Value(v)`, which always succeeds, the loop as written reads two results where
      `Exactly(1)` asks for one; the corrected loop reads one. */
  lemma QuantifiedAsWrittenOverruns<T>(v: T, pos: Position, s: Stream)
    ensures QuantifiedAsWrittenRun(Value(v), 1, 1, pos, s).Returned?
    ensures |QuantifiedAsWrittenRun(Value(v), 1, 1, pos, s).result.value| == 2
    ensures QuantifiedRun(Value(v), 1, 1, pos, s).Returned?
    ensures |QuantifiedRun(Value(v), 1, 1, pos, s).result.value| == 1
  {
    var one := ParseResult(GetPosition(s), v);
    assert Parse(Value(v), s) == Returned(one, s);
    assert [one] + [one] == [one, one] && [] + [one] == [one];
    assert QuantLoop(Value(v), 1, 1, pos, s, [one, one]).result.value == [one, one];
    assert QuantLoop(Value(v), 1, 1, pos, s, [one]) == QuantLoop(Value(v), 1, 1, pos, s, [one, one]);
    assert QuantLoop(Value(v), 1, 0, pos, s, [one]).result.value == [one];
    assert QuantLoop(Value(v), 1, 0, pos, s, []) == QuantLoop(Value(v), 1, 0, pos, s, [one]);
  }

  /** The result of `Separated` when the optional list is absent: no elements. */
  function OrEmpty<T>(r: ParseResult<Option<Results<T>>>): (rs: Results<T>)
    ensures r.value.Some? ==> rs == r.value.value
    ensures r.value.None? ==> rs == []
  {
    if r.value.Some? then r.value.value else []
  }

  /** `Separated`: elements with separators between them, between `min` and `max` of them.
      Short lists go to `Exactly` and `ZeroOrOne`; longer ones are a first element and then
      separator-prefixed elements, optional as a whole when `min` is 0. */
  function Separated<T, S>(p: P<T>, sep: P<S>, min: nat, max: nat): P<Results<T>>
    requires min <= max <= SIZE_MAX
  {
    if max == 0 then Exactly(p, 0)
    else if max == 1 then (if min == 1 then Exactly(p, 1) else ZeroOrOne(p))
    else if min == 0 then Mapped(Optional(Prepend(p, Quantified(Prefixed(sep, p), 0, max - 1))), OrEmpty)
    else Prepend(p, Quantified(Prefixed(sep, p), min - 1, max - 1))
  }

  /** `Separated` reads between `min` and `max` elements whenever it returns. */
  lemma SeparatedCount<T, S>(p: P<T>, sep: P<S>, min: nat, max: nat, s: Stream)
    requires min <= max <= SIZE_MAX
    ensures var r := Parse(Separated(p, sep, min, max), s);
      r.Returned? ==> min <= |r.result.value| <= max
  {
    if max >= 2 {
      var tail := Quantified(Prefixed(sep, p), if min == 0 then 0 else min - 1, max - 1);
      PrependCount(p, tail, if min == 0 then 0 else min - 1, max - 1, s);
      if min == 0 {
        OptionalCount(Prepend(p, tail), max, s);
      }
    }
  }

  /** A first element before a list of `lo` to `hi` elements gives `lo + 1` to `hi + 1`. */
  lemma PrependCount<T>(p: P<T>, tail: P<Results<T>>, lo: nat, hi: nat, s: Stream)
    requires forall st :: Parse(tail, st).Returned? ==> lo <= |Parse(tail, st).result.value| <= hi
    ensures var r := Parse(Prepend(p, tail), s);
      r.Returned? ==> lo + 1 <= |r.result.value| <= hi + 1
  {
    var a := Parse(p, s);
    if a.Returned? {
      var t := Parse(tail, a.stream);
      assert t.Returned? ==> lo <= |t.result.value| <= hi;
    }
  }

  /** An optional list of at most `hi` elements, absent meaning none, has at most `hi`. */
  lemma OptionalCount<T>(whole: P<Results<T>>, hi: nat, s: Stream)
    requires forall st :: Parse(whole, st).Returned? ==> |Parse(whole, st).result.value| <= hi
    ensures var r := Parse(Mapped(Optional(whole), OrEmpty), s);
      r.Returned? ==> |r.result.value| <= hi
  {
    var o := Parse(Optional(whole), s);
    if o.Returned? && o.result.value.Some? {
      assert |Parse(whole, s).result.value| <= hi;
    }
  }

  /** `LookAhead`: the parser's result with the stream moved back to the position the
      function was given; a position that names no offset is a runtime error. */
  function LookAheadRun<T>(p: P<T>, pos: Position, s: Stream): (r: R<T>)
    ensures Keeps(r, s)
    ensures !Parse(p, s).Returned? ==> r == Parse(p, s)
  {
    match Parse(p, s)
    case Returned(res, after) =>
      (match SetPosition(after, pos)
       case Err(m) => Stopped(RuntimeError(m))
       case Ok(back) => Returned(res, back))
    case Raised(e, after) => Raised(e, after)
    case Stopped(w) => Stopped(w)
  }

  function LookAhead<T>(p: P<T>): P<T>
  {
    (pos: Position, s: Stream) => LookAheadRun(p, pos, s)
  }

  /** Run through `Parse`, `LookAhead` returns what the parser returns and reads nothing: the
      stream is back at its offset. */
  lemma LookAheadRestores<T>(p: P<T>, s: Stream)
    requires Parse(p, s).Returned?
    ensures Parse(LookAhead(p), s).Returned?
    ensures Parse(LookAhead(p), s).result == Parse(p, s).result
    ensures Parse(LookAhead(p), s).stream.offset == s.offset
  {
    SetPositionSameText(s, Parse(p, s).stream);
  }
}

=== FILE: olpc.dfy ===
/** The parser combinators of c++/lpc/old/olpc.h and the terminals of c++/lpc/old/olpc.cpp,
    over the stream, lexer and token cache of `CppStream`.  Here a parser carries a name; when
    it throws, `Parse` moves the stream back and adds "Unable to parse <name>" to the error,
    whose further errors are kept as a text of details rather than a list. */
module Olpc {
  import opened Wrappers
  import opened Lines
  import opened Longest
  import opened CppStream
  import Text

  /** A parse error: where, what, and the reports of the errors it was raised from. */
  datatype ParseError = ParseError(position: Position, message: string, details: string)

  /** `what()`: "Error @ (line, column): message". */
  function What(e: ParseError): string
  {
    "Error @ " + PositionString(e.position) + ": " + e.message
  }

  /** An error's own line followed, when it has any, by its details. */
  function Report(e: ParseError): (r: string)
    ensures e.details == "" ==> r == What(e)
    ensures e.details != "" ==> r == What(e) + "\n" + e.details
  {
    What(e) + (if e.details == "" then "" else "\n" + e.details)
  }

  /** `ParseError(e1, e2)`: the error `e1`, with the report of `e2` put above its details. */
  function Combine(e1: ParseError, e2: ParseError): (e: ParseError)
    ensures e.position == e1.position && e.message == e1.message && What(e) == What(e1)
    ensures e.details == Report(e2) + "\n" + e1.details
  {
    ParseError(e1.position, e1.message, What(e2) + (if e2.details == "" then "" else "\n" + e2.details) + "\n" + e1.details)
  }

  /** Combining twice stacks the reports: the later one first, then the earlier one, then the
      first error's own details. */
  lemma CombineStacks(e: ParseError, a: ParseError, b: ParseError)
    ensures Combine(Combine(e, a), b).details == Report(b) + "\n" + Report(a) + "\n" + e.details
    ensures Combine(Combine(e, a), b).position == e.position
  {
    assert Report(b) + "\n" + (Report(a) + "\n" + e.details) == Report(b) + "\n" + Report(a) + "\n" + e.details;
  }

  /** "Expected X, but found Y" at a position, with no details. */
  function Expectation(expected: string, found: string, pos: Position): (e: ParseError)
    ensures e.position == pos && e.details == ""
    ensures e.message == "Expected " + expected + ", but found " + found
  {
    ParseError(pos, "Expected " + expected + ", but found " + found, "")
  }

  type P<T> = Fn<T, ParseError>
  type R<T> = Outcome<T, ParseError>

  /** A named parse function. */
  datatype Parser<T> = Parser(name: string, run: P<T>)

  /** A failed or stopped outcome, retyped for the combinator that passes it on. */
  function Pass<A, B>(o: R<A>): (r: R<B>)
    requires !o.Returned?
    ensures r.Raised? <==> o.Raised?
    ensures r.Raised? ==> r.error == o.error && r.stream == o.stream
    ensures r.Stopped? ==> r.stop == o.stop
  {
    match o
    case Raised(e, st) => Raised(e, st)
    case Stopped(w) => Stopped(w)
  }

  /** `Parser::Parse`: runs the function at the position of the offset.  When it throws, the
      stream goes back to where it started and the error keeps its position and message, with
      "Unable to parse <name>" at the start position reported above its details. */
  function Parse<T>(p: Parser<T>, s: Stream): (r: R<T>)
    ensures Keeps(r, s)
    ensures r.Raised? <==> p.run(GetPosition(s), s).Raised?
    ensures r.Raised? ==> r.stream.offset == s.offset
    ensures r.Raised? ==>
      r.error == Combine(p.run(GetPosition(s), s).error, ParseError(GetPosition(s), "Unable to parse " + p.name, ""))
    ensures !r.Raised? ==> r == p.run(GetPosition(s), s)
  {
    match p.run(GetPosition(s), s)
    case Raised(e, after) =>
      var back := SetOffset(after, s.offset);
      assert LineStarts(back) == LineStarts(s);
      Raised(Combine(e, ParseError(GetPosition(back), "Unable to parse " + p.name, "")), back)
    case Returned(res, after) => Returned(res, after)
    case Stopped(w) => Stopped(w)
  }

  /** The error a failed parse reports is the innermost one: its position and message are
      those of the error first thrown, whatever named parsers it passed through. */
  lemma ParseKeepsInnermost<T>(p: Parser<T>, s: Stream)
    requires p.run(GetPosition(s), s).Raised?
    ensures Parse(p, s).error.position == p.run(GetPosition(s), s).error.position
    ensures Parse(p, s).error.message == p.run(GetPosition(s), s).error.message
    ensures Parse(p, s).error.details ==
      What(ParseError(GetPosition(s), "Unable to parse " + p.name, "")) + "\n" + p.run(GetPosition(s), s).error.details
  {
    var that := ParseError(GetPosition(s), "Unable to parse " + p.name, "");
    assert Report(that) == What(that);
  }

  /** `Parser(name, parser)`: the same parser under another name, run through its own
      `Parse`, so a failure is reported under both names. */
  function Rename<T>(name: string, p: Parser<T>): (q: Parser<T>)
    ensures q.name == name
  {
    Parser(name, (pos: Position, s: Stream) => Parse(p, s))
  }

  /** `Map`: the function's result at the same position, with no `Parse` of its own in between. */
  function MapRun<A, B>(p: Parser<A>, f: ParseResult<A> -> B, pos: Position, s: Stream): (r: R<B>)
    ensures Keeps(r, s)
    ensures r.Returned? <==> p.run(pos, s).Returned?
    ensures r.Returned? ==>
      && r.result == ParseResult(p.run(pos, s).result.position, f(p.run(pos, s).result))
      && r.stream == p.run(pos, s).stream
    ensures !r.Returned? ==> r == Pass(p.run(pos, s))
  {
    var o := p.run(pos, s);
    if o.Returned? then Returned(ParseResult(o.result.position, f(o.result)), o.stream) else Pass(o)
  }

  function Map<A, B>(p: Parser<A>, f: ParseResult<A> -> B): Parser<B>
  {
    Parser(p.name, (pos: Position, s: Stream) => MapRun(p, f, pos, s))
  }

  /** `Value`: the value at the start position, reading nothing. */
  function Value<T>(name: string, v: T): Parser<T>
  {
    Parser(name, (pos: Position, s: Stream) => Returned(ParseResult(pos, v), s))
  }

  /** What `Try` returns: the parser's value, or the given error value with the parse error. */
  datatype TryValue<S, E> = TrySuccess(success: S) | TryError(error: E, parseError: ParseError)

  /** `Try`: the parser's value at its position, or the error value at the start when it
      fails; it never throws a parse error. */
  function TryRun<S, E>(p: Parser<S>, err: E, pos: Position, s: Stream): (r: R<TryValue<S, E>>)
    ensures Keeps(r, s)
    ensures !r.Raised?
    ensures r.Stopped? <==> Parse(p, s).Stopped?
    ensures Parse(p, s).Returned? ==>
      && r.Returned?
      && r.result == ParseResult(Parse(p, s).result.position, TrySuccess(Parse(p, s).result.value))
      && r.stream == Parse(p, s).stream
    ensures Parse(p, s).Raised? ==>
      && r.Returned?
      && r.result == ParseResult(pos, TryError(err, Parse(p, s).error))
      && r.stream.offset == s.offset
  {
    match Parse(p, s)
    case Returned(res, after) => Returned(ParseResult(res.position, TrySuccess(res.value)), after)
    case Raised(e, after) => Returned(ParseResult(pos, TryError(err, e)), after)
    case Stopped(w) => Stopped(w)
  }

  function Try<S, E>(p: Parser<S>, err: E): (q: Parser<TryValue<S, E>>)
    ensures q.name == "TRY(" + p.name + ")"
  {
    Parser("TRY(" + p.name + ")", (pos: Position, s: Stream) => TryRun(p, err, pos, s))
  }

  /** `Optional`: `Some` of the parser's value at its position, or `None` at the start when
      it fails; it never throws a parse error. */
  function OptionalRun<T>(p: Parser<T>, pos: Position, s: Stream): (r: R<Option<T>>)
    ensures Keeps(r, s)
    ensures !r.Raised?
    ensures r.Stopped? <==> Parse(p, s).Stopped?
    ensures r.Returned? ==> (r.result.value.None? <==> Parse(p, s).Raised?)
    ensures r.Returned? && r.result.value.None? ==> r.result.position == pos && r.stream.offset == s.offset
    ensures r.Returned? && r.result.value.Some? ==>
      && r.result == ParseResult(Parse(p, s).result.position, Some(Parse(p, s).result.value))
      && r.stream == Parse(p, s).stream
  {
    match Parse(p, s)
    case Returned(res, after) => Returned(ParseResult(res.position, Some(res.value)), after)
    case Raised(_, after) => Returned(ParseResult(pos, None), after)
    case Stopped(w) => Stopped(w)
  }

  function Optional<T>(p: Parser<T>): (q: Parser<Option<T>>)
    ensures q.name == p.name + "?"
  {
    Parser(p.name + "?", (pos: Position, s: Stream) => OptionalRun(p, pos, s))
  }

  type Results<T> = seq<ParseResult<T>>

  /** The position of a list of results: its first element's, or the start when empty. */
  function ListPosition<T>(rs: Results<T>, pos: Position): (p: Position)
    ensures |rs| == 0 ==> p == pos
    ensures |rs| > 0 ==> p == rs[0].position
  {
    if |rs| == 0 then pos else rs[0].position
  }

  /** The loop of `Quantified`: parse again while the list is not past `bound`, and stop at
      the first failure, which is an error only when fewer than `min` results were read.  The
      source's `bound` is `max` itself (the loop runs while the size is at most `max`), so it
      admits `max + 1` results; the corrected loop bounds by `max - 1`. */
  function QuantLoop<T>(p: Parser<T>, min: nat, bound: int, pos: Position, s: Stream, rs: Results<T>): (r: R<Results<T>>)
    requires |rs| <= bound + 1
    requires min <= bound + 1
    ensures Keeps(r, s)
    ensures r.Returned? ==> min <= |r.result.value| <= bound + 1 && r.result.position == ListPosition(r.result.value, pos)
    ensures r.Returned? ==> |rs| <= |r.result.value| && r.result.value[..|rs|] == rs
    ensures r.Raised? ==> |rs| < min
    decreases bound + 1 - |rs|
  {
    if |rs| > bound then Returned(ParseResult(ListPosition(rs, pos), rs), s)
    else
      match Parse(p, s)
      case Returned(res, after) => QuantLoop(p, min, bound, pos, after, rs + [res])
      case Raised(e, after) =>
        if |rs| >= min then Returned(ParseResult(ListPosition(rs, pos), rs), after)
        else
          var error := Expectation("at least " + Text.NatToString(min) + " '" + p.name + "'",
                                   "only " + Text.NatToString(|rs|), GetPosition(after));
          Raised(Combine(e, error), after)
      case Stopped(w) => Stopped(w)
  }

  /** `Quantified` as written: no parse at all when `max` is 0, else the loop bounded by
      `max` itself. */
  function QuantifiedAsWrittenRun<T>(p: Parser<T>, min: nat, max: nat, pos: Position, s: Stream): (r: R<Results<T>>)
    requires min <= max <= SIZE_MAX
    ensures Keeps(r, s)
    ensures r.Returned? ==> min <= |r.result.value| <= max + 1
  {
    if max == 0 then Returned(ParseResult(pos, []), s) else QuantLoop(p, min, max, pos, s, [])
  }

  function QuantifiedAsWritten<T>(name: string, p: Parser<T>, min: nat, max: nat): Parser<Results<T>>
    requires min <= max <= SIZE_MAX
  {
    Parser(name, (pos: Position, s: Stream) => QuantifiedAsWrittenRun(p, min, max, pos, s))
  }

  /** `Quantified` as intended: between `min` and `max` results, the loop stopping once it
      holds `max`. */
  function QuantifiedRun<T>(p: Parser<T>, min: nat, max: nat, pos: Position, s: Stream): (r: R<Results<T>>)
    requires min <= max <= SIZE_MAX
    ensures Keeps(r, s)
    ensures r.Returned? ==> min <= |r.result.value| <= max
    ensures r.Returned? ==> r.result.position == ListPosition(r.result.value, pos)
    ensures max == 0 ==> r == Returned(ParseResult(pos, []), s)
  {
    if max == 0 then Returned(ParseResult(pos, []), s) else QuantLoop(p, min, max - 1, pos, s, [])
  }

  function Quantified<T>(name: string, p: Parser<T>, min: nat, max: nat): (q: Parser<Results<T>>)
    requires min <= max <= SIZE_MAX
    ensures q.name == name
  {
    Parser(name, (pos: Position, s: Stream) => QuantifiedRun(p, min, max, pos, s))
  }

  /** The four shorthands; `-1` as a `size_t` is `SIZE_MAX`, no upper bound in practice. */
  function ManyOrOne<T>(name: string, p: Parser<T>): Parser<Results<T>> { Quantified(name, p, 1, SIZE_MAX) }
  function ZeroOrOne<T>(name: string, p: Parser<T>): Parser<Results<T>> { Quantified(name, p, 0, 1) }
  function ZeroOrMore<T>(name: string, p: Parser<T>): Parser<Results<T>> { Quantified(name, p, 0, SIZE_MAX) }

  function Exactly<T>(name: string, p: Parser<T>, n: nat): Parser<Results<T>>
    requires n <= SIZE_MAX
  {
    Quantified(name, p, n, n)
  }

  /** With `Value`, which always succeeds, the loop as written reads two results where
      `Exactly(1)` asks for one; the corrected loop reads one. */
  lemma QuantifiedAsWrittenOverruns<T>(v: T, pos: Position, s: Stream)
    ensures QuantifiedAsWrittenRun(Value("v", v), 1, 1, pos, s).Returned?
    ensures |QuantifiedAsWrittenRun(Value("v", v), 1, 1, pos, s).result.value| == 2
    ensures QuantifiedRun(Value("v", v), 1, 1, pos, s).Returned?
    ensures |QuantifiedRun(Value("v", v), 1, 1, pos, s).result.value| == 1
  {
    var p := Value("v", v);
    var one := ParseResult(GetPosition(s), v);
    assert Parse(p, s) == Returned(one, s);
    assert [one] + [one] == [one, one] && [] + [one] == [one];
    assert QuantLoop(p, 1, 1, pos, s, [one, one]).result.value == [one, one];
    assert QuantLoop(p, 1, 1, pos, s, [one]) == QuantLoop(p, 1, 1, pos, s, [one, one]);
    assert QuantLoop(p, 1, 0, pos, s, [one]).result.value == [one];
    assert QuantLoop(p, 1, 0, pos, s, []) == QuantLoop(p, 1, 0, pos, s, [one]);
  }

  /** The loop of `Sum`: each parser in turn, from where the previous one stopped; the first
      failure is passed on as it is. */
  function SumLoop<T>(ps: seq<Parser<T>>, i: nat, s: Stream, rs: Results<T>): (r: R<Results<T>>)
    requires i <= |ps|
    ensures Keeps(r, s)
    ensures r.Returned? ==> |r.result.value| == |rs| + |ps| - i && r.result.value[..|rs|] == rs
    ensures r.Returned? && i < |ps| ==> Parse(ps[i], s).Returned? && r.result.value[|rs|] == Parse(ps[i], s).result
    ensures i < |ps| && Parse(ps[i], s).Raised? ==> r == Pass(Parse(ps[i], s))
    decreases |ps| - i
  {
    if i == |ps| then Returned(ParseResult(Position(1, 1), rs), s)
    else
      match Parse(ps[i], s)
      case Returned(res, after) => SumLoop(ps, i + 1, after, rs + [res])
      case Raised(e, after) => Raised(e, after)
      case Stopped(w) => Stopped(w)
  }

  /** `Sum`: one result per parser, in order, at the first one's position (or the start when
      there are none); the first parser that fails makes the sum fail with its error. */
  function SumRun<T>(ps: seq<Parser<T>>, pos: Position, s: Stream): (r: R<Results<T>>)
    ensures Keeps(r, s)
    ensures r.Returned? ==> |r.result.value| == |ps| && r.result.position == ListPosition(r.result.value, pos)
    ensures r.Returned? && |ps| > 0 ==> Parse(ps[0], s).Returned? && r.result.value[0] == Parse(ps[0], s).result
    ensures |ps| > 0 && Parse(ps[0], s).Raised? ==> r.Raised? && r.error == Parse(ps[0], s).error
  {
    match SumLoop(ps, 0, s, [])
    case Returned(res, after) => Returned(ParseResult(ListPosition(res.value, pos), res.value), after)
    case Raised(e, after) => Raised(e, after)
    case Stopped(w) => Stopped(w)
  }

  function Sum<T>(name: string, ps: seq<Parser<T>>): Parser<Results<T>>
  {
    Parser(name, (pos: Position, s: Stream) => SumRun(ps, pos, s))
  }

  /** `a + b`: the sum of the two, named after both. */
  function Plus<T>(a: Parser<T>, b: Parser<T>): (q: Parser<Results<T>>)
    ensures q.name == "(" + a.name + " + " + b.name + ")"
  {
    Sum("(" + a.name + " + " + b.name + ")", [a, b])
  }

  /** `a & b`, the two-element `List`: both results, at the first one's position. */
  function PairRun<A, B>(a: Parser<A>, b: Parser<B>, s: Stream): (r: R<(ParseResult<A>, ParseResult<B>)>)
    ensures Keeps(r, s)
    ensures r.Returned? <==> Parse(a, s).Returned? && Parse(b, Parse(a, s).stream).Returned?
    ensures r.Returned? ==>
      && r.result.value == (Parse(a, s).result, Parse(b, Parse(a, s).stream).result)
      && r.result.position == Parse(a, s).result.position
      && r.stream == Parse(b, Parse(a, s).stream).stream
  {
    var x := Parse(a, s);
    if !x.Returned? then Pass(x)
    else
      var y := Parse(b, x.stream);
      if !y.Returned? then Pass(y)
      else Returned(ParseResult(x.result.position, (x.result, y.result)), y.stream)
  }

  function Pair<A, B>(a: Parser<A>, b: Parser<B>): (q: Parser<(ParseResult<A>, ParseResult<B>)>)
    ensures q.name == "(" + a.name + " & " + b.name + ")"
  {
    Parser("(" + a.name + " & " + b.name + ")", (pos: Position, s: Stream) => PairRun(a, b, s))
  }

  /** `Prefixed`: the prefix, then the parser, whose result is kept. */
  function PrefixedRun<A, T>(prefix: Parser<A>, p: Parser<T>, s: Stream): (r: R<T>)
    ensures Keeps(r, s)
    ensures r.Returned? <==> Parse(prefix, s).Returned? && Parse(p, Parse(prefix, s).stream).Returned?
    ensures r.Returned? ==> r == Parse(p, Parse(prefix, s).stream)
  {
    var x := Parse(prefix, s);
    if !x.Returned? then Pass(x) else Parse(p, x.stream)
  }

  function Prefixed<A, T>(name: string, prefix: Parser<A>, p: Parser<T>): Parser<T>
  {
    Parser(name, (pos: Position, s: Stream) => PrefixedRun(prefix, p, s))
  }

  /** `Suffixed`: the parser, whose result is kept, then the suffix. */
  function SuffixedRun<T, A>(p: Parser<T>, suffix: Parser<A>, s: Stream): (r: R<T>)
    ensures Keeps(r, s)
    ensures r.Returned? <==> Parse(p, s).Returned? && Parse(suffix, Parse(p, s).stream).Returned?
    ensures r.Returned? ==> r.result == Parse(p, s).result && r.stream == Parse(suffix, Parse(p, s).stream).stream
  {
    var x := Parse(p, s);
    if !x.Returned? then x
    else
      var y := Parse(suffix, x.stream);
      if !y.Returned? then Pass(y) else Returned(x.result, y.stream)
  }

  function Suffixed<T, A>(name: string, p: Parser<T>, suffix: Parser<A>): Parser<T>
  {
    Parser(name, (pos: Position, s: Stream) => SuffixedRun(p, suffix, s))
  }

  /** `Between`: the opening parser, the parser whose result is kept, the closing parser. */
  function Between<A, T, B>(name: string, open: Parser<A>, p: Parser<T>, close: Parser<B>): Parser<T>
  {
    Parser(name, (pos: Position, s: Stream) =>
      var x := Parse(open, s);
      if !x.Returned? then Pass(x) else SuffixedRun(p, close, x.stream))
  }

  /** `a >> b` and `a << b`. */
  function Then<A, T>(a: Parser<A>, b: Parser<T>): Parser<T>
  {
    Prefixed("(" + a.name + " >> " + b.name + ")", a, b)
  }

  function Before<T, A>(a: Parser<T>, b: Parser<A>): Parser<T>
  {
    Suffixed("(" + a.name + " << " + b.name + ")", a, b)
  }

  /** The value of `p & tail` as one list: the first element, then the tail's. */
  function Flatten<T>(r: ParseResult<(ParseResult<T>, ParseResult<Results<T>>)>): (rs: Results<T>)
    ensures |rs| == 1 + |r.value.1.value| && rs[0] == r.value.0 && rs[1..] == r.value.1.value
  {
    [r.value.0] + r.value.1.value
  }

  /** An absent optional list is the empty list. */
  function OrEmpty<T>(r: ParseResult<Option<Results<T>>>): (rs: Results<T>)
    ensures r.value.Some? ==> rs == r.value.value
    ensures r.value.None? ==> rs == []
  {
    if r.value.Some? then r.value.value else []
  }

  /** The list `Separated` builds for two or more elements: an element, then up to
      `max - 1` separator-prefixed ones, optional as a whole when `min` is 0. */
  function SeparatedList<T, S>(p: Parser<T>, sep: Parser<S>, min: nat, max: nat): Parser<Results<T>>
    requires min <= max <= SIZE_MAX && max >= 2
  {
    var tail := Quantified("TAIL(" + sep.name + ", " + p.name + ")", Then(sep, p), if min == 0 then 0 else min - 1, max - 1);
    var list := Map(Pair(p, tail), Flatten);
    if min == 0 then Map(Optional(list), OrEmpty) else list
  }

  /** `Separated` as written: a list of at most one element is left to `ZeroOrOne`, which
      does not look at `min`, so a required single element may be missing. */
  function SeparatedAsWritten<T, S>(name: string, p: Parser<T>, sep: Parser<S>, min: nat, max: nat): Parser<Results<T>>
    requires min <= max <= SIZE_MAX
  {
    if max == 0 then Quantified(name, p, 0, 0)
    else if max == 1 then ZeroOrOne(name, p)
    else Rename(name, SeparatedList(p, sep, min, max))
  }

  /** `Separated` as intended: a list of at most one element takes `min` into account. */
  function Separated<T, S>(name: string, p: Parser<T>, sep: Parser<S>, min: nat, max: nat): Parser<Results<T>>
    requires min <= max <= SIZE_MAX
  {
    if max == 0 then Quantified(name, p, 0, 0)
    else if max == 1 then Quantified(name, p, min, 1)
    else Rename(name, SeparatedList(p, sep, min, max))
  }

  /** `Separated` reads between `min` and `max` elements whenever it returns. */
  lemma SeparatedCount<T, S>(name: string, p: Parser<T>, sep: Parser<S>, min: nat, max: nat, s: Stream)
    requires min <= max <= SIZE_MAX
    ensures var r := Parse(Separated(name, p, sep, min, max), s);
      r.Returned? ==> min <= |r.result.value| <= max
  {
    if max == 1 {
      QuantifiedCount(name, p, min, 1);
    } else if max >= 2 {
      var lo := if min == 0 then 0 else min - 1;
      var tail := Quantified("TAIL(" + sep.name + ", " + p.name + ")", Then(sep, p), lo, max - 1);
      QuantifiedCount("TAIL(" + sep.name + ", " + p.name + ")", Then(sep, p), lo, max - 1);
      ListCount(p, tail, lo, max - 1);
      var list := Map(Pair(p, tail), Flatten);
      if min == 0 {
        OptionalListCount(list, max, s);
      }
    }
  }

  /** `Quantified` reads between `min` and `max` elements whenever it returns. */
  lemma QuantifiedCount<T>(name: string, p: Parser<T>, min: nat, max: nat)
    requires min <= max <= SIZE_MAX
    ensures forall st :: Parse(Quantified(name, p, min, max), st).Returned? ==>
      min <= |Parse(Quantified(name, p, min, max), st).result.value| <= max
  {
    forall st | Parse(Quantified(name, p, min, max), st).Returned?
      ensures min <= |Parse(Quantified(name, p, min, max), st).result.value| <= max
    {
      assert Parse(Quantified(name, p, min, max), st) == QuantifiedRun(p, min, max, GetPosition(st), st);
    }
  }

  /** A first element before a list of `lo` to `hi` elements gives `lo + 1` to `hi + 1`. */
  lemma ListCount<T>(p: Parser<T>, tail: Parser<Results<T>>, lo: nat, hi: nat)
    requires forall st :: Parse(tail, st).Returned? ==> lo <= |Parse(tail, st).result.value| <= hi
    ensures forall st :: Parse(Map(Pair(p, tail), Flatten), st).Returned? ==>
      lo + 1 <= |Parse(Map(Pair(p, tail), Flatten), st).result.value| <= hi + 1
  {
    forall st | Parse(Map(Pair(p, tail), Flatten), st).Returned?
      ensures lo + 1 <= |Parse(Map(Pair(p, tail), Flatten), st).result.value| <= hi + 1
    {
      var a := Parse(p, st);
      var t := Parse(tail, a.stream);
      assert t.Returned? && lo <= |t.result.value| <= hi;
    }
  }

  /** An optional list of at most `hi` elements, absent meaning none, has at most `hi`. */
  lemma OptionalListCount<T>(list: Parser<Results<T>>, hi: nat, s: Stream)
    requires forall st :: Parse(list, st).Returned? ==> |Parse(list, st).result.value| <= hi
    ensures var r := Parse(Map(Optional(list), OrEmpty), s);
      r.Returned? ==> |r.result.value| <= hi
  {
    var o := Parse(Optional(list), s);
    if o.Returned? && o.result.value.Some? {
      assert |Parse(list, s).result.value| <= hi;
    }
  }

  /** With a parser that always fails, a list of exactly one element is accepted empty as
      written, and refused as intended. */
  lemma SeparatedAsWrittenAcceptsNone<S>(sep: Parser<S>, s: Stream)
    ensures Parse(SeparatedAsWritten("xs", Error("x", "no x"), sep, 1, 1), s).Returned?
    ensures Parse(SeparatedAsWritten("xs", Error("x", "no x"), sep, 1, 1), s).result.value == []
    ensures Parse(Separated("xs", Error("x", "no x"), sep, 1, 1), s).Raised?
  {
    var x := Error("x", "no x");
    assert Parse(x, s).Raised?;
  }

  /** `Not` as written: when the parser succeeds the error it means to throw is caught by its
      own handler, so it returns that error instead; it never fails. */
  function NotAsWrittenRun<T>(p: Parser<T>, s: Stream): (r: R<ParseError>)
    ensures Keeps(r, s)
    ensures !r.Raised?
    ensures Parse(p, s).Returned? ==> r.Returned? && r.result.value.message == "Expected " + p.name + " to fail"
  {
    match Parse(p, s)
    case Returned(_, after) =>
      var e := ParseError(GetPosition(after), "Expected " + p.name + " to fail", "");
      Returned(ParseResult(e.position, e), after)
    case Raised(e, after) => Returned(ParseResult(e.position, e), after)
    case Stopped(w) => Stopped(w)
  }

  function NotAsWritten<T>(p: Parser<T>): Parser<ParseError>
  {
    Parser("!" + p.name, (pos: Position, s: Stream) => NotAsWrittenRun(p, s))
  }

  /** `Not` as intended: it fails exactly when the parser succeeds, and otherwise returns the
      parser's error at that error's position. */
  function NotRun<T>(p: Parser<T>, s: Stream): (r: R<ParseError>)
    ensures Keeps(r, s)
    ensures r.Raised? <==> Parse(p, s).Returned?
    ensures r.Raised? ==> r.error == ParseError(GetPosition(Parse(p, s).stream), "Expected " + p.name + " to fail", "")
    ensures r.Returned? <==> Parse(p, s).Raised?
    ensures r.Returned? ==> r.result == ParseResult(Parse(p, s).error.position, Parse(p, s).error) && r.stream.offset == s.offset
  {
    match Parse(p, s)
    case Returned(_, after) => Raised(ParseError(GetPosition(after), "Expected " + p.name + " to fail", ""), after)
    case Raised(e, after) => Returned(ParseResult(e.position, e), after)
    case Stopped(w) => Stopped(w)
  }

  function Not<T>(p: Parser<T>): Parser<ParseError>
  {
    Parser("!" + p.name, (pos: Position, s: Stream) => NotRun(p, s))
  }

  /** On a parser that always succeeds, `Not` as written succeeds as well, where the
      corrected one fails. */
  lemma NotAsWrittenAccepts<T>(v: T, s: Stream)
    ensures Parse(NotAsWritten(Value("v", v)), s).Returned?
    ensures Parse(Not(Value("v", v)), s).Raised?
  {
    assert Parse(Value("v", v), s).Returned?;
  }

  /** `LookAhead`: the parser's result with the stream moved back to the position the
      function was given; a position that names no offset is a runtime error. */
  function LookAheadRun<T>(p: Parser<T>, pos: Position, s: Stream): (r: R<T>)
    ensures Keeps(r, s)
    ensures !Parse(p, s).Returned? ==> r == Parse(p, s)
    ensures r.Returned? ==> r.result == Parse(p, s).result
  {
    match Parse(p, s)
    case Returned(res, after) =>
      (match SetPosition(after, pos)
       case Err(m) => Stopped(RuntimeError(m))
       case Ok(back) => Returned(res, back))
    case Raised(e, after) => Raised(e, after)
    case Stopped(w) => Stopped(w)
  }

  function LookAhead<T>(p: Parser<T>): (q: Parser<T>)
    ensures q.name == "LOOKAHEAD(" + p.name + ")"
  {
    Parser("LOOKAHEAD(" + p.name + ")", (pos: Position, s: Stream) => LookAheadRun(p, pos, s))
  }

  /** Run through `Parse`, `LookAhead` returns what the parser returns and reads nothing. */
  lemma LookAheadRestores<T>(p: Parser<T>, s: Stream)
    requires Parse(p, s).Returned?
    ensures Parse(LookAhead(p), s).Returned?
    ensures Parse(LookAhead(p), s).result == Parse(p, s).result
    ensures Parse(LookAhead(p), s).stream.offset == s.offset
  {
    SetPositionSameText(s, Parse(p, s).stream);
  }

  /** `Terminal(name, patternID, value)`: reads the next token that is not ignored; it must
      have the pattern and, when one is given, the value.  A mismatch is an expectation error
      at the token's position; an action's runtime error or an endless read passes through. */
  function TerminalRun(id: string, value: Option<string>, s: Stream): (r: R<string>)
    ensures Keeps(r, s)
    ensures r.Stopped? <==> !GetToken(s).Got?
    ensures r.Returned? <==>
      GetToken(s).Got? && GetToken(s).token.patternID == id && (value.Some? ==> GetToken(s).token.value == value.value)
    ensures r.Returned? ==>
      r.result == ParseResult(GetToken(s).token.position, GetToken(s).token.value) && r.stream == GetToken(s).stream
    ensures r.Raised? ==> r.error.position == GetToken(s).token.position && r.error.details == ""
  {
    match GetToken(s)
    case Hangs => Stopped(Hang)
    case Failed(m) => Stopped(RuntimeError(m))
    case Got(token, after) =>
      if token.patternID != id then
        var expected := "'" + id + (if value.Some? then "(" + value.value + ")" else "") + "'";
        var found := "'" + token.patternID + (if token.value == "" then "" else "(" + token.value + ")") + "'";
        Raised(Expectation(expected, found, token.position), after)
      else if value.Some? && token.value != value.value then
        Raised(Expectation("'" + value.value + "'", "'" + token.value + "'", token.position), after)
      else Returned(ParseResult(token.position, token.value), after)
  }

  function Terminal(name: string, id: string, value: Option<string>): Parser<string>
  {
    Parser(name, (pos: Position, s: Stream) => TerminalRun(id, value, s))
  }

  /** A token terminal reads exactly what the lexer reads afresh from the offset, the cache
      notwithstanding: it succeeds with the first token that is not ignored when that token
      has the pattern asked for. */
  lemma TerminalReads(id: string, value: Option<string>, s: Stream)
    ensures var t := ReadToken(s.lexer, s.ignores, s.data, s.offset);
      TerminalRun(id, value, s).Returned? <==> t.Read? && t.token.patternID == id && (value.Some? ==> t.token.value == value.value)
    ensures var t := ReadToken(s.lexer, s.ignores, s.data, s.offset);
      TerminalRun(id, value, s).Returned? ==>
        TerminalRun(id, value, s).result.value == t.token.value && TerminalRun(id, value, s).stream.offset == t.end
  {
    GetTokenReads(s);
  }

  /** A regular expression: its text, for messages, and what it matches. */
  datatype Regex = Regex(source: string, matcher: Matcher)

  /** `Terminal(name, regex, value)`: the regular expression matched at the offset, with no
      lexer involved.  No match, or a match other than the required value, is an error at the
      start position; otherwise the offset moves past the match. */
  function TerminalRegexRun(re: Regex, value: Option<string>, pos: Position, s: Stream): (r: R<string>)
    ensures Keeps(r, s)
    ensures !r.Stopped?
    ensures r.Raised? ==> r.error.position == pos && r.stream == s
    ensures r.Raised? <==>
      Within(re.matcher(s.data[s.offset..]), s.data[s.offset..]).None? ||
      (value.Some? && s.data[s.offset..][..Within(re.matcher(s.data[s.offset..]), s.data[s.offset..]).value] != value.value)
    ensures r.Returned? ==>
      && r.result.position == pos
      && s.offset + |r.result.value| == r.stream.offset
      && r.result.value == s.data[s.offset..r.stream.offset]
  {
    var rest := s.data[s.offset..];
    match Within(re.matcher(rest), rest)
    case None => Raised(ParseError(pos, "No match found for regular expression: " + re.source, ""), s)
    case Some(n) =>
      var m := rest[..n];
      if value.Some? && m != value.value then Raised(Expectation("'" + value.value + "'", "'" + m + "'", pos), s)
      else Returned(ParseResult(pos, m), IgnoreChars(s, n))
  }

  function TerminalRegex(name: string, re: Regex, value: Option<string>): Parser<string>
  {
    Parser(name, (pos: Position, s: Stream) => TerminalRegexRun(re, value, pos, s))
  }

  /** `EOS`: succeeds, reading nothing, exactly at the end of the text; elsewhere it expects
      "<EOS>" and reports the next character. */
  function EOSRun(pos: Position, s: Stream): (r: R<()>)
    ensures !r.Stopped? && r.stream == s
    ensures r.Returned? <==> IsEOS(s)
    ensures r.Returned? ==> r.result.position == pos
    ensures r.Raised? ==> r.error == Expectation("'" + EOS_PATTERN_ID + "'", "'" + [s.data[s.offset]] + "'", pos)
  {
    if IsEOS(s) then Returned(ParseResult(pos, ()), s)
    else Raised(Expectation("'" + EOS_PATTERN_ID + "'", "'" + [PeekChar(s).0.value] + "'", pos), s)
  }

  function EOS(name: string): Parser<()>
  {
    Parser(name, (pos: Position, s: Stream) => EOSRun(pos, s))
  }

  /** `Error`: always throws the message at the position of the offset. */
  function ErrorRun(message: string, s: Stream): (r: R<()>)
    ensures r.Raised? && r.stream == s
    ensures r.error.position == GetPosition(s) && r.error.message == message
  {
    Raised(ParseError(GetPosition(s), message, ""), s)
  }

  function Error(name: string, message: string): Parser<()>
  {
    Parser(name, (pos: Position, s: Stream) => ErrorRun(message, s))
  }
}

=== FILE: olpc_binop.dfy ===
/** `BinopChain` of c++/lpc/old/olpc.h: operands joined by binary operators, parsed by
    precedence climbing.  A chain at level `cur` takes an operand, then, while the next
    operator parses and binds at least as tightly as `cur`, parses the right-hand side at the
    operator's own level (right associative) or one above it (otherwise) and combines. */
module OlpcBinop {
  import opened Lines
  import opened CppStream
  import opened Olpc

  datatype Associativity = Right | Left | NoAssociativity

  /** An operator as the operator parser reports it. */
  datatype Binop<B> = Binop(id: B, precedence: nat, associativity: Associativity)

  type Combiner<!T, !B> = (ParseResult<T>, ParseResult<Binop<B>>, ParseResult<T>) -> ParseResult<T>

  /** The level the right-hand side of an operator is parsed at, as a `size_t`. */
  function NextLevel<B>(op: Binop<B>): (n: nat)
    ensures op.associativity == Right && op.precedence <= SIZE_MAX ==> n == op.precedence
    ensures op.associativity != Right && op.precedence < SIZE_MAX ==> n == op.precedence + 1
  {
    SizeT(op.precedence + (if op.associativity == Right then 0 else 1))
  }

  /** What the chain does with a parser: `p.Parse(stream)`, as a function of the stream. */
  type Reader<T> = f: Stream -> R<T> | forall s :: Keeps(f(s), s) witness (s: Stream) => Stopped(Hang)

  function Reading<T>(p: Parser<T>): (f: Reader<T>)
  {
    (s: Stream) => Parse(p, s)
  }

  /** Where a chain at level `cur` may stop: the operator parser fails at `st`, or reads an
      operator that binds more loosely than `cur`, which is then put back. */
  ghost predicate StopsAt<B>(op: Reader<Binop<B>>, cur: nat, st: Stream, end: Stream)
  {
    var o := op(st);
    || (o.Raised? && end == o.stream)
    || (o.Returned? && o.result.value.precedence < cur && end == SetOffset(o.stream, st.offset))
  }

  /** `BinopChainFunc`: an operand, then the loop.  The recursion has no bound in the source
      when operands and operators may read nothing; here it runs on `fuel`, and running out is
      reported as a parse that never ends. */
  function ChainFunc<T, B>(atom: Reader<T>, op: Reader<Binop<B>>, combine: Combiner<T, B>, cur: nat, s: Stream, fuel: nat): (r: R<T>)
    ensures Keeps(r, s)
    ensures fuel > 0 && atom(s).Raised? ==> r == Pass(atom(s))
    ensures r.Returned? ==> atom(s).Returned?
    decreases fuel, 1
  {
    if fuel == 0 then Stopped(Hang)
    else
      var first := atom(s);
      if !first.Returned? then Pass(first)
      else ChainLoop(atom, op, combine, cur, first.result, first.stream, fuel - 1)
  }

  /** The loop of `BinopChainFunc`, holding the chain built so far.  An operator parse that
      throws ends the chain where that parse left the stream (back at its start); one that
      binds too loosely is put back by hand. */
  function ChainLoop<T, B>(atom: Reader<T>, op: Reader<Binop<B>>, combine: Combiner<T, B>, cur: nat,
                           chain: ParseResult<T>, s: Stream, fuel: nat): (r: R<T>)
    ensures Keeps(r, s)
    ensures op(s).Raised? ==> r == Returned(chain, op(s).stream)
    decreases fuel, 0
  {
    match op(s)
    case Stopped(w) => Stopped(w)
    case Raised(_, after) => Returned(chain, after)
    case Returned(operator, after) =>
      if operator.value.precedence < cur then Returned(chain, SetOffset(after, s.offset))
      else if fuel == 0 then Stopped(Hang)
      else
        match ChainFunc(atom, op, combine, NextLevel(operator.value), after, fuel - 1)
        case Returned(rhs, next) => ChainLoop(atom, op, combine, cur, combine(chain, operator, rhs), next, fuel - 1)
        case Raised(e, next) => Raised(e, next)
        case Stopped(w) => Stopped(w)
  }

  function BinopChain<T, B>(name: string, atom: Parser<T>, op: Parser<Binop<B>>, combine: Combiner<T, B>, fuel: nat): Parser<T>
  {
    Parser(name, (pos: Position, s: Stream) => ChainFunc(Reading(atom), Reading(op), combine, 0, s, fuel))
  }

  /** The fuel only bounds the recursion: a chain that finishes within `fuel` steps gives the
      same outcome with any larger budget. */
  lemma {:induction false} FuncFuel<T, B>(atom: Reader<T>, op: Reader<Binop<B>>, combine: Combiner<T, B>, cur: nat, s: Stream, fuel: nat, more: nat)
    requires fuel <= more
    requires ChainFunc(atom, op, combine, cur, s, fuel) != Stopped(Hang)
    ensures ChainFunc(atom, op, combine, cur, s, more) == ChainFunc(atom, op, combine, cur, s, fuel)
    decreases fuel, 2
  {
    var first := atom(s);
    if first.Returned? {
      FuncUnfolds(atom, op, combine, cur, s, fuel);
      FuncUnfolds(atom, op, combine, cur, s, more);
      LoopFuel(atom, op, combine, cur, first.result, first.stream, fuel - 1, more - 1);
    }
  }

  /** After an operand, the chain is the loop from the operand's end. */
  lemma FuncUnfolds<T, B>(atom: Reader<T>, op: Reader<Binop<B>>, combine: Combiner<T, B>, cur: nat, s: Stream, fuel: nat)
    requires fuel > 0
    requires atom(s).Returned?
    ensures ChainFunc(atom, op, combine, cur, s, fuel) == ChainLoop(atom, op, combine, cur, atom(s).result, atom(s).stream, fuel - 1)
  {
  }

  lemma {:induction false} LoopFuel<T, B>(atom: Reader<T>, op: Reader<Binop<B>>, combine: Combiner<T, B>, cur: nat,
                                          chain: ParseResult<T>, s: Stream, fuel: nat, more: nat)
    requires fuel <= more
    requires ChainLoop(atom, op, combine, cur, chain, s, fuel) != Stopped(Hang)
    ensures ChainLoop(atom, op, combine, cur, chain, s, more) == ChainLoop(atom, op, combine, cur, chain, s, fuel)
    decreases fuel, 1
  {
    if op(s).Returned? && op(s).result.value.precedence >= cur {
      RoundFuel(atom, op, combine, cur, chain, s, fuel, more);
    }
  }

  lemma {:induction false} RoundFuel<T, B>(atom: Reader<T>, op: Reader<Binop<B>>, combine: Combiner<T, B>, cur: nat,
                                           chain: ParseResult<T>, s: Stream, fuel: nat, more: nat)
    requires fuel <= more
    requires op(s).Returned? && op(s).result.value.precedence >= cur
    requires ChainLoop(atom, op, combine, cur, chain, s, fuel) != Stopped(Hang)
    ensures ChainLoop(atom, op, combine, cur, chain, s, more) == ChainLoop(atom, op, combine, cur, chain, s, fuel)
    decreases fuel, 0
  {
    var o := op(s);
    var level := NextLevel(o.result.value);
    var rhs := ChainFunc(atom, op, combine, level, o.stream, fuel - 1);
    FuncFuel(atom, op, combine, level, o.stream, fuel - 1, more - 1);
    if rhs.Returned? {
      LoopUnfolds(atom, op, combine, cur, chain, s, fuel);
      LoopUnfolds(atom, op, combine, cur, chain, s, more);
      LoopFuel(atom, op, combine, cur, combine(chain, o.result, rhs.result), rhs.stream, fuel - 1, more - 1);
    }
  }

  /** One round of the loop: an operator at least as tight as the level, then a right-hand side,
      and the loop goes on from the combined chain. */
  lemma LoopUnfolds<T, B>(atom: Reader<T>, op: Reader<Binop<B>>, combine: Combiner<T, B>, cur: nat,
                          chain: ParseResult<T>, s: Stream, fuel: nat)
    requires fuel > 0
    requires op(s).Returned? && op(s).result.value.precedence >= cur
    requires ChainFunc(atom, op, combine, NextLevel(op(s).result.value), op(s).stream, fuel - 1).Returned?
    ensures var o := op(s);
            var rhs := ChainFunc(atom, op, combine, NextLevel(o.result.value), o.stream, fuel - 1);
            ChainLoop(atom, op, combine, cur, chain, s, fuel) == ChainLoop(atom, op, combine, cur, combine(chain, o.result, rhs.result), rhs.stream, fuel - 1)
  {
  }

  /** A chain that returns has stopped where the operator parser failed, or where it read an
      operator binding more loosely than the chain's level and put it back. */
  lemma {:induction false} FuncStops<T, B>(atom: Reader<T>, op: Reader<Binop<B>>, combine: Combiner<T, B>, cur: nat, s: Stream, fuel: nat)
    requires ChainFunc(atom, op, combine, cur, s, fuel).Returned?
    ensures exists st :: StopsAt(op, cur, st, ChainFunc(atom, op, combine, cur, s, fuel).stream)
    decreases fuel, 1
  {
    var first := atom(s);
    assert ChainFunc(atom, op, combine, cur, s, fuel) == ChainLoop(atom, op, combine, cur, first.result, first.stream, fuel - 1);
    LoopStops(atom, op, combine, cur, first.result, first.stream, fuel - 1);
  }

  lemma {:induction false} LoopStops<T, B>(atom: Reader<T>, op: Reader<Binop<B>>, combine: Combiner<T, B>, cur: nat,
                                           chain: ParseResult<T>, s: Stream, fuel: nat)
    requires ChainLoop(atom, op, combine, cur, chain, s, fuel).Returned?
    ensures exists st :: StopsAt(op, cur, st, ChainLoop(atom, op, combine, cur, chain, s, fuel).stream)
    decreases fuel, 0
  {
    var r := ChainLoop(atom, op, combine, cur, chain, s, fuel);
    var o := op(s);
    if o.Raised? {
      assert StopsAt(op, cur, s, r.stream);
    } else if o.result.value.precedence < cur {
      assert StopsAt(op, cur, s, r.stream);
    } else {
      var rhs := ChainFunc(atom, op, combine, NextLevel(o.result.value), o.stream, fuel - 1);
      var combined := combine(chain, o.result, rhs.result);
      assert r == ChainLoop(atom, op, combine, cur, combined, rhs.stream, fuel - 1);
      LoopStops(atom, op, combine, cur, combined, rhs.stream, fuel - 1);
    }
  }

  /** An operand followed by an operator that binds more loosely than the level is the whole
      chain: the operator is put back and the operand is the result. */
  lemma LooseOperatorEndsChain<T, B>(atom: Reader<T>, op: Reader<Binop<B>>, combine: Combiner<T, B>, cur: nat, s: Stream, fuel: nat)
    requires fuel > 0
    requires atom(s).Returned?
    requires op(atom(s).stream).Returned?
    requires op(atom(s).stream).result.value.precedence < cur
    ensures var first := atom(s);
            ChainFunc(atom, op, combine, cur, s, fuel) == Returned(first.result, SetOffset(op(first.stream).stream, first.stream.offset))
  {
  }

  /** The right-hand side of a left (or non-) associative operator stops before any operator of
      the same precedence, so `a - b - c` groups as `(a - b) - c`; that of a right associative
      operator runs on through operators of its own precedence, and stops only at a looser one. */
  lemma RightHandSideStops<T, B>(atom: Reader<T>, op: Reader<Binop<B>>, combine: Combiner<T, B>, o: Binop<B>, s: Stream, fuel: nat)
    requires o.precedence < SIZE_MAX
    requires ChainFunc(atom, op, combine, NextLevel(o), s, fuel).Returned?
    ensures exists st: Stream ::
      && StopsAt(op, NextLevel(o), st, ChainFunc(atom, op, combine, NextLevel(o), s, fuel).stream)
      && (|| op(st).Raised?
          || (o.associativity != Right && op(st).result.value.precedence <= o.precedence)
          || (o.associativity == Right && op(st).result.value.precedence < o.precedence))
  {
    var r := ChainFunc(atom, op, combine, NextLevel(o), s, fuel);
    FuncStops(atom, op, combine, NextLevel(o), s, fuel);
    var st: Stream :| StopsAt(op, NextLevel(o), st, r.stream);
    assert op(st).Raised? || op(st).result.value.precedence < NextLevel(o);
  }

}

=== FILE: olpc_choice.dfy ===
/** The `Choice` combinator of c++/lpc/old/olpc.h: every option is tried from the same
    offset, the first of the longest successes wins, and when all fail the errors that got
    furthest into the text decide what is reported. */
module OlpcChoice {
  import opened Wrappers
  import opened Lines
  import opened CppStream
  import opened Olpc
  import Text

  /** What one option did, as `Choice` sees it: a result and the `size_t` distance it read,
      or the error it threw. */
  datatype Attempt<T> = Won(result: ParseResult<T>, length: nat) | Lost(error: ParseError)

  /** What `Choice` remembers between options: the best result so far and its length, and
      while there is none, the errors that got furthest. */
  datatype Choosing<T> = Choosing(result: Option<ParseResult<T>>, greatest: nat, errors: seq<ParseError>)

  /** The state before any option. */
  function Start<T>(): Choosing<T>
  {
    Choosing(None, 0, [])
  }

  /** Where an error got to: the offset its position names, or a runtime error. */
  type Locate = ParseError -> Result<nat, string>

  /** The source asks the stream for the offset of an error's position; the answer depends
      only on the text, which no option changes, so it is fixed once for the whole choice. */
  function Locator(s: Stream): Locate
  {
    (e: ParseError) => GetOffsetOf(s, e.position)
  }

  /** One option's effect on what `Choice` remembers.  A success replaces the best result when
      there is none yet or it is strictly longer, and clears the errors; an error counts only
      while nothing has succeeded, is added when it got exactly as far as the last kept error
      (as far as offset 0 when none is kept), and replaces them all when it got further. */
  function Step<T>(c: Choosing<T>, a: Attempt<T>, at: Locate): (r: Result<Choosing<T>, string>)
  {
    match a
    case Won(res, length) =>
      if c.result.None? || length > c.greatest then Ok(Choosing(Some(res), length, [])) else Ok(c)
    case Lost(e) =>
      if c.result.Some? then Ok(c)
      else
        match at(e)
        case Err(m) => Err(m)
        case Ok(eLength) =>
          match (if c.errors == [] then Ok(0) else at(c.errors[|c.errors| - 1]))
          case Err(m) => Err(m)
          case Ok(errorsLength) =>
            if eLength == errorsLength then Ok(c.(errors := c.errors + [e]))
            else if eLength > errorsLength then Ok(c.(errors := [e]))
            else Ok(c)
  }

  /** The options' attempts taken in order, stopping at the first runtime error. */
  function Decide<T>(ats: seq<Attempt<T>>, at: Locate): (r: Result<Choosing<T>, string>)
    decreases |ats|
  {
    if |ats| == 0 then Ok(Start())
    else
      match Decide(ats[..|ats| - 1], at)
      case Err(m) => Err(m)
      case Ok(c) => Step(c, ats[|ats| - 1], at)
  }

  /** One more attempt is one more step. */
  lemma DecideStep<T>(ats: seq<Attempt<T>>, a: Attempt<T>, at: Locate)
    requires Decide(ats, at).Ok?
    ensures Decide(ats + [a], at) == Step(Decide(ats, at).value, a, at)
  {
    assert (ats + [a])[..|ats|] == ats;
  }

  /** The winner, stated directly: a success no other success is longer than, and that every
      success before it is shorter than. */
  predicate Longest<T>(ats: seq<Attempt<T>>, k: int)
  {
    && 0 <= k < |ats| && ats[k].Won?
    && (forall j :: 0 <= j < |ats| && ats[j].Won? ==> ats[j].length <= ats[k].length)
    && (forall j :: 0 <= j < k && ats[j].Won? ==> ats[j].length < ats[k].length)
  }

  predicate AllLost<T>(ats: seq<Attempt<T>>)
  {
    forall j :: 0 <= j < |ats| ==> ats[j].Lost?
  }

  /** The offset an error reached, 0 for one whose position names no offset. */
  function Reached(at: Locate, e: ParseError): nat
  {
    match at(e)
    case Ok(o) => o
    case Err(_) => 0
  }

  /** The furthest offset the errors reached, 0 when there are none. */
  function Farthest<T>(ats: seq<Attempt<T>>, at: Locate): (m: nat)
    ensures forall j :: 0 <= j < |ats| && ats[j].Lost? ==> Reached(at, ats[j].error) <= m
    decreases |ats|
  {
    if |ats| == 0 then 0
    else
      var m := Farthest(ats[..|ats| - 1], at);
      var last := ats[|ats| - 1];
      if last.Lost? && Reached(at, last.error) > m then Reached(at, last.error) else m
  }

  /** The errors, in order, that reached offset `m`. */
  function ErrorsAt<T>(ats: seq<Attempt<T>>, m: nat, at: Locate): (es: seq<ParseError>)
    ensures forall e | e in es :: Reached(at, e) == m
    ensures |es| <= |ats|
    decreases |ats|
  {
    if |ats| == 0 then []
    else
      var last := ats[|ats| - 1];
      ErrorsAt(ats[..|ats| - 1], m, at) + (if last.Lost? && Reached(at, last.error) == m then [last.error] else [])
  }

  /** When no error reached further than `m`, none of them reached `m`. */
  lemma {:induction false} NoneAt<T>(ats: seq<Attempt<T>>, m: nat, at: Locate)
    requires Farthest(ats, at) < m
    ensures ErrorsAt(ats, m, at) == []
    decreases |ats|
  {
    if |ats| > 0 {
      NoneAt(ats[..|ats| - 1], m, at);
    }
  }

  /** Some error reaches the furthest offset whenever that offset is not 0. */
  lemma {:induction false} FarthestReached<T>(ats: seq<Attempt<T>>, at: Locate)
    requires Farthest(ats, at) > 0
    ensures ErrorsAt(ats, Farthest(ats, at), at) != []
    decreases |ats|
  {
    var m := Farthest(ats, at);
    var init := ats[..|ats| - 1];
    var last := ats[|ats| - 1];
    if !(last.Lost? && Reached(at, last.error) == m) {
      FarthestReached(init, at);
    }
  }

  /** `Decide` fails only on an error whose position names no offset. */
  lemma {:induction false} DecideTotal<T>(ats: seq<Attempt<T>>, at: Locate)
    requires forall j :: 0 <= j < |ats| && ats[j].Lost? ==> at(ats[j].error).Ok?
    ensures Decide(ats, at).Ok?
    decreases |ats|
  {
    if |ats| > 0 {
      var init := ats[..|ats| - 1];
      assert forall j :: 0 <= j < |init| ==> init[j] == ats[j];
      DecideTotal(init, at);
      var c := Decide(init, at).value;
      if c.errors != [] {
        DecideKeepsLocated(init, at);
      }
    }
  }

  /** Every error `Decide` keeps has a position that names an offset. */
  lemma {:induction false} DecideKeepsLocated<T>(ats: seq<Attempt<T>>, at: Locate)
    requires Decide(ats, at).Ok?
    ensures forall e | e in Decide(ats, at).value.errors :: at(e).Ok?
    decreases |ats|
  {
    if |ats| > 0 {
      DecideKeepsLocated(ats[..|ats| - 1], at);
    }
  }

  /** The index of the first of the longest successes, -1 when there is none, computed the
      way the options are tried: a later success takes over only when strictly longer. */
  function Best<T>(ats: seq<Attempt<T>>): (k: int)
    ensures -1 <= k < |ats| && (k >= 0 ==> ats[k].Won?)
    decreases |ats|
  {
    if |ats| == 0 then -1
    else
      var k := Best(ats[..|ats| - 1]);
      var last := ats[|ats| - 1];
      if last.Won? && (k < 0 || last.length > ats[k].length) then |ats| - 1 else k
  }

  /** `Best` finds the success `Longest` describes, and finds none only when every option
      failed. */
  lemma {:induction false} BestIsLongest<T>(ats: seq<Attempt<T>>)
    ensures Best(ats) == -1 <==> AllLost(ats)
    ensures Best(ats) >= 0 ==> Longest(ats, Best(ats))
    decreases |ats|
  {
    if |ats| > 0 {
      var init := ats[..|ats| - 1];
      assert forall j :: 0 <= j < |init| ==> init[j] == ats[j];
      BestIsLongest(init);
    }
  }

  /** What one step does to the best result: a success replaces it when there is none yet
      or it is strictly longer; an error leaves it as it is. */
  lemma StepBest<T>(c: Choosing<T>, a: Attempt<T>, at: Locate)
    requires Step(c, a, at).Ok?
    ensures a.Won? && (c.result.None? || a.length > c.greatest) ==>
      Step(c, a, at).value.result == Some(a.result) && Step(c, a, at).value.greatest == a.length
    ensures !(a.Won? && (c.result.None? || a.length > c.greatest)) ==>
      Step(c, a, at).value.result == c.result && Step(c, a, at).value.greatest == c.greatest
  {
  }

  /** `Decide` keeps the result and length of the success `Best` finds. */
  lemma {:induction false} DecideBest<T>(ats: seq<Attempt<T>>, at: Locate)
    requires Decide(ats, at).Ok?
    ensures Decide(ats, at).value.result.None? <==> Best(ats) == -1
    ensures Best(ats) >= 0 ==>
      Decide(ats, at).value.result == Some(ats[Best(ats)].result) && Decide(ats, at).value.greatest == ats[Best(ats)].length
    decreases |ats|
  {
    if |ats| > 0 {
      var init := ats[..|ats| - 1];
      var last := ats[|ats| - 1];
      DecideBest(init, at);
      var c := Decide(init, at).value;
      assert Step(c, last, at) == Decide(ats, at);
      StepBest(c, last, at);
      var k := Best(init);
      assert k >= 0 ==> init[k] == ats[k];
    }
  }

  /** `Decide` keeps no result exactly when every option failed. */
  lemma DecideNone<T>(ats: seq<Attempt<T>>, at: Locate)
    requires Decide(ats, at).Ok?
    ensures Decide(ats, at).value.result.None? <==> AllLost(ats)
  {
    DecideBest(ats, at);
    BestIsLongest(ats);
  }

  /** `Decide` keeps the first of the longest successes, and keeps nothing when there is none. */
  lemma DecideWinner<T>(ats: seq<Attempt<T>>, at: Locate)
    requires Decide(ats, at).Ok?
    ensures Decide(ats, at).value.result.None? <==> AllLost(ats)
    ensures Decide(ats, at).value.result.Some? ==>
      exists k :: Longest(ats, k) && Decide(ats, at).value.result.value == ats[k].result && Decide(ats, at).value.greatest == ats[k].length
  {
    DecideBest(ats, at);
    BestIsLongest(ats);
    var k := Best(ats);
    if k >= 0 {
      assert Longest(ats, k);
    }
  }

  /** What one error does while nothing has succeeded, when its position and the last kept
      error's both name offsets. */
  lemma StepLost<T>(c: Choosing<T>, e: ParseError, at: Locate)
    requires c.result.None? && at(e).Ok?
    requires c.errors != [] ==> at(c.errors[|c.errors| - 1]).Ok?
    ensures Step(c, Lost(e), at).Ok?
    ensures var last := if c.errors == [] then 0 else at(c.errors[|c.errors| - 1]).value;
      && (at(e).value == last ==> Step(c, Lost(e), at).value == c.(errors := c.errors + [e]))
      && (at(e).value > last ==> Step(c, Lost(e), at).value == c.(errors := [e]))
      && (at(e).value < last ==> Step(c, Lost(e), at).value == c)
  {
  }

  /** When every option failed, `Decide` keeps exactly the errors that got furthest, in
      order, and every error's position names an offset. */
  lemma {:induction false} DecideErrors<T>(ats: seq<Attempt<T>>, at: Locate)
    requires Decide(ats, at).Ok? && AllLost(ats)
    ensures forall j :: 0 <= j < |ats| ==> at(ats[j].error).Ok?
    ensures Decide(ats, at).value.errors == ErrorsAt(ats, Farthest(ats, at), at)
    decreases |ats|
  {
    if |ats| > 0 {
      var init := ats[..|ats| - 1];
      var last := ats[|ats| - 1];
      assert forall j :: 0 <= j < |init| ==> init[j] == ats[j];
      assert ats == init + [last];
      DecideBest(init, at);
      BestIsLongest(init);
      DecideErrors(init, at);
      DecideKeepsLocated(init, at);
      var c := Decide(init, at).value;
      DecideStep(init, last, at);
      assert at(last.error).Ok?;
      ErrorsStep(init, last.error, c, at);
    }
  }

  /** One more error, while nothing has succeeded, keeps the errors that got furthest. */
  lemma ErrorsStep<T>(init: seq<Attempt<T>>, e: ParseError, c: Choosing<T>, at: Locate)
    requires c.result.None? && at(e).Ok?
    requires forall x | x in c.errors :: at(x).Ok?
    requires c.errors == ErrorsAt(init, Farthest(init, at), at)
    ensures Step(c, Lost(e), at).Ok?
    ensures Step(c, Lost(e), at).value.errors == ErrorsAt(init + [Lost(e)], Farthest(init + [Lost(e)], at), at)
  {
    var ats := init + [Lost(e)];
    assert ats[..|ats| - 1] == init;
    var m := Farthest(init, at);
    if c.errors != [] {
      assert c.errors[|c.errors| - 1] in c.errors;
    } else if m > 0 {
      FarthestReached(init, at);
    }
    StepLost(c, e, at);
    if Reached(at, e) > m {
      NoneAt(init, Reached(at, e), at);
    }
  }

  /** The winner's end, as the `size_t` sum of the start and its length, lies within the
      text when every success's does. */
  lemma WinnerEnds<T>(ats: seq<Attempt<T>>, at: Locate, start: nat, n: nat)
    requires Decide(ats, at).Ok? && Decide(ats, at).value.result.Some? && Fits(ats, start, n)
    ensures SizeT(start + Decide(ats, at).value.greatest) <= n
  {
    DecideBest(ats, at);
    FitsAt(ats, Best(ats), start, n);
  }

  lemma FitsAt<T>(ats: seq<Attempt<T>>, k: nat, start: nat, n: nat)
    requires Fits(ats, start, n) && k < |ats| && ats[k].Won?
    ensures SizeT(start + ats[k].length) <= n
  {
  }

  /** The attempt an outcome makes, measured from `start` as a `size_t`. */
  function AttemptOf<T>(o: R<T>, start: nat): (a: Attempt<T>)
    requires !o.Stopped?
    ensures a.Won? <==> o.Returned?
    ensures a.Won? ==> a.result == o.result && a.length == SizeT(o.stream.offset - start)
    ensures a.Lost? ==> a.error == o.error
  {
    if o.Returned? then Won(o.result, SizeT(o.stream.offset - start)) else Lost(o.error)
  }

  /** Every success, added to `start` as a `size_t`, ends at most at `n`. */
  predicate Fits<T>(ats: seq<Attempt<T>>, start: nat, n: nat)
  {
    forall j :: 0 <= j < |ats| && ats[j].Won? ==> SizeT(start + ats[j].length) <= n
  }

  lemma FitsExtend<T>(ats: seq<Attempt<T>>, a: Attempt<T>, start: nat, n: nat)
    requires Fits(ats, start, n)
    requires a.Won? ==> SizeT(start + a.length) <= n
    ensures Fits(ats + [a], start, n)
  {
    assert forall j :: 0 <= j < |ats| ==> (ats + [a])[j] == ats[j];
  }

  /** A success's end, as the `size_t` sum of the start and its length, is where it ended. */
  lemma AttemptFits<T>(o: R<T>, start: nat, n: nat)
    requires !o.Stopped? && start <= SIZE_MAX && o.stream.offset <= n
    ensures AttemptOf(o, start).Won? ==> SizeT(start + AttemptOf(o, start).length) <= n
  {
    if o.Returned? {
      LengthRoundTrip(start, o.stream.offset);
    }
  }

  /** The options tried so far, what they did and what `Choice` made of it, with the stream
      back at the start; or a runtime error or endless parse that ended the choice. */
  datatype Tried<T> = Tried(made: seq<Attempt<T>>, stream: Stream) | TriedStopped(stop: Stop)

  /** The loop over the options: each runs from `start`, and the stream goes back to `start`
      after each; `at` locates errors in the text. */
  function TryOptions<T>(ps: seq<Parser<T>>, i: nat, start: nat, made: seq<Attempt<T>>, c: Choosing<T>, at: Locate, s: Stream): (r: Tried<T>)
    requires i <= |ps| && |made| == i && start <= |s.data|
    requires Decide(made, at) == Ok(c) && Fits(made, start, |s.data|)
    ensures r.Tried? ==>
      && |r.made| == |ps| && r.made[..i] == made && Decide(r.made, at).Ok?
      && Fits(r.made, start, |s.data|)
      && r.stream == s.(offset := start, tokens := r.stream.tokens)
    ensures r.Tried? && i < |ps| ==> !Parse(ps[i], s).Stopped? && r.made[i] == AttemptOf(Parse(ps[i], s), start)
    decreases |ps| - i, 1
  {
    if i == |ps| then Tried(made, SetOffset(s, start)) else TryAfter(ps, i, start, made, c, at, s, Parse(ps[i], s))
  }

  /** The rest of the loop once option `i` has run, with outcome `o`. */
  function TryAfter<T>(ps: seq<Parser<T>>, i: nat, start: nat, made: seq<Attempt<T>>, c: Choosing<T>, at: Locate, s: Stream, o: R<T>): (r: Tried<T>)
    requires i < |ps| && |made| == i && start <= |s.data|
    requires Decide(made, at) == Ok(c) && Fits(made, start, |s.data|)
    requires Keeps(o, s)
    ensures r.Tried? ==>
      && |r.made| == |ps| && r.made[..i] == made && Decide(r.made, at).Ok?
      && Fits(r.made, start, |s.data|)
      && r.stream == s.(offset := start, tokens := r.stream.tokens)
    ensures r.Tried? ==> !o.Stopped? && r.made[i] == AttemptOf(o, start)
    decreases |ps| - i, 0
  {
    if o.Stopped? then TriedStopped(o.stop)
    else
      var a := AttemptOf(o, start);
      DecideStep(made, a, at);
      AttemptFits(o, start, |s.data|);
      FitsExtend(made, a, start, |s.data|);
      match Step(c, a, at)
      case Err(m) => TriedStopped(RuntimeError(m))
      case Ok(c') =>
        var r := TryOptions(ps, i + 1, start, made + [a], c', at, SetOffset(o.stream, start));
        if r.TriedStopped? then r
        else
          assert r.made[..i] == (made + [a])[..i];
          r
  }

  function Names<T>(ps: seq<Parser<T>>): (ns: seq<string>)
    ensures |ns| == |ps| && forall i :: 0 <= i < |ps| ==> ns[i] == ps[i].name
  {
    seq(|ps|, i requires 0 <= i < |ps| => ps[i].name)
  }

  /** All the options tried from the stream's offset. */
  function TryAll<T>(ps: seq<Parser<T>>, s: Stream): (r: Tried<T>)
    ensures r.Tried? ==> |r.made| == |ps| && Decide(r.made, Locator(s)).Ok?
    ensures r.Tried? ==> Fits(r.made, s.offset, |s.data|)
    ensures r.Tried? ==> r.stream == s.(tokens := r.stream.tokens)
    ensures r.Tried? && |ps| > 0 ==> !Parse(ps[0], s).Stopped? && r.made[0] == AttemptOf(Parse(ps[0], s), s.offset)
  {
    TryOptions(ps, 0, s.offset, [], Start(), Locator(s), s)
  }

  /** What `Choice` makes of the options' attempts: the first of the longest successes, with
      the stream at its end.  When every option failed, the one error that got furthest is
      thrown as it is, and otherwise an error at the start lists the options' names. */
  function Chosen<T>(ps: seq<Parser<T>>, made: seq<Attempt<T>>, after: Stream, s: Stream, at: Locate): (r: R<T>)
    requires Decide(made, at).Ok? && Fits(made, s.offset, |s.data|)
    requires after == s.(tokens := after.tokens)
    ensures Keeps(r, s) && !r.Stopped?
    ensures r.Returned? <==> !AllLost(made)
    ensures r.Returned? ==>
      var c := Decide(made, at).value;
      c.result.Some? && r.result == c.result.value && r.stream.offset == SizeT(s.offset + c.greatest)
    ensures r.Raised? ==> r.stream.offset == s.offset && r.error == AllFailed(ps, made, after, s, at).error
  {
    DecideNone(made, at);
    var c := Decide(made, at).value;
    if c.result.None? then AllFailed(ps, made, after, s, at) else SomeWon(made, after, s, at)
  }

  /** Some option succeeded: the best result, with the stream where it ended. */
  function SomeWon<T>(made: seq<Attempt<T>>, after: Stream, s: Stream, at: Locate): (r: R<T>)
    requires Decide(made, at).Ok? && Fits(made, s.offset, |s.data|)
    requires after == s.(tokens := after.tokens)
    requires Decide(made, at).value.result.Some?
    ensures Keeps(r, s) && r.Returned? && r.result == Decide(made, at).value.result.value
    ensures r.stream.offset == SizeT(s.offset + Decide(made, at).value.greatest)
  {
    WinnerEnds(made, at, s.offset, |s.data|);
    var c := Decide(made, at).value;
    Returned(c.result.value, SetOffset(after, SizeT(s.offset + c.greatest)))
  }

  /** Every option failed: the one error that got furthest, thrown as it is, or else an error
      at the start that lists the options' names. */
  function AllFailed<T>(ps: seq<Parser<T>>, made: seq<Attempt<T>>, after: Stream, s: Stream, at: Locate): (r: R<T>)
    requires Decide(made, at).Ok? && AllLost(made)
    requires after == s.(tokens := after.tokens)
    ensures Keeps(r, s) && r.Raised? && r.stream.offset == s.offset
    ensures |ErrorsAt(made, Farthest(made, at), at)| == 1 ==>
      r.error == ErrorsAt(made, Farthest(made, at), at)[0]
    ensures |ErrorsAt(made, Farthest(made, at), at)| != 1 ==>
      r.error == ParseError(GetPosition(s), "Expected one of the following: " + Text.Join(", ", Names(ps)), "")
  {
    DecideErrors(made, at);
    var c := Decide(made, at).value;
    if |c.errors| == 1 then Raised(c.errors[0], after)
    else
      assert LineStarts(after) == LineStarts(s);
      Raised(ParseError(GetPosition(after), "Expected one of the following: " + Text.Join(", ", Names(ps)), ""), after)
  }

  /** `Choice`: every option tried, then `Chosen`. */
  function ChoiceRun<T>(ps: seq<Parser<T>>, s: Stream): (r: R<T>)
    requires |ps| >= 2
    ensures Keeps(r, s)
    ensures r.Stopped? <==> TryAll(ps, s).TriedStopped?
    ensures var t := TryAll(ps, s);
      t.Tried? ==> r == Chosen(ps, t.made, t.stream, s, Locator(s))
  {
    match TryAll(ps, s)
    case TriedStopped(w) => Stopped(w)
    case Tried(made, after) => Chosen(ps, made, after, s, Locator(s))
  }

  function Choice<T>(name: string, ps: seq<Parser<T>>): Parser<T>
    requires |ps| >= 2
  {
    Parser(name, (pos: Position, s: Stream) => ChoiceRun(ps, s))
  }

  /** `a | b`. */
  function Or<T>(a: Parser<T>, b: Parser<T>): (q: Parser<T>)
    ensures q.name == "(" + a.name + " | " + b.name + ")"
  {
    Choice("(" + a.name + " | " + b.name + ")", [a, b])
  }
}

=== FILE: py_json.dfy ===
/** The JSON grammar written against the Python engine (python/lpc/examples/json_parser.py):
    the parsers with their result transformers, and what the six token patterns make of
    numbers.  The module the example imports (python/lpc/lpc.py) is not part of this model;
    the grammar runs here on the engine of parser/parser.py, whose own demonstration block
    builds the same grammar. */
module PyJson {
  import opened Wrappers
  import Text
  import Longest
  import PyStream
  import PyLexer
  import PyTokens
  import opened PyJsonLex
  import PyJsonTokens
  import opened PyParser

  /** `int(value)` on an integer lexeme. */
  function IntOf(lexeme: string): int
  {
    if |lexeme| > 0 && lexeme[0] == '-' then 0 - Text.DigitsValue(lexeme[1..]) else Text.DigitsValue(lexeme)
  }

  function ToInt(v: Value): Value
  {
    if v.Str? then Int(IntOf(v.s)) else v
  }

  function ToFloat(v: Value): Value
  {
    if v.Str? then Float(v.s) else v
  }

  function ToTrue(v: Value): Value { Bool(true) }
  function ToFalse(v: Value): Value { Bool(false) }
  function ToNull(v: Value): Value { Null }

  /** `res.value[1]` on a tagged choice result: the value without its tag. */
  function Untag(v: Value): Value
  {
    if v.Tagged? then v.v else v
  }

  /** The key and value of one parsed pair: the string's value and the untagged value. */
  function Entry(pair: PResult): Option<(string, Value)>
  {
    var v := pair.value;
    if v.Results? && |v.rs| == 3 && v.rs[0].value.Str? then Some((v.rs[0].value.s, Untag(v.rs[2].value)))
    else None
  }

  /** The dictionary comprehension: pairs in order, a later key overwriting an earlier one. */
  function DictOf(entries: seq<(string, Value)>): (m: map<string, Value>)
    ensures forall k :: k in m <==> exists i :: 0 <= i < |entries| && entries[i].0 == k
    decreases |entries|
  {
    if |entries| == 0 then map[]
    else
      var m := DictOf(entries[..|entries| - 1]);
      var last := entries[|entries| - 1];
      assert forall i | 0 <= i < |entries| - 1 :: entries[..|entries| - 1][i] == entries[i];
      m[last.0 := last.1]
  }

  /** For a repeated key the dictionary keeps the value of its LAST pair. */
  lemma {:induction false} LastKeyWins(entries: seq<(string, Value)>, i: nat)
    requires i < |entries|
    requires forall j | i < j < |entries| :: entries[j].0 != entries[i].0
    ensures DictOf(entries)[entries[i].0] == entries[i].1
    decreases |entries|
  {
    if i < |entries| - 1 {
      var init := entries[..|entries| - 1];
      assert init[i] == entries[i];
      LastKeyWins(init, i);
    }
  }

  function Entries(pairs: seq<PResult>): (es: seq<(string, Value)>)
    ensures |es| <= |pairs|
  {
    if |pairs| == 0 then []
    else (match Entry(pairs[0]) case Some(e) => [e] case None => []) + Entries(pairs[1..])
  }

  /** The object transformer: `value[1].value` is the list of pairs. */
  function ObjectOf(v: Value): (r: Value)
    ensures v.Results? && |v.rs| == 3 && v.rs[1].value.Results? ==> r == Dict(DictOf(Entries(v.rs[1].value.rs)))
  {
    if v.Results? && |v.rs| == 3 && v.rs[1].value.Results? then Dict(DictOf(Entries(v.rs[1].value.rs)))
    else v
  }

  /** The array transformer: the untagged values, in the order they were read. */
  function ArrayOf(v: Value): (r: Value)
    ensures v.Results? && |v.rs| == 3 && v.rs[1].value.Results? ==>
      && r.List? && |r.items| == |v.rs[1].value.rs|
      && forall i | 0 <= i < |r.items| :: r.items[i] == Untag(v.rs[1].value.rs[i].value)
  {
    if v.Results? && |v.rs| == 3 && v.rs[1].value.Results? then
      var items := v.rs[1].value.rs;
      List(seq(|items|, i requires 0 <= i < |items| => Untag(items[i].value)))
    else v
  }

  function Sym(text: string): Parser
  {
    Terminal(text, SYMBOL, Some(text), Identity, [])
  }

  function StringParser(): Parser
  {
    Terminal("string", STRING, None, Identity, [])
  }

  const OBJECT_RULE: nat := 0
  const ARRAY_RULE: nat := 1

  /** "Value": the eight alternatives in order, results tagged with the alternative's name. */
  function ValueParser(): (p: Parser)
    ensures p.Choice? && p.tag
    ensures Names(p.parsers) == ["string", "number", "number", "true", "false", "null", "object", "array"]
  {
    Choice("Value", [
      StringParser(),
      Terminal("number", INTEGER, None, ToInt, []),
      Terminal("number", DECIMAL, None, ToFloat, []),
      Terminal("true", KEYWORD, Some("true"), ToTrue, []),
      Terminal("false", KEYWORD, Some("false"), ToFalse, []),
      Terminal("null", KEYWORD, Some("null"), ToNull, []),
      Lazy("object", OBJECT_RULE),
      Lazy("array", ARRAY_RULE)], true, Identity, [])
  }

  function PairParser(): Parser
  {
    Sequence("pair", [StringParser(), Sym(":"), ValueParser()], Identity, [])
  }

  function ObjectParser(): Parser
  {
    Sequence("object", [Sym("{"), Separated("pairs", PairParser(), Sym(","), Identity, []), Sym("}")], ObjectOf, [])
  }

  function ArrayParser(): Parser
  {
    Sequence("array", [Sym("["), Separated("values", ValueParser(), Sym(","), Identity, []), Sym("]")], ArrayOf, [])
  }

  /** The rules the two `Lazy` alternatives name. */
  function Grammar(): (g: seq<Parser>)
    ensures Closed(g)
  {
    var g := [ObjectParser(), ArrayParser()];
    ValueClosed();
    g
  }

  lemma ValueClosed()
    ensures ClosedIn(2, ValueParser()) && ClosedIn(2, PairParser())
    ensures ClosedIn(2, ObjectParser()) && ClosedIn(2, ArrayParser())
  {
    var ps := ValueParser().parsers;
    assert forall i | 0 <= i < |ps| :: ClosedIn(2, ps[i]);
    var pair := PairParser().parsers;
    assert forall i | 0 <= i < |pair| :: ClosedIn(2, pair[i]);
    var sep := Separated("pairs", PairParser(), Sym(","), Identity, []);
    var obj := ObjectParser().parsers;
    assert obj == [Sym("{"), sep, Sym("}")];
    assert forall i | 0 <= i < |obj| :: ClosedIn(2, obj[i]);
    var arr := ArrayParser().parsers;
    assert forall i | 0 <= i < |arr| :: ClosedIn(2, arr[i]);
  }

  /** The top level: an array or an object, nothing else. */
  function JsonParser(): (p: Parser)
    ensures ClosedIn(|Grammar()|, p)
  {
    ValueClosed();
    Choice("json", [ArrayParser(), ObjectParser()], false, Identity, [])
  }

  /** `LPC.parse` on a text: a token stream that ignores "WS", then the top-level choice. */
  function ParseJson(text: string, fuel: nat): (r: Outcome)
  {
    var ts := PyTokens.New(JsonLexer(), text, [WS]);
    PyJsonTokens.WsIgnorable(JsonLexer(), text);
    Parse(Grammar(), JsonParser(), ts.value, fuel)
  }
}

=== FILE: py_json_lex.dfy ===
/** The tokens of the JSON example (python/lpc/examples/json_parser.py): six patterns, with
    their regular expressions written out as matchers, and the string-unescaping action. */
module PyJsonLex {
  import opened Wrappers
  import Text
  import Longest
  import PyLexer

  // ---------------------------------------------------------------------------------------
  // Token patterns.

  predicate IsDigit(c: char)
  {
    '0' <= c <= '9'
  }

  /** `\s`: the ASCII whitespace characters. */
  predicate IsSpace(c: char)
  {
    c == ' ' || c == '\t' || c == '\n' || c == '\r' || c == '\U{C}' || c == '\U{B}'
  }

  /** The end of the run of digits that starts at `i`. */
  function DigitsEnd(s: string, i: nat): (j: nat)
    requires i <= |s|
    ensures i <= j <= |s|
    ensures forall k | i <= k < j :: IsDigit(s[k])
    ensures j < |s| ==> !IsDigit(s[j])
    decreases |s| - i
  {
    if i < |s| && IsDigit(s[i]) then DigitsEnd(s, i + 1) else i
  }

  /** The end of the run of whitespace that starts at `i`. */
  function SpacesEnd(s: string, i: nat): (j: nat)
    requires i <= |s|
    ensures i <= j <= |s|
    ensures forall k | i <= k < j :: IsSpace(s[k])
    ensures j < |s| ==> !IsSpace(s[j])
    decreases |s| - i
  {
    if i < |s| && IsSpace(s[i]) then SpacesEnd(s, i + 1) else i
  }

  /** "WS": `\s+`. */
  function WsMatch(s: string): (r: Option<nat>)
    ensures r.Some? ==> 0 < r.value <= |s|
    ensures r.None? <==> |s| == 0 || !IsSpace(s[0])
  {
    var j := SpacesEnd(s, 0);
    if j == 0 then None else Some(j)
  }

  predicate IsSymbol(c: char)
  {
    c == '{' || c == '}' || c == '[' || c == ']' || c == ',' || c == ':'
  }

  /** "SYMBOL": one of `{ } [ ] , :`. */
  function SymbolMatch(s: string): (r: Option<nat>)
    ensures r.Some? <==> |s| > 0 && IsSymbol(s[0])
    ensures r.Some? ==> r.value == 1
  {
    if |s| > 0 && IsSymbol(s[0]) then Some(1) else None
  }

  /** "KEYWORD": `(true)|(false)|(null)`. */
  function KeywordMatch(s: string): (r: Option<nat>)
    ensures r.Some? ==> r.value <= |s| && s[..r.value] in {"true", "false", "null"}
  {
    if |s| >= 4 && s[..4] == "true" then Some(4)
    else if |s| >= 5 && s[..5] == "false" then Some(5)
    else if |s| >= 4 && s[..4] == "null" then Some(4)
    else None
  }

  /** The integer part `-?(?:0|[1-9]\d*)` shared by both number patterns: where it ends. */
  function IntegerEnd(s: string): (r: Option<nat>)
    ensures r.Some? ==> 0 < r.value <= |s| && IsDigit(s[r.value - 1])
  {
    var i := if |s| > 0 && s[0] == '-' then 1 else 0;
    if i < |s| && s[i] == '0' then Some(i + 1)
    else if i < |s| && '1' <= s[i] <= '9' then Some(DigitsEnd(s, i + 1))
    else None
  }

  /** "integer": `-?(?:0|[1-9]\d*)`. */
  function IntegerMatch(s: string): (r: Option<nat>)
    ensures r.Some? ==> r.value <= |s|
  {
    IntegerEnd(s)
  }

  /** "decimal": `-?(?:0|[1-9]\d*)(?:\.\d+)(?:[eE][+-]?\d+)?`: an integer part, a point and at
      least one digit, then an optional exponent. */
  function DecimalMatch(s: string): (r: Option<nat>)
    ensures r.Some? ==> IntegerMatch(s).Some? && IntegerMatch(s).value + 2 <= r.value <= |s|
    ensures r.Some? ==> s[IntegerMatch(s).value] == '.'
  {
    match IntegerEnd(s)
    case None => None
    case Some(j) =>
      if j + 1 < |s| && s[j] == '.' && IsDigit(s[j + 1]) then
        var k := DigitsEnd(s, j + 1);
        if k < |s| && (s[k] == 'e' || s[k] == 'E') then
          var m := if k + 1 < |s| && (s[k + 1] == '+' || s[k + 1] == '-') then k + 2 else k + 1;
          if m < |s| && IsDigit(s[m]) then Some(DigitsEnd(s, m)) else Some(k)
        else Some(k)
      else None
  }

  /** The end of the body of a string literal that starts at `i`: the closing quote's index,
      or `None` when the text ends first or a backslash is followed by a line break (`.` does
      not match a line break). */
  function StringBodyEnd(s: string, i: nat): (r: Option<nat>)
    requires i <= |s|
    ensures r.Some? ==> i <= r.value < |s| && s[r.value] == '"'
    decreases |s| - i
  {
    if i == |s| then None
    else if s[i] == '"' then Some(i)
    else if s[i] == '\\' then
      if i + 1 < |s| && s[i + 1] != '\n' then StringBodyEnd(s, i + 2) else None
    else StringBodyEnd(s, i + 1)
  }

  /** "string": `"([^"\\]|\\.)*"`. */
  function StringMatch(s: string): (r: Option<nat>)
    ensures r.Some? ==> 2 <= r.value <= |s| && s[0] == '"' && s[r.value - 1] == '"'
  {
    if |s| > 0 && s[0] == '"' then
      match StringBodyEnd(s, 1)
      case None => None
      case Some(e) => Some(e + 1)
    else None
  }

  /** "KEYWORD" takes a prefix exactly when that prefix is one of its three words. */
  lemma KeywordLanguage(s: string, n: nat)
    requires n <= |s|
    ensures KeywordMatch(s) == Some(n) <==> s[..n] in {"true", "false", "null"}
  {
    if s[..n] == "true" {
      assert n == 4 && s[..4] == s[..n];
    } else if s[..n] == "null" {
      assert n == 4 && s[..4] == s[..n];
      assert s[0] == s[..4][0] == 'n';
      if |s| >= 5 {
        assert s[..5][0] == s[0];
      }
    } else if s[..n] == "false" {
      assert n == 5 && s[..5] == s[..n];
      assert s[0] == s[..5][0] == 'f';
      assert s[..4][0] == s[0];
    }
  }

  /** A word of the integer pattern `-?(?:0|[1-9]\d*)`: an optional minus, then `0` alone or
      digits that do not start with `0`. */
  predicate IsInteger(w: string)
  {
    var i := if |w| > 0 && w[0] == '-' then 1 else 0;
    && i < |w|
    && (forall k | i <= k < |w| :: IsDigit(w[k]))
    && (w[i] == '0' ==> |w| == i + 1)
  }

  /** A run of digits from `i` to `n` lies within the run `DigitsEnd` finds. */
  lemma {:induction false} DigitsEndReaches(s: string, i: nat, n: nat)
    requires i <= n <= |s|
    requires forall k | i <= k < n :: IsDigit(s[k])
    ensures n <= DigitsEnd(s, i)
    decreases n - i
  {
    if i < n {
      DigitsEndReaches(s, i + 1, n);
    }
  }

  /** "integer" takes the longest prefix of the text that is a word of its pattern, and
      matches exactly when some prefix is one. */
  lemma IntegerLanguage(s: string, n: nat)
    requires n <= |s|
    ensures IntegerMatch(s).Some? ==> IsInteger(s[..IntegerMatch(s).value])
    ensures IsInteger(s[..n]) ==> IntegerMatch(s).Some? && n <= IntegerMatch(s).value
  {
    var i := if |s| > 0 && s[0] == '-' then 1 else 0;
    if IntegerMatch(s).Some? {
      var j := IntegerMatch(s).value;
      var w := s[..j];
      assert w[0] == s[0];
      if s[i] != '0' {
        assert forall k | i <= k < j :: w[k] == s[k];
      }
    }
    if IsInteger(s[..n]) {
      var w := s[..n];
      assert w[0] == s[0];
      assert w[i] == s[i];
      if s[i] != '0' {
        assert forall k | i + 1 <= k < n :: s[k] == w[k];
        DigitsEndReaches(s, i + 1, n);
      }
    }
  }

  /** A string body: characters other than '"' and '\', and backslash pairs whose second
      character is not a line break (`.` does not match one). */
  predicate IsStringBody(b: string)
    decreases |b|
  {
    if |b| == 0 then true
    else if b[0] == '"' then false
    else if b[0] == '\\' then |b| >= 2 && b[1] != '\n' && IsStringBody(b[2..])
    else IsStringBody(b[1..])
  }

  /** A word of the string pattern `"([^"\\]|\\.)*"`: a body between two quotes. */
  predicate IsStringLiteral(w: string)
  {
    |w| >= 2 && w[0] == '"' && w[|w| - 1] == '"' && IsStringBody(w[1..|w| - 1])
  }

  /** The body scan from `i` stops at `e` exactly when the text from `i` to `e` is a body and
      a quote stands at `e`. */
  lemma {:induction false} BodyEndExactly(s: string, i: nat, e: nat)
    requires i <= e < |s|
    ensures StringBodyEnd(s, i) == Some(e) <==> IsStringBody(s[i..e]) && s[e] == '"'
    decreases |s| - i
  {
    var b := s[i..e];
    if s[i] == '"' {
      if e > i {
        assert b[0] == '"';
      }
    } else if s[i] == '\\' {
      if e > i {
        assert b[0] == '\\';
      }
      if i + 1 < |s| && s[i + 1] != '\n' {
        if i + 2 <= e {
          BodyEndExactly(s, i + 2, e);
          assert b[1] == s[i + 1] && b[2..] == s[i + 2..e];
        } else if e == i + 1 {
          assert |b| == 1;
        }
      } else if e >= i + 2 {
        assert b[1] == s[i + 1];
      }
    } else if e > i {
      BodyEndExactly(s, i + 1, e);
      assert b[0] == s[i] && b[1..] == s[i + 1..e];
    }
  }

  /** "string" takes a prefix exactly when that prefix is a word of its pattern, so it takes
      the one literal the text starts with, if any. */
  lemma StringLanguage(s: string, n: nat)
    requires n <= |s|
    ensures StringMatch(s) == Some(n) <==> IsStringLiteral(s[..n])
  {
    if n >= 2 {
      var w := s[..n];
      assert w[0] == s[0] && w[n - 1] == s[n - 1] && w[1..n - 1] == s[1..n - 1];
      if s[0] == '"' {
        BodyEndExactly(s, 1, n - 1);
      }
    }
  }

  // ---------------------------------------------------------------------------------------
  // The string action.

  /** The character a backslash escape stands for, for the seven escapes the action knows. */
  function EscapeOf(c: char): (r: Option<char>)
  {
    match c
    case 'n' => Some('\n')
    case 't' => Some('\t')
    case 'r' => Some('\r')
    case 'f' => Some('\U{C}')
    case 'b' => Some('\U{8}')
    case '"' => Some('"')
    case '\\' => Some('\\')
    case _ => None
  }

  /** `value[1:-1]`: the literal without its quotes. */
  function Inner(value: string): (r: string)
    ensures |value| >= 2 ==> value == [value[0]] + r + [value[|value| - 1]]
    ensures |value| < 2 ==> r == ""
  {
    if |value| >= 2 then value[1..|value| - 1] else ""
  }

  /** `format_and_escape_string` as written: seven replacements, each on the output of the
      one before. */
  function FormatAsWritten(value: string): string
  {
    var r0 := Inner(value);
    var r1 := Text.Replace(r0, "\\n", "\n");
    var r2 := Text.Replace(r1, "\\t", "\t");
    var r3 := Text.Replace(r2, "\\r", "\r");
    var r4 := Text.Replace(r3, "\\f", "\U{C}");
    var r5 := Text.Replace(r4, "\\b", "\U{8}");
    var r6 := Text.Replace(r5, "\\\"", "\"");
    Text.Replace(r6, "\\\\", "\\")
  }

  /** The intended decoding, in one pass from the left: each of the seven escapes becomes its
      character; any other backslash pair is kept as it is. */
  function Unescape(s: string): (r: string)
    ensures |r| <= |s|
    decreases |s|
  {
    if |s| == 0 then ""
    else if s[0] == '\\' && |s| >= 2 && EscapeOf(s[1]).Some? then [EscapeOf(s[1]).value] + Unescape(s[2..])
    else if s[0] == '\\' && |s| >= 2 then s[..2] + Unescape(s[2..])
    else [s[0]] + Unescape(s[1..])
  }

  /** The action attached to "string": unquote, then decode. */
  function Format(value: string): string
  {
    Unescape(Inner(value))
  }

  /** How a JSON writer spells one character inside a literal (section 7 of RFC 8259). */
  function EscapeChar(c: char): (e: string)
    ensures e == [c] || (|e| == 2 && e[0] == '\\' && EscapeOf(e[1]) == Some(c))
    ensures e == [c] ==> c != '\\' && c != '"'
  {
    match c
    case '\n' => "\\n"
    case '\t' => "\\t"
    case '\r' => "\\r"
    case '\U{C}' => "\\f"
    case '\U{8}' => "\\b"
    case '"' => "\\\""
    case '\\' => "\\\\"
    case _ => [c]
  }

  /** A JSON writer's spelling of a whole text (without the quotes). */
  function Escape(s: string): (e: string)
    decreases |s|
  {
    if |s| == 0 then "" else EscapeChar(s[0]) + Escape(s[1..])
  }

  lemma UnescapeStep(c: char, t: string)
    ensures Unescape(EscapeChar(c) + t) == [c] + Unescape(t)
  {
    var e := EscapeChar(c);
    if |e| == 2 {
      assert (e + t)[2..] == t;
    } else {
      assert (e + t)[1..] == t;
    }
  }

  /** Decoding undoes the writer's escaping: the one-pass decoder reads back every text. */
  lemma {:induction false} UnescapeEscape(s: string)
    ensures Unescape(Escape(s)) == s
    decreases |s|
  {
    if |s| > 0 {
      UnescapeEscape(s[1..]);
      UnescapeStep(s[0], Escape(s[1..]));
    }
  }

  /** The action on a whole literal round-trips. */
  lemma FormatRoundTrip(s: string)
    ensures Format("\"" + Escape(s) + "\"") == s
  {
    UnescapeEscape(s);
    assert Inner("\"" + Escape(s) + "\"") == Escape(s);
  }

  /** As written, the text "\n" (a backslash, then n) comes back as a backslash followed by a
      line break: the "\n" replacement runs first and takes the second half of the escaped
      backslash. */
  lemma FormatAsWrittenMisreadsBackslashN()
    ensures Escape("\\n") == "\\\\n"
    ensures FormatAsWritten("\"\\\\n\"") == "\\\n"
    ensures Format("\"\\\\n\"") == "\\n"
  {
    assert Escape("\\n") == EscapeChar('\\') + Escape("n");
    assert Inner("\"\\\\n\"") == "\\\\n";
    var r1 := Text.Replace("\\\\n", "\\n", "\n");
    assert r1 == "\\\n" by {
      assert "\\\\n"[..2] != "\\n";
      assert "\\\\n"[1..] == "\\n";
      assert "\\n"[..2] == "\\n";
      assert "\\n"[2..] == "";
    }
    assert Text.Replace("\\\n", "\\t", "\t") == "\\\n" by { ReplaceMiss2("\\\n", "\\t", "\t"); }
    assert Text.Replace("\\\n", "\\r", "\r") == "\\\n" by { ReplaceMiss2("\\\n", "\\r", "\r"); }
    assert Text.Replace("\\\n", "\\f", "\U{C}") == "\\\n" by { ReplaceMiss2("\\\n", "\\f", "\U{C}"); }
    assert Text.Replace("\\\n", "\\b", "\U{8}") == "\\\n" by { ReplaceMiss2("\\\n", "\\b", "\U{8}"); }
    assert Text.Replace("\\\n", "\\\"", "\"") == "\\\n" by { ReplaceMiss2("\\\n", "\\\"", "\""); }
    assert Text.Replace("\\\n", "\\\\", "\\") == "\\\n" by { ReplaceMiss2("\\\n", "\\\\", "\\"); }
    assert Unescape("\\\\n") == "\\n" by {
      assert "\\\\n"[2..] == "n";
    }
  }

  /** A two-character text that is not the two-character pattern is left alone. */
  lemma ReplaceMiss2(s: string, pat: string, rep: string)
    requires |s| == 2 && |pat| == 2 && s != pat && s[1] != pat[0]
    ensures Text.Replace(s, pat, rep) == s
  {
    assert s[..2] == s;
    assert s[1..][..0] == [];
  }

  /** Without a backslash both decoders give the text between the quotes unchanged. */
  lemma NoBackslashVerbatim(value: string)
    requires forall i | 0 <= i < |value| :: value[i] != '\\'
    ensures FormatAsWritten(value) == Inner(value)
    ensures Format(value) == Inner(value)
  {
    var s := Inner(value);
    assert forall i | 0 <= i < |s| :: s[i] != '\\' by {
      forall i | 0 <= i < |s| ensures s[i] != '\\' {
        assert s[i] == value[i + 1];
      }
    }
    NoBackslashReplace(s, "\\n", "\n");
    NoBackslashReplace(s, "\\t", "\t");
    NoBackslashReplace(s, "\\r", "\r");
    NoBackslashReplace(s, "\\f", "\U{C}");
    NoBackslashReplace(s, "\\b", "\U{8}");
    NoBackslashReplace(s, "\\\"", "\"");
    NoBackslashReplace(s, "\\\\", "\\");
    NoBackslashUnescape(s);
  }

  lemma NoBackslashReplace(s: string, pat: string, rep: string)
    requires |pat| > 0 && pat[0] == '\\'
    requires forall i | 0 <= i < |s| :: s[i] != '\\'
    ensures Text.Replace(s, pat, rep) == s
  {
    Text.ReplaceAbsent(s, pat, rep);
  }

  lemma {:induction false} NoBackslashUnescape(s: string)
    requires forall i | 0 <= i < |s| :: s[i] != '\\'
    ensures Unescape(s) == s
    decreases |s|
  {
    if |s| > 0 {
      NoBackslashUnescape(s[1..]);
    }
  }

  /** The string pattern takes exactly one written literal, whatever follows it. */
  lemma {:induction false} StringMatchesLiteral(s: string, rest: string)
    ensures StringMatch("\"" + Escape(s) + "\"" + rest) == Some(|Escape(s)| + 2)
  {
    var t := "\"" + Escape(s) + "\"" + rest;
    BodyEndOfEscape(s, "\"" + rest, 1, "\"");
    assert t == "\"" + Escape(s) + ("\"" + rest);
  }

  /** Scanning an escaped text stops at the quote after it. */
  lemma {:induction false} BodyEndOfEscape(s: string, after: string, i: nat, before: string)
    requires |before| == i && |after| > 0 && after[0] == '"'
    ensures StringBodyEnd(before + Escape(s) + after, i) == Some(i + |Escape(s)|)
    decreases |s|
  {
    var t := before + Escape(s) + after;
    if |s| == 0 {
      assert t[i] == '"';
    } else {
      var e := EscapeChar(s[0]);
      assert Escape(s) == e + Escape(s[1..]);
      assert t == (before + e) + Escape(s[1..]) + after;
      BodyEndOfEscape(s[1..], after, i + |e|, before + e);
      if |e| == 2 {
        assert t[i] == '\\' && t[i + 1] == e[1];
        assert e[1] != '\n';
      } else {
        assert t[i] == s[0];
      }
    }
  }

  // ---------------------------------------------------------------------------------------
  // The lexer.

  const WS := "WS"
  const SYMBOL := "SYMBOL"
  const KEYWORD := "KEYWORD"
  const DECIMAL := "decimal"
  const INTEGER := "integer"
  const STRING := "string"

  const WsMatcher: Longest.Matcher := WsMatch
  const SymbolMatcher: Longest.Matcher := SymbolMatch
  const KeywordMatcher: Longest.Matcher := KeywordMatch
  const DecimalMatcher: Longest.Matcher := DecimalMatch
  const IntegerMatcher: Longest.Matcher := IntegerMatch
  const StringMatcher: Longest.Matcher := StringMatch

  function WsPattern(): PyLexer.Pattern<string> { PyLexer.Pattern(WS, WsMatcher, None) }
  function SymbolPattern(): PyLexer.Pattern<string> { PyLexer.Pattern(SYMBOL, SymbolMatcher, None) }
  function KeywordPattern(): PyLexer.Pattern<string> { PyLexer.Pattern(KEYWORD, KeywordMatcher, None) }
  function DecimalPattern(): PyLexer.Pattern<string> { PyLexer.Pattern(DECIMAL, DecimalMatcher, None) }
  function IntegerPattern(): PyLexer.Pattern<string> { PyLexer.Pattern(INTEGER, IntegerMatcher, None) }
  /** Only "string" has an action. */
  function StringPattern(): PyLexer.Pattern<string> { PyLexer.Pattern(STRING, StringMatcher, Some(Format)) }

  /** The six patterns in the order they are added. */
  function JsonPatterns(): (ps: seq<PyLexer.Pattern<string>>)
    ensures |ps| == 6
  {
    [WsPattern(), SymbolPattern(), KeywordPattern(), DecimalPattern(), IntegerPattern(), StringPattern()]
  }

  function JsonLexer(): (lx: PyLexer.Lexer<string>)
    ensures |lx.patterns| == 6
  {
    PyLexer.New(None, None).(patterns := JsonPatterns())
  }

  /** When only the two number patterns matched, the longest-match rule picks "decimal" if it
      matched and "integer" otherwise. */
  lemma NumberChoice(lens: seq<Option<nat>>, k: nat)
    requires |lens| == 6 && lens[0].None? && lens[1].None? && lens[2].None? && lens[5].None?
    requires lens[3].Some? ==> lens[4].Some? && lens[4].value < lens[3].value
    requires Longest.IsChoice(lens, k)
    ensures k == (if lens[3].Some? then 3 else 4)
  {
  }

  /** A text that starts with a digit or a minus sign is neither space, symbol, keyword nor
      string. */
  lemma OnlyNumbersMatch(rest: string)
    requires |rest| > 0 && (rest[0] == '-' || IsDigit(rest[0]))
    ensures WsMatch(rest).None? && SymbolMatch(rest).None?
    ensures KeywordMatch(rest).None? && StringMatch(rest).None?
  {
    if |rest| >= 4 { assert rest[..4][0] == rest[0]; }
    if |rest| >= 5 { assert rest[..5][0] == rest[0]; }
  }
}

=== FILE: py_json_properties.dfy ===
/** What the JSON grammar of python/lpc/examples/json_parser.py accepts, on the engine of
    parser/parser.py: the top level is an array or an object and nothing else, "[]" is the
    empty list, and an array's items are its values, untagged, in the order they were read. */
module PyJsonProperties {
  import opened Wrappers
  import opened Lines
  import PyTokens
  import opened PyParser
  import opened PyParserCache
  import opened PyParserRuns
  import opened PyJsonLex
  import opened PyJson

  /** A symbol token with the given text. */
  predicate IsSymbol(tok: PyTokens.Token, text: string)
  {
    tok.patternID == SYMBOL && tok.value == text
  }

  // ---------------------------------------------------------------------------------------
  // Which first tokens the grammar refuses.

  /** The value rule, the array rule and the object rule, each with its `Lazy` references
      inside the grammar. */
  function Value(): (p: Parser)
    ensures p == ValueParser() && ClosedIn(|Grammar()|, p)
  {
    ValueClosed();
    ValueParser()
  }

  function Array(): (p: Parser)
    ensures p == ArrayParser() && ClosedIn(|Grammar()|, p)
  {
    ValueClosed();
    ArrayParser()
  }

  function Object(): (p: Parser)
    ensures p == ObjectParser() && ClosedIn(|Grammar()|, p)
  {
    ValueClosed();
    ObjectParser()
  }

  /** A value cannot start on a symbol other than "{" and "[": every alternative fails there,
      the two nested rules on their opening symbol, one unit of fuel into their `Lazy`. */
  lemma ValueFailsOn(fuel: nat, tok: PyTokens.Token)
    requires fuel > 0 && tok.patternID == SYMBOL && tok.value != "{" && tok.value != "["
    ensures FailsOn(Grammar(), Value(), fuel, tok)
  {
    var g := Grammar();
    var ps := Value().parsers;
    ScalarsFailOn(fuel, tok);
    NestedFailOn(fuel - 1, tok);
    assert FailFrom(g, ps, 8, fuel, tok);
    assert FailFrom(g, ps, 7, fuel, tok);
    assert FailFrom(g, ps, 6, fuel, tok);
    assert FailFrom(g, ps, 5, fuel, tok);
    assert FailFrom(g, ps, 4, fuel, tok);
    assert FailFrom(g, ps, 3, fuel, tok);
    assert FailFrom(g, ps, 2, fuel, tok);
    assert FailFrom(g, ps, 1, fuel, tok);
    assert FailFrom(g, ps, 0, fuel, tok);
    ChoiceFailsOn(g, Value(), fuel, tok);
  }

  /** The six terminal alternatives of a value all fail on a symbol. */
  lemma ScalarsFailOn(fuel: nat, tok: PyTokens.Token)
    requires tok.patternID == SYMBOL
    ensures FailsOn(Grammar(), Value().parsers[0], fuel, tok) && FailsOn(Grammar(), Value().parsers[1], fuel, tok)
    ensures FailsOn(Grammar(), Value().parsers[2], fuel, tok) && FailsOn(Grammar(), Value().parsers[3], fuel, tok)
    ensures FailsOn(Grammar(), Value().parsers[4], fuel, tok) && FailsOn(Grammar(), Value().parsers[5], fuel, tok)
  {
    var g := Grammar();
    var ps := Value().parsers;
    assert STRING[0] != SYMBOL[0];
    TerminalFailsOn(g, ps[0], fuel, tok);
    TerminalFailsOn(g, ps[1], fuel, tok);
    TerminalFailsOn(g, ps[2], fuel, tok);
    TerminalFailsOn(g, ps[3], fuel, tok);
    TerminalFailsOn(g, ps[4], fuel, tok);
    TerminalFailsOn(g, ps[5], fuel, tok);
  }

  /** The two nested alternatives of a value fail on a symbol other than "{" and "[", one
      unit of fuel into their `Lazy`. */
  lemma NestedFailOn(fuel: nat, tok: PyTokens.Token)
    requires tok.patternID == SYMBOL && tok.value != "{" && tok.value != "["
    ensures FailsOn(Grammar(), Value().parsers[6], fuel + 1, tok) && FailsOn(Grammar(), Value().parsers[7], fuel + 1, tok)
  {
    var g := Grammar();
    var ps := Value().parsers;
    OpenFailsOn(fuel, tok);
    assert ps[6] == Lazy("object", OBJECT_RULE) && g[OBJECT_RULE] == Object();
    assert ps[7] == Lazy("array", ARRAY_RULE) && g[ARRAY_RULE] == Array();
    LazyFailsOn(g, ps[6], fuel, tok);
    LazyFailsOn(g, ps[7], fuel, tok);
  }

  /** The object and array rules fail on a token that is not their opening symbol. */
  lemma OpenFailsOn(fuel: nat, tok: PyTokens.Token)
    ensures !IsSymbol(tok, "{") ==> FailsOn(Grammar(), Object(), fuel, tok)
    ensures !IsSymbol(tok, "[") ==> FailsOn(Grammar(), Array(), fuel, tok)
  {
    var g := Grammar();
    if !IsSymbol(tok, "{") {
      TerminalFailsOn(g, Object().parsers[0], fuel, tok);
      SequenceFailsOn(g, Object(), fuel, tok);
    }
    if !IsSymbol(tok, "[") {
      TerminalFailsOn(g, Array().parsers[0], fuel, tok);
      SequenceFailsOn(g, Array(), fuel, tok);
    }
  }

  /** The top level fails on any first token but "[" and "{": a number, a string, a keyword
      or any other symbol is refused, whatever follows it. */
  lemma ScalarRefused(fuel: nat, tok: PyTokens.Token)
    requires !IsSymbol(tok, "[") && !IsSymbol(tok, "{")
    ensures FailsOn(Grammar(), JsonParser(), fuel, tok)
  {
    var g := Grammar();
    OpenFailsOn(fuel, tok);
    var ps := JsonParser().parsers;
    assert ps == [Array(), Object()];
    assert FailFrom(g, ps, 2, fuel, tok);
    assert FailFrom(g, ps, 1, fuel, tok);
    assert FailFrom(g, ps, 0, fuel, tok);
    ChoiceFailsOn(g, JsonParser(), fuel, tok);
  }

  /** The top level succeeds only on a stream whose first token is "[" or "{". */
  lemma TopLevelStart(ts: TokenStream, fuel: nat)
    requires PyTokens.Valid(ts)
    ensures Parse(Grammar(), JsonParser(), ts, fuel).Parsed? ==>
      PyTokens.Get(ts).Got? && (IsSymbol(PyTokens.Get(ts).token, "[") || IsSymbol(PyTokens.Get(ts).token, "{"))
  {
    PrepareNothing(ts, fuel);
    if PyTokens.Get(ts).Got? {
      var tok := PyTokens.Get(ts).token;
      if !IsSymbol(tok, "[") && !IsSymbol(tok, "{") {
        ScalarRefused(fuel, tok);
      }
    }
  }

  /** A fresh stream has nothing cached, and so is valid. */
  lemma NewValid(text: string)
    ensures PyTokens.New(JsonLexer(), text, [WS]).Ok? && PyTokens.Valid(PyTokens.New(JsonLexer(), text, [WS]).value)
  {
    PyJsonTokens.WsIgnorable(JsonLexer(), text);
  }

  /** `LPC.parse` on a text succeeds only when the text's first token, whitespace skipped, is
      "[" or "{". */
  lemma ParseJsonStart(text: string, fuel: nat)
    ensures ParseJson(text, fuel).Parsed? ==>
      var ts := PyTokens.New(JsonLexer(), text, [WS]).value;
      PyTokens.Get(ts).Got? && (IsSymbol(PyTokens.Get(ts).token, "[") || IsSymbol(PyTokens.Get(ts).token, "{"))
  {
    NewValid(text);
    TopLevelStart(PyTokens.New(JsonLexer(), text, [WS]).value, fuel);
  }

  // ---------------------------------------------------------------------------------------
  // The empty array.

  /** "[" then "]" is an array with no items, given one unit of fuel for the nested rules the
      value alternatives try on "]". */
  lemma EmptyArrayOn(ts: TokenStream, fuel: nat)
    requires fuel > 0 && PyTokens.Valid(ts)
    requires PyTokens.Get(ts).Got? && IsSymbol(PyTokens.Get(ts).token, "[")
    requires PyTokens.Get(PyTokens.Get(ts).ts).Got? && IsSymbol(PyTokens.Get(PyTokens.Get(ts).ts).token, "]")
    ensures Parse(Grammar(), Array(), ts, fuel).Parsed?
    ensures Parse(Grammar(), Array(), ts, fuel).result.value == List([])
  {
    ValueFailsOn(fuel, PyTokens.Get(PyTokens.Get(ts).ts).token);
    assert Array().parsers[1].value == Value();
    var rs := EmptyBetweenOn(Grammar(), Array(), ts, fuel);
  }

  /** At the top level, "[" then "]" is the empty list: the array alternative is tried
      first and succeeds, and the top level passes its value on unchanged. */
  lemma JsonEmptyArrayOn(ts: TokenStream, fuel: nat)
    requires fuel > 0 && PyTokens.Valid(ts)
    requires PyTokens.Get(ts).Got? && IsSymbol(PyTokens.Get(ts).token, "[")
    requires PyTokens.Get(PyTokens.Get(ts).ts).Got? && IsSymbol(PyTokens.Get(PyTokens.Get(ts).ts).token, "]")
    ensures Parse(Grammar(), JsonParser(), ts, fuel).Parsed?
    ensures Parse(Grammar(), JsonParser(), ts, fuel).result.value == List([])
  {
    var g := Grammar();
    var ready := ChoiceOn(g, JsonParser(), ts, fuel);
    AlikeGet(ready, ts);
    AlikeGet(PyTokens.Get(ready).ts, PyTokens.Get(ts).ts);
    var ps := JsonParser().parsers;
    assert ps[0] == Array();
    EmptyArrayOn(ready, fuel);
    var pos := PyTokens.Get(ts).token.position;
    assert ChoiceLoop(g, ps, 0, false, pos, ready, fuel) == Parse(g, Array(), ready, fuel);
  }

  // ---------------------------------------------------------------------------------------
  // What the grammar returns, from any stream.

  /** A value is returned tagged with the name of the alternative that read it. */
  lemma ValueTagged(fuel: nat, res: PResult)
    requires Yields(Grammar(), Value(), fuel, res)
    ensures res.value.Tagged?
  {
    var k, inner := TaggedYields(Grammar(), Value(), fuel, res);
  }

  /** An array returns a list whose items are the values it read, in order, each with its
      tag taken off. */
  lemma ArrayItems(fuel: nat, res: PResult) returns (vs: seq<PResult>)
    requires Yields(Grammar(), Array(), fuel, res)
    ensures res.value.List? && |res.value.items| == |vs|
    ensures forall i | 0 <= i < |vs| ::
      && YieldsWithin(Grammar(), Value(), fuel, vs[i])
      && vs[i].value.Tagged?
      && res.value.items[i] == vs[i].value.v
  {
    var g := Grammar();
    var sep := Array().parsers[1];
    var rs := SequenceYields(g, Array(), fuel, res);
    assert sep.Separated? && sep.value == Value() && sep.xf == Identity;
    assert Yields(g, sep, fuel, rs[1]);
    vs := SeparatedYields(g, sep, fuel, rs[1]);
    forall i | 0 <= i < |vs|
      ensures vs[i].value.Tagged?
    {
      assert YieldsWithin(g, sep.value, fuel, vs[i]);
      var f: nat :| f <= fuel && Yields(g, Value(), f, vs[i]);
      ValueTagged(f, vs[i]);
    }
  }

  /** An object returns a dictionary. */
  lemma ObjectIsDict(fuel: nat, res: PResult)
    requires Yields(Grammar(), Object(), fuel, res)
    ensures res.value.Dict?
  {
    var g := Grammar();
    var sep := Object().parsers[1];
    var rs := SequenceYields(g, Object(), fuel, res);
    assert sep.Separated? && sep.xf == Identity;
    assert Yields(g, sep, fuel, rs[1]);
    var vs := SeparatedYields(g, sep, fuel, rs[1]);
  }

  /** The top level returns a list or a dictionary, never a scalar. */
  lemma TopLevelValue(fuel: nat, res: PResult)
    requires Yields(Grammar(), JsonParser(), fuel, res)
    ensures res.value.List? || res.value.Dict?
  {
    var g := Grammar();
    var k, inner := UntaggedYields(g, JsonParser(), fuel, res);
    assert JsonParser().parsers == [Array(), Object()];
    if k == 0 {
      var vs := ArrayItems(fuel, inner);
    } else {
      ObjectIsDict(fuel, inner);
    }
  }

  /** `LPC.parse` on a text returns a list or a dictionary when it succeeds. */
  lemma ParseJsonValue(text: string, fuel: nat)
    ensures ParseJson(text, fuel).Parsed? ==> ParseJson(text, fuel).result.value.List? || ParseJson(text, fuel).result.value.Dict?
  {
    if ParseJson(text, fuel).Parsed? {
      NewValid(text);
      var ts := PyTokens.New(JsonLexer(), text, [WS]).value;
      assert Yields(Grammar(), JsonParser(), fuel, ParseJson(text, fuel).result);
      TopLevelValue(fuel, ParseJson(text, fuel).result);
    }
  }
}

=== FILE: py_json_tokens.dfy ===
/** What the six JSON token patterns make of the input: which pattern wins on a number, and
    that the token stream may ignore whitespace. */
module PyJsonTokens {
  import opened Wrappers
  import Longest
  import PyStream
  import PyLexer
  import PyTokens
  import opened PyJsonLex

  /** On a number, only the two number patterns can match; "decimal" always matches more than
      "integer" when it matches at all, so it wins; otherwise "integer" does. */
  lemma NumberWinner(s: PyStream.Stream)
    requires var rest := PyStream.PeekRemainder(s); |rest| > 0 && (rest[0] == '-' || IsDigit(rest[0]))
    ensures var rest := PyStream.PeekRemainder(s);
      PyLexer.Winner(JsonLexer(), s) ==
        (if DecimalMatch(rest).Some? then Some(3) else if IntegerMatch(rest).Some? then Some(4) else None)
  {
    var rest := PyStream.PeekRemainder(s);
    var lens := PyLexer.Attempt(JsonLexer(), s);
    JsonAttempt(s);
    OnlyNumbersMatch(rest);
    var w := PyLexer.Winner(JsonLexer(), s);
    if w.Some? {
      NumberChoice(lens, w.value);
    }
  }

  /** What the six patterns make of the remaining text. */
  lemma JsonAttempt(s: PyStream.Stream)
    ensures var rest := PyStream.PeekRemainder(s); var lens := PyLexer.Attempt(JsonLexer(), s);
      && |lens| == 6
      && lens[0] == WsMatch(rest) && lens[1] == SymbolMatch(rest) && lens[2] == KeywordMatch(rest)
      && lens[3] == DecimalMatch(rest) && lens[4] == IntegerMatch(rest) && lens[5] == StringMatch(rest)
  {
    var lens := PyLexer.Attempt(JsonLexer(), s);
    var rest := PyStream.PeekRemainder(s);
    var ps := JsonLexer().patterns;
    assert ps == JsonPatterns();
    assert lens[0] == ps[0].matcher(rest) && lens[1] == ps[1].matcher(rest) && lens[2] == ps[2].matcher(rest);
    assert lens[3] == ps[3].matcher(rest) && lens[4] == ps[4].matcher(rest) && lens[5] == ps[5].matcher(rest);
    assert ps[0] == WsPattern() && ps[1] == SymbolPattern() && ps[2] == KeywordPattern();
    assert ps[3] == DecimalPattern() && ps[4] == IntegerPattern() && ps[5] == StringPattern();
  }

  /** "2.5" is read as one decimal token. */
  lemma DecimalWins()
    ensures PyLexer.Winner(JsonLexer(), PyStream.New("2.5")) == Some(3)
  {
    var s := PyStream.New("2.5");
    assert PyStream.PeekRemainder(s) == "2.5";
    DecimalOf25();
    NumberWinner(s);
  }

  lemma DecimalOf25()
    ensures DecimalMatch("2.5") == Some(3)
  {
    assert DigitsEnd("2.5", 1) == 1;
    assert IntegerEnd("2.5") == Some(1);
    assert DigitsEnd("2.5", 3) == 3;
    assert DigitsEnd("2.5", 2) == 3;
  }

  /** "25" is read as one integer token. */
  lemma IntegerWins()
    ensures PyLexer.Winner(JsonLexer(), PyStream.New("25")) == Some(4)
  {
    var s := PyStream.New("25");
    assert PyStream.PeekRemainder(s) == "25";
    IntegerOf25();
    NumberWinner(s);
  }

  lemma IntegerOf25()
    ensures IntegerMatch("25") == Some(2) && DecimalMatch("25").None?
  {
    assert DigitsEnd("25", 2) == 2;
    assert DigitsEnd("25", 1) == 2;
    assert IntegerEnd("25") == Some(2);
  }

  // ---------------------------------------------------------------------------------------
  // The grammar.

  /** Ignoring "WS" is allowed: only "<EOS>" may not be ignored. */
  lemma WsIgnorable(lx: PyLexer.Lexer<string>, text: string)
    ensures PyTokens.New(lx, text, [WS]).Ok?
  {
    assert PyLexer.EOS_PATTERN_ID != WS by {
      assert |PyLexer.EOS_PATTERN_ID| != |WS|;
    }
  }
}

=== FILE: py_lexer.dfy ===
/** The Python lexer (`Lexer` in parser/parser.py): patterns tried in registration order under
    the longest-match rule, with an EOS token at the end of the text and an UNKNOWN token over
    one character when nothing matches.  The pattern ID type is a parameter because the copy
    in parser/parser_generator.py runs the same algorithm over integer IDs. */
module PyLexer {
  import opened Wrappers
  import opened Lines
  import opened Longest
  import Text
  import PyStream

  /** A pattern's action: `None`, or a function from the matched text to the token value. */
  type Action = Option<string -> string>

  /** The token value an action makes of a matched text. */
  function Apply(a: Action, matched: string): (v: string)
    ensures a.None? ==> v == matched
  {
    match a
    case None => matched
    case Some(f) => f(matched)
  }

  datatype Pattern<Id> = Pattern(id: Id, matcher: Matcher, action: Action)

  /** The two sentinel patterns (their IDs and actions) and the registered patterns in order. */
  datatype Lexer<Id> = Lexer(eosId: Id, unknownId: Id, onEOS: Action, onUnknown: Action,
                             patterns: seq<Pattern<Id>>)

  datatype Token<Id> = Token(patternID: Id, position: Position, value: string)

  const EOS_PATTERN_ID: string := "<EOS>"
  const UNKNOWN_PATTERN_ID: string := "<UNKNOWN>"

  /** A lexer with no patterns yet. */
  function New(onEOS: Action, onUnknown: Action): (lx: Lexer<string>)
    ensures lx.patterns == []
    ensures lx.eosId == EOS_PATTERN_ID && lx.unknownId == UNKNOWN_PATTERN_ID
  {
    Lexer(EOS_PATTERN_ID, UNKNOWN_PATTERN_ID, onEOS, onUnknown, [])
  }

  /** The IDs of the registered patterns, in order. */
  function Ids<Id>(lx: Lexer<Id>): (ids: seq<Id>)
    ensures |ids| == |lx.patterns|
    ensures forall i :: 0 <= i < |ids| ==> ids[i] == lx.patterns[i].id
  {
    seq(|lx.patterns|, i requires 0 <= i < |lx.patterns| => lx.patterns[i].id)
  }

  /** The ID given to the pattern registered at index `n` when none is supplied. */
  function PatternIdFromIndex(n: nat): string
  {
    "<Pattern: " + Text.NatToString(n) + ">"
  }

  /** Registers a pattern under `id`, or under "<Pattern: n>" (n = number of patterns so far)
      when no ID is given; fails when the ID is already registered.  The sentinel IDs are not
      registered patterns, so they are accepted. */
  function AddPattern(lx: Lexer<string>, m: Matcher, action: Action, id: Option<string>)
    : (r: Result<(Lexer<string>, string), string>)
    ensures var chosen := if id.Some? then id.value else PatternIdFromIndex(|lx.patterns|);
      && (r.Err? <==> chosen in Ids(lx))
      && (r.Err? ==> r.error == "Pattern with id '" + chosen + "' already exists!")
      && (r.Ok? ==> r.value.1 == chosen
                    && r.value.0 == lx.(patterns := lx.patterns + [Pattern(chosen, m, action)]))
  {
    var chosen := if id.Some? then id.value else PatternIdFromIndex(|lx.patterns|);
    if chosen in Ids(lx) then Err("Pattern with id '" + chosen + "' already exists!")
    else Ok((lx.(patterns := lx.patterns + [Pattern(chosen, m, action)]), chosen))
  }

  /** No two registered patterns share an ID. */
  ghost predicate DistinctIds<Id>(lx: Lexer<Id>)
  {
    forall i, j :: 0 <= i < j < |lx.patterns| ==> lx.patterns[i].id != lx.patterns[j].id
  }

  /** `AddPattern` keeps registered IDs distinct, so a pattern ID names one pattern. */
  lemma AddPatternKeepsDistinct(lx: Lexer<string>, m: Matcher, action: Action, id: Option<string>)
    requires DistinctIds(lx)
    requires AddPattern(lx, m, action, id).Ok?
    ensures DistinctIds(AddPattern(lx, m, action, id).value.0)
  {
    var chosen := AddPattern(lx, m, action, id).value.1;
    assert chosen !in Ids(lx);
  }

  /** The lengths each pattern matches at the read offset. */
  function Attempt<Id>(lx: Lexer<Id>, s: PyStream.Stream): (lens: seq<Option<nat>>)
    ensures |lens| == |lx.patterns|
    ensures forall i :: 0 <= i < |lens| ==>
      lens[i] == Within(lx.patterns[i].matcher(PyStream.PeekRemainder(s)), PyStream.PeekRemainder(s))
  {
    var ms := seq(|lx.patterns|, i requires 0 <= i < |lx.patterns| => lx.patterns[i].matcher);
    Attempts(ms, PyStream.PeekRemainder(s))
  }

  /** The index of the winning pattern, or `None` when no pattern matches. */
  function Winner<Id>(lx: Lexer<Id>, s: PyStream.Stream): (w: Option<nat>)
    ensures w.None? <==> forall j :: 0 <= j < |lx.patterns| ==> Attempt(lx, s)[j].None?
    ensures w.Some? ==> IsChoice(Attempt(lx, s), w.value)
  {
    Select(Attempt(lx, s))
  }

  /** Reads one token (the contract here is what callers need most; `LexSpec` states the rule
      fully).  The position is taken before reading and the stream never moves back. */
  function Lex<Id>(lx: Lexer<Id>, s: PyStream.Stream): (r: (Token<Id>, PyStream.Stream))
    ensures r.1.text == s.text && r.0.position == PyStream.GetPosition(s)
    ensures s.offset <= r.1.offset
  {
    var pos := PyStream.GetPosition(s);
    if PyStream.IsEOS(s) then
      (Token(lx.eosId, pos, Apply(lx.onEOS, "")), PyStream.Ignore(s, 0))
    else
      match Winner(lx, s)
      case None =>
        var matched := PyStream.Peek(s);
        (Token(lx.unknownId, pos, Apply(lx.onUnknown, matched)), PyStream.Ignore(s, |matched|))
      case Some(k) =>
        var rest := PyStream.PeekRemainder(s);
        var matched := rest[..Attempt(lx, s)[k].value];
        (Token(lx.patterns[k].id, pos, Apply(lx.patterns[k].action, matched)), PyStream.Ignore(s, |matched|))
  }

  /** What `Lex` reads.  At the end of the text the token is EOS with the value "" (through
      `onEOS`) and nothing is consumed.  Otherwise the longest match wins, the earliest pattern
      on a tie, and the stream advances by the RAW match length whatever the action returns;
      with no match the token is UNKNOWN over exactly one character. */
  lemma LexSpec<Id>(lx: Lexer<Id>, s: PyStream.Stream)
    ensures var r := Lex(lx, s);
      && (PyStream.IsEOS(s) ==>
            r.0.patternID == lx.eosId && r.0.value == Apply(lx.onEOS, "") && r.1 == s)
      && (!PyStream.IsEOS(s) && Winner(lx, s).None? ==>
            && r.0.patternID == lx.unknownId
            && r.1.offset == s.offset + 1
            && r.0.value == Apply(lx.onUnknown, [s.text[s.offset]]))
      && (!PyStream.IsEOS(s) && Winner(lx, s).Some? ==>
            var k := Winner(lx, s).value;
            var rest := PyStream.PeekRemainder(s);
            && r.0.patternID == lx.patterns[k].id
            && r.1.offset == s.offset + Attempt(lx, s)[k].value
            && lx.patterns[k].matcher(rest) == Some(r.1.offset - s.offset)
            && r.0.value == Apply(lx.patterns[k].action, s.text[s.offset..r.1.offset])
            && (forall j :: 0 <= j < |lx.patterns| && Attempt(lx, s)[j].Some? ==>
                  Attempt(lx, s)[j].value <= r.1.offset - s.offset)
            && (forall j :: 0 <= j < k && Attempt(lx, s)[j].Some? ==>
                  Attempt(lx, s)[j].value < r.1.offset - s.offset))
  {
    var r := Lex(lx, s);
    if !PyStream.IsEOS(s) {
      match Winner(lx, s)
      case None =>
        assert PyStream.Peek(s) == [s.text[s.offset]];
      case Some(k) =>
        var rest := PyStream.PeekRemainder(s);
        var len := Attempt(lx, s)[k].value;
        var matched := rest[..len];
        assert r.1.offset == s.offset + len;
        assert s.text[s.offset..r.1.offset] == matched;
        assert IsChoice(Attempt(lx, s), k);
    }
  }
}

=== FILE: py_parser.dfy ===
/** The parser algebra of the Python engine (`Parser` and its subclasses in parser/parser.py):
    `Terminal`, `Sequence`, `Choice`, `Quantified`, `Separated` and `Lazy`, run over the token
    stream of `PyTokens`.  Every parser first drops the tokens it ignores, then runs its own
    rule; on failure it puts the cursor back where it found it and wraps the error in
    "Unable to parse <name>".

    Recursion through `Lazy` and the loops of `Quantified` and of the ignore-skipping can run
    forever in the source (a rule that calls itself first, a repetition of something that
    consumes nothing); here they spend `fuel`, and the outcome `Diverge` stands for "did not
    finish within the fuel".  A `Get` that loops for ever is reported the same way. */
module PyParser {
  import opened Wrappers
  import opened Lines
  import Text
  import PyLexer
  import PyTokens

  type TokenStream = PyTokens.TokenStream

  /** The values parsers and their transformers build (Python's `Any`). */
  datatype Value =
    | Str(s: string)                  // a token's text
    | Res(r: PResult)                 // one `Parser.Result`
    | Results(rs: seq<PResult>)       // a list of `Parser.Result`s
    | Tagged(tag: string, v: Value)   // the pair (name, value) of a tagging `Choice`
    | List(items: seq<Value>)
    | Dict(entries: map<string, Value>)
    | Bool(b: bool)
    | Null
    | Int(i: int)
    | Float(lexeme: string)           // a float, kept as the text it was read from

  /** `Parser.Result`: where the parsed text starts, and what it became. */
  datatype PResult = PResult(position: Position, value: Value)

  /** `Parser.Error`. */
  datatype Error = Error(position: Position, msg: string)

  /** `str()` of an error. */
  function Show(e: Error): string
  {
    "Error @ " + PositionString(e.position) + ": " + e.msg
  }

  /** `Error.Combine`: the first error, with the whole second error as the next line. */
  function Combine(e1: Error, e2: Error): (e: Error)
    ensures e.position == e1.position
    ensures Show(e) == Show(e1) + "\n" + Show(e2)
  {
    Error(e1.position, e1.msg + "\n" + Show(e2))
  }

  /** `Error.Expectation`. */
  function Expectation(expected: string, found: string, pos: Position): (e: Error)
    ensures Show(e) == "Error @ " + PositionString(pos) + ": Expected " + expected + ", but found " + found
  {
    Error(pos, "Expected " + expected + ", but found " + found)
  }

  type Transformer = Value -> Value

  function Identity(v: Value): Value
  {
    v
  }

  /** A parser.  `Lazy` names a rule of the grammar by index: the grammar is the list of
      parsers that the thunks of the source return. */
  datatype Parser =
    | Terminal(name: string, patternID: string, literal: Option<string>, xf: Transformer, ignores: seq<string>)
    | Sequence(name: string, parsers: seq<Parser>, xf: Transformer, ignores: seq<string>)
    | Choice(name: string, parsers: seq<Parser>, tag: bool, xf: Transformer, ignores: seq<string>)
    | Quantified(name: string, parser: Parser, minimum: nat, maximum: Option<nat>, xf: Transformer, ignores: seq<string>)
    | Separated(name: string, value: Parser, separator: Parser, xf: Transformer, ignores: seq<string>)
    | Lazy(name: string, rule: nat)

  /** `Quantified.AtLeast1`, `AtMost1`, `AtLeast0`. */
  function AtLeast1(name: string, p: Parser, xf: Transformer, ignores: seq<string>): (q: Parser)
    ensures q.Quantified? && q.minimum == 1 && q.maximum == None && q.parser == p
  {
    Quantified(name, p, 1, None, xf, ignores)
  }

  function AtMost1(name: string, p: Parser, xf: Transformer, ignores: seq<string>): (q: Parser)
    ensures q.Quantified? && q.minimum == 0 && q.maximum == Some(1) && q.parser == p
  {
    Quantified(name, p, 0, Some(1), xf, ignores)
  }

  function AtLeast0(name: string, p: Parser, xf: Transformer, ignores: seq<string>): (q: Parser)
    ensures q.Quantified? && q.minimum == 0 && q.maximum == None && q.parser == p
  {
    Quantified(name, p, 0, None, xf, ignores)
  }

  /** What the constructors assert: EOS is never ignored, and a repetition's minimum is not
      above its maximum. */
  predicate WellFormed(p: Parser)
  {
    match p
    case Lazy(_, _) => true
    case Terminal(_, _, _, _, ign) => PyLexer.EOS_PATTERN_ID !in ign
    case Sequence(_, ps, _, ign) => PyLexer.EOS_PATTERN_ID !in ign && forall i | 0 <= i < |ps| :: WellFormed(ps[i])
    case Choice(_, ps, _, _, ign) => PyLexer.EOS_PATTERN_ID !in ign && forall i | 0 <= i < |ps| :: WellFormed(ps[i])
    case Quantified(_, q, lo, hi, _, ign) =>
      PyLexer.EOS_PATTERN_ID !in ign && (hi.Some? ==> lo <= hi.value) && WellFormed(q)
    case Separated(_, v, s, _, ign) => PyLexer.EOS_PATTERN_ID !in ign && WellFormed(v) && WellFormed(s)
  }

  /** Every `Lazy` inside `p` names one of the first `n` rules. */
  predicate ClosedIn(n: nat, p: Parser)
  {
    match p
    case Lazy(_, rule) => rule < n
    case Terminal(_, _, _, _, _) => true
    case Sequence(_, ps, _, _) => forall i | 0 <= i < |ps| :: ClosedIn(n, ps[i])
    case Choice(_, ps, _, _, _) => forall i | 0 <= i < |ps| :: ClosedIn(n, ps[i])
    case Quantified(_, q, _, _, _, _) => ClosedIn(n, q)
    case Separated(_, v, s, _, _) => ClosedIn(n, v) && ClosedIn(n, s)
  }

  /** Every thunk of the grammar returns one of its rules. */
  predicate Closed(g: seq<Parser>)
  {
    forall i | 0 <= i < |g| :: ClosedIn(|g|, g[i])
  }

  function Size(p: Parser): (n: nat)
    ensures n >= 1
  {
    match p
    case Terminal(_, _, _, _, _) => 1
    case Sequence(_, ps, _, _) => 1 + SizeAll(ps)
    case Choice(_, ps, _, _, _) => 1 + SizeAll(ps)
    case Quantified(_, q, _, _, _, _) => 1 + Size(q)
    case Separated(_, v, s, _, _) => 8 + 2 * Size(v) + Size(s)
    case Lazy(_, _) => 1
  }

  function SizeAll(ps: seq<Parser>): (n: nat)
    ensures |ps| > 0 ==> Size(ps[0]) < n
  {
    if |ps| == 0 then 0 else 1 + Size(ps[0]) + SizeAll(ps[1..])
  }

  /** The transformer of the separator-and-value step inside `Separated`: keep the value. */
  function Second(v: Value): Value
  {
    // Anything but a two-element list never reaches it (Python would raise).
    if v.Results? && |v.rs| >= 2 then Res(v.rs[1]) else v
  }

  /** The transformer of the repetition inside `Separated`: unwrap each step's result. */
  function Unwrap(v: Value): Value
  {
    if v.Results? then Results(UnwrapAll(v.rs)) else v
  }

  function UnwrapAll(rs: seq<PResult>): seq<PResult>
  {
    // Each step's value is the `Res` that `Second` made; nothing else reaches here.
    if |rs| == 0 then []
    else (if rs[0].value.Res? then [rs[0].value.r] else [rs[0]]) + UnwrapAll(rs[1..])
  }

  /** The transformer of `Separated`'s own sequence: the first value, then the rest. */
  function Prepend(v: Value): Value
  {
    if v.Results? && |v.rs| >= 2 && v.rs[1].value.Results? then Results([v.rs[0]] + v.rs[1].value.rs)
    else v
  }

  /** The parser the constructor of `Separated` builds: a value, then any number of
      separator-and-value steps, every part under the same name and ignores. */
  function SeparatedInner(name: string, v: Parser, s: Parser, ignores: seq<string>): (p: Parser)
    ensures Size(p) < 8 + 2 * Size(v) + Size(s)
  {
    var step := Sequence(name, [s, v], Second, ignores);
    var tail := Quantified(name, step, 0, None, Unwrap, ignores);
    SizePair(s, v);
    SizePair(v, tail);
    Sequence(name, [v, tail], Prepend, ignores)
  }

  lemma SizePair(a: Parser, b: Parser)
    ensures SizeAll([a, b]) == 2 + Size(a) + Size(b)
  {
    assert [a, b][1..] == [b];
    assert [b][1..] == [];
    assert SizeAll([b]) == 1 + Size(b);
  }

  /** The expected text of a `Terminal`'s pattern-mismatch error: the pattern ID, followed by
      the required literal in parentheses when there is one. */
  function TerminalExpected(patternID: string, literal: Option<string>): (s: string)
    ensures patternID <= s
    ensures literal.None? ==> s == patternID
  {
    patternID + (if literal.Some? then "(" + literal.value + ")" else "")
  }

  /** The same text as written: the conditional binds loosest, so without a literal the
      whole text is empty. */
  function TerminalExpectedAsWritten(patternID: string, literal: Option<string>): (s: string)
    ensures literal.Some? ==> s == TerminalExpected(patternID, literal)
    ensures literal.None? ==> s == ""
  {
    if literal.Some? then patternID + "(" + literal.value + ")" else ""
  }

  /** A terminal for `integer` with no literal: as written it reports "Expected , but found
      ..."; the intended text names the pattern. */
  lemma TerminalExpectedLosesPattern()
    ensures TerminalExpectedAsWritten("integer", None) == ""
    ensures TerminalExpected("integer", None) == "integer"
  {
  }

  /** How a `Terminal` error shows the token it found: the pattern ID, then the value in
      parentheses unless it is empty. */
  function Found(token: PyTokens.Token): (s: string)
    ensures token.patternID <= s
    ensures token.value == "" <==> s == token.patternID
  {
    token.patternID + (if token.value != "" then "(" + token.value + ")" else "")
  }

  /** The result of a `Sequence` or `Quantified`: the list, placed at its first element or
      at `start` when it is empty. */
  function Pack(start: Position, rs: seq<PResult>): (r: PResult)
    ensures r.value == Results(rs)
    ensures |rs| > 0 ==> r.position == rs[0].position
    ensures |rs| == 0 ==> r.position == start
  {
    PResult(if |rs| != 0 then rs[0].position else start, Results(rs))
  }

  function Names(ps: seq<Parser>): (names: seq<string>)
    ensures |names| == |ps|
    ensures forall i | 0 <= i < |ps| :: names[i] == ps[i].name
  {
    seq(|ps|, i requires 0 <= i < |ps| => ps[i].name)
  }

  datatype Outcome = Parsed(result: PResult, ts: TokenStream) | Failed(error: Error, ts: TokenStream) | Diverge

  /** `b` is `a` later on: same lexer, text and ignores, and a cache that only grew. */
  ghost predicate Extends(a: TokenStream, b: TokenStream)
  {
    && b.lexer == a.lexer && b.ignores == a.ignores && b.stream.text == a.stream.text
    && a.tokens <= b.tokens
  }

  /** The loop at the head of `parse`: while the next token is one this parser ignores, read
      it.  `None` when `Get` loops or the fuel runs out. */
  function Skip(ignores: seq<string>, ts: TokenStream, fuel: nat): (r: Option<TokenStream>)
    ensures r.Some? ==> Extends(ts, r.value) && ts.cursor <= r.value.cursor
    decreases fuel
  {
    match PyTokens.Peek(ts)
    case Loops(_) => None
    case Got(token, _, peeked) =>
      if token.patternID !in ignores then Some(peeked)
      else if fuel == 0 then None
      else
        match PyTokens.Get(peeked)
        case Loops(_) => None
        case Got(_, _, after) => Skip(ignores, after, fuel - 1)
  }

  /** `Parser.parse`: skip ignored tokens, run the parser's rule from the position of the
      next token and apply the transformer; on failure restore the cursor and report
      "Unable to parse <name>" at the restored position, followed by the inner error.
      `Lazy` hands the stream straight to its rule. */
  function Parse(g: seq<Parser>, p: Parser, ts: TokenStream, fuel: nat): (r: Outcome)
    requires Closed(g) && ClosedIn(|g|, p)
    ensures !r.Diverge? ==> Extends(ts, r.ts)
    ensures r.Failed? ==> r.ts.cursor == ts.cursor
    decreases fuel, Size(p), 3
  {
    if p.Lazy? then
      if fuel == 0 then Diverge else Parse(g, g[p.rule], ts, fuel - 1)
    else
      match Prepare(p.ignores, ts, fuel)
      case None => Diverge
      case Some((start, ready)) => Finish(p, ts.cursor, Body(g, p, start, ready, fuel))
  }

  /** The head of `parse`: skip ignored tokens and take the position of the next token. */
  function Prepare(ignores: seq<string>, ts: TokenStream, fuel: nat): (r: Option<(Position, TokenStream)>)
    ensures r.Some? ==> Extends(ts, r.value.1) && ts.cursor < |r.value.1.tokens|
  {
    match Skip(ignores, ts, fuel)
    case None => None
    case Some(skipped) => PyTokens.GetPosition(skipped)
  }

  /** The end of `parse`: transform a success; after a failure go back to `cursor` and wrap
      the error. */
  function Finish(p: Parser, cursor: nat, body: Outcome): (r: Outcome)
    requires !p.Lazy?
    requires body.Failed? ==> cursor < |body.ts.tokens|
    ensures !r.Diverge? ==> !body.Diverge? && Extends(body.ts, r.ts)
    ensures r.Parsed? <==> body.Parsed?
    ensures r.Parsed? ==> r.ts == body.ts && r.result == PResult(body.result.position, p.xf(body.result.value))
    ensures r.Failed? ==> body.Failed? && r.ts.cursor == cursor
  {
    match body
    case Diverge => Diverge
    case Parsed(res, after) => Parsed(PResult(res.position, p.xf(res.value)), after)
    case Failed(e, after) =>
      var restored := PyTokens.SetOffset(after, cursor);
      match PyTokens.GetPosition(restored)
      case None => Diverge
      case Some((pos, final)) => Failed(Combine(Error(pos, "Unable to parse " + p.name), e), final)
  }

  /** A failure wraps the inner error under "Unable to parse <name>", placed at the next token
      once the cursor is back at `cursor`. */
  lemma FinishError(p: Parser, cursor: nat, body: Outcome)
    requires !p.Lazy?
    requires body.Failed? ==> cursor < |body.ts.tokens|
    ensures Finish(p, cursor, body).Failed? ==>
      && body.Failed?
      && PyTokens.GetPosition(PyTokens.SetOffset(body.ts, cursor)).Some?
      && Finish(p, cursor, body).error == Combine(Error(Restored(body.ts, cursor), "Unable to parse " + p.name), body.error)
  {
  }

  /** The position of the next token once the cursor is put back at `cursor`: where a
      failed parser reports "Unable to parse". */
  function Restored(ts: TokenStream, cursor: nat): Position
  {
    match PyTokens.GetPosition(PyTokens.SetOffset(ts, cursor))
    case Some((pos, _)) => pos
    case None => Position(0, 0)
  }

  /** `_parse` of each kind of parser, from the stream after skipping, with `start` the
      position of the next token. */
  function Body(g: seq<Parser>, p: Parser, start: Position, ts: TokenStream, fuel: nat): (r: Outcome)
    requires Closed(g) && ClosedIn(|g|, p) && !p.Lazy?
    ensures !r.Diverge? ==> Extends(ts, r.ts)
    decreases fuel, Size(p), 2
  {
    match p
    case Terminal(_, pid, literal, _, _) =>
      TerminalBody(pid, literal, ts)
    case Sequence(_, ps, _, _) =>
      SequenceLoop(g, ps, start, [], ts, fuel)
    case Choice(_, ps, tag, _, _) =>
      assert ps[0..] == ps;
      ChoiceLoop(g, ps, 0, tag, start, ts, fuel)
    case Quantified(_, _, _, _, _, _) =>
      QuantLoop(g, p, start, [], ts, fuel)
    case Separated(name, v, s, _, ign) =>
      match Parse(g, SeparatedInner(name, v, s, ign), ts, fuel)
      case Failed(_, after) => Parsed(PResult(start, Results([])), after)
      case Parsed(res, after) => Parsed(res, after)
      case Diverge => Diverge
  }

  /** `Terminal._parse`: read one token; it must come from the pattern `pid` and, when a
      literal is required, have exactly that text.  Errors sit at the token's position. */
  function TerminalBody(pid: string, literal: Option<string>, ts: TokenStream): (r: Outcome)
    ensures var got := PyTokens.Get(ts);
      && (r.Diverge? <==> got.Loops?)
      && (r.Parsed? <==> got.Got? && got.token.patternID == pid
                         && (literal.None? || got.token.value == literal.value))
      && (r.Parsed? ==> r.result == PResult(got.token.position, Str(got.token.value)) && r.ts == got.ts)
      && (r.Failed? ==> r.ts == got.ts && r.error.position == got.token.position)
      && (r.Failed? && got.token.patternID != pid ==>
            r.error.msg == "Expected " + TerminalExpected(pid, literal) + ", but found " + Found(got.token))
  {
    match PyTokens.Get(ts)
    case Loops(_) => Diverge
    case Got(token, _, after) =>
      if token.patternID != pid then
        Failed(Expectation(TerminalExpected(pid, literal), Found(token), token.position), after)
      else if literal.Some? && token.value != literal.value then
        Failed(Expectation(literal.value, token.value, token.position), after)
      else
        Parsed(PResult(token.position, Str(token.value)), after)
  }

  /** `Sequence._parse`: each parser in turn; the first failure is the sequence's. */
  function SequenceLoop(g: seq<Parser>, ps: seq<Parser>, start: Position, acc: seq<PResult>,
                        ts: TokenStream, fuel: nat): (r: Outcome)
    requires Closed(g) && forall i | 0 <= i < |ps| :: ClosedIn(|g|, ps[i])
    ensures !r.Diverge? ==> Extends(ts, r.ts)
    decreases fuel, SizeAll(ps), 0
  {
    if |ps| == 0 then Parsed(Pack(start, acc), ts)
    else
      match Parse(g, ps[0], ts, fuel)
      case Parsed(res, after) => SequenceLoop(g, ps[1..], start, acc + [res], after, fuel)
      case Failed(e, after) => Failed(e, after)
      case Diverge => Diverge
  }

  /** `Choice._parse`: the alternatives from `i` on, in order; each failed one has already
      put the cursor back. */
  function ChoiceLoop(g: seq<Parser>, all: seq<Parser>, i: nat, tag: bool, start: Position,
                      ts: TokenStream, fuel: nat): (r: Outcome)
    requires Closed(g) && i <= |all| && forall j | 0 <= j < |all| :: ClosedIn(|g|, all[j])
    ensures !r.Diverge? ==> Extends(ts, r.ts)
    decreases fuel, SizeAll(all[i..]), 0
  {
    if i == |all| then
      Failed(Error(start, "Expected one of [" + Text.Join(", ", Names(all)) + "]"), ts)
    else
      assert all[i..][1..] == all[i + 1..];
      match Parse(g, all[i], ts, fuel)
      case Parsed(res, after) =>
        Parsed(if tag then PResult(res.position, Tagged(all[i].name, res.value)) else res, after)
      case Failed(_, after) => ChoiceLoop(g, all, i + 1, tag, start, after, fuel)
      case Diverge => Diverge
  }

  /** What a repetition that fell short expected: "at least <minimum> '<name>'". */
  function AtLeastText(q: Parser): string
    requires q.Quantified?
  {
    "at least " + Text.NatToString(q.minimum) + " '" + q.parser.name + "'"
  }

  /** The error of a repetition that read only `count` results: where and what it expected,
      followed by the error of the attempt that stopped it. */
  function Shortfall(q: Parser, count: nat, pos: Position, inner: Error): (e: Error)
    requires q.Quantified?
    ensures e.position == pos
    ensures Show(e) == Show(Expectation(AtLeastText(q), "only " + Text.NatToString(count), pos)) + "\n" + Show(inner)
  {
    Combine(Expectation(AtLeastText(q), "only " + Text.NatToString(count), pos), inner)
  }

  /** `Quantified._parse`: repeat while below the maximum; a failed attempt ends the loop,
      and is an error when fewer than the minimum were read.  Each round spends fuel. */
  function QuantLoop(g: seq<Parser>, q: Parser, start: Position, acc: seq<PResult>,
                     ts: TokenStream, fuel: nat): (r: Outcome)
    requires Closed(g) && ClosedIn(|g|, q) && q.Quantified?
    ensures !r.Diverge? ==> Extends(ts, r.ts)
    decreases fuel, Size(q), 1
  {
    if q.maximum.Some? && |acc| >= q.maximum.value then Parsed(Pack(start, acc), ts)
    else if fuel == 0 then Diverge
    else QuantAfter(g, q, start, acc, ts, Parse(g, q.parser, ts, fuel), fuel)
  }

  /** The rest of the repetition once `attempt` is known: go on after a success; after a
      failure stop, with the results so far if there are enough of them. */
  function QuantAfter(g: seq<Parser>, q: Parser, start: Position, acc: seq<PResult>, ts: TokenStream,
                      attempt: Outcome, fuel: nat): (r: Outcome)
    requires Closed(g) && ClosedIn(|g|, q) && q.Quantified? && fuel > 0
    requires !attempt.Diverge? ==> Extends(ts, attempt.ts)
    ensures !r.Diverge? ==> Extends(ts, r.ts)
    decreases fuel, Size(q), 0
  {
    match attempt
    case Parsed(res, after) => QuantLoop(g, q, start, acc + [res], after, fuel - 1)
    case Failed(e, after) =>
      if |acc| < q.minimum then
        match PyTokens.GetPosition(after)
        case None => Diverge
        case Some((pos, final)) =>
          Failed(Shortfall(q, |acc|, pos, e), final)
      else Parsed(Pack(start, acc), after)
    case Diverge => Diverge
  }

  // ---------------------------------------------------------------------------------------
  // What each combinator promises.

  /** `p` returns `res` when run from some stream. */
  ghost predicate Yields(g: seq<Parser>, p: Parser, fuel: nat, res: PResult)
    requires Closed(g) && ClosedIn(|g|, p)
  {
    exists t: TokenStream :: Parse(g, p, t, fuel).Parsed? && Parse(g, p, t, fuel).result == res
  }

  /** `p` returns `res` when run from some stream whose cursor is `cursor`. */
  ghost predicate StartsAt(g: seq<Parser>, p: Parser, fuel: nat, cursor: nat, res: PResult)
    requires Closed(g) && ClosedIn(|g|, p)
  {
    exists t: TokenStream :: t.cursor == cursor && Parse(g, p, t, fuel).Parsed? && Parse(g, p, t, fuel).result == res
  }

  /** `p` fails when run from some stream whose cursor is `cursor`. */
  ghost predicate FailsAt(g: seq<Parser>, p: Parser, fuel: nat, cursor: nat)
    requires Closed(g) && ClosedIn(|g|, p)
  {
    exists t: TokenStream :: t.cursor == cursor && Parse(g, p, t, fuel).Failed?
  }

  /** A sequence that succeeds holds one result per parser, in order, and sits at the first
      of them (or at `start` when there are none); the i-th result is what the i-th parser
      returned.  `all` is the whole list, of which `ps` is what is left after `acc`. */
  lemma {:induction false} SequenceResults(g: seq<Parser>, all: seq<Parser>, ps: seq<Parser>, start: Position,
                                           acc: seq<PResult>, ts: TokenStream, fuel: nat)
    requires Closed(g) && forall i | 0 <= i < |all| :: ClosedIn(|g|, all[i])
    requires |acc| <= |all| && ps == all[|acc|..]
    ensures var r := SequenceLoop(g, ps, start, acc, ts, fuel);
      r.Parsed? ==>
        && r.result.value.Results?
        && |r.result.value.rs| == |all|
        && acc <= r.result.value.rs
        && r.result.position == (if |all| > 0 then r.result.value.rs[0].position else start)
        && forall i | |acc| <= i < |all| :: Yields(g, all[i], fuel, r.result.value.rs[i])
    decreases |ps|
  {
    var r := SequenceLoop(g, ps, start, acc, ts, fuel);
    if |ps| > 0 && r.Parsed? {
      var first := Parse(g, ps[0], ts, fuel);
      var res := first.result;
      assert r == SequenceLoop(g, ps[1..], start, acc + [res], first.ts, fuel);
      assert ps[1..] == all[|acc + [res]|..];
      SequenceResults(g, all, ps[1..], start, acc + [res], first.ts, fuel);
      var rs := r.result.value.rs;
      assert rs[|acc|] == res && ps[0] == all[|acc|];
      assert Yields(g, all[|acc|], fuel, rs[|acc|]) by {
        assert Parse(g, ps[0], ts, fuel).result == rs[|acc|];
      }
    }
  }

  /** Alternative `k` of `all` succeeded with `res`, giving `result`, after every alternative
      from `i` up to `k` failed at `cursor`. */
  ghost predicate ChosenFrom(g: seq<Parser>, all: seq<Parser>, i: nat, tag: bool, fuel: nat, cursor: nat,
                             result: PResult)
    requires Closed(g) && forall j | 0 <= j < |all| :: ClosedIn(|g|, all[j])
  {
    exists k: nat, res: PResult ::
      && i <= k < |all|
      && StartsAt(g, all[k], fuel, cursor, res)
      && result == (if tag then PResult(res.position, Tagged(all[k].name, res.value)) else res)
      && forall j | i <= j < k :: FailsAt(g, all[j], fuel, cursor)
  }

  lemma ChosenEarlier(g: seq<Parser>, all: seq<Parser>, i: nat, tag: bool, fuel: nat, cursor: nat,
                      result: PResult)
    requires Closed(g) && i < |all| && forall j | 0 <= j < |all| :: ClosedIn(|g|, all[j])
    requires FailsAt(g, all[i], fuel, cursor) && ChosenFrom(g, all, i + 1, tag, fuel, cursor, result)
    ensures ChosenFrom(g, all, i, tag, fuel, cursor, result)
  {
    var k: nat, res: PResult :|
      && i + 1 <= k < |all|
      && StartsAt(g, all[k], fuel, cursor, res)
      && result == (if tag then PResult(res.position, Tagged(all[k].name, res.value)) else res)
      && forall j | i + 1 <= j < k :: FailsAt(g, all[j], fuel, cursor);
    assert forall j | i <= j < k :: FailsAt(g, all[j], fuel, cursor);
  }

  /** One step of a choice: what the attempt at alternative `i` decides. */
  lemma ChoiceStep(g: seq<Parser>, all: seq<Parser>, i: nat, tag: bool, start: Position, ts: TokenStream,
                   fuel: nat)
    requires Closed(g) && i < |all| && forall j | 0 <= j < |all| :: ClosedIn(|g|, all[j])
    ensures var first := Parse(g, all[i], ts, fuel);
      first.Failed? ==>
        && FailsAt(g, all[i], fuel, ts.cursor)
        && first.ts.cursor == ts.cursor
        && ChoiceLoop(g, all, i, tag, start, ts, fuel) == ChoiceLoop(g, all, i + 1, tag, start, first.ts, fuel)
    ensures var first := Parse(g, all[i], ts, fuel);
      first.Parsed? ==>
        && StartsAt(g, all[i], fuel, ts.cursor, first.result)
        && ChoiceLoop(g, all, i, tag, start, ts, fuel).Parsed?
        && ChoiceLoop(g, all, i, tag, start, ts, fuel).result
           == (if tag then PResult(first.result.position, Tagged(all[i].name, first.result.value)) else first.result)
    ensures Parse(g, all[i], ts, fuel).Diverge? ==> ChoiceLoop(g, all, i, tag, start, ts, fuel).Diverge?
  {
    var first := Parse(g, all[i], ts, fuel);
    if first.Failed? {
      assert FailsAt(g, all[i], fuel, ts.cursor);
    } else if first.Parsed? {
      assert StartsAt(g, all[i], fuel, ts.cursor, first.result);
    }
  }

  /** A choice that succeeds took the first alternative that succeeded. */
  lemma {:induction false} ChoiceFirstSuccess(g: seq<Parser>, all: seq<Parser>, i: nat, tag: bool,
                                              start: Position, ts: TokenStream, fuel: nat)
    requires Closed(g) && i <= |all| && forall j | 0 <= j < |all| :: ClosedIn(|g|, all[j])
    ensures var r := ChoiceLoop(g, all, i, tag, start, ts, fuel);
      r.Parsed? ==> ChosenFrom(g, all, i, tag, fuel, ts.cursor, r.result)
    decreases |all| - i
  {
    if i < |all| {
      var first := Parse(g, all[i], ts, fuel);
      if first.Failed? {
        var after := first.ts;
        assert && FailsAt(g, all[i], fuel, ts.cursor) && after.cursor == ts.cursor
               && ChoiceLoop(g, all, i, tag, start, ts, fuel) == ChoiceLoop(g, all, i + 1, tag, start, after, fuel) by {
          ChoiceStep(g, all, i, tag, start, ts, fuel);
        }
        ChoiceFirstSuccess(g, all, i + 1, tag, start, after, fuel);
        var r := ChoiceLoop(g, all, i + 1, tag, start, after, fuel);
        if r.Parsed? {
          ChosenEarlier(g, all, i, tag, fuel, ts.cursor, r.result);
        }
      } else if first.Parsed? {
        var res := first.result;
        var r := ChoiceLoop(g, all, i, tag, start, ts, fuel);
        assert && StartsAt(g, all[i], fuel, ts.cursor, res) && r.Parsed?
               && r.result == (if tag then PResult(res.position, Tagged(all[i].name, res.value)) else res) by {
          ChoiceStep(g, all, i, tag, start, ts, fuel);
        }
        assert ChosenFrom(g, all, i, tag, fuel, ts.cursor, r.result);
      } else {
        assert !ChoiceLoop(g, all, i, tag, start, ts, fuel).Parsed? by {
          ChoiceStep(g, all, i, tag, start, ts, fuel);
        }
      }
    }
  }

  lemma AllFailFrom(g: seq<Parser>, all: seq<Parser>, i: nat, fuel: nat, cursor: nat)
    requires Closed(g) && i < |all| && forall j | 0 <= j < |all| :: ClosedIn(|g|, all[j])
    requires FailsAt(g, all[i], fuel, cursor)
    requires forall j | i + 1 <= j < |all| :: FailsAt(g, all[j], fuel, cursor)
    ensures forall j | i <= j < |all| :: FailsAt(g, all[j], fuel, cursor)
  {
  }

  /** A choice that fails tried every alternative from `i`, each failed at the same cursor,
      and it reports the names of all of them at `start`. */
  lemma {:induction false} ChoiceAllFail(g: seq<Parser>, all: seq<Parser>, i: nat, tag: bool,
                                         start: Position, ts: TokenStream, fuel: nat)
    requires Closed(g) && i <= |all| && forall j | 0 <= j < |all| :: ClosedIn(|g|, all[j])
    ensures var r := ChoiceLoop(g, all, i, tag, start, ts, fuel);
      r.Failed? ==>
        && r.error == Error(start, "Expected one of [" + Text.Join(", ", Names(all)) + "]")
        && r.ts.cursor == ts.cursor
        && forall j | i <= j < |all| :: FailsAt(g, all[j], fuel, ts.cursor)
    decreases |all| - i
  {
    if i < |all| {
      var first := Parse(g, all[i], ts, fuel);
      if first.Failed? {
        var after := first.ts;
        assert && FailsAt(g, all[i], fuel, ts.cursor) && after.cursor == ts.cursor
               && ChoiceLoop(g, all, i, tag, start, ts, fuel) == ChoiceLoop(g, all, i + 1, tag, start, after, fuel) by {
          ChoiceStep(g, all, i, tag, start, ts, fuel);
        }
        ChoiceAllFail(g, all, i + 1, tag, start, after, fuel);
        if ChoiceLoop(g, all, i + 1, tag, start, after, fuel).Failed? {
          AllFailFrom(g, all, i, fuel, ts.cursor);
        }
      } else {
        assert !ChoiceLoop(g, all, i, tag, start, ts, fuel).Failed? by {
          ChoiceStep(g, all, i, tag, start, ts, fuel);
        }
      }
    }
  }

  /** A repetition that succeeds read at least `minimum` and at most `maximum` results, and
      sits at the first of them (or at `start`). */
  lemma {:induction false} QuantifiedCount(g: seq<Parser>, q: Parser, start: Position, acc: seq<PResult>,
                                           ts: TokenStream, fuel: nat)
    requires Closed(g) && ClosedIn(|g|, q) && q.Quantified?
    requires q.maximum.Some? ==> q.minimum <= q.maximum.value && |acc| <= q.maximum.value
    ensures var r := QuantLoop(g, q, start, acc, ts, fuel);
      r.Parsed? ==>
        && r.result.value.Results?
        && acc <= r.result.value.rs
        && q.minimum <= |r.result.value.rs|
        && (q.maximum.Some? ==> |r.result.value.rs| <= q.maximum.value)
        && r.result.position == (if |r.result.value.rs| > 0 then r.result.value.rs[0].position else start)
    decreases fuel, 1
  {
    if q.maximum.Some? && |acc| >= q.maximum.value {
      assert QuantLoop(g, q, start, acc, ts, fuel) == Parsed(Pack(start, acc), ts);
    } else if fuel > 0 {
      var attempt := Parse(g, q.parser, ts, fuel);
      assert QuantLoop(g, q, start, acc, ts, fuel) == QuantAfter(g, q, start, acc, ts, attempt, fuel);
      QuantAfterCount(g, q, start, acc, ts, attempt, fuel);
    }
  }

  /** `QuantifiedCount` once the attempt is known. */
  lemma {:induction false} QuantAfterCount(g: seq<Parser>, q: Parser, start: Position, acc: seq<PResult>,
                                           ts: TokenStream, attempt: Outcome, fuel: nat)
    requires Closed(g) && ClosedIn(|g|, q) && q.Quantified? && fuel > 0
    requires !attempt.Diverge? ==> Extends(ts, attempt.ts)
    requires q.maximum.Some? ==> q.minimum <= q.maximum.value && |acc| < q.maximum.value
    ensures var r := QuantAfter(g, q, start, acc, ts, attempt, fuel);
      r.Parsed? ==>
        && r.result.value.Results?
        && acc <= r.result.value.rs
        && q.minimum <= |r.result.value.rs|
        && (q.maximum.Some? ==> |r.result.value.rs| <= q.maximum.value)
        && r.result.position == (if |r.result.value.rs| > 0 then r.result.value.rs[0].position else start)
    decreases fuel, 0
  {
    match attempt
    case Parsed(res, after) =>
      var more := acc + [res];
      QuantifiedCount(g, q, start, more, after, fuel - 1);
      var r := QuantLoop(g, q, start, more, after, fuel - 1);
      if r.Parsed? {
        assert acc <= more <= r.result.value.rs;
      }
    case Failed(e, after) =>
      if |acc| >= q.minimum {
        assert QuantAfter(g, q, start, acc, ts, attempt, fuel) == Parsed(Pack(start, acc), after);
      }
    case Diverge =>
  }

  /** A repetition that fails stopped short of the minimum: it read `k` results, with `k`
      below the minimum, and its error says so at `pos` above the error `e` of the attempt
      that stopped it. */
  lemma {:induction false} QuantifiedShortfall(g: seq<Parser>, q: Parser, start: Position, acc: seq<PResult>,
                                               ts: TokenStream, fuel: nat)
    returns (k: nat, pos: Position, e: Error)
    requires Closed(g) && ClosedIn(|g|, q) && q.Quantified?
    ensures var r := QuantLoop(g, q, start, acc, ts, fuel);
      r.Failed? ==> |acc| <= k < q.minimum && r.error == Shortfall(q, k, pos, e)
    decreases fuel, 1
  {
    k, pos, e := 0, Position(0, 0), Error(Position(0, 0), "");
    if q.maximum.Some? && |acc| >= q.maximum.value {
      assert QuantLoop(g, q, start, acc, ts, fuel).Parsed?;
    } else if fuel > 0 {
      var attempt := Parse(g, q.parser, ts, fuel);
      assert QuantLoop(g, q, start, acc, ts, fuel) == QuantAfter(g, q, start, acc, ts, attempt, fuel);
      k, pos, e := QuantAfterShortfall(g, q, start, acc, ts, attempt, fuel);
    }
  }

  /** `QuantifiedShortfall` once the attempt is known. */
  lemma {:induction false} QuantAfterShortfall(g: seq<Parser>, q: Parser, start: Position, acc: seq<PResult>,
                                               ts: TokenStream, attempt: Outcome, fuel: nat)
    returns (k: nat, pos: Position, e: Error)
    requires Closed(g) && ClosedIn(|g|, q) && q.Quantified? && fuel > 0
    requires !attempt.Diverge? ==> Extends(ts, attempt.ts)
    ensures var r := QuantAfter(g, q, start, acc, ts, attempt, fuel);
      r.Failed? ==> |acc| <= k < q.minimum && r.error == Shortfall(q, k, pos, e)
    decreases fuel, 0
  {
    k, pos, e := 0, Position(0, 0), Error(Position(0, 0), "");
    if attempt.Parsed? {
      var more := acc + [attempt.result];
      assert QuantAfter(g, q, start, acc, ts, attempt, fuel) == QuantLoop(g, q, start, more, attempt.ts, fuel - 1);
      k, pos, e := QuantifiedShortfall(g, q, start, more, attempt.ts, fuel - 1);
    } else if attempt.Failed? {
      k, pos, e := QuantFailedShortfall(g, q, start, acc, ts, attempt, fuel);
    }
  }

  /** `QuantAfterShortfall` for an attempt that failed: the count is the results read. */
  lemma QuantFailedShortfall(g: seq<Parser>, q: Parser, start: Position, acc: seq<PResult>,
                             ts: TokenStream, attempt: Outcome, fuel: nat)
    returns (k: nat, pos: Position, e: Error)
    requires Closed(g) && ClosedIn(|g|, q) && q.Quantified? && fuel > 0
    requires attempt.Failed? && Extends(ts, attempt.ts)
    ensures var r := QuantAfter(g, q, start, acc, ts, attempt, fuel);
      r.Failed? ==> |acc| <= k < q.minimum && r.error == Shortfall(q, k, pos, e)
  {
    k, pos, e := |acc|, Position(0, 0), attempt.error;
    if |acc| < q.minimum {
      match PyTokens.GetPosition(attempt.ts)
      case None =>
      case Some((at, final)) =>
        pos := at;
        assert QuantAfter(g, q, start, acc, ts, attempt, fuel) == Failed(Shortfall(q, k, pos, e), final);
    }
  }

  /** `AtLeast1` reads one result or more. */
  lemma AtLeast1Reads(g: seq<Parser>, name: string, p: Parser, xf: Transformer, ignores: seq<string>,
                      start: Position, ts: TokenStream, fuel: nat)
    requires Closed(g) && ClosedIn(|g|, p)
    ensures var b := Body(g, AtLeast1(name, p, xf, ignores), start, ts, fuel);
      b.Parsed? ==> b.result.value.Results? && 1 <= |b.result.value.rs|
  {
    var q := AtLeast1(name, p, xf, ignores);
    assert Body(g, q, start, ts, fuel) == QuantLoop(g, q, start, [], ts, fuel);
    QuantifiedCount(g, q, start, [], ts, fuel);
  }

  /** When `AtLeast1` fails it had read no result, and its error says so at `pos`, above the
      error `e` of the attempt that stopped it. */
  lemma AtLeast1Shortfall(g: seq<Parser>, name: string, p: Parser, xf: Transformer, ignores: seq<string>,
                          start: Position, ts: TokenStream, fuel: nat)
    returns (pos: Position, e: Error)
    requires Closed(g) && ClosedIn(|g|, p)
    ensures var b := Body(g, AtLeast1(name, p, xf, ignores), start, ts, fuel);
      b.Failed? ==> b.error == Shortfall(AtLeast1(name, p, xf, ignores), 0, pos, e)
  {
    var q := AtLeast1(name, p, xf, ignores);
    assert Body(g, q, start, ts, fuel) == QuantLoop(g, q, start, [], ts, fuel);
    var k;
    k, pos, e := QuantifiedShortfall(g, q, start, [], ts, fuel);
    if QuantLoop(g, q, start, [], ts, fuel).Failed? {
      assert k == 0;
    }
  }

  /** `AtMost1` never fails, and reads no result or one. */
  lemma AtMost1Reads(g: seq<Parser>, name: string, p: Parser, xf: Transformer, ignores: seq<string>,
                     start: Position, ts: TokenStream, fuel: nat)
    requires Closed(g) && ClosedIn(|g|, p)
    ensures var b := Body(g, AtMost1(name, p, xf, ignores), start, ts, fuel);
      && !b.Failed?
      && (b.Parsed? ==> b.result.value.Results? && |b.result.value.rs| <= 1)
  {
    var q := AtMost1(name, p, xf, ignores);
    assert Body(g, q, start, ts, fuel) == QuantLoop(g, q, start, [], ts, fuel);
    QuantifiedCount(g, q, start, [], ts, fuel);
    var k, pos, e := QuantifiedShortfall(g, q, start, [], ts, fuel);
  }

  /** `AtLeast0` never fails, and reads a list of any length. */
  lemma AtLeast0Reads(g: seq<Parser>, name: string, p: Parser, xf: Transformer, ignores: seq<string>,
                      start: Position, ts: TokenStream, fuel: nat)
    requires Closed(g) && ClosedIn(|g|, p)
    ensures var b := Body(g, AtLeast0(name, p, xf, ignores), start, ts, fuel);
      && !b.Failed?
      && (b.Parsed? ==> b.result.value.Results?)
  {
    var q := AtLeast0(name, p, xf, ignores);
    assert Body(g, q, start, ts, fuel) == QuantLoop(g, q, start, [], ts, fuel);
    QuantifiedCount(g, q, start, [], ts, fuel);
    var k, pos, e := QuantifiedShortfall(g, q, start, [], ts, fuel);
  }

  /** The repetition inside `Separated` always yields a list. */
  lemma RepetitionIsList(g: seq<Parser>, tail: Parser, t: TokenStream, fuel: nat)
    requires Closed(g) && ClosedIn(|g|, tail) && tail.Quantified? && tail.maximum.None? && tail.xf == Unwrap
    ensures Parse(g, tail, t, fuel).Parsed? ==> Parse(g, tail, t, fuel).result.value.Results?
  {
    var r := Parse(g, tail, t, fuel);
    if r.Parsed? {
      var (st, ready) := Prepare(tail.ignores, t, fuel).value;
      var body := Body(g, tail, st, ready, fuel);
      assert r == Finish(tail, t.cursor, body);
      assert body == QuantLoop(g, tail, st, [], ready, fuel);
      QuantifiedCount(g, tail, st, [], ready, fuel);
    }
  }

  /** `Separated` never fails: when not even a first value is there it returns an empty list
      at `start`; otherwise the list of values, the separators dropped. */
  lemma SeparatedNeverFails(g: seq<Parser>, p: Parser, start: Position, ts: TokenStream, fuel: nat)
    requires Closed(g) && ClosedIn(|g|, p) && p.Separated?
    ensures !Body(g, p, start, ts, fuel).Failed?
    ensures Body(g, p, start, ts, fuel).Parsed? ==> Body(g, p, start, ts, fuel).result.value.Results?
  {
    var inner := SeparatedInner(p.name, p.value, p.separator, p.ignores);
    var r := Parse(g, inner, ts, fuel);
    if r.Parsed? {
      var (st, ready) := Prepare(inner.ignores, ts, fuel).value;
      var body := Body(g, inner, st, ready, fuel);
      assert r == Finish(inner, ts.cursor, body);
      assert body == SequenceLoop(g, inner.parsers, st, [], ready, fuel);
      SequenceResults(g, inner.parsers, inner.parsers, st, [], ready, fuel);
      var rs := body.result.value.rs;
      var tail := inner.parsers[1];
      assert Yields(g, tail, fuel, rs[1]);
      var t: TokenStream :| Parse(g, tail, t, fuel).Parsed? && Parse(g, tail, t, fuel).result == rs[1];
      RepetitionIsList(g, tail, t, fuel);
      assert r.result.value == Prepend(body.result.value);
    }
  }

  /** Hence a `Separated` parser as a whole never fails either. */
  lemma SeparatedParseNeverFails(g: seq<Parser>, p: Parser, ts: TokenStream, fuel: nat)
    requires Closed(g) && ClosedIn(|g|, p) && p.Separated?
    ensures !Parse(g, p, ts, fuel).Failed?
  {
    match Prepare(p.ignores, ts, fuel)
    case None =>
    case Some((st, ready)) => SeparatedNeverFails(g, p, st, ready, fuel);
  }

  /** A parser other than `Lazy` that fails reports "Unable to parse <name>" at the restored
      position, followed by the inner error on the next line; the cursor is back where it
      was. */
  lemma ParseFailure(g: seq<Parser>, p: Parser, ts: TokenStream, fuel: nat)
    requires Closed(g) && ClosedIn(|g|, p) && !p.Lazy?
    ensures var r := Parse(g, p, ts, fuel);
      r.Failed? ==>
        && r.ts.cursor == ts.cursor
        && Prepare(p.ignores, ts, fuel).Some?
        && var body := Body(g, p, Prepare(p.ignores, ts, fuel).value.0, Prepare(p.ignores, ts, fuel).value.1, fuel);
           && body.Failed?
           && r.error == Combine(Error(Restored(body.ts, ts.cursor), "Unable to parse " + p.name), body.error)
           && Show(r.error) == Show(Error(Restored(body.ts, ts.cursor), "Unable to parse " + p.name)) + "\n" + Show(body.error)
  {
    var r := Parse(g, p, ts, fuel);
    if r.Failed? {
      var (start, ready) := Prepare(p.ignores, ts, fuel).value;
      var body := Body(g, p, start, ready, fuel);
      assert r == Finish(p, ts.cursor, body);
      FinishError(p, ts.cursor, body);
    }
  }

  /** `Lazy` hands the stream to its rule, untouched. */
  lemma LazyDelegates(g: seq<Parser>, name: string, rule: nat, ts: TokenStream, fuel: nat)
    requires Closed(g) && rule < |g|
    ensures Parse(g, Lazy(name, rule), ts, fuel + 1) == Parse(g, g[rule], ts, fuel)
  {
  }

  // ---------------------------------------------------------------------------------------
  // What `Separated` returns: its values, and the separator before each but the first.

  /** `p` returns `res` when run with at most `fuel`. */
  ghost predicate YieldsWithin(g: seq<Parser>, p: Parser, fuel: nat, res: PResult)
    requires Closed(g) && ClosedIn(|g|, p)
  {
    exists f: nat :: f <= fuel && Yields(g, p, f, res)
  }

  lemma Within(g: seq<Parser>, p: Parser, f: nat, fuel: nat, res: PResult)
    requires Closed(g) && ClosedIn(|g|, p) && f <= fuel && Yields(g, p, f, res)
    ensures YieldsWithin(g, p, fuel, res)
  {
  }

  /** `res` is what the value parser of `p` returned right after its separator parser had
      succeeded, within `fuel`. */
  ghost predicate SeparatorThenValue(g: seq<Parser>, p: Parser, fuel: nat, res: PResult)
    requires Closed(g) && ClosedIn(|g|, p) && p.Separated?
  {
    exists f: nat, sep: PResult :: f <= fuel && Yields(g, p.separator, f, sep) && Yields(g, p.value, f, res)
  }

  /** The parts `SeparatedInner` builds for `p`, and that they name only rules of `g`. */
  lemma InnerParts(n: nat, p: Parser)
    requires ClosedIn(n, p) && p.Separated?
    ensures var inner := SeparatedInner(p.name, p.value, p.separator, p.ignores);
      && inner.Sequence? && |inner.parsers| == 2 && inner.parsers[0] == p.value && inner.xf == Prepend
      && inner.parsers[1].Quantified? && inner.parsers[1].xf == Unwrap
      && inner.parsers[1].parser == Sequence(p.name, [p.separator, p.value], Second, p.ignores)
      && ClosedIn(n, inner) && ClosedIn(n, inner.parsers[1])
      && ClosedIn(n, Sequence(p.name, [p.separator, p.value], Second, p.ignores))
  {
  }

  /** A parser other than `Lazy` that succeeds returns what its own rule returned, through
      its transformer. */
  lemma ParsedBody(g: seq<Parser>, p: Parser, t: TokenStream, f: nat)
    requires Closed(g) && ClosedIn(|g|, p) && !p.Lazy? && Parse(g, p, t, f).Parsed?
    ensures Prepare(p.ignores, t, f).Some?
    ensures var body := Body(g, p, Prepare(p.ignores, t, f).value.0, Prepare(p.ignores, t, f).value.1, f);
      && body.Parsed?
      && Parse(g, p, t, f).result == PResult(body.result.position, p.xf(body.result.value))
  {
    var (st, ready) := Prepare(p.ignores, t, f).value;
    assert Parse(g, p, t, f) == Finish(p, t.cursor, Body(g, p, st, ready, f));
  }

  /** What a sequence returns is its transformer applied to one result per parser, each what
      that parser returned with the same fuel. */
  lemma SequenceYields(g: seq<Parser>, q: Parser, f: nat, res: PResult) returns (rs: seq<PResult>)
    requires Closed(g) && ClosedIn(|g|, q) && q.Sequence? && Yields(g, q, f, res)
    ensures |rs| == |q.parsers| && res.value == q.xf(Results(rs))
    ensures |rs| > 0 ==> res.position == rs[0].position
    ensures forall i {:trigger Yields(g, q.parsers[i], f, rs[i])} | 0 <= i < |rs| :: Yields(g, q.parsers[i], f, rs[i])
  {
    var t: TokenStream :| Parse(g, q, t, f).Parsed? && Parse(g, q, t, f).result == res;
    ParsedBody(g, q, t, f);
    var (st, ready) := Prepare(q.ignores, t, f).value;
    SequenceBody(g, q, st, ready, f);
    rs := Body(g, q, st, ready, f).result.value.rs;
  }

  /** `SequenceResults` for the rule of a whole sequence. */
  lemma SequenceBody(g: seq<Parser>, q: Parser, start: Position, ts: TokenStream, f: nat)
    requires Closed(g) && ClosedIn(|g|, q) && q.Sequence?
    ensures var body := Body(g, q, start, ts, f);
      body.Parsed? ==>
        && body.result.value.Results?
        && |body.result.value.rs| == |q.parsers|
        && (|q.parsers| > 0 ==> body.result.position == body.result.value.rs[0].position)
        && forall i {:trigger Yields(g, q.parsers[i], f, body.result.value.rs[i])} | 0 <= i < |q.parsers| ::
             Yields(g, q.parsers[i], f, body.result.value.rs[i])
  {
    assert Body(g, q, start, ts, f) == SequenceLoop(g, q.parsers, start, [], ts, f);
    WholeSuffix(q.parsers);
    SequenceResults(g, q.parsers, q.parsers, start, [], ts, f);
  }

  /** What a repetition returns is its transformer applied to a list of results, each one
      its parser returned within the same fuel. */
  lemma QuantifiedYieldsAll(g: seq<Parser>, q: Parser, f: nat, res: PResult) returns (rs: seq<PResult>)
    requires Closed(g) && ClosedIn(|g|, q) && q.Quantified? && Yields(g, q, f, res)
    ensures res.value == q.xf(Results(rs))
    ensures forall i {:trigger YieldsWithin(g, q.parser, f, rs[i])} | 0 <= i < |rs| :: YieldsWithin(g, q.parser, f, rs[i])
  {
    var t: TokenStream :| Parse(g, q, t, f).Parsed? && Parse(g, q, t, f).result == res;
    ParsedBody(g, q, t, f);
    var (st, ready) := Prepare(q.ignores, t, f).value;
    var body := Body(g, q, st, ready, f);
    assert body == QuantLoop(g, q, st, [], ready, f);
    QuantifiedYields(g, q, st, [], ready, f);
    rs := body.result.value.rs;
  }

  /** Every result a repetition adds to `acc` is one its parser returned within the fuel. */
  lemma {:induction false} QuantifiedYields(g: seq<Parser>, q: Parser, start: Position, acc: seq<PResult>,
                                            ts: TokenStream, fuel: nat)
    requires Closed(g) && ClosedIn(|g|, q) && q.Quantified?
    ensures var r := QuantLoop(g, q, start, acc, ts, fuel);
      r.Parsed? ==>
        && r.result.value.Results?
        && acc <= r.result.value.rs
        && forall i {:trigger YieldsWithin(g, q.parser, fuel, r.result.value.rs[i])} | |acc| <= i < |r.result.value.rs| ::
             YieldsWithin(g, q.parser, fuel, r.result.value.rs[i])
    decreases fuel, 1
  {
    if q.maximum.Some? && |acc| >= q.maximum.value {
      assert QuantLoop(g, q, start, acc, ts, fuel) == Parsed(Pack(start, acc), ts);
    } else if fuel > 0 {
      var attempt := Parse(g, q.parser, ts, fuel);
      assert QuantLoop(g, q, start, acc, ts, fuel) == QuantAfter(g, q, start, acc, ts, attempt, fuel);
      assert attempt.Parsed? ==> Yields(g, q.parser, fuel, attempt.result);
      QuantAfterYields(g, q, start, acc, ts, attempt, fuel);
    }
  }

  /** `QuantifiedYields` once the attempt is known. */
  lemma {:induction false} QuantAfterYields(g: seq<Parser>, q: Parser, start: Position, acc: seq<PResult>,
                                            ts: TokenStream, attempt: Outcome, fuel: nat)
    requires Closed(g) && ClosedIn(|g|, q) && q.Quantified? && fuel > 0
    requires !attempt.Diverge? ==> Extends(ts, attempt.ts)
    requires attempt.Parsed? ==> Yields(g, q.parser, fuel, attempt.result)
    ensures var r := QuantAfter(g, q, start, acc, ts, attempt, fuel);
      r.Parsed? ==>
        && r.result.value.Results?
        && acc <= r.result.value.rs
        && forall i {:trigger YieldsWithin(g, q.parser, fuel, r.result.value.rs[i])} | |acc| <= i < |r.result.value.rs| ::
             YieldsWithin(g, q.parser, fuel, r.result.value.rs[i])
    decreases fuel, 0
  {
    match attempt
    case Parsed(res, after) =>
      assert QuantAfter(g, q, start, acc, ts, attempt, fuel) == QuantLoop(g, q, start, acc + [res], after, fuel - 1);
      QuantParsedYields(g, q, start, acc, res, after, fuel);
    case Failed(_, after) =>
      if |acc| >= q.minimum {
        assert QuantAfter(g, q, start, acc, ts, attempt, fuel) == Parsed(Pack(start, acc), after);
      }
    case Diverge =>
  }

  /** The repetition goes on after an attempt that returned `res`. */
  lemma {:induction false} QuantParsedYields(g: seq<Parser>, q: Parser, start: Position, acc: seq<PResult>,
                                             res: PResult, after: TokenStream, fuel: nat)
    requires Closed(g) && ClosedIn(|g|, q) && q.Quantified? && fuel > 0
    requires Yields(g, q.parser, fuel, res)
    ensures var r := QuantLoop(g, q, start, acc + [res], after, fuel - 1);
      r.Parsed? ==>
        && r.result.value.Results?
        && acc <= r.result.value.rs
        && forall i {:trigger YieldsWithin(g, q.parser, fuel, r.result.value.rs[i])} | |acc| <= i < |r.result.value.rs| ::
             YieldsWithin(g, q.parser, fuel, r.result.value.rs[i])
    decreases fuel - 1, 2
  {
    var more := acc + [res];
    QuantifiedYields(g, q, start, more, after, fuel - 1);
    var r := QuantLoop(g, q, start, more, after, fuel - 1);
    if r.Parsed? {
      YieldsExtend(g, q.parser, fuel, acc, res, more, r.result.value.rs);
    }
  }

  /** One more result in front, returned with `fuel`, of results returned within `fuel - 1`. */
  lemma YieldsExtend(g: seq<Parser>, p: Parser, fuel: nat, acc: seq<PResult>, res: PResult, more: seq<PResult>,
                     rs: seq<PResult>)
    requires Closed(g) && ClosedIn(|g|, p) && fuel > 0
    requires Yields(g, p, fuel, res) && more == acc + [res] && more <= rs
    requires forall i {:trigger YieldsWithin(g, p, fuel - 1, rs[i])} | |more| <= i < |rs| ::
      YieldsWithin(g, p, fuel - 1, rs[i])
    ensures acc <= rs
    ensures forall i {:trigger YieldsWithin(g, p, fuel, rs[i])} | |acc| <= i < |rs| :: YieldsWithin(g, p, fuel, rs[i])
  {
    PrefixOfAppend(acc, res, rs);
    forall i | |acc| <= i < |rs|
      ensures YieldsWithin(g, p, fuel, rs[i])
    {
      if i == |acc| {
        Within(g, p, fuel, fuel, res);
      } else {
        assert YieldsWithin(g, p, fuel - 1, rs[i]);
        var f: nat :| f <= fuel - 1 && Yields(g, p, f, rs[i]);
        Within(g, p, f, fuel, rs[i]);
      }
    }
  }

  lemma WholeSuffix<T>(s: seq<T>)
    ensures s[0..] == s
  {
  }

  lemma PrefixOfAppend<T>(acc: seq<T>, x: T, rs: seq<T>)
    requires acc + [x] <= rs
    ensures acc <= rs && |acc| < |rs| && rs[|acc|] == x
  {
    assert (acc + [x])[|acc|] == x;
  }

  /** The separator-and-value step returns the value's result, wrapped once, and both of its
      parts ran with the same fuel. */
  lemma StepValue(g: seq<Parser>, p: Parser, f: nat, res: PResult)
    requires Closed(g) && ClosedIn(|g|, p) && p.Separated?
    requires ClosedIn(|g|, Sequence(p.name, [p.separator, p.value], Second, p.ignores))
    requires Yields(g, Sequence(p.name, [p.separator, p.value], Second, p.ignores), f, res)
    ensures res.value.Res?
    ensures exists sep: PResult :: Yields(g, p.separator, f, sep) && Yields(g, p.value, f, res.value.r)
  {
    var step := Sequence(p.name, [p.separator, p.value], Second, p.ignores);
    var rs := SequenceYields(g, step, f, res);
    assert step.parsers[0] == p.separator && step.parsers[1] == p.value;
    assert Yields(g, p.separator, f, rs[0]) && Yields(g, p.value, f, rs[1]);
    assert res.value == Second(Results(rs)) == Res(rs[1]);
  }

  /** Unwrapping a list of wrapped results takes each one out, in order. */
  lemma {:induction false} UnwrapAllTakesOut(rs: seq<PResult>)
    requires forall j | 0 <= j < |rs| :: rs[j].value.Res?
    ensures |UnwrapAll(rs)| == |rs|
    ensures forall j | 0 <= j < |rs| :: UnwrapAll(rs)[j] == rs[j].value.r
  {
    if |rs| > 0 {
      UnwrapAllTakesOut(rs[1..]);
      assert UnwrapAll(rs) == [rs[0].value.r] + UnwrapAll(rs[1..]);
    }
  }

  /** The repetition inside `Separated` returns values each read right after a separator. */
  lemma TailValues(g: seq<Parser>, p: Parser, fuel: nat, tres: PResult)
    requires Closed(g) && ClosedIn(|g|, p) && p.Separated?
    requires ClosedIn(|g|, SeparatedInner(p.name, p.value, p.separator, p.ignores).parsers[1])
    requires Yields(g, SeparatedInner(p.name, p.value, p.separator, p.ignores).parsers[1], fuel, tres)
    ensures tres.value.Results?
    ensures forall j {:trigger SeparatorThenValue(g, p, fuel, tres.value.rs[j])} | 0 <= j < |tres.value.rs| ::
      SeparatorThenValue(g, p, fuel, tres.value.rs[j])
  {
    InnerParts(|g|, p);
    var tail := SeparatedInner(p.name, p.value, p.separator, p.ignores).parsers[1];
    var qrs := QuantifiedYieldsAll(g, tail, fuel, tres);
    forall j | 0 <= j < |qrs|
      ensures qrs[j].value.Res?
    {
      assert YieldsWithin(g, tail.parser, fuel, qrs[j]);
      var f: nat :| f <= fuel && Yields(g, tail.parser, f, qrs[j]);
      StepValue(g, p, f, qrs[j]);
    }
    UnwrapAllTakesOut(qrs);
    assert tres.value == Unwrap(Results(qrs)) == Results(UnwrapAll(qrs));
    forall j | 0 <= j < |tres.value.rs|
      ensures SeparatorThenValue(g, p, fuel, tres.value.rs[j])
    {
      assert YieldsWithin(g, tail.parser, fuel, qrs[j]);
      var f: nat :| f <= fuel && Yields(g, tail.parser, f, qrs[j]);
      StepValue(g, p, f, qrs[j]);
      var sep: PResult :| Yields(g, p.separator, f, sep) && Yields(g, p.value, f, qrs[j].value.r);
      assert tres.value.rs[j] == qrs[j].value.r;
    }
  }

  lemma ConsIndex<T>(first: T, rest: seq<T>, i: int)
    requires 1 <= i < 1 + |rest|
    ensures ([first] + rest)[i] == rest[i - 1]
  {
  }

  lemma AfterFirst(g: seq<Parser>, p: Parser, fuel: nat, first: PResult, rest: seq<PResult>)
    requires Closed(g) && ClosedIn(|g|, p) && p.Separated?
    requires forall j {:trigger SeparatorThenValue(g, p, fuel, rest[j])} | 0 <= j < |rest| ::
      SeparatorThenValue(g, p, fuel, rest[j])
    ensures forall i {:trigger SeparatorThenValue(g, p, fuel, ([first] + rest)[i])} | 1 <= i < 1 + |rest| ::
      SeparatorThenValue(g, p, fuel, ([first] + rest)[i])
  {
    forall i | 1 <= i < 1 + |rest|
      ensures SeparatorThenValue(g, p, fuel, ([first] + rest)[i])
    {
      ConsIndex(first, rest, i);
      assert SeparatorThenValue(g, p, fuel, rest[i - 1]);
    }
  }

  /** A `Separated` that reads `k` separator-and-value steps after a first value returns
      `1 + k` values, the separators dropped: the first is what the value parser returned,
      and each later one what it returned right after the separator parser succeeded.  With
      no first value the list is empty and sits at `start`. */
  lemma SeparatedValues(g: seq<Parser>, p: Parser, start: Position, ts: TokenStream, fuel: nat)
    requires Closed(g) && ClosedIn(|g|, p) && p.Separated?
    ensures var r := Body(g, p, start, ts, fuel);
      r.Parsed? ==>
        && r.result.value.Results?
        && var rs := r.result.value.rs;
           && (|rs| == 0 ==> r.result.position == start)
           && (|rs| > 0 ==> r.result.position == rs[0].position && YieldsWithin(g, p.value, fuel, rs[0]))
           && forall i {:trigger SeparatorThenValue(g, p, fuel, rs[i])} | 1 <= i < |rs| :: SeparatorThenValue(g, p, fuel, rs[i])
  {
    InnerParts(|g|, p);
    var inner := SeparatedInner(p.name, p.value, p.separator, p.ignores);
    var r := Parse(g, inner, ts, fuel);
    if r.Parsed? {
      assert Yields(g, inner, fuel, r.result);
      var rs2 := SequenceYields(g, inner, fuel, r.result);
      TailValues(g, p, fuel, rs2[1]);
      Within(g, p.value, fuel, fuel, rs2[0]);
      var rs := [rs2[0]] + rs2[1].value.rs;
      assert r.result == PResult(rs2[0].position, Results(rs));
      AfterFirst(g, p, fuel, rs2[0], rs2[1].value.rs);
    }
  }

  // ---------------------------------------------------------------------------------------
  // What a `Separated` and a tagging `Choice` return, from any stream.

  /** What a `Separated` returns is its transformer applied to a list of results, each of
      which its value parser returned with no more fuel. */
  lemma SeparatedYields(g: seq<Parser>, p: Parser, f: nat, res: PResult) returns (vs: seq<PResult>)
    requires Closed(g) && ClosedIn(|g|, p) && p.Separated? && Yields(g, p, f, res)
    ensures res.value == p.xf(Results(vs))
    ensures forall i {:trigger YieldsWithin(g, p.value, f, vs[i])} | 0 <= i < |vs| :: YieldsWithin(g, p.value, f, vs[i])
  {
    var t: TokenStream :| Parse(g, p, t, f).Parsed? && Parse(g, p, t, f).result == res;
    ParsedBody(g, p, t, f);
    var st, ready := Prepare(p.ignores, t, f).value.0, Prepare(p.ignores, t, f).value.1;
    var body := Body(g, p, st, ready, f);
    SeparatedValues(g, p, st, ready, f);
    vs := body.result.value.rs;
    assert body.result.value == Results(vs);
    assert res.value == p.xf(body.result.value);
    forall i | 0 <= i < |vs|
      ensures YieldsWithin(g, p.value, f, vs[i])
    {
      if i == 0 {
        var f0: nat :| f0 <= f && Yields(g, p.value, f0, vs[0]);
        Within(g, p.value, f0, f, vs[0]);
      } else {
        ValueAfterSeparator(g, p, f, vs[i]);
      }
    }
  }

  /** A value read right after a separator is one the value parser returns within the fuel. */
  lemma ValueAfterSeparator(g: seq<Parser>, p: Parser, f: nat, v: PResult)
    requires Closed(g) && ClosedIn(|g|, p) && p.Separated? && SeparatorThenValue(g, p, f, v)
    ensures YieldsWithin(g, p.value, f, v)
  {
    var f0: nat, sep: PResult :| f0 <= f && Yields(g, p.separator, f0, sep) && Yields(g, p.value, f0, v);
    Within(g, p.value, f0, f, v);
  }

  /** What a choice returns is its transformer applied to what it chose at the cursor where
      its alternatives ran. */
  lemma ChoiceYields(g: seq<Parser>, c: Parser, f: nat, res: PResult) returns (cursor: nat, chosen: PResult)
    requires Closed(g) && ClosedIn(|g|, c) && c.Choice? && Yields(g, c, f, res)
    ensures res.value == c.xf(chosen.value)
    ensures ChosenFrom(g, c.parsers, 0, c.tag, f, cursor, chosen)
  {
    var t: TokenStream :| Parse(g, c, t, f).Parsed? && Parse(g, c, t, f).result == res;
    ParsedBody(g, c, t, f);
    var st, ready := Prepare(c.ignores, t, f).value.0, Prepare(c.ignores, t, f).value.1;
    assert c.parsers[0..] == c.parsers;
    var body := Body(g, c, st, ready, f);
    assert res.value == c.xf(body.result.value);
    assert body == ChoiceLoop(g, c.parsers, 0, c.tag, st, ready, f);
    ChoiceFirstSuccess(g, c.parsers, 0, c.tag, st, ready, f);
    cursor, chosen := ready.cursor, body.result;
  }

  /** What a tagging choice returns is its transformer applied to the name of one of its
      alternatives paired with what that alternative returned. */
  lemma TaggedYields(g: seq<Parser>, c: Parser, f: nat, res: PResult) returns (k: nat, inner: PResult)
    requires Closed(g) && ClosedIn(|g|, c) && c.Choice? && c.tag && Yields(g, c, f, res)
    ensures k < |c.parsers| && Yields(g, c.parsers[k], f, inner)
    ensures res.value == c.xf(Tagged(c.parsers[k].name, inner.value))
  {
    var cursor, chosen := ChoiceYields(g, c, f, res);
    k, inner :| && 0 <= k < |c.parsers|
                && StartsAt(g, c.parsers[k], f, cursor, inner)
                && chosen == PResult(inner.position, Tagged(c.parsers[k].name, inner.value));
    StartsAtYields(g, c.parsers[k], f, cursor, inner);
  }

  /** What an untagged choice returns is its transformer applied to what one of its
      alternatives returned. */
  lemma UntaggedYields(g: seq<Parser>, c: Parser, f: nat, res: PResult) returns (k: nat, inner: PResult)
    requires Closed(g) && ClosedIn(|g|, c) && c.Choice? && !c.tag && Yields(g, c, f, res)
    ensures k < |c.parsers| && Yields(g, c.parsers[k], f, inner)
    ensures res.value == c.xf(inner.value)
  {
    var cursor, chosen := ChoiceYields(g, c, f, res);
    k, inner :| 0 <= k < |c.parsers| && StartsAt(g, c.parsers[k], f, cursor, inner) && chosen == inner;
    StartsAtYields(g, c.parsers[k], f, cursor, inner);
  }

  lemma StartsAtYields(g: seq<Parser>, p: Parser, f: nat, cursor: nat, res: PResult)
    requires Closed(g) && ClosedIn(|g|, p) && StartsAt(g, p, f, cursor, res)
    ensures Yields(g, p, f, res)
  {
    var t: TokenStream :| t.cursor == cursor && Parse(g, p, t, f).Parsed? && Parse(g, p, t, f).result == res;
  }
}

=== FILE: py_parser_cache.dfy ===
/** The token cache through a parse of the Python engine (parser/parser.py): every parser
    leaves the cache holding exactly the first tokens of the text, so what the next `Get`
    returns depends on the cursor alone, never on how much has been lexed already.  This is
    what lets a `Choice` try its alternatives one after another from the same cursor. */
module PyParserCache {
  import opened Wrappers
  import opened Lines
  import PyTokens
  import opened PyParser

  /** Two valid streams over the same text and lexer, with the same ignores and cursor: `Get`
      cannot tell them apart. */
  ghost predicate Alike(a: TokenStream, b: TokenStream)
  {
    && PyTokens.Valid(a) && PyTokens.Valid(b)
    && a.lexer == b.lexer && a.ignores == b.ignores && a.stream.text == b.stream.text
    && a.cursor == b.cursor
  }

  /** An outcome keeps the cache valid: unless the parser looped, its stream is valid. */
  ghost predicate Kept(r: Outcome)
  {
    !r.Diverge? ==> PyTokens.Valid(r.ts)
  }

  /** What `Skip` stops at, if anything, is a valid stream. */
  ghost predicate ValidIfAny(r: Option<TokenStream>)
  {
    r.Some? ==> PyTokens.Valid(r.value)
  }

  /** `Skip` from `ts` stops, if at all, at a valid stream. */
  ghost predicate SkipKept(ignores: seq<string>, ts: TokenStream, fuel: nat)
  {
    ValidIfAny(Skip(ignores, ts, fuel))
  }

  /** `Get` on alike streams: the same token, or a loop on both, and alike streams after. */
  lemma AlikeGet(a: TokenStream, b: TokenStream)
    requires Alike(a, b)
    ensures PyTokens.Get(a).Got? <==> PyTokens.Get(b).Got?
    ensures PyTokens.Get(a).Got? ==>
      && PyTokens.Get(a).token == PyTokens.Get(b).token
      && Alike(PyTokens.Get(a).ts, PyTokens.Get(b).ts)
  {
    PyTokens.GetCacheIndependent(a, b);
    PyTokens.GetCacheIndependent(b, a);
    if PyTokens.Get(a).Got? {
      PyTokens.GetKeepsValid(a);
      PyTokens.GetKeepsValid(b);
    }
  }

  /** `Peek` leaves a valid stream valid and alike to what it was. */
  lemma PeekAlike(ts: TokenStream)
    requires PyTokens.Valid(ts) && PyTokens.Peek(ts).Got?
    ensures Alike(PyTokens.Peek(ts).ts, ts)
  {
    PyTokens.GetKeepsValid(ts);
  }

  /** Moving the cursor keeps the cache valid. */
  lemma SetOffsetValid(ts: TokenStream, offset: int)
    requires PyTokens.Valid(ts)
    ensures PyTokens.Valid(PyTokens.SetOffset(ts, offset))
  {
  }

  /** `Skip` from a valid stream stops, if it stops, at a valid stream. */
  lemma {:induction false} SkipValid(ignores: seq<string>, ts: TokenStream, fuel: nat)
    requires PyTokens.Valid(ts)
    ensures SkipKept(ignores, ts, fuel)
    decreases fuel, 1
  {
    var look := PyTokens.Peek(ts);
    if look.Got? && look.token.patternID in ignores && fuel > 0 && PyTokens.Get(look.ts).Got? {
      SkipOneValid(ignores, ts, fuel);
    } else if look.Got? {
      PeekAlike(ts);
    }
  }

  /** `Skip` drops an ignored token from a valid stream and goes on from a valid stream. */
  lemma {:induction false} SkipOneValid(ignores: seq<string>, ts: TokenStream, fuel: nat)
    requires PyTokens.Valid(ts) && fuel > 0
    requires PyTokens.Peek(ts).Got? && PyTokens.Peek(ts).token.patternID in ignores
    requires PyTokens.Get(PyTokens.Peek(ts).ts).Got?
    ensures SkipKept(ignores, ts, fuel)
    decreases fuel, 0
  {
    var look := PyTokens.Peek(ts);
    PeekAlike(ts);
    var after := PyTokens.Get(look.ts).ts;
    PyTokens.GetKeepsValid(look.ts);
    SkipValid(ignores, after, fuel - 1);
    assert Skip(ignores, ts, fuel) == Skip(ignores, after, fuel - 1) by {
      assert PyTokens.Get(look.ts).ts == after;
    }
  }

  lemma PrepareValid(ignores: seq<string>, ts: TokenStream, fuel: nat)
    requires PyTokens.Valid(ts)
    ensures Prepare(ignores, ts, fuel).Some? ==> PyTokens.Valid(Prepare(ignores, ts, fuel).value.1)
  {
    SkipValid(ignores, ts, fuel);
    match Skip(ignores, ts, fuel)
    case None =>
    case Some(skipped) =>
      if PyTokens.Peek(skipped).Got? {
        PeekAlike(skipped);
      }
  }

  /** A parser that ignores nothing takes the position of the next token and leaves the
      stream alike to what it was. */
  lemma PrepareNothing(ts: TokenStream, fuel: nat)
    requires PyTokens.Valid(ts)
    ensures Prepare([], ts, fuel).Some? <==> PyTokens.Get(ts).Got?
    ensures Prepare([], ts, fuel).Some? ==>
      && Prepare([], ts, fuel).value.0 == PyTokens.Get(ts).token.position
      && Alike(Prepare([], ts, fuel).value.1, ts)
  {
    if PyTokens.Get(ts).Got? {
      var peeked := PyTokens.Peek(ts).ts;
      PeekAlike(ts);
      assert Skip([], ts, fuel) == Some(peeked);
      AlikeGet(peeked, ts);
      PeekAlike(peeked);
    }
  }

  lemma FinishValid(p: Parser, cursor: nat, body: Outcome)
    requires !p.Lazy? && (body.Failed? ==> cursor < |body.ts.tokens|)
    requires Kept(body)
    ensures Kept(Finish(p, cursor, body))
  {
    if body.Failed? {
      var restored := PyTokens.SetOffset(body.ts, cursor);
      SetOffsetValid(body.ts, cursor);
      if PyTokens.Peek(restored).Got? {
        PeekAlike(restored);
      }
    }
  }

  /** Every parser keeps the cache valid: after any outcome but `Diverge` the stream's cache
      is still the first tokens of the text. */
  lemma {:induction false} ParseValid(g: seq<Parser>, p: Parser, ts: TokenStream, fuel: nat)
    requires Closed(g) && ClosedIn(|g|, p) && PyTokens.Valid(ts)
    ensures Kept(Parse(g, p, ts, fuel))
    decreases fuel, Size(p), 4
  {
    if p.Lazy? {
      if fuel > 0 {
        ParseValid(g, g[p.rule], ts, fuel - 1);
      }
    } else {
      PrepareValid(p.ignores, ts, fuel);
      match Prepare(p.ignores, ts, fuel)
      case None =>
      case Some((start, ready)) =>
        BodyValid(g, p, start, ready, fuel);
        FinishValid(p, ts.cursor, Body(g, p, start, ready, fuel));
    }
  }

  lemma {:induction false} BodyValid(g: seq<Parser>, p: Parser, start: Position, ts: TokenStream, fuel: nat)
    requires Closed(g) && ClosedIn(|g|, p) && !p.Lazy? && PyTokens.Valid(ts)
    ensures Kept(Body(g, p, start, ts, fuel))
    decreases fuel, Size(p), 3
  {
    match p
    case Terminal(_, _, _, _, _) =>
      if PyTokens.Get(ts).Got? {
        PyTokens.GetKeepsValid(ts);
      }
    case Sequence(_, ps, _, _) =>
      SequenceValid(g, ps, start, [], ts, fuel);
    case Choice(_, ps, tag, _, _) =>
      assert ps[0..] == ps;
      ChoiceValid(g, ps, 0, tag, start, ts, fuel);
    case Quantified(_, _, _, _, _, _) =>
      QuantValid(g, p, start, [], ts, fuel);
    case Separated(name, v, s, _, ign) =>
      ParseValid(g, SeparatedInner(name, v, s, ign), ts, fuel);
  }

  lemma {:induction false} SequenceValid(g: seq<Parser>, ps: seq<Parser>, start: Position, acc: seq<PResult>,
                                         ts: TokenStream, fuel: nat)
    requires Closed(g) && (forall i | 0 <= i < |ps| :: ClosedIn(|g|, ps[i])) && PyTokens.Valid(ts)
    ensures Kept(SequenceLoop(g, ps, start, acc, ts, fuel))
    decreases fuel, SizeAll(ps), 0
  {
    if |ps| > 0 {
      ParseValid(g, ps[0], ts, fuel);
      match Parse(g, ps[0], ts, fuel)
      case Parsed(res, after) => SequenceValid(g, ps[1..], start, acc + [res], after, fuel);
      case Failed(_, _) =>
      case Diverge =>
    }
  }

  lemma {:induction false} ChoiceValid(g: seq<Parser>, all: seq<Parser>, i: nat, tag: bool, start: Position,
                                       ts: TokenStream, fuel: nat)
    requires Closed(g) && i <= |all| && (forall j | 0 <= j < |all| :: ClosedIn(|g|, all[j])) && PyTokens.Valid(ts)
    ensures Kept(ChoiceLoop(g, all, i, tag, start, ts, fuel))
    decreases fuel, SizeAll(all[i..]), 0
  {
    if i < |all| {
      assert all[i..][1..] == all[i + 1..];
      ParseValid(g, all[i], ts, fuel);
      match Parse(g, all[i], ts, fuel)
      case Parsed(_, _) =>
      case Failed(_, after) => ChoiceValid(g, all, i + 1, tag, start, after, fuel);
      case Diverge =>
    }
  }

  lemma {:induction false} QuantValid(g: seq<Parser>, q: Parser, start: Position, acc: seq<PResult>,
                                      ts: TokenStream, fuel: nat)
    requires Closed(g) && ClosedIn(|g|, q) && q.Quantified? && PyTokens.Valid(ts)
    ensures Kept(QuantLoop(g, q, start, acc, ts, fuel))
    decreases fuel, Size(q), 2
  {
    if !(q.maximum.Some? && |acc| >= q.maximum.value) && fuel > 0 {
      ParseValid(g, q.parser, ts, fuel);
      QuantAfterValid(g, q, start, acc, ts, Parse(g, q.parser, ts, fuel), fuel);
    }
  }

  lemma {:induction false} QuantAfterValid(g: seq<Parser>, q: Parser, start: Position, acc: seq<PResult>,
                                           ts: TokenStream, attempt: Outcome, fuel: nat)
    requires Closed(g) && ClosedIn(|g|, q) && q.Quantified? && fuel > 0
    requires !attempt.Diverge? ==> PyTokens.Valid(attempt.ts) && Extends(ts, attempt.ts)
    ensures Kept(QuantAfter(g, q, start, acc, ts, attempt, fuel))
    decreases fuel, Size(q), 1
  {
    if attempt.Parsed? {
      QuantParsedValid(g, q, start, acc, ts, attempt, fuel);
    } else if attempt.Failed? {
      QuantFailedValid(g, q, start, acc, ts, attempt, fuel);
    } else {
      QuantAfterShape(g, q, start, acc, ts, attempt, fuel);
    }
  }

  /** A successful round goes on with the rest of the loop, which keeps the cache valid. */
  lemma {:induction false} QuantParsedValid(g: seq<Parser>, q: Parser, start: Position, acc: seq<PResult>,
                                            ts: TokenStream, attempt: Outcome, fuel: nat)
    requires Closed(g) && ClosedIn(|g|, q) && q.Quantified? && fuel > 0
    requires attempt.Parsed? && PyTokens.Valid(attempt.ts) && Extends(ts, attempt.ts)
    ensures Kept(QuantAfter(g, q, start, acc, ts, attempt, fuel))
    decreases fuel, Size(q), 0
  {
    QuantValid(g, q, start, acc + [attempt.result], attempt.ts, fuel - 1);
  }

  /** A failed round leaves a valid stream behind. */
  lemma QuantFailedValid(g: seq<Parser>, q: Parser, start: Position, acc: seq<PResult>,
                         ts: TokenStream, attempt: Outcome, fuel: nat)
    requires Closed(g) && ClosedIn(|g|, q) && q.Quantified? && fuel > 0
    requires attempt.Failed? && PyTokens.Valid(attempt.ts) && Extends(ts, attempt.ts)
    ensures Kept(QuantAfter(g, q, start, acc, ts, attempt, fuel))
  {
    QuantAfterShape(g, q, start, acc, ts, attempt, fuel);
    if PyTokens.Peek(attempt.ts).Got? {
      PeekAlike(attempt.ts);
    }
  }

  /** Where the stream after a round of the repetition comes from: the rest of the loop after
      a success, the failed attempt's stream when there are enough results, and otherwise the
      stream `Peek` leaves there. */
  lemma QuantAfterShape(g: seq<Parser>, q: Parser, start: Position, acc: seq<PResult>,
                        ts: TokenStream, attempt: Outcome, fuel: nat)
    requires Closed(g) && ClosedIn(|g|, q) && q.Quantified? && fuel > 0
    requires !attempt.Diverge? ==> Extends(ts, attempt.ts)
    ensures attempt.Parsed? ==>
      QuantAfter(g, q, start, acc, ts, attempt, fuel) == QuantLoop(g, q, start, acc + [attempt.result], attempt.ts, fuel - 1)
    ensures attempt.Failed? && |acc| >= q.minimum ==> QuantAfter(g, q, start, acc, ts, attempt, fuel).ts == attempt.ts
    ensures attempt.Failed? && |acc| < q.minimum && !QuantAfter(g, q, start, acc, ts, attempt, fuel).Diverge? ==>
      PyTokens.Peek(attempt.ts).Got? && QuantAfter(g, q, start, acc, ts, attempt, fuel).ts == PyTokens.Peek(attempt.ts).ts
    ensures attempt.Diverge? ==> QuantAfter(g, q, start, acc, ts, attempt, fuel).Diverge?
  {
  }

  /** A parser that fails puts back a stream alike to the one it was given. */
  lemma FailedAlike(g: seq<Parser>, p: Parser, ts: TokenStream, fuel: nat)
    requires Closed(g) && ClosedIn(|g|, p) && PyTokens.Valid(ts)
    ensures Parse(g, p, ts, fuel).Failed? ==> Alike(Parse(g, p, ts, fuel).ts, ts)
  {
    ParseValid(g, p, ts, fuel);
  }

  /** A failed body, its stream still valid, ends the parser in a failure with a stream alike
      to the one the parser was given, as long as the next token there can be read. */
  lemma FinishFailed(p: Parser, ts: TokenStream, body: Outcome)
    requires !p.Lazy? && body.Failed? && PyTokens.Valid(ts) && PyTokens.Get(ts).Got?
    requires PyTokens.Valid(body.ts) && ts.cursor < |body.ts.tokens|
    requires body.ts.lexer == ts.lexer && body.ts.ignores == ts.ignores && body.ts.stream.text == ts.stream.text
    ensures Finish(p, ts.cursor, body).Failed?
    ensures Alike(Finish(p, ts.cursor, body).ts, ts)
  {
    var restored := PyTokens.SetOffset(body.ts, ts.cursor);
    SetOffsetValid(body.ts, ts.cursor);
    assert Alike(restored, ts);
    AlikeGet(restored, ts);
    PeekAlike(restored);
    FinishFailedAt(p, ts.cursor, body);
  }

  /** A failed body whose restored stream has a next token ends the parser in a failure on
      the stream after that token. */
  lemma FinishFailedAt(p: Parser, cursor: nat, body: Outcome)
    requires !p.Lazy? && body.Failed? && cursor < |body.ts.tokens|
    requires PyTokens.Peek(PyTokens.SetOffset(body.ts, cursor)).Got?
    ensures Finish(p, cursor, body).Failed?
    ensures Finish(p, cursor, body).ts == PyTokens.Peek(PyTokens.SetOffset(body.ts, cursor)).ts
  {
  }
}

=== FILE: py_parser_runs.dfy ===
/** How parsers that ignore nothing run on a valid token stream (parser/parser.py), stated by
    the next token alone: a `Terminal` reads it or fails, and a parser that cannot start on it
    fails with the stream put back as it was.  These are the facts the JSON grammar needs to
    say what it accepts. */
module PyParserRuns {
  import opened Wrappers
  import opened Lines
  import PyTokens
  import opened PyParser
  import opened PyParserCache

  /** The token is one the terminal `p` accepts: its pattern, and its literal when it has one. */
  predicate Accepts(p: Parser, tok: PyTokens.Token)
    requires p.Terminal?
  {
    tok.patternID == p.patternID && (p.literal.None? || tok.value == p.literal.value)
  }

  /** A `Terminal` that ignores nothing reads the next token: it succeeds exactly when it
      accepts that token, returning the token's text through its transformer at the token's
      position; otherwise it fails and the stream is as it was.  A `Get` that loops makes the
      terminal loop. */
  lemma TerminalOn(g: seq<Parser>, p: Parser, ts: TokenStream, fuel: nat)
    requires Closed(g) && p.Terminal? && p.ignores == [] && PyTokens.Valid(ts)
    ensures PyTokens.Get(ts).Loops? ==> Parse(g, p, ts, fuel).Diverge?
    ensures PyTokens.Get(ts).Got? ==>
      var tok := PyTokens.Get(ts).token;
      var r := Parse(g, p, ts, fuel);
      && (r.Parsed? <==> Accepts(p, tok))
      && (r.Parsed? ==> r.result == PResult(tok.position, p.xf(Str(tok.value))) && Alike(r.ts, PyTokens.Get(ts).ts))
      && (!r.Parsed? ==> r.Failed? && Alike(r.ts, ts))
  {
    PrepareNothing(ts, fuel);
    if PyTokens.Get(ts).Got? {
      var (start, ready) := Prepare([], ts, fuel).value;
      AlikeGet(ready, ts);
      var body := Body(g, p, start, ready, fuel);
      assert body == TerminalBody(p.patternID, p.literal, ready);
      assert Parse(g, p, ts, fuel) == Finish(p, ts.cursor, body);
      if body.Failed? {
        FinishFailed(p, ts, body);
      }
    }
  }

  /** `p` fails from every valid stream whose next token is `tok`. */
  ghost predicate FailsOn(g: seq<Parser>, p: Parser, fuel: nat, tok: PyTokens.Token)
    requires Closed(g) && ClosedIn(|g|, p)
  {
    forall s: TokenStream | PyTokens.Valid(s) && PyTokens.Get(s).Got? && PyTokens.Get(s).token == tok ::
      Parse(g, p, s, fuel).Failed?
  }

  lemma TerminalFailsOn(g: seq<Parser>, p: Parser, fuel: nat, tok: PyTokens.Token)
    requires Closed(g) && p.Terminal? && p.ignores == [] && !Accepts(p, tok)
    ensures FailsOn(g, p, fuel, tok)
  {
    forall s: TokenStream | PyTokens.Valid(s) && PyTokens.Get(s).Got? && PyTokens.Get(s).token == tok
      ensures Parse(g, p, s, fuel).Failed?
    {
      TerminalOn(g, p, s, fuel);
    }
  }

  /** `Lazy` fails where its rule fails, one unit of fuel later. */
  lemma LazyFailsOn(g: seq<Parser>, p: Parser, fuel: nat, tok: PyTokens.Token)
    requires Closed(g) && p.Lazy? && p.rule < |g| && FailsOn(g, g[p.rule], fuel, tok)
    ensures FailsOn(g, p, fuel + 1, tok)
  {
    forall s: TokenStream | PyTokens.Valid(s) && PyTokens.Get(s).Got? && PyTokens.Get(s).token == tok
      ensures Parse(g, p, s, fuel + 1).Failed?
    {
      assert Parse(g, p, s, fuel + 1) == Parse(g, g[p.rule], s, fuel);
    }
  }

  /** A sequence that ignores nothing fails where its first parser fails, whatever follows. */
  lemma SequenceFailsOn(g: seq<Parser>, q: Parser, fuel: nat, tok: PyTokens.Token)
    requires Closed(g) && ClosedIn(|g|, q) && q.Sequence? && q.ignores == [] && |q.parsers| > 0
    requires FailsOn(g, q.parsers[0], fuel, tok)
    ensures FailsOn(g, q, fuel, tok)
  {
    forall s: TokenStream | PyTokens.Valid(s) && PyTokens.Get(s).Got? && PyTokens.Get(s).token == tok
      ensures Parse(g, q, s, fuel).Failed?
    {
      SequenceFailsAt(g, q, s, fuel);
    }
  }

  lemma SequenceFailsAt(g: seq<Parser>, q: Parser, s: TokenStream, fuel: nat)
    requires Closed(g) && ClosedIn(|g|, q) && q.Sequence? && q.ignores == [] && |q.parsers| > 0
    requires PyTokens.Valid(s) && PyTokens.Get(s).Got? && FailsOn(g, q.parsers[0], fuel, PyTokens.Get(s).token)
    ensures Parse(g, q, s, fuel).Failed? && Alike(Parse(g, q, s, fuel).ts, s)
  {
    PrepareNothing(s, fuel);
    var (start, ready) := Prepare([], s, fuel).value;
    AlikeGet(ready, s);
    var first := Parse(g, q.parsers[0], ready, fuel);
    assert first.Failed?;
    FailedAlike(g, q.parsers[0], ready, fuel);
    var body := Body(g, q, start, ready, fuel);
    assert body == SequenceLoop(g, q.parsers, start, [], ready, fuel) == Failed(first.error, first.ts);
    assert Parse(g, q, s, fuel) == Finish(q, s.cursor, body);
    FinishFailed(q, s, body);
  }

  /** Every alternative of `all` from `i` on fails on `tok`. */
  ghost predicate FailFrom(g: seq<Parser>, all: seq<Parser>, i: nat, fuel: nat, tok: PyTokens.Token)
    requires Closed(g) && forall j | 0 <= j < |all| :: ClosedIn(|g|, all[j])
    decreases |all| - i
  {
    i < |all| ==> FailsOn(g, all[i], fuel, tok) && FailFrom(g, all, i + 1, fuel, tok)
  }

  /** The alternatives from `i` on all fail where the stream's next token is the one each of
      them fails on: the choice's loop fails, the stream put back as it was. */
  lemma {:induction false} ChoiceLoopFails(g: seq<Parser>, all: seq<Parser>, i: nat, tag: bool, start: Position,
                                           s: TokenStream, fuel: nat)
    requires Closed(g) && i <= |all| && (forall j | 0 <= j < |all| :: ClosedIn(|g|, all[j]))
    requires PyTokens.Valid(s) && PyTokens.Get(s).Got? && FailFrom(g, all, i, fuel, PyTokens.Get(s).token)
    ensures ChoiceLoop(g, all, i, tag, start, s, fuel).Failed?
    ensures Alike(ChoiceLoop(g, all, i, tag, start, s, fuel).ts, s)
    decreases |all| - i
  {
    if i < |all| {
      var first := Parse(g, all[i], s, fuel);
      assert first.Failed?;
      FailedAlike(g, all[i], s, fuel);
      AlikeGet(first.ts, s);
      assert ChoiceLoop(g, all, i, tag, start, s, fuel) == ChoiceLoop(g, all, i + 1, tag, start, first.ts, fuel);
      ChoiceLoopFails(g, all, i + 1, tag, start, first.ts, fuel);
    }
  }

  /** A choice that ignores nothing fails where every alternative fails. */
  lemma ChoiceFailsOn(g: seq<Parser>, c: Parser, fuel: nat, tok: PyTokens.Token)
    requires Closed(g) && ClosedIn(|g|, c) && c.Choice? && c.ignores == []
    requires FailFrom(g, c.parsers, 0, fuel, tok)
    ensures FailsOn(g, c, fuel, tok)
  {
    forall s: TokenStream | PyTokens.Valid(s) && PyTokens.Get(s).Got? && PyTokens.Get(s).token == tok
      ensures Parse(g, c, s, fuel).Failed?
    {
      ChoiceFailsAt(g, c, s, fuel);
    }
  }

  lemma ChoiceFailsAt(g: seq<Parser>, c: Parser, s: TokenStream, fuel: nat)
    requires Closed(g) && ClosedIn(|g|, c) && c.Choice? && c.ignores == []
    requires PyTokens.Valid(s) && PyTokens.Get(s).Got? && FailFrom(g, c.parsers, 0, fuel, PyTokens.Get(s).token)
    ensures Parse(g, c, s, fuel).Failed?
  {
    PrepareNothing(s, fuel);
    var (start, ready) := Prepare([], s, fuel).value;
    AlikeGet(ready, s);
    ChoiceLoopFails(g, c.parsers, 0, c.tag, start, ready, fuel);
    var body := Body(g, c, start, ready, fuel);
    assert c.parsers[0..] == c.parsers;
    assert body == ChoiceLoop(g, c.parsers, 0, c.tag, start, ready, fuel);
    assert Parse(g, c, s, fuel) == Finish(c, s.cursor, body);
    FinishFailed(c, s, body);
  }

  /** A `Separated` that ignores nothing, on a token its value parser fails on, succeeds with
      no values, placed at that token, and leaves the stream as it was. */
  lemma SeparatedEmptyOn(g: seq<Parser>, p: Parser, s: TokenStream, fuel: nat)
    requires Closed(g) && ClosedIn(|g|, p) && p.Separated? && p.ignores == []
    requires PyTokens.Valid(s) && PyTokens.Get(s).Got? && FailsOn(g, p.value, fuel, PyTokens.Get(s).token)
    ensures Parse(g, p, s, fuel).Parsed?
    ensures Parse(g, p, s, fuel).result == PResult(PyTokens.Get(s).token.position, p.xf(Results([])))
    ensures Alike(Parse(g, p, s, fuel).ts, s)
  {
    PrepareNothing(s, fuel);
    var (start, ready) := Prepare([], s, fuel).value;
    AlikeGet(ready, s);
    InnerParts(|g|, p);
    var inner := SeparatedInner(p.name, p.value, p.separator, p.ignores);
    SequenceFailsAt(g, inner, ready, fuel);
    var after := Parse(g, inner, ready, fuel).ts;
    var body := Body(g, p, start, ready, fuel);
    assert body == Parsed(PResult(start, Results([])), after);
    assert Parse(g, p, s, fuel) == Finish(p, s.cursor, body);
  }

  /** A sequence that ignores nothing starts at the next token and runs its parsers from a
      stream alike to the one it was given. */
  lemma SequenceOn(g: seq<Parser>, q: Parser, s: TokenStream, fuel: nat) returns (ready: TokenStream)
    requires Closed(g) && ClosedIn(|g|, q) && q.Sequence? && q.ignores == []
    requires PyTokens.Valid(s) && PyTokens.Get(s).Got?
    ensures Alike(ready, s) && s.cursor < |ready.tokens|
    ensures Parse(g, q, s, fuel)
      == Finish(q, s.cursor, SequenceLoop(g, q.parsers, PyTokens.Get(s).token.position, [], ready, fuel))
  {
    PrepareNothing(s, fuel);
    var start;
    start, ready := Prepare([], s, fuel).value.0, Prepare([], s, fuel).value.1;
    assert Body(g, q, start, ready, fuel) == SequenceLoop(g, q.parsers, start, [], ready, fuel);
  }

  /** A choice that ignores nothing starts at the next token and tries its alternatives from
      a stream alike to the one it was given. */
  lemma ChoiceOn(g: seq<Parser>, c: Parser, s: TokenStream, fuel: nat) returns (ready: TokenStream)
    requires Closed(g) && ClosedIn(|g|, c) && c.Choice? && c.ignores == []
    requires PyTokens.Valid(s) && PyTokens.Get(s).Got?
    ensures Alike(ready, s) && s.cursor < |ready.tokens|
    ensures Parse(g, c, s, fuel)
      == Finish(c, s.cursor, ChoiceLoop(g, c.parsers, 0, c.tag, PyTokens.Get(s).token.position, ready, fuel))
  {
    PrepareNothing(s, fuel);
    var start;
    start, ready := Prepare([], s, fuel).value.0, Prepare([], s, fuel).value.1;
    assert c.parsers[0..] == c.parsers;
    assert Body(g, c, start, ready, fuel) == ChoiceLoop(g, c.parsers, 0, c.tag, start, ready, fuel);
  }

  /** One step of a sequence: a part that succeeds hands its result and its stream on. */
  lemma SequenceLoopStep(g: seq<Parser>, ps: seq<Parser>, start: Position, acc: seq<PResult>,
                         ts: TokenStream, fuel: nat)
    requires Closed(g) && |ps| > 0 && (forall i | 0 <= i < |ps| :: ClosedIn(|g|, ps[i]))
    requires Parse(g, ps[0], ts, fuel).Parsed?
    ensures SequenceLoop(g, ps, start, acc, ts, fuel)
      == SequenceLoop(g, ps[1..], start, acc + [Parse(g, ps[0], ts, fuel).result], Parse(g, ps[0], ts, fuel).ts, fuel)
  {
  }

  /** A sequence of three parts that each succeed packs their three results, in order. */
  lemma SequenceOfThree(g: seq<Parser>, ps: seq<Parser>, start: Position, ts: TokenStream, fuel: nat)
    returns (rs: seq<PResult>, after: TokenStream)
    requires Closed(g) && |ps| == 3 && (forall i | 0 <= i < |ps| :: ClosedIn(|g|, ps[i]))
    requires Parse(g, ps[0], ts, fuel).Parsed?
    requires Parse(g, ps[1], Parse(g, ps[0], ts, fuel).ts, fuel).Parsed?
    requires Parse(g, ps[2], Parse(g, ps[1], Parse(g, ps[0], ts, fuel).ts, fuel).ts, fuel).Parsed?
    ensures |rs| == 3 && rs[1] == Parse(g, ps[1], Parse(g, ps[0], ts, fuel).ts, fuel).result
    ensures SequenceLoop(g, ps, start, [], ts, fuel) == Parsed(Pack(start, rs), after)
  {
    var r0 := Parse(g, ps[0], ts, fuel);
    var r1 := Parse(g, ps[1], r0.ts, fuel);
    var r2 := Parse(g, ps[2], r1.ts, fuel);
    var ps1, ps2 := ps[1..], ps[2..];
    assert ps1[0] == ps[1] && ps1[1..] == ps2 && ps2[0] == ps[2] && ps2[1..] == [];
    SequenceLoopStep(g, ps, start, [], ts, fuel);
    SequenceLoopStep(g, ps1, start, [r0.result], r0.ts, fuel);
    SequenceLoopStep(g, ps2, start, [r0.result, r1.result], r1.ts, fuel);
    rs, after := [r0.result, r1.result, r2.result], r2.ts;
    assert [] + [r0.result] == [r0.result];
    assert [r0.result] + [r1.result] == [r0.result, r1.result];
    assert [r0.result, r1.result] + [r2.result] == rs;
  }

  /** A bracketed list with nothing between the brackets: an opening terminal, a `Separated`
      whose value fails on the closing token, and a closing terminal, all ignoring nothing,
      succeed together, with no values in the middle part. */
  lemma EmptyBetweenOn(g: seq<Parser>, q: Parser, ts: TokenStream, fuel: nat) returns (rs: seq<PResult>)
    requires Closed(g) && ClosedIn(|g|, q) && q.Sequence? && q.ignores == [] && |q.parsers| == 3
    requires q.parsers[0].Terminal? && q.parsers[0].ignores == []
    requires q.parsers[1].Separated? && q.parsers[1].ignores == [] && ClosedIn(|g|, q.parsers[1].value)
    requires q.parsers[2].Terminal? && q.parsers[2].ignores == []
    requires PyTokens.Valid(ts) && PyTokens.Get(ts).Got? && Accepts(q.parsers[0], PyTokens.Get(ts).token)
    requires PyTokens.Get(PyTokens.Get(ts).ts).Got?
    requires Accepts(q.parsers[2], PyTokens.Get(PyTokens.Get(ts).ts).token)
    requires FailsOn(g, q.parsers[1].value, fuel, PyTokens.Get(PyTokens.Get(ts).ts).token)
    ensures Parse(g, q, ts, fuel).Parsed?
    ensures Parse(g, q, ts, fuel).result.value == q.xf(Results(rs))
    ensures |rs| == 3 && rs[1].value == q.parsers[1].xf(Results([]))
  {
    var ps := q.parsers;
    var t1 := PyTokens.Get(ts).ts;
    PyTokens.GetKeepsValid(ts);
    var ready := SequenceOn(g, q, ts, fuel);
    AlikeGet(ready, ts);
    TerminalOn(g, ps[0], ready, fuel);
    var s1 := Parse(g, ps[0], ready, fuel).ts;
    AlikeGet(s1, t1);
    SeparatedEmptyOn(g, ps[1], s1, fuel);
    var s2 := Parse(g, ps[1], s1, fuel).ts;
    AlikeGet(s2, s1);
    TerminalOn(g, ps[2], s2, fuel);
    var after;
    rs, after := SequenceOfThree(g, ps, PyTokens.Get(ts).token.position, ready, fuel);
  }
}

=== FILE: py_stream.dfy ===
/** The character stream of the Python engine (`StringStream` in parser/parser.py, repeated
    verbatim in parser/parser_generator.py): a text, a read offset, and the line-start table
    built from `readlines()`. */
module PyStream {
  import opened Wrappers
  import opened Lines

  datatype RawStream = RawStream(text: string, offset: nat)

  /** A stream whose offset lies inside its text, which every operation below preserves. */
  type Stream = s: RawStream | s.offset <= |s.text| witness RawStream("", 0)

  /** A fresh stream reads from the start. */
  function New(text: string): (s: Stream)
    ensures s.text == text && s.offset == 0
  {
    RawStream(text, 0)
  }

  /** The line-start table: the constructor's `readlines()[:-1]` running sums. */
  function LineStarts(s: Stream): (starts: seq<nat>)
    ensures WellFormed(starts, |s.text|)
  {
    PyLineStartsWellFormed(s.text);
    PyLineStarts(s.text)
  }

  predicate IsEOS(s: Stream)
  {
    s.offset == |s.text|
  }

  /** The next character as a string of length one, or "" at the end. */
  function Peek(s: Stream): (c: string)
    ensures |c| <= 1
    ensures c == "" <==> IsEOS(s)
    ensures c != "" ==> c[0] == s.text[s.offset]
  {
    if IsEOS(s) then "" else [s.text[s.offset]]
  }

  /** `read(1)`: the next character, and the stream advanced past it. */
  function Get(s: Stream): (r: (string, Stream))
    ensures r.0 == Peek(s)
    ensures r.1.text == s.text && r.1.offset == s.offset + |r.0|
  {
    (Peek(s), Ignore(s, |Peek(s)|))
  }

  /** Everything not yet read. */
  function PeekRemainder(s: Stream): (rest: string)
    ensures s.text == s.text[..s.offset] + rest
  {
    s.text[s.offset..]
  }

  /** `read(amt)`: skips `amt` characters, or what is left when fewer remain. */
  function Ignore(s: Stream, amt: nat): (r: Stream)
    ensures r.text == s.text
    ensures s.offset + amt <= |s.text| ==> r.offset == s.offset + amt
    ensures s.offset + amt > |s.text| ==> IsEOS(r)
  {
    RawStream(s.text, if s.offset + amt <= |s.text| then s.offset + amt else |s.text|)
  }

  /** `seek(max(0, min(offset, size)))`: any integer is clamped into the text. */
  function SetOffset(s: Stream, offset: int): (r: Stream)
    ensures r.text == s.text
    ensures 0 <= offset <= |s.text| ==> r.offset == offset
    ensures offset < 0 ==> r.offset == 0
    ensures offset > |s.text| ==> IsEOS(r)
  {
    RawStream(s.text, if offset < 0 then 0 else if offset > |s.text| then |s.text| else offset)
  }

  /** The 1-based position of the read offset: its line is the last line of the table starting
      at or before it, and the column counts from that start. */
  function GetPosition(s: Stream): (p: Position)
    ensures 1 <= p.line <= |LineStarts(s)|
    ensures LineStarts(s)[p.line - 1] <= s.offset
    ensures p.line < |LineStarts(s)| ==> s.offset < LineStarts(s)[p.line]
    ensures p.column == s.offset - LineStarts(s)[p.line - 1] + 1
  {
    PositionOf(LineStarts(s), s.offset)
  }

  /** Moves to a position, or raises "Invalid position: (l, c)" for line 0, a line past the
      table, column 0, or a column more than one past the end of its line. */
  function SetPosition(s: Stream, p: Position): (r: Result<Stream, string>)
    ensures r.Err? <==>
      (p.line > |LineStarts(s)| || p.line == 0 || p.column == 0
       || p.column - 1 > LineWidth(LineStarts(s), |s.text|, p.line))
    ensures r.Err? ==> r.error == "Invalid position: " + PositionString(p)
    ensures r.Ok? ==> r.value.text == s.text && r.value.offset == LineStarts(s)[p.line - 1] + p.column - 1
  {
    match OffsetOf(LineStarts(s), |s.text|, p)
    case None => Err("Invalid position: " + PositionString(p))
    case Some(o) => Ok(SetOffset(s, o))
  }

  /** `SetPosition(GetPosition())` leaves the stream where it was, from any offset of the
      same text. */
  lemma SetPositionGetPosition(s: Stream, t: Stream)
    requires t.text == s.text
    ensures SetPosition(t, GetPosition(s)) == Ok(s)
  {
    OffsetOfPositionOf(LineStarts(s), |s.text|, s.offset);
  }

  /** A position accepted by `SetPosition` reads back unchanged exactly when it is not the
      column just past the end of a line that has a successor. */
  lemma GetPositionSetPosition(s: Stream, p: Position)
    requires SetPosition(s, p).Ok?
    ensures GetPosition(SetPosition(s, p).value) == p <==>
      (p.line == |LineStarts(s)| || p.column - 1 < LineWidth(LineStarts(s), |s.text|, p.line))
  {
    PositionOfOffsetOf(LineStarts(s), |s.text|, p);
  }

  /** A final '\n' opens no line here: at the end of "a\n" the position is (1, 3), where a
      table with a start after every '\n' would say (2, 1). */
  lemma {:induction false} TrailingNewlineStaysOnLastLine()
    ensures GetPosition(RawStream("a\n", 2)) == Position(1, 3)
  {
    var s: Stream := RawStream("a\n", 2);
    PyLineStartsClosedForm(s.text);
    assert InnerStarts(s.text, 1, 0) == [];
    assert LineStarts(s) == [0];
  }
}

=== FILE: py_tokens.dfy ===
/** The token stream of the Python engine (`TokenStream` in parser/parser.py): a cache of the
    tokens lexed so far, filled lazily one token at a time, with a cursor into it that parsers
    save and restore to backtrack, and a list of pattern IDs that `Get` skips. */
module PyTokens {
  import opened Wrappers
  import opened Lines
  import PyStream
  import PyLexer
  import Longest

  type Token = PyLexer.Token<string>

  datatype RawTokenStream = RawTokenStream(lexer: PyLexer.Lexer<string>, stream: PyStream.Stream,
                                           cursor: nat, tokens: seq<Token>, ignores: seq<string>)

  /** The cache ends with EOS: the whole text has been lexed. */
  predicate CachedEOS(ts: RawTokenStream)
  {
    |ts.tokens| != 0 && ts.tokens[|ts.tokens| - 1].patternID == PyLexer.EOS_PATTERN_ID
  }

  /** The cursor stays within the cache, and on the last token once EOS is cached; EOS is
      never ignored.  Every operation keeps this shape. */
  predicate Shape(ts: RawTokenStream)
  {
    && ts.cursor <= |ts.tokens|
    && (CachedEOS(ts) ==> ts.cursor < |ts.tokens|)
    && PyLexer.EOS_PATTERN_ID !in ts.ignores
  }

  type TokenStream = ts: RawTokenStream | Shape(ts)
    witness RawTokenStream(PyLexer.New(None, None), PyStream.New(""), 0, [], [])

  /** A stream over `text` with an empty cache; refuses to ignore EOS. */
  function New(lexer: PyLexer.Lexer<string>, text: string, ignores: seq<string>)
    : (r: Result<TokenStream, string>)
    ensures r.Err? <==> PyLexer.EOS_PATTERN_ID in ignores
    ensures r.Err? ==> r.error == "<EOS> cannot be ignored!"
    ensures r.Ok? ==> r.value.tokens == [] && r.value.cursor == 0 && r.value.stream == PyStream.New(text)
    ensures r.Ok? ==> r.value.lexer == lexer && r.value.ignores == ignores
  {
    if PyLexer.EOS_PATTERN_ID in ignores then Err("<EOS> cannot be ignored!")
    else Ok(RawTokenStream(lexer, PyStream.New(text), 0, [], ignores))
  }

  predicate IsEOS(ts: TokenStream)
  {
    CachedEOS(ts)
  }

  /** `n` tokens lexed one after another from the character stream `s`. */
  function LexRun(lexer: PyLexer.Lexer<string>, s: PyStream.Stream, n: nat): (r: (seq<Token>, PyStream.Stream))
    ensures |r.0| == n && r.1.text == s.text
  {
    if n == 0 then ([], s)
    else
      var prev := LexRun(lexer, s, n - 1);
      var next := PyLexer.Lex(lexer, prev.1);
      (prev.0 + [next.0], next.1)
  }

  /** The cache holds exactly the first tokens of the text, and the character stream sits just
      after the last of them. */
  ghost predicate Valid(ts: TokenStream)
  {
    && (ts.tokens, ts.stream) == LexRun(ts.lexer, PyStream.New(ts.stream.text), |ts.tokens|)
    && forall j :: 0 <= j < |ts.tokens| - 1 ==> ts.tokens[j].patternID != PyLexer.EOS_PATTERN_ID
  }

  /** The inner loop of `Get`: lex one more token when the cursor is past the cache and the
      cache does not end with EOS. */
  function Fill(ts: TokenStream): (r: TokenStream)
    ensures r.cursor == ts.cursor && r.ignores == ts.ignores && r.lexer == ts.lexer
    ensures r.cursor < |r.tokens|
    ensures r.stream.text == ts.stream.text
    ensures ts.tokens <= r.tokens && |r.tokens| <= |ts.tokens| + 1
  {
    if ts.cursor == |ts.tokens| && !IsEOS(ts) then
      var next := PyLexer.Lex(ts.lexer, ts.stream);
      ts.(tokens := ts.tokens + [next.0], stream := next.1)
    else ts
  }

  /** Filling keeps the cache equal to the first tokens of the text. */
  lemma FillKeepsValid(ts: TokenStream)
    requires Valid(ts)
    ensures Valid(Fill(ts))
  {
    if ts.cursor == |ts.tokens| && !IsEOS(ts) {
      LexOneMore(ts);
    }
  }

  /** Appending the next token lexed keeps the cache a prefix of the whole run. */
  lemma LexOneMore(ts: TokenStream)
    requires !IsEOS(ts)
    ensures var next := PyLexer.Lex(ts.lexer, ts.stream);
      Valid(ts) ==> Valid(ts.(tokens := ts.tokens + [next.0], stream := next.1))
  {
    if Valid(ts) {
      var next := PyLexer.Lex(ts.lexer, ts.stream);
      var r := ts.(tokens := ts.tokens + [next.0], stream := next.1);
      var start := PyStream.New(ts.stream.text);
      assert LexRun(ts.lexer, start, |ts.tokens|) == (ts.tokens, ts.stream);
      assert r.stream.text == ts.stream.text;
      assert LexRun(ts.lexer, start, |r.tokens|) == (r.tokens, r.stream);
      forall j | 0 <= j < |r.tokens| - 1
        ensures r.tokens[j].patternID != PyLexer.EOS_PATTERN_ID
      {
        assert r.tokens[j] == ts.tokens[j];
      }
    }
  }

  /** The result of `Get`: the token, the cache slot it came from and the new stream; or the
      report that `Get` never returns, carrying a state from which it repeats forever. */
  datatype Got = Got(token: Token, index: nat, ts: TokenStream) | Loops(at: TokenStream)

  /** A state in which `Get` makes no progress: the cursor is past the cache and the next token
      lexed is zero-width and ignored, so the loop lexes the same token again and again. */
  ghost predicate Stuck(ts: TokenStream)
  {
    && ts.cursor == |ts.tokens|
    && !IsEOS(ts)
    && PyLexer.Lex(ts.lexer, ts.stream).1 == ts.stream
    && PyLexer.Lex(ts.lexer, ts.stream).0.patternID in ts.ignores
  }

  /** Where the cursor goes after reading slot `i`: one further, but never past the cached EOS. */
  function Advance(filled: TokenStream): (c: nat)
    requires filled.cursor < |filled.tokens|
    ensures c <= |filled.tokens|
    ensures IsEOS(filled) ==> c < |filled.tokens|
  {
    if IsEOS(filled) && filled.cursor + 1 > |filled.tokens| - 1 then |filled.tokens| - 1
    else filled.cursor + 1
  }

  /** The token `Get` returns is the first non-ignored one at or after the cursor. */
  ghost predicate FirstNotIgnored(before: TokenStream, after: TokenStream, i: nat)
  {
    && before.cursor <= i < |after.tokens|
    && after.tokens[i].patternID !in after.ignores
    && (forall j :: before.cursor <= j < i ==> after.tokens[j].patternID in after.ignores)
  }

  /** One pass of `Get`'s outer loop: fill, read the token under the cursor, advance. */
  function Step(ts: TokenStream): (r: (Token, TokenStream))
    ensures ts.tokens <= r.1.tokens && ts.cursor < |r.1.tokens|
    ensures r.0 == r.1.tokens[ts.cursor]
    ensures r.1.cursor == (if IsEOS(r.1) && ts.cursor == |r.1.tokens| - 1 then ts.cursor else ts.cursor + 1)
    ensures r.1.lexer == ts.lexer && r.1.ignores == ts.ignores && r.1.stream.text == ts.stream.text
  {
    var filled := Fill(ts);
    (filled.tokens[filled.cursor], filled.(cursor := Advance(filled)))
  }

  lemma StepKeepsValid(ts: TokenStream)
    requires Valid(ts)
    ensures Valid(Step(ts).1)
  {
    FillKeepsValid(ts);
  }

  /** The measure of `Get`'s loop went down. */
  predicate Progress(before: TokenStream, after: TokenStream)
  {
    || after.stream.offset > before.stream.offset
    || (after.stream.offset == before.stream.offset && |after.tokens| - after.cursor < |before.tokens| - before.cursor)
  }

  /** A pass that reads an ignored token moves the loop on, unless the state is stuck. */
  lemma StepProgress(ts: TokenStream)
    ensures Step(ts).0.patternID in ts.ignores ==> Progress(ts, Step(ts).1) || Stuck(ts)
  {
    var (token, next) := Step(ts);
    if token.patternID in ts.ignores && ts.cursor == |ts.tokens| && !IsEOS(ts) {
      LexNeverBacksUp(ts.lexer, ts.stream);
    }
  }

  /** `Get`: reads the token under the cursor, lexing lazily, and keeps reading while the
      token's pattern is ignored; leaves the cursor just after the token returned, or on it
      when it is the cached EOS.  The cache only grows.  `GetFirstNotIgnored` states which
      token this is. */
  function Get(ts: TokenStream): (r: Got)
    ensures r.Got? ==> && ts.tokens <= r.ts.tokens
                       && ts.cursor <= r.index < |r.ts.tokens|
                       && r.token == r.ts.tokens[r.index]
                       && r.token.patternID !in ts.ignores
                       && r.ts.cursor == (if IsEOS(r.ts) && r.index == |r.ts.tokens| - 1 then r.index else r.index + 1)
                       && r.ts.lexer == ts.lexer && r.ts.ignores == ts.ignores
                       && r.ts.stream.text == ts.stream.text
    ensures r.Loops? ==> Stuck(r.at) && r.at.ignores == ts.ignores
    decreases |ts.stream.text| - ts.stream.offset, |ts.tokens| - ts.cursor
  {
    var st := Step(ts);
    if st.0.patternID !in ts.ignores then
      Got(st.0, ts.cursor, st.1)
    else if !Progress(ts, st.1) then
      StepProgress(ts);
      Loops(ts)
    else
      Get(st.1)
  }

  /** The token `Get` returns is the first non-ignored one at or after the cursor. */
  lemma {:induction false} GetFirstNotIgnored(ts: TokenStream)
    requires Get(ts).Got?
    ensures FirstNotIgnored(ts, Get(ts).ts, Get(ts).index)
    decreases |ts.stream.text| - ts.stream.offset, |ts.tokens| - ts.cursor
  {
    var st := Step(ts);
    if st.0.patternID in ts.ignores {
      assert Progress(ts, st.1);
      GetFirstNotIgnored(st.1);
      var r := Get(st.1);
      assert r.ts.tokens[ts.cursor] == st.0;
      assert st.1.cursor == ts.cursor + 1;
    }
  }

  /** `Get` keeps the cache equal to the first tokens of the text. */
  lemma {:induction false} GetKeepsValid(ts: TokenStream)
    requires Valid(ts)
    requires Get(ts).Got?
    ensures Valid(Get(ts).ts)
    decreases |ts.stream.text| - ts.stream.offset, |ts.tokens| - ts.cursor
  {
    var st := Step(ts);
    StepKeepsValid(ts);
    if st.0.patternID in ts.ignores {
      GetKeepsValid(st.1);
    }
  }

  /** Lexing never moves the character stream backwards. */
  lemma LexNeverBacksUp(lexer: PyLexer.Lexer<string>, s: PyStream.Stream)
    ensures PyLexer.Lex(lexer, s).1.offset >= s.offset
  {
  }

  /** `Peek`: what `Get` would return, with the cursor left where it was (the cache may have
      grown). */
  function Peek(ts: TokenStream): (r: Got)
    ensures Get(ts).Got? <==> r.Got?
    ensures r.Got? ==> && r.token == Get(ts).token && r.index == Get(ts).index
                       && r.ts == Get(ts).ts.(cursor := ts.cursor)
  {
    match Get(ts)
    case Got(token, index, after) => Got(token, index, after.(cursor := ts.cursor))
    case Loops(at) => Loops(at)
  }

  /** `SetOffset`: moves the cursor to `offset`, clamped into the cache: to 0 when the cache is
      empty or the offset negative, to the last slot when it is too large. */
  function SetOffset(ts: TokenStream, offset: int): (r: TokenStream)
    ensures r == ts.(cursor := r.cursor)
    ensures 0 <= offset < |ts.tokens| ==> r.cursor == offset
    ensures |ts.tokens| > 0 && offset >= |ts.tokens| ==> r.cursor == |ts.tokens| - 1
    ensures offset < 0 || |ts.tokens| == 0 ==> r.cursor == 0
  {
    var hi := |ts.tokens| - 1;
    var c := if offset < hi then offset else hi;
    ts.(cursor := if c < 0 then 0 else c)
  }

  /** `GetPosition`: the position of the token `Peek` returns; `None` when `Peek` never returns. */
  function GetPosition(ts: TokenStream): (r: Option<(Position, TokenStream)>)
    ensures Peek(ts).Got? <==> r.Some?
    ensures r.Some? ==> r.value.0 == Peek(ts).token.position && r.value.1 == Peek(ts).ts
  {
    match Peek(ts)
    case Got(token, _, after) => Some((token.position, after))
    case Loops(_) => None
  }

  /** Once stuck, always stuck: the pass from a stuck state lexes the same zero-width ignored
      token again and lands in a stuck state, so `Get` never returns. */
  lemma StuckForever(ts: TokenStream)
    requires Stuck(ts)
    ensures Step(ts).0.patternID in ts.ignores
    ensures Step(ts).1.stream == ts.stream
    ensures Stuck(Step(ts).1)
  {
    var next := Step(ts).1;
    assert next.tokens == ts.tokens + [PyLexer.Lex(ts.lexer, ts.stream).0];
  }

  /** A stuck state never returns from `Get`. */
  lemma StuckLoops(ts: TokenStream)
    requires Stuck(ts)
    ensures Get(ts).Loops?
  {
    StuckForever(ts);
  }

  /** The cache is transparent: two valid streams over the same text that differ only in how
      much has been lexed already return the same token from the same slot and leave the
      cursor in the same place. */
  lemma {:induction false} GetCacheIndependent(ts1: TokenStream, ts2: TokenStream)
    requires Valid(ts1) && Valid(ts2)
    requires ts1.lexer == ts2.lexer && ts1.ignores == ts2.ignores && ts1.cursor == ts2.cursor
    requires ts1.stream.text == ts2.stream.text
    ensures Get(ts1).Got? ==>
      (Get(ts2).Got? && Get(ts1).token == Get(ts2).token
       && Get(ts1).index == Get(ts2).index && Get(ts1).ts.cursor == Get(ts2).ts.cursor)
    decreases |ts1.stream.text| - ts1.stream.offset, |ts1.tokens| - ts1.cursor
  {
    if Get(ts1).Got? {
      var s1 := Step(ts1);
      var s2 := Step(ts2);
      StepCacheIndependent(ts1, ts2);
      if s1.0.patternID in ts1.ignores {
        assert Progress(ts1, s1.1);
        GetCacheIndependent(s1.1, s2.1);
        if !Progress(ts2, s2.1) {
          StepProgress(ts2);
          StuckForever(ts2);
          StuckLoops(s2.1);
        }
      }
    }
  }

  /** One step of the cache-transparency argument: both streams produce the same token and
      the same cursor, and both stay valid. */
  lemma StepCacheIndependent(ts1: TokenStream, ts2: TokenStream)
    requires Valid(ts1) && Valid(ts2)
    requires ts1.lexer == ts2.lexer && ts1.ignores == ts2.ignores && ts1.cursor == ts2.cursor
    requires ts1.stream.text == ts2.stream.text
    ensures Step(ts1).0 == Step(ts2).0 && Step(ts1).1.cursor == Step(ts2).1.cursor
    ensures Valid(Step(ts1).1) && Valid(Step(ts2).1)
  {
    var c := ts1.cursor;
    var s1 := Step(ts1);
    var s2 := Step(ts2);
    StepKeepsValid(ts1);
    StepKeepsValid(ts2);
    var n1 := |s1.1.tokens|;
    var n2 := |s2.1.tokens|;
    var start := PyStream.New(ts1.stream.text);
    if n1 <= n2 {
      LexRunPrefix(ts1.lexer, start, n1, n2, c);
    } else {
      LexRunPrefix(ts1.lexer, start, n2, n1, c);
    }
    assert s1.0 == s2.0;
    if s1.0.patternID == PyLexer.EOS_PATTERN_ID {
      assert c == n1 - 1 && c == n2 - 1;
    }
  }

  /** Peeking first changes nothing about the following `Get`. */
  lemma PeekThenGet(ts: TokenStream)
    requires Valid(ts)
    requires Peek(ts).Got?
    ensures Get(Peek(ts).ts).Got?
    ensures Get(Peek(ts).ts).token == Peek(ts).token
    ensures Get(Peek(ts).ts).ts.cursor == Get(ts).ts.cursor
  {
    GetKeepsValid(ts);
    GetCacheIndependent(ts, Peek(ts).ts);
  }

  /** `n` applications of a step function, collecting what each step yields; `LexRun` is the
      case where the step is `Lex`. */
  function Run<S, T>(next: S -> (T, S), s: S, n: nat): (r: (seq<T>, S))
    ensures |r.0| == n
  {
    if n == 0 then ([], s)
    else
      var prev := Run(next, s, n - 1);
      var step := next(prev.1);
      (prev.0 + [step.0], step.1)
  }

  /** A run is never revised: slot `i` of a longer run is slot `i` of the shorter one. */
  lemma {:induction false} RunPrefix<S, T>(next: S -> (T, S), s: S, m: nat, n: nat, i: nat)
    requires i < m <= n
    ensures Run(next, s, m).0[i] == Run(next, s, n).0[i]
    decreases n
  {
    if m < n {
      RunPrefix(next, s, m, n - 1, i);
    }
  }

  /** `LexRun` is `Run` with `Lex` as the step. */
  lemma {:induction false} LexRunIsRun(lexer: PyLexer.Lexer<string>, s: PyStream.Stream, n: nat)
    ensures LexRun(lexer, s, n).0 == Run(st => PyLexer.Lex(lexer, st), s, n).0
    ensures LexRun(lexer, s, n).1 == Run(st => PyLexer.Lex(lexer, st), s, n).1
  {
    if n > 0 {
      LexRunIsRun(lexer, s, n - 1);
    }
  }

  /** Lexing more tokens keeps every token already in the cache. */
  lemma LexRunPrefix(lexer: PyLexer.Lexer<string>, s: PyStream.Stream, m: nat, n: nat, i: nat)
    requires i < m <= n
    ensures LexRun(lexer, s, m).0[i] == LexRun(lexer, s, n).0[i]
  {
    LexRunIsRun(lexer, s, m);
    LexRunIsRun(lexer, s, n);
    RunPrefix(st => PyLexer.Lex(lexer, st), s, m, n, i);
  }

  // ---------------------------------------------------------------------------------------
  // `Get` as written moves the cursor to the LAST slot whenever the cache ends with EOS,
  // instead of one slot further; after a backtrack over a fully lexed text it skips tokens.

  /** One pass of the loop as written: once EOS is cached the cursor jumps to the last slot. */
  function StepAsWritten(ts: TokenStream): (r: (Token, TokenStream))
    ensures ts.cursor < |r.1.tokens| && r.0 == r.1.tokens[ts.cursor]
    ensures r.1.ignores == ts.ignores && ts.cursor <= r.1.cursor
  {
    var filled := Fill(ts);
    (filled.tokens[filled.cursor],
     filled.(cursor := if IsEOS(filled) then |filled.tokens| - 1 else filled.cursor + 1))
  }

  /** The pass as written reads what `Step` reads, but after EOS is cached it puts the cursor
      on the last slot whatever slot it read. */
  lemma StepAsWrittenCursor(ts: TokenStream)
    ensures var r := StepAsWritten(ts);
      && r.1.tokens == Step(ts).1.tokens && r.1.stream == Step(ts).1.stream
      && (IsEOS(r.1) ==> r.1.cursor == |r.1.tokens| - 1)
      && (!IsEOS(r.1) ==> r.1.cursor == ts.cursor + 1)
  {
    StepFills(ts);
  }

  /** `Step` reads from the filled cache. */
  lemma StepFills(ts: TokenStream)
    ensures Step(ts).1 == Fill(ts).(cursor := Step(ts).1.cursor)
  {
  }

  /** `Get` as written. */
  function GetAsWritten(ts: TokenStream): (r: Got)
    ensures r.Got? ==> && ts.cursor <= r.index < |r.ts.tokens|
                       && r.token == r.ts.tokens[r.index]
                       && r.token.patternID !in ts.ignores
    decreases |ts.stream.text| - ts.stream.offset, |ts.tokens| - ts.cursor
  {
    var st := StepAsWritten(ts);
    if st.0.patternID !in ts.ignores then
      Got(st.0, ts.cursor, st.1)
    else if !Progress(ts, st.1) then
      Loops(ts)
    else
      GetAsWritten(st.1)
  }

  /** Two single-character patterns, "a" and "b". */
  function CharMatcher(c: char): Longest.Matcher
  {
    (s: string) => if |s| > 0 && s[0] == c then Some(1) else None
  }

  function AbLexer(): PyLexer.Lexer<string>
  {
    PyLexer.New(None, None).(patterns := [PyLexer.Pattern("a", CharMatcher('a'), None),
                                          PyLexer.Pattern("b", CharMatcher('b'), None)])
  }

  /** Reading "ab" from offset `k`: `a` at 0, `b` at 1, EOS at 2. */
  lemma AbLexAt(k: nat)
    requires k <= 2
    ensures PyLexer.Lex(AbLexer(), PyStream.RawStream("ab", k)).1 == PyStream.RawStream("ab", if k < 2 then k + 1 else 2)
    ensures PyLexer.Lex(AbLexer(), PyStream.RawStream("ab", k)).0.patternID
            == (if k == 0 then "a" else if k == 1 then "b" else PyLexer.EOS_PATTERN_ID)
  {
    var lx := AbLexer();
    var s := PyStream.RawStream("ab", k);
    if k < 2 {
      var rest := PyStream.PeekRemainder(s);
      assert rest[0] == (if k == 0 then 'a' else 'b');
      var lens := PyLexer.Attempt(lx, s);
      assert lens[k] == Some(1);
      assert lens[1 - k] == None;
      var w := PyLexer.Winner(lx, s);
      assert w.Some?;
      assert w.value == k;
    }
  }

  /** The stream over "ab" after the whole text has been read once (tokens a, b, EOS cached)
      and a parser has backtracked to the start. */
  function AbRaw(): RawTokenStream
  {
    var run := LexRun(AbLexer(), PyStream.New("ab"), 3);
    RawTokenStream(AbLexer(), run.1, 0, run.0, [])
  }

  /** That state is one the stream really reaches. */
  lemma AbRawValid()
    ensures Shape(AbRaw()) && Valid(AbRaw())
  {
    AbRun();
    var ts := AbRaw();
    assert ts.stream.text == "ab";
    var a := ts.tokens[0].patternID;
    var b := ts.tokens[1].patternID;
    assert a == "a" && b == "b";
    assert a != PyLexer.EOS_PATTERN_ID && b != PyLexer.EOS_PATTERN_ID;
    assert |ts.tokens| == 3;
    assert PyStream.New(ts.stream.text) == PyStream.New("ab");
    assert (ts.tokens, ts.stream) == LexRun(ts.lexer, PyStream.New(ts.stream.text), |ts.tokens|);
    assert Shape(ts);
    forall j | 0 <= j < |ts.tokens| - 1
      ensures ts.tokens[j].patternID != PyLexer.EOS_PATTERN_ID
    {
      assert j == 0 || j == 1;
    }
  }

  /** `AbRaw` as a token stream. */
  function AbBacktracked(): (ts: TokenStream)
    ensures Valid(ts) && ts.cursor == 0 && ts.ignores == []
  {
    AbRawValid();
    AbRaw()
  }

  /** Lexing "ab" three times gives `a`, `b`, EOS. */
  lemma AbRun()
    ensures var run := LexRun(AbLexer(), PyStream.New("ab"), 3);
      && run.0[0].patternID == "a" && run.0[1].patternID == "b"
      && run.0[2].patternID == PyLexer.EOS_PATTERN_ID && run.1.offset == 2
  {
    var lx := AbLexer();
    var s0: PyStream.Stream := PyStream.RawStream("ab", 0);
    var s1: PyStream.Stream := PyStream.RawStream("ab", 1);
    var s2: PyStream.Stream := PyStream.RawStream("ab", 2);
    var next: PyStream.Stream -> (Token, PyStream.Stream) := st => PyLexer.Lex(lx, st);
    assert next(s0).1 == s1 && next(s0).0.patternID == "a" by { AbLexAt(0); }
    assert next(s1).1 == s2 && next(s1).0.patternID == "b" by { AbLexAt(1); }
    assert next(s2).1 == s2 && next(s2).0.patternID == PyLexer.EOS_PATTERN_ID by { AbLexAt(2); }
    RunThree(next, s0, s1, s2, s2);
    assert PyStream.New("ab") == s0;
    LexRunIsRun(lx, s0, 3);
  }

  /** Three steps of a run whose intermediate states are known. */
  lemma RunThree<S, T>(next: S -> (T, S), s0: S, s1: S, s2: S, s3: S)
    requires next(s0).1 == s1 && next(s1).1 == s2 && next(s2).1 == s3
    ensures Run(next, s0, 3).1 == s3
    ensures Run(next, s0, 3).0 == [next(s0).0, next(s1).0, next(s2).0]
  {
    var r1 := Run(next, s0, 1);
    assert r1.1 == s1 && r1.0 == [next(s0).0];
    var r2 := Run(next, s0, 2);
    assert r2.1 == s2 && r2.0 == [next(s0).0, next(s1).0];
  }

  /** The as-written `Get` after a backtrack over "ab" returns `a` and then EOS, skipping `b`;
      the corrected `Get` returns `a` and then `b`. */
  lemma GetAsWrittenSkipsAfterEOS()
    ensures var ts := AbBacktracked();
      && GetAsWritten(ts).Got? && GetAsWritten(ts).token.patternID == "a"
      && GetAsWritten(GetAsWritten(ts).ts).Got?
      && GetAsWritten(GetAsWritten(ts).ts).token.patternID == PyLexer.EOS_PATTERN_ID
      && Get(ts).Got? && Get(ts).token.patternID == "a"
      && Get(Get(ts).ts).Got? && Get(Get(ts).ts).token.patternID == "b"
  {
    AbAsWritten();
    AbCorrected();
  }

  /** The as-written half: after `a` the cursor lands on the cached EOS. */
  lemma AbAsWritten()
    ensures var ts := AbBacktracked();
      && GetAsWritten(ts).Got? && GetAsWritten(ts).token.patternID == "a"
      && GetAsWritten(GetAsWritten(ts).ts).Got?
      && GetAsWritten(GetAsWritten(ts).ts).token.patternID == PyLexer.EOS_PATTERN_ID
  {
    AbRun();
    var ts := AbBacktracked();
    assert Fill(ts) == ts;
    var first := GetAsWritten(ts);
    assert first.ts == ts.(cursor := 2) && first.token.patternID == "a";
    var next := first.ts;
    assert Fill(next) == next;
  }

  /** The corrected half: after `a` comes `b`. */
  lemma AbCorrected()
    ensures var ts := AbBacktracked();
      && Get(ts).Got? && Get(ts).token.patternID == "a"
      && Get(Get(ts).ts).Got? && Get(Get(ts).ts).token.patternID == "b"
  {
    AbRun();
    var ts := AbBacktracked();
    assert Fill(ts) == ts;
    var first := Get(ts);
    assert first.ts == ts.(cursor := 1) && first.token.patternID == "a";
    var next := first.ts;
    assert Fill(next) == next;
  }
}

=== FILE: table_parser.dfy ===
/** The table-driven parser of c++/lpc/parser.h.  A symbol table maps names to terminals
    (lexer pattern IDs) and non-terminals (lists of rules, each a list of components); a parse
    descends from one symbol over a token stream, a terminal reading the next token that names
    a terminal and a non-terminal taking the longest of its rules that parse. */
module TableParser {
  import opened Wrappers
  import opened Lines
  import opened Longest
  import opened TableStream

  type SymbolID = string

  const INVALID_TERMINAL: SymbolID := "<INVALID>"
  const ANY_TERMINAL: SymbolID := "<TERMINAL>"
  const ANY_SYMBOL: SymbolID := "<SYMBOL>"

  datatype Quantifier = One | ZeroOrOne | ZeroOrMore | OneOrMore

  /** One place of a rule: the symbol expected there, and how often. */
  datatype Component = Component(id: SymbolID, quantifier: Quantifier)

  type Rule = seq<Component>

  /** `Parser::Result`: the symbol parsed, where it is, the value its action gave, and the
      token or the rule match it was made of. */
  datatype PResult<V> = PResult(id: SymbolID, position: Position, value: Option<V>, matched: PMatch<V>)

  datatype PMatch<V> = TerminalMatch(lexeme: LexerMatch) | NonTerminalMatch(nt: NTMatch<V>)

  /** A rule's match: where it is and one result per component. */
  datatype NTMatch<V> = NTMatch(position: Position, args: seq<PResult<V>>)

  type NTAction<!V> = Action<NTMatch<V>, V>

  datatype Symbol<!V> = Terminal(pattern: nat) | NonTerminal(rules: seq<Pattern<Rule, NTAction<V>>>)

  /** The parser's state: its symbols, the name each lexer pattern ID was first registered
      under, whether the rules have been checked since the last change, and its lexer. */
  datatype Table<!V> = Table(symbols: map<SymbolID, Symbol<V>>, terminals: map<nat, SymbolID>, validated: bool, lexer: Lexer<V>)

  /** The symbols the rules of a non-terminal name. */
  ghost function References<V>(rules: seq<Pattern<Rule, NTAction<V>>>): set<SymbolID>
  {
    set i, j | 0 <= i < |rules| && 0 <= j < |rules[i].template| :: rules[i].template[j].id
  }

  /** Every symbol a rule names exists. */
  ghost predicate Closed<V>(t: Table<V>)
  {
    forall x | x in t.symbols && t.symbols[x].NonTerminal? :: References(t.symbols[x].rules) <= t.symbols.Keys
  }

  /** What holds of every table from construction on: no symbol has the empty name, the two catch-all symbols are
      non-terminals, every registered terminal name is the terminal of its pattern ID, every
      rule list is numbered from 2, and a table marked validated names no missing symbol. */
  ghost predicate Wf<V>(t: Table<V>)
  {
    && "" !in t.symbols
    && ANY_TERMINAL in t.symbols && t.symbols[ANY_TERMINAL].NonTerminal?
    && ANY_SYMBOL in t.symbols && t.symbols[ANY_SYMBOL].NonTerminal?
    && (forall p | p in t.terminals :: t.terminals[p] in t.symbols && t.symbols[t.terminals[p]] == Terminal(p))
    && (forall x | x in t.symbols && t.symbols[x].NonTerminal? :: Numbered(t.symbols[x].rules))
    && (t.validated ==> Closed(t))
  }

  /** The table after a change, or the runtime error the change threw and the table as the
      throw left it. */
  datatype Change<!V> = Done(table: Table<V>) | Thrown(message: string, table: Table<V>)

  /** `NonTerminal::AddPattern` on a symbol of the table, which then needs validating again. */
  function AppendRule<V>(t: Table<V>, nt: SymbolID, rule: Rule, action: NTAction<V>): (r: Table<V>)
    requires nt in t.symbols && t.symbols[nt].NonTerminal?
    ensures r.symbols.Keys == t.symbols.Keys && r.terminals == t.terminals && r.lexer == t.lexer && !r.validated
    ensures r.symbols[nt] == NonTerminal(t.symbols[nt].rules + [Pattern(|t.symbols[nt].rules| + 2, rule, action)])
    ensures forall x | x in t.symbols && x != nt :: r.symbols[x] == t.symbols[x]
  {
    t.(symbols := t.symbols[nt := NonTerminal(AddPattern(t.symbols[nt].rules, rule, action).0)], validated := false)
  }

  /** `AddSymbol`: a fresh non-empty name is registered; a terminal's pattern ID is mapped to
      it unless the ID already has a name; it becomes a one-component rule of `<TERMINAL>`
      (terminals only) and of `<SYMBOL>`. */
  function AddSymbol<V>(t: Table<V>, id: SymbolID, sym: Symbol<V>): (r: Change<V>)
    requires Wf(t)
    ensures r.Thrown? <==> id == "" || id in t.symbols
    ensures r.Thrown? ==> r.table == t
    ensures id == "" ==> r.message == "Symbol id must be non-empty!"
    ensures id != "" && id in t.symbols ==> r.message == "Symbol ID '" + id + "' is already in use."
  {
    if id == "" then Thrown("Symbol id must be non-empty!", t)
    else if id in t.symbols then Thrown("Symbol ID '" + id + "' is already in use.", t)
    else
      var added := t.(symbols := t.symbols[id := sym]);
      var named :=
        if sym.Terminal? then
          var t1 := added.(terminals := if sym.pattern in t.terminals then t.terminals else t.terminals[sym.pattern := id]);
          AppendRule(t1, ANY_TERMINAL, [Component(id, One)], NoAction)
        else added;
      Done(AppendRule(named, ANY_SYMBOL, [Component(id, One)], NoAction))
  }

  /** What a successful `AddSymbol` changes: the new symbol, the catch-all rules, the pattern
      ID's name if it had none; everything else stays. */
  lemma AddSymbolRegisters<V>(t: Table<V>, id: SymbolID, sym: Symbol<V>)
    requires Wf(t)
    requires AddSymbol(t, id, sym).Done?
    ensures var u := AddSymbol(t, id, sym).table;
      && u.symbols.Keys == t.symbols.Keys + {id}
      && u.symbols[id] == sym && !u.validated && u.lexer == t.lexer
      && (forall x | x in t.symbols && x != ANY_TERMINAL && x != ANY_SYMBOL :: u.symbols[x] == t.symbols[x])
      && u.symbols[ANY_SYMBOL].rules == t.symbols[ANY_SYMBOL].rules + [Pattern(|t.symbols[ANY_SYMBOL].rules| + 2, [Component(id, One)], NoAction)]
      && (sym.Terminal? ==> u.symbols[ANY_TERMINAL].rules == t.symbols[ANY_TERMINAL].rules + [Pattern(|t.symbols[ANY_TERMINAL].rules| + 2, [Component(id, One)], NoAction)])
      && (sym.NonTerminal? ==> u.symbols[ANY_TERMINAL] == t.symbols[ANY_TERMINAL] && u.terminals == t.terminals)
      && (sym.Terminal? && sym.pattern !in t.terminals ==> u.terminals == t.terminals[sym.pattern := id])
      && (sym.Terminal? && sym.pattern in t.terminals ==> u.terminals == t.terminals)
  {
    var added := t.(symbols := t.symbols[id := sym]);
    if sym.Terminal? {
      var t1 := added.(terminals := if sym.pattern in t.terminals then t.terminals else t.terminals[sym.pattern := id]);
      var t2 := AppendRule(t1, ANY_TERMINAL, [Component(id, One)], NoAction);
      assert AddSymbol(t, id, sym).table == AppendRule(t2, ANY_SYMBOL, [Component(id, One)], NoAction);
    }
  }

  /** Registering keeps the table's invariant. */
  lemma AddSymbolKeepsWf<V>(t: Table<V>, id: SymbolID, sym: Symbol<V>)
    requires Wf(t)
    requires sym.NonTerminal? ==> Numbered(sym.rules)
    ensures Wf(AddSymbol(t, id, sym).table)
  {
    if AddSymbol(t, id, sym).Done? {
      AddSymbolRegisters(t, id, sym);
      AddSymbolNamesTerminals(t, id, sym);
      AddSymbolNumbers(t, id, sym);
    }
  }

  lemma AddSymbolNamesTerminals<V>(t: Table<V>, id: SymbolID, sym: Symbol<V>)
    requires Wf(t)
    requires AddSymbol(t, id, sym).Done?
    ensures var u := AddSymbol(t, id, sym).table;
      forall p | p in u.terminals :: u.terminals[p] in u.symbols && u.symbols[u.terminals[p]] == Terminal(p)
  {
    var u := AddSymbol(t, id, sym).table;
    AddSymbolRegisters(t, id, sym);
    forall p | p in u.terminals
      ensures u.terminals[p] in u.symbols && u.symbols[u.terminals[p]] == Terminal(p)
    {
      if p in t.terminals {
        assert u.terminals[p] == t.terminals[p];
      }
    }
  }

  lemma AddSymbolNumbers<V>(t: Table<V>, id: SymbolID, sym: Symbol<V>)
    requires Wf(t)
    requires sym.NonTerminal? ==> Numbered(sym.rules)
    requires AddSymbol(t, id, sym).Done?
    ensures var u := AddSymbol(t, id, sym).table;
      forall x | x in u.symbols && u.symbols[x].NonTerminal? :: Numbered(u.symbols[x].rules)
  {
    var u := AddSymbol(t, id, sym).table;
    AddSymbolRegisters(t, id, sym);
    AddPatternNumbered(t.symbols[ANY_SYMBOL].rules, [Component(id, One)], NoAction);
    AddPatternNumbered(t.symbols[ANY_TERMINAL].rules, [Component(id, One)], NoAction);
    forall x | x in u.symbols && u.symbols[x].NonTerminal?
      ensures Numbered(u.symbols[x].rules)
    {
      if x != ANY_TERMINAL && x != ANY_SYMBOL && x != id {
        assert u.symbols[x] == t.symbols[x];
      }
    }
  }

  /** The constructor: `<TERMINAL>` and `<SYMBOL>` without rules, then `<INVALID>` as the
      terminal of the lexer's UNKNOWN pattern ID. */
  function NewTable<V>(onEOS: LexAction<V>, onUnknown: LexAction<V>): (t: Table<V>)
    ensures Wf(t) && !t.validated
    ensures t.symbols.Keys == {ANY_TERMINAL, ANY_SYMBOL, INVALID_TERMINAL}
    ensures t.symbols[INVALID_TERMINAL] == Terminal(UNKNOWN_PATTERN_ID)
    ensures t.terminals == map[UNKNOWN_PATTERN_ID := INVALID_TERMINAL]
    ensures t.symbols[ANY_TERMINAL].rules == [Pattern(2, [Component(INVALID_TERMINAL, One)], NoAction)]
    ensures t.symbols[ANY_SYMBOL].rules == [Pattern(2, [Component(INVALID_TERMINAL, One)], NoAction)]
    ensures t.lexer == Lexer(onEOS, onUnknown, [])
  {
    var empty := Table(map[ANY_TERMINAL := NonTerminal([]), ANY_SYMBOL := NonTerminal([])], map[], true, Lexer(onEOS, onUnknown, []));
    assert Closed(empty) by {
      assert forall x | x in empty.symbols :: empty.symbols[x].rules == [];
    }
    AddSymbolRegisters(empty, INVALID_TERMINAL, Terminal(UNKNOWN_PATTERN_ID));
    AddSymbolKeepsWf(empty, INVALID_TERMINAL, Terminal(UNKNOWN_PATTERN_ID));
    AddSymbol(empty, INVALID_TERMINAL, Terminal(UNKNOWN_PATTERN_ID)).table
  }

  /** `AddTerminal` with a pattern ID. */
  function AddTerminal<V>(t: Table<V>, id: SymbolID, pattern: nat): (r: Change<V>)
    requires Wf(t)
    ensures Wf(r.table)
    ensures r.Done? ==> id in r.table.symbols && r.table.symbols[id] == Terminal(pattern) && pattern in r.table.terminals
    ensures r.Done? && pattern !in t.terminals ==> r.table.terminals[pattern] == id
  {
    AddSymbolKeepsWf(t, id, Terminal(pattern));
    var r := AddSymbol(t, id, Terminal(pattern));
    if r.Done? then
      AddSymbolRegisters(t, id, Terminal(pattern));
      r
    else r
  }

  /** `AddTerminal` with a pattern: the lexer gets the pattern first, so it keeps it even when
      the name is then refused. */
  function AddTerminalPattern<V>(t: Table<V>, id: SymbolID, matcher: Matcher, action: LexAction<V>): (r: Change<V>)
    requires Wf(t)
    ensures Wf(r.table)
    ensures r.table.lexer.patterns == t.lexer.patterns + [Pattern(|t.lexer.patterns| + 2, matcher, action)]
    ensures r.Thrown? <==> id == "" || id in t.symbols
    ensures r.Done? ==> id in r.table.symbols && r.table.symbols[id] == Terminal(|t.lexer.patterns| + 2)
  {
    var (patterns, pid) := AddPattern(t.lexer.patterns, matcher, action);
    var t1 := t.(lexer := t.lexer.(patterns := patterns));
    AddTerminal(t1, id, pid)
  }

  /** `AddRule`: a missing non-terminal is created first; a terminal refuses rules. */
  function AddRule<V>(t: Table<V>, nt: SymbolID, rule: Rule, action: NTAction<V>): (r: Change<V>)
    requires Wf(t)
    ensures Wf(r.table)
    ensures r.Thrown? <==> nt == "" || (nt in t.symbols && t.symbols[nt].Terminal?)
    ensures r.Thrown? ==> r.table == t
    ensures nt in t.symbols && t.symbols[nt].Terminal? ==>
      r.message == "'" + nt + "' refers to a terminal. Rules can only be added to non-terminals!"
    ensures r.Done? ==> r.table.symbols.Keys == t.symbols.Keys + {nt} && r.table.symbols[nt].NonTerminal? && !r.table.validated
    ensures r.Done? && nt in t.symbols ==>
      r.table.symbols[nt].rules == t.symbols[nt].rules + [Pattern(|t.symbols[nt].rules| + 2, rule, action)]
    ensures r.Done? && nt !in t.symbols ==> r.table.symbols[nt].rules == [Pattern(2, rule, action)]
  {
    if nt in t.symbols then
      if t.symbols[nt].Terminal? then Thrown("'" + nt + "' refers to a terminal. Rules can only be added to non-terminals!", t)
      else
        AppendKeepsWf(t, nt, rule, action);
        Done(AppendRule(t, nt, rule, action))
    else
      AddSymbolKeepsWf(t, nt, NonTerminal([]));
      match AddSymbol(t, nt, NonTerminal([]))
      case Thrown(e, same) => Thrown(e, same)
      case Done(t1) =>
        AddSymbolRegisters(t, nt, NonTerminal([]));
        AppendKeepsWf(t1, nt, rule, action);
        Done(AppendRule(t1, nt, rule, action))
  }

  lemma AppendKeepsWf<V>(t: Table<V>, nt: SymbolID, rule: Rule, action: NTAction<V>)
    requires Wf(t) && nt in t.symbols && t.symbols[nt].NonTerminal?
    ensures Wf(AppendRule(t, nt, rule, action))
  {
    AddPatternNumbered(t.symbols[nt].rules, rule, action);
  }

  // ---------------------------------------------------------------------------------------
  // Validation

  /** The first component of `cs` naming a symbol outside `known`. */
  function MissingIn(cs: seq<Component>, known: set<SymbolID>): (r: Option<SymbolID>)
    ensures r.None? <==> forall j | 0 <= j < |cs| :: cs[j].id in known
    ensures r.Some? ==> r.value !in known && exists j | 0 <= j < |cs| :: cs[j].id == r.value
  {
    if |cs| == 0 then None
    else if cs[0].id !in known then Some(cs[0].id)
    else
      var rest := MissingIn(cs[1..], known);
      assert forall j | 1 <= j < |cs| :: cs[j] == cs[1..][j - 1];
      rest
  }

  /** The first missing symbol the rules name, rule by rule. */
  function MissingInRules<V>(rules: seq<Pattern<Rule, NTAction<V>>>, known: set<SymbolID>): (r: Option<SymbolID>)
    ensures r.None? <==> References(rules) <= known
    ensures r.Some? ==> r.value !in known && r.value in References(rules)
  {
    if |rules| == 0 then None
    else
      var first := MissingIn(rules[0].template, known);
      var rest := MissingInRules(rules[1..], known);
      assert References(rules) == References(rules[..1]) + References(rules[1..]) by {
        ReferencesSplit(rules);
      }
      if first.Some? then
        var j :| 0 <= j < |rules[0].template| && rules[0].template[j].id == first.value;
        assert rules[0].template[j].id in References(rules[..1]);
        first
      else
        assert References(rules[..1]) <= known by {
          forall y | y in References(rules[..1]) ensures y in known {
            var i, j :| 0 <= i < 1 && 0 <= j < |rules[..1][i].template| && rules[..1][i].template[j].id == y;
          }
        }
        rest
  }

  lemma ReferencesSplit<V>(rules: seq<Pattern<Rule, NTAction<V>>>)
    requires |rules| > 0
    ensures References(rules) == References(rules[..1]) + References(rules[1..])
  {
    forall y | y in References(rules) ensures y in References(rules[..1]) + References(rules[1..]) {
      var i, j :| 0 <= i < |rules| && 0 <= j < |rules[i].template| && rules[i].template[j].id == y;
      if i == 0 {
        assert rules[..1][0].template[j].id == y;
      } else {
        assert rules[1..][i - 1].template[j].id == y;
      }
    }
    forall y | y in References(rules[1..]) ensures y in References(rules) {
      var i, j :| 0 <= i < |rules[1..]| && 0 <= j < |rules[1..][i].template| && rules[1..][i].template[j].id == y;
      assert rules[i + 1].template[j].id == y;
    }
    forall y | y in References(rules[..1]) ensures y in References(rules) {
      var i, j :| 0 <= i < 1 && 0 <= j < |rules[..1][i].template| && rules[..1][i].template[j].id == y;
      assert rules[0].template[j].id == y;
    }
  }

  /** A non-terminal and a symbol one of its rules names that does not exist. */
  ghost predicate Dangles<V>(t: Table<V>, x: SymbolID, y: SymbolID)
  {
    x in t.symbols && t.symbols[x].NonTerminal? && y in References(t.symbols[x].rules) && y !in t.symbols
  }

  /** The scan of `Validate`, over the symbols in the order the table's map yields them. */
  function ScanSymbols<V>(t: Table<V>, order: seq<SymbolID>): (r: Option<(SymbolID, SymbolID)>)
    requires forall x | x in order :: x in t.symbols
    ensures r.None? <==> forall k | 0 <= k < |order| :: !(t.symbols[order[k]].NonTerminal? && MissingInRules(t.symbols[order[k]].rules, t.symbols.Keys).Some?)
    ensures r.Some? ==> r.value.0 in order && Dangles(t, r.value.0, r.value.1)
  {
    if |order| == 0 then None
    else
      var sym := t.symbols[order[0]];
      if sym.NonTerminal? && MissingInRules(sym.rules, t.symbols.Keys).Some? then
        Some((order[0], MissingInRules(sym.rules, t.symbols.Keys).value))
      else
        var rest := ScanSymbols(t, order[1..]);
        assert forall k | 1 <= k < |order| :: order[k] == order[1..][k - 1];
        rest
  }

  /** `Validate`: the first rule component, in map order, that names no symbol is an error;
      otherwise the table is marked validated.  The order of an `unordered_map` is not
      specified, so it is a parameter listing every symbol. */
  function Validate<V>(t: Table<V>, order: seq<SymbolID>): (r: Change<V>)
    requires forall x :: x in order <==> x in t.symbols
    ensures r.Done? <==> Closed(t)
    ensures r.Done? ==> r.table == t.(validated := true)
    ensures r.Thrown? ==> r.table == t
    ensures r.Thrown? ==> exists x, y :: Dangles(t, x, y) && r.message == "Nonterminal '" + x + "' references a symbol that does not exist: '" + y + "'"
  {
    match ScanSymbols(t, order)
    case None =>
      assert Closed(t) by {
        forall x | x in t.symbols && t.symbols[x].NonTerminal? ensures References(t.symbols[x].rules) <= t.symbols.Keys {
          var k :| 0 <= k < |order| && order[k] == x;
        }
      }
      Done(t.(validated := true))
    case Some((x, y)) =>
      Thrown("Nonterminal '" + x + "' references a symbol that does not exist: '" + y + "'", t)
  }

  /** A validated table keeps the invariant. */
  lemma ValidateKeepsWf<V>(t: Table<V>, order: seq<SymbolID>)
    requires Wf(t)
    requires forall x :: x in order <==> x in t.symbols
    ensures Wf(Validate(t, order).table)
  {
  }

  // ---------------------------------------------------------------------------------------
  // Parsing

  /** The outcome of one parsing step over a token stream: a value and the stream after it;
      a runtime error and the stream as the throw left it, with whether an action (of the
      lexer or of a rule) threw it rather than the parser; an aborting `assert` or a failed
      `std::get`; or a recursion that would not end. */
  datatype Out<X, V> =
    | Got(value: X, ts: TokenStream<V>)
    | Threw(message: string, byAction: bool, ts: TokenStream<V>)
    | Aborted
    | OutOfFuel

  /** A step that leaves a stream leaves a well-formed one over the same text. */
  ghost predicate Continues<X, V>(ts: TokenStream<V>, r: Out<X, V>)
  {
    (r.Got? || r.Threw?) ==> Valid(r.ts) && r.ts.source.data == ts.source.data
  }

  /** `NonTerminal::GetMatch`'s result: the rule's pattern ID, its action's value, its match. */
  datatype NTResult<V> = NTResult(patternID: nat, value: Option<V>, matched: NTMatch<V>)

  /** Where a rule's match is: at its first component, or where the stream stood when the
      rule has none. */
  function MatchPosition<V>(start: Position, args: seq<PResult<V>>): (p: Position)
    ensures |args| > 0 ==> p == args[0].position
    ensures |args| == 0 ==> p == start
  {
    if |args| == 0 then start else args[0].position
  }

  /** `MatchPatternTemplate` overwrites the match's position with each component's, so a
      match ends up positioned at its last component. */
  function MatchPositionAsWritten<V>(start: Position, args: seq<PResult<V>>): (p: Position)
    ensures |args| > 0 ==> p == args[|args| - 1].position
    ensures |args| == 0 ==> p == start
    decreases |args|
  {
    if |args| == 0 then start else MatchPositionAsWritten(args[0].position, args[1..])
  }

  /** For the rule `pair := a b` over "a b", the pair is placed at `b`, column 3, not at its
      first token. */
  lemma PairPlacedAtLastComponent<V>(a: LexerMatch, b: LexerMatch)
    requires a.position == Position(1, 1) && b.position == Position(1, 3)
    ensures var args := [PResult("a", a.position, None, TerminalMatch(a)), PResult("b", b.position, None, TerminalMatch(b))];
      && MatchPositionAsWritten<V>(Position(1, 1), args) == Position(1, 3)
      && MatchPosition<V>(Position(1, 1), args) == Position(1, 1)
  {
  }

  /** `ParseTerminal`: read tokens, skipping those whose pattern ID names no terminal, until
      one does; it must be `id`.  Running into EOS or into another terminal restores the
      offset and throws. */
  function ParseTerminal<V>(t: Table<V>, ts: TokenStream<V>, id: SymbolID, fuel: nat): (r: Out<PResult<V>, V>)
    requires Valid(ts)
    ensures Continues(ts, r)
    ensures r.Got? ==> r.value.id == id && r.ts.offset > ts.offset && ReadTerminal(t, ts.offset, r.value, r.ts, id)
    ensures r.Threw? && !r.byAction ==> r.ts.offset == ts.offset
  {
    TerminalLoop(t, ts, ts.offset, id, fuel)
  }

  /** The token before `after`'s offset names the terminal `id` and is what `res` holds, and
      every token from `from` up to it names no terminal. */
  ghost predicate ReadTerminal<V>(t: Table<V>, from: nat, res: PResult<V>, after: TokenStream<V>, id: SymbolID)
    requires |after.cache| > 0 && from < after.offset
  {
    var token := Peek(Stream(after.cache, after.offset - 1));
    && token.patternID in t.terminals && t.terminals[token.patternID] == id
    && res == PResult(id, token.matched.position, token.value, TerminalMatch(token.matched))
    && forall k | from <= k < after.offset - 1 :: k < |after.cache| && after.cache[k].patternID !in t.terminals
  }

  /** A terminal read from `from + 1` on was also read from `from` when the token at `from`
      is ignored. */
  lemma ReadTerminalSkips<V>(t: Table<V>, from: nat, res: PResult<V>, after: TokenStream<V>, id: SymbolID)
    requires |after.cache| > 0 && from + 1 < after.offset
    requires ReadTerminal(t, from + 1, res, after, id)
    requires from < |after.cache| && after.cache[from].patternID !in t.terminals
    ensures ReadTerminal(t, from, res, after, id)
  { }

  function TerminalLoop<V>(t: Table<V>, ts: TokenStream<V>, start: nat, id: SymbolID, fuel: nat): (r: Out<PResult<V>, V>)
    requires Valid(ts) && start <= ts.offset
    ensures Continues(ts, r)
    ensures (r.Got? || r.Threw?) ==> ts.cache <= r.ts.cache
    ensures r.Got? ==> r.value.id == id && r.ts.offset > ts.offset && ReadTerminal(t, ts.offset, r.value, r.ts, id)
    ensures r.Threw? && !r.byAction ==> r.ts.offset == start
    decreases fuel
  {
    match GetToken(t.lexer, ts)
    case (_, FillFailed(e, left)) => Threw(e, true, left)
    case (None, Filled(_)) => assert false; Aborted
    case (Some(token), Filled(next)) =>
      if token.patternID !in t.terminals then
        if token.patternID == EOS_PATTERN_ID then Threw("Expected " + id + " but lexer reached end of file.", false, next.(offset := start))
        else if fuel == 0 then OutOfFuel
        else
          var r := TerminalLoop(t, next, start, id, fuel - 1);
          if r.Got? then
            assert r.ts.cache[ts.offset] == next.cache[ts.offset];
            ReadTerminalSkips(t, ts.offset, r.value, r.ts, id);
            r
          else r
      else if t.terminals[token.patternID] == id then
        Got(PResult(id, token.matched.position, token.value, TerminalMatch(token.matched)), next)
      else Threw("Expected " + id + " but found '" + t.terminals[token.patternID] + "'", false, next.(offset := start))
  }

  /** A component's result names the component's symbol; a catch-all's names a terminal's
      match (`<TERMINAL>`) or a non-terminal's (`<SYMBOL>`). */
  ghost predicate ArgFor<V>(c: Component, a: PResult<V>)
  {
    && (c.id != ANY_TERMINAL && c.id != ANY_SYMBOL ==> a.id == c.id)
    && (c.id == ANY_TERMINAL ==> a.matched.TerminalMatch?)
    && (c.id == ANY_SYMBOL ==> a.matched.NonTerminalMatch?)
  }

  /** One result per component of the rule, each for its component. */
  ghost predicate Matches<V>(rule: Rule, args: seq<PResult<V>>)
  {
    |args| == |rule| && forall i | 0 <= i < |rule| :: ArgFor(rule[i], args[i])
  }

  /** The match is a full match of the rule numbered `id`, placed at its first result. */
  ghost predicate BuiltFrom<V>(rules: seq<Pattern<Rule, NTAction<V>>>, id: nat, m: NTMatch<V>)
  {
    && (exists k | 0 <= k < |rules| :: rules[k].id == id && Matches(rules[k].template, m.args))
    && (|m.args| > 0 ==> m.position == m.args[0].position)
  }

  /** `ParseSymbol`: a missing name throws; `<TERMINAL>` and `<SYMBOL>` stand for the one
      symbol their matched rule names, and assert that it is a terminal, respectively a
      non-terminal. */
  function ParseSymbol<V>(t: Table<V>, ts: TokenStream<V>, id: SymbolID, fuel: nat): (r: Out<PResult<V>, V>)
    requires Valid(ts)
    ensures Continues(ts, r)
    ensures r.Got? ==> r.ts.offset >= ts.offset
    ensures id !in t.symbols ==> r == Threw("Symbol with id '" + id + "' does not exist!", false, ts)
    ensures r.Got? ==> ArgFor(Component(id, One), r.value)
    decreases fuel, 5
  {
    if id !in t.symbols then Threw("Symbol with id '" + id + "' does not exist!", false, ts)
    else
      var result := if t.symbols[id].Terminal? then ParseTerminal(t, ts, id, fuel) else ParseNonTerminal(t, ts, id, fuel);
      if result.Got? && (id == ANY_TERMINAL || id == ANY_SYMBOL) then Unwrap(result.value, id == ANY_TERMINAL, result.ts)
      else result
  }

  /** The one argument of a catch-all's match, which must be a terminal's match (`wantTerminal`)
      or a non-terminal's. */
  function Unwrap<V>(outer: PResult<V>, wantTerminal: bool, ts: TokenStream<V>): (r: Out<PResult<V>, V>)
    ensures r.Got? ==> r.ts == ts && r.value.matched.TerminalMatch? == wantTerminal
    ensures r.Got? <==> outer.matched.NonTerminalMatch? && |outer.matched.nt.args| > 0 && outer.matched.nt.args[0].matched.TerminalMatch? == wantTerminal
  {
    if !outer.matched.NonTerminalMatch? || |outer.matched.nt.args| == 0 then Aborted
    else
      var inner := outer.matched.nt.args[0];
      if inner.matched.TerminalMatch? == wantTerminal then Got(inner, ts) else Aborted
  }

  /** `ParseNonTerminal`: the longest rule's match, or the EOS and UNKNOWN outcomes as errors.
      A match of no components is placed where the stream stood. */
  function ParseNonTerminal<V>(t: Table<V>, ts: TokenStream<V>, nt: SymbolID, fuel: nat): (r: Out<PResult<V>, V>)
    requires Valid(ts) && nt in t.symbols && t.symbols[nt].NonTerminal?
    ensures Continues(ts, r)
    ensures r.Got? ==> r.ts.offset >= ts.offset && r.value.id == nt && r.value.matched.NonTerminalMatch?
    ensures r.Got? ==> exists id :: BuiltFrom(t.symbols[nt].rules, id, r.value.matched.nt)
    ensures r.Got? && |r.value.matched.nt.args| > 0 ==> r.value.position == r.value.matched.nt.args[0].position
    decreases fuel, 4
  {
    match PeekToken(t.lexer, ts)
    case (_, FillFailed(e, left)) => Threw(e, true, left)
    case (None, Filled(_)) => assert false; Aborted
    case (Some(first), Filled(ready)) =>
      match NTGetMatch(t, ready, t.symbols[nt].rules, fuel)
      case Got(m, after) =>
        if m.patternID == EOS_PATTERN_ID then Threw("Unable to parse '" + nt + "'. Encountered end of stream!", false, after)
        else if m.patternID == UNKNOWN_PATTERN_ID then Threw("Unable to parse '" + nt + "'. No rule matches the stream's tokens.", false, after)
        else
          var position := if |m.matched.args| == 0 then first.matched.position else m.matched.position;
          Got(PResult(nt, position, m.value, NonTerminalMatch(m.matched)), after)
      case Threw(e, b, left) => Threw(e, b, left)
      case Aborted => Aborted
      case OutOfFuel => OutOfFuel
  }

  /** `GetMatch` over the token stream: past the last cached token it is EOS; otherwise every
      rule is tried from the same offset, the first strictly longest match wins, and with none
      one token is taken as UNKNOWN.  The rule actions of a non-terminal's EOS and UNKNOWN are
      none. */
  function NTGetMatch<V>(t: Table<V>, ts: TokenStream<V>, rules: seq<Pattern<Rule, NTAction<V>>>, fuel: nat): (r: Out<NTResult<V>, V>)
    requires Valid(ts)
    ensures Continues(ts, r)
    ensures r.Got? ==> r.ts.offset >= ts.offset
    ensures r.Got? && r.value.patternID != EOS_PATTERN_ID && r.value.patternID != UNKNOWN_PATTERN_ID ==> BuiltFrom(rules, r.value.patternID, r.value.matched)
    decreases fuel, 3
  {
    if ts.offset >= |ts.cache| then
      (match PeekToken(t.lexer, ts)
       case (_, FillFailed(e, left)) => Threw(e, true, left)
       case (None, Filled(_)) => assert false; Aborted
       case (Some(tok), Filled(ready)) => Got(NTResult(EOS_PATTERN_ID, None, NTMatch(tok.matched.position, [])), ready))
    else RulesLoop(t, ts, rules, 0, ts.offset, None, fuel)
  }

  /** The rule loop of `GetMatch`, with the best match so far: its rule's index, the match and
      its length in tokens.  The stream's offset is put back to `start` after every attempt,
      while the tokens lexed meanwhile stay cached. */
  function RulesLoop<V>(t: Table<V>, ts: TokenStream<V>, rules: seq<Pattern<Rule, NTAction<V>>>, i: nat, start: nat,
                        best: Option<(nat, NTMatch<V>, nat)>, fuel: nat): (r: Out<NTResult<V>, V>)
    requires Valid(ts) && i <= |rules| && ts.offset == start
    requires best.Some? ==> best.value.0 < |rules| && BuiltFrom(rules, rules[best.value.0].id, best.value.1)
    ensures Continues(ts, r)
    ensures r.Got? ==> r.ts.offset >= ts.offset
    ensures r.Got? && r.value.patternID != UNKNOWN_PATTERN_ID ==> BuiltFrom(rules, r.value.patternID, r.value.matched)
    ensures r.Got? && best.Some? ==> r.ts.offset >= start + best.value.2
    decreases fuel, 2, |rules| - i
  {
    if i == |rules| then
      match best
      case None =>
        (match GetToken(t.lexer, ts)
         case (_, FillFailed(e, left)) => Threw(e, true, left)
         case (None, Filled(_)) => assert false; Aborted
         case (Some(tok), Filled(next)) => Got(NTResult(UNKNOWN_PATTERN_ID, None, NTMatch(tok.matched.position, [])), next))
      case Some((k, m, len)) =>
        match IgnoreTokens(t.lexer, ts, len)
        case FillFailed(e, left) => Threw(e, true, left)
        case Filled(after) =>
          match Act(rules[k].action, m)
          case Err(e) => Threw(e, true, after)
          case Ok(v) => Got(NTResult(rules[k].id, v, m), after)
    else
      match RuleMatch(t, ts, rules[i].template, fuel)
      case Got(None, left) => RulesLoop(t, left.(offset := start), rules, i + 1, start, best, fuel)
      case Got(Some(m), left) =>
        var len := left.offset - start;
        var better := best.None? || len > best.value.2;
        assert BuiltFrom(rules, rules[i].id, m) by {
          assert rules[i].id == rules[i].id && Matches(rules[i].template, m.args);
        }
        RulesLoop(t, left.(offset := start), rules, i + 1, start, if better then Some((i, m, len)) else best, fuel)
      case Threw(e, b, left) => Threw(e, b, left)
      case Aborted => Aborted
      case OutOfFuel => OutOfFuel
  }

  /** One attempt of the rule loop: the length in tokens and the match of a rule that
      matched, or `None` for one that did not. */
  type Attempt<V> = Option<(nat, NTMatch<V>)>

  /** The lengths of a run of attempts, as the longest-match rule reads them. */
  function AttemptLengths<V>(all: seq<Attempt<V>>): (lens: seq<Option<nat>>)
    ensures |lens| == |all|
    ensures forall j | 0 <= j < |all| :: lens[j] == (if all[j].Some? then Some(all[j].value.0) else None)
  {
    seq(|all|, j requires 0 <= j < |all| => if all[j].Some? then Some(all[j].value.0) else None)
  }

  /** The attempts the rule loop makes from rule `i` on: each rule is matched from `start`, on
      the stream the attempt before it left (its cache kept, its offset put back).  The run
      stops early at an attempt that throws, aborts or runs out of fuel. */
  ghost function Tried<V>(t: Table<V>, ts: TokenStream<V>, rules: seq<Pattern<Rule, NTAction<V>>>, i: nat,
                          start: nat, fuel: nat): seq<Attempt<V>>
    requires Valid(ts) && i <= |rules| && ts.offset == start
    decreases |rules| - i
  {
    if i == |rules| then []
    else
      match RuleMatch(t, ts, rules[i].template, fuel)
      case Got(None, left) => [None] + Tried(t, left.(offset := start), rules, i + 1, start, fuel)
      case Got(Some(m), left) => [Some((left.offset - start, m))] + Tried(t, left.(offset := start), rules, i + 1, start, fuel)
      case _ => []
  }

  /** `res`, with the stream at `end`, is what the longest-match rule makes of `all`, an
      attempt for every rule tried from `start`: UNKNOWN over one token when no rule matched;
      otherwise the rule of the first strictly longest attempt, with its match, the stream
      moved past its tokens. */
  ghost predicate Chose<V>(rules: seq<Pattern<Rule, NTAction<V>>>, start: nat, all: seq<Attempt<V>>,
                           res: NTResult<V>, end: nat)
  {
    && |all| == |rules|
    && (Select(AttemptLengths(all)).None? ==> res.patternID == UNKNOWN_PATTERN_ID && end == start + 1)
    && (Select(AttemptLengths(all)).Some? ==>
          var k := Select(AttemptLengths(all)).value;
          && all[k].Some?
          && res.patternID == rules[k].id
          && res.matched == all[k].value.1
          && end == start + all[k].value.0)
  }

  /** `best` is the choice the rule loop keeps over the attempts `done`: none while no rule
      matched, otherwise the index of the first strictly longest attempt, with its match and
      length. */
  ghost predicate BestOf<V>(done: seq<Attempt<V>>, best: Option<(nat, NTMatch<V>, nat)>)
  {
    && (best.None? ==> forall j | 0 <= j < |done| :: done[j].None?)
    && (best.Some? ==>
          && IsChoice(AttemptLengths(done), best.value.0)
          && done[best.value.0] == Some((best.value.2, best.value.1)))
  }

  lemma BestOfUnmatched<V>(done: seq<Attempt<V>>, best: Option<(nat, NTMatch<V>, nat)>)
    requires BestOf(done, best)
    ensures BestOf(done + [None], best)
  {
    assert AttemptLengths(done + [None]) == AttemptLengths(done) + [None];
    if best.Some? {
      ChoiceSkips(AttemptLengths(done), best.value.0);
    }
  }

  lemma BestOfMatched<V>(done: seq<Attempt<V>>, best: Option<(nat, NTMatch<V>, nat)>, m: NTMatch<V>, len: nat)
    requires BestOf(done, best)
    ensures BestOf(done + [Some((len, m))], if best.None? || len > best.value.2 then Some((|done|, m, len)) else best)
  {
    var lens := AttemptLengths(done);
    assert AttemptLengths(done + [Some((len, m))]) == lens + [Some(len)];
    if best.None? {
      ChoiceFirst(lens, len);
    } else {
      ChoiceExtends(lens, len, best.value.0);
    }
  }

  /** A rule that does not match: the loop goes on with the same choice. */
  lemma RulesLoopUnmatched<V>(t: Table<V>, ts: TokenStream<V>, rules: seq<Pattern<Rule, NTAction<V>>>,
                              i: nat, start: nat, best: Option<(nat, NTMatch<V>, nat)>, fuel: nat)
    requires Valid(ts) && i < |rules| && ts.offset == start
    requires best.Some? ==> best.value.0 < |rules| && BuiltFrom(rules, rules[best.value.0].id, best.value.1)
    requires RuleMatch(t, ts, rules[i].template, fuel).Got? && RuleMatch(t, ts, rules[i].template, fuel).value.None?
    ensures var next := RuleMatch(t, ts, rules[i].template, fuel).ts.(offset := start);
      && Valid(next)
      && RulesLoop(t, ts, rules, i, start, best, fuel) == RulesLoop(t, next, rules, i + 1, start, best, fuel)
      && Tried(t, ts, rules, i, start, fuel) == [None] + Tried(t, next, rules, i + 1, start, fuel)
  {
  }

  /** A rule that matches: the loop goes on, keeping the new match exactly when it is the first
      or strictly longer than the kept one. */
  lemma RulesLoopMatched<V>(t: Table<V>, ts: TokenStream<V>, rules: seq<Pattern<Rule, NTAction<V>>>,
                            i: nat, start: nat, best: Option<(nat, NTMatch<V>, nat)>, fuel: nat)
    requires Valid(ts) && i < |rules| && ts.offset == start
    requires best.Some? ==> best.value.0 < |rules| && BuiltFrom(rules, rules[best.value.0].id, best.value.1)
    requires RuleMatch(t, ts, rules[i].template, fuel).Got? && RuleMatch(t, ts, rules[i].template, fuel).value.Some?
    ensures var a := RuleMatch(t, ts, rules[i].template, fuel);
      var next := a.ts.(offset := start);
      var m := a.value.value;
      var len := a.ts.offset - start;
      && Valid(next) && a.ts.offset >= start
      && BuiltFrom(rules, rules[i].id, m)
      && RulesLoop(t, ts, rules, i, start, best, fuel)
         == RulesLoop(t, next, rules, i + 1, start, if best.None? || len > best.value.2 then Some((i, m, len)) else best, fuel)
      && Tried(t, ts, rules, i, start, fuel) == [Some((len, m))] + Tried(t, next, rules, i + 1, start, fuel)
  {
    var m := RuleMatch(t, ts, rules[i].template, fuel).value.value;
    assert BuiltFrom(rules, rules[i].id, m) by {
      assert rules[i].id == rules[i].id && Matches(rules[i].template, m.args);
    }
  }

  /** Every rule tried: UNKNOWN over one token when none matched, otherwise the kept rule
      with its match, the stream moved past its tokens. */
  lemma RulesLoopDone<V>(t: Table<V>, ts: TokenStream<V>, rules: seq<Pattern<Rule, NTAction<V>>>,
                         start: nat, best: Option<(nat, NTMatch<V>, nat)>, fuel: nat, done: seq<Attempt<V>>)
    requires Valid(ts) && ts.offset == start
    requires best.Some? ==> best.value.0 < |rules| && BuiltFrom(rules, rules[best.value.0].id, best.value.1)
    requires |done| == |rules| && BestOf(done, best)
    ensures var r := RulesLoop(t, ts, rules, |rules|, start, best, fuel);
      r.Got? ==> Chose(rules, start, done, r.value, r.ts.offset)
  {
    var lens := AttemptLengths(done);
    if best.Some? {
      ChoiceUnique(lens, Select(lens).value, best.value.0);
    }
  }

  /** A rule loop outcome that returns is the longest-match rule's choice over `all`. */
  ghost predicate ChoseIfGot<V>(rules: seq<Pattern<Rule, NTAction<V>>>, start: nat, all: seq<Attempt<V>>,
                                r: Out<NTResult<V>, V>)
  {
    r.Got? ==> Chose(rules, start, all, r.value, r.ts.offset)
  }

  lemma AppendAssoc<X>(a: seq<X>, b: seq<X>, c: seq<X>)
    ensures a + (b + c) == (a + b) + c
  { }

  /** The rule loop keeps the first strictly longest match: given the attempts `done` of the
      rules before `i`, of which `best` is the choice so far, a loop that returns has tried
      every rule and chosen as the longest-match rule does. */
  lemma RulesLoopChooses<V>(t: Table<V>, ts: TokenStream<V>, rules: seq<Pattern<Rule, NTAction<V>>>,
                            i: nat, start: nat, best: Option<(nat, NTMatch<V>, nat)>, fuel: nat,
                            done: seq<Attempt<V>>)
    requires Valid(ts) && i <= |rules| && ts.offset == start
    requires best.Some? ==> best.value.0 < |rules| && BuiltFrom(rules, rules[best.value.0].id, best.value.1)
    requires |done| == i && BestOf(done, best)
    ensures ChoseIfGot(rules, start, done + Tried(t, ts, rules, i, start, fuel), RulesLoop(t, ts, rules, i, start, best, fuel))
  {
    ChoosesFrom(t, ts, rules, i, start, best, fuel, done,
                done + Tried(t, ts, rules, i, start, fuel), RulesLoop(t, ts, rules, i, start, best, fuel));
  }

  /** `RulesLoopChooses` with the attempts and the outcome named, so that each step only
      has to show they are the next step's. */
  lemma {:induction false} ChoosesFrom<V>(t: Table<V>, ts: TokenStream<V>, rules: seq<Pattern<Rule, NTAction<V>>>,
                                          i: nat, start: nat, best: Option<(nat, NTMatch<V>, nat)>, fuel: nat,
                                          done: seq<Attempt<V>>, all: seq<Attempt<V>>, r: Out<NTResult<V>, V>)
    requires Valid(ts) && i <= |rules| && ts.offset == start
    requires best.Some? ==> best.value.0 < |rules| && BuiltFrom(rules, rules[best.value.0].id, best.value.1)
    requires |done| == i && BestOf(done, best)
    requires all == done + Tried(t, ts, rules, i, start, fuel) && r == RulesLoop(t, ts, rules, i, start, best, fuel)
    ensures ChoseIfGot(rules, start, all, r)
    decreases |rules| - i, 1
  {
    if i == |rules| {
      assert done + Tried(t, ts, rules, i, start, fuel) == done;
      RulesLoopDone(t, ts, rules, start, best, fuel, done);
    } else {
      var a := RuleMatch(t, ts, rules[i].template, fuel);
      if a.Got? && a.value.None? {
        ChoosesUnmatched(t, ts, rules, i, start, best, fuel, done, all, r);
      } else if a.Got? {
        ChoosesMatched(t, ts, rules, i, start, best, fuel, done, all, r);
      }
    }
  }

  /** `ChoosesFrom` past a rule that does not match. */
  lemma {:induction false} ChoosesUnmatched<V>(t: Table<V>, ts: TokenStream<V>, rules: seq<Pattern<Rule, NTAction<V>>>,
                                               i: nat, start: nat, best: Option<(nat, NTMatch<V>, nat)>, fuel: nat,
                                               done: seq<Attempt<V>>, all: seq<Attempt<V>>, r: Out<NTResult<V>, V>)
    requires Valid(ts) && i < |rules| && ts.offset == start
    requires best.Some? ==> best.value.0 < |rules| && BuiltFrom(rules, rules[best.value.0].id, best.value.1)
    requires |done| == i && BestOf(done, best)
    requires RuleMatch(t, ts, rules[i].template, fuel).Got? && RuleMatch(t, ts, rules[i].template, fuel).value.None?
    requires all == done + Tried(t, ts, rules, i, start, fuel) && r == RulesLoop(t, ts, rules, i, start, best, fuel)
    ensures ChoseIfGot(rules, start, all, r)
    decreases |rules| - i, 0
  {
    var next := RuleMatch(t, ts, rules[i].template, fuel).ts.(offset := start);
    RulesLoopUnmatched(t, ts, rules, i, start, best, fuel);
    BestOfUnmatched(done, best);
    AppendAssoc(done, [None], Tried(t, next, rules, i + 1, start, fuel));
    ChoosesFrom(t, next, rules, i + 1, start, best, fuel, done + [None], all, r);
  }

  /** `ChoosesFrom` past a rule that matches. */
  lemma {:induction false} ChoosesMatched<V>(t: Table<V>, ts: TokenStream<V>, rules: seq<Pattern<Rule, NTAction<V>>>,
                                             i: nat, start: nat, best: Option<(nat, NTMatch<V>, nat)>, fuel: nat,
                                             done: seq<Attempt<V>>, all: seq<Attempt<V>>, r: Out<NTResult<V>, V>)
    requires Valid(ts) && i < |rules| && ts.offset == start
    requires best.Some? ==> best.value.0 < |rules| && BuiltFrom(rules, rules[best.value.0].id, best.value.1)
    requires |done| == i && BestOf(done, best)
    requires RuleMatch(t, ts, rules[i].template, fuel).Got? && RuleMatch(t, ts, rules[i].template, fuel).value.Some?
    requires all == done + Tried(t, ts, rules, i, start, fuel) && r == RulesLoop(t, ts, rules, i, start, best, fuel)
    ensures ChoseIfGot(rules, start, all, r)
    decreases |rules| - i, 0
  {
    var a := RuleMatch(t, ts, rules[i].template, fuel);
    var next := a.ts.(offset := start);
    var m := a.value.value;
    var len := a.ts.offset - start;
    RulesLoopMatched(t, ts, rules, i, start, best, fuel);
    BestOfMatched(done, best, m, len);
    var best' := if best.None? || len > best.value.2 then Some((i, m, len)) else best;
    AppendAssoc(done, [Some((len, m))], Tried(t, next, rules, i + 1, start, fuel));
    ChoosesFrom(t, next, rules, i + 1, start, best', fuel, done + [Some((len, m))], all, r);
  }

  /** `GetMatch` over the token stream: EOS with nothing read past the cached tokens;
      otherwise every rule tried from the read offset, and the longest-match rule's choice. */
  lemma NTGetMatchChooses<V>(t: Table<V>, ts: TokenStream<V>, rules: seq<Pattern<Rule, NTAction<V>>>, fuel: nat)
    requires Valid(ts)
    ensures var r := NTGetMatch(t, ts, rules, fuel);
      && (r.Got? && ts.offset >= |ts.cache| ==> r.value.patternID == EOS_PATTERN_ID && r.ts.offset == ts.offset)
      && (r.Got? && ts.offset < |ts.cache| ==> Chose(rules, ts.offset, Tried(t, ts, rules, 0, ts.offset, fuel), r.value, r.ts.offset))
  {
    if ts.offset < |ts.cache| {
      RulesLoopChooses(t, ts, rules, 0, ts.offset, None, fuel, []);
      assert [] + Tried(t, ts, rules, 0, ts.offset, fuel) == Tried(t, ts, rules, 0, ts.offset, fuel);
    }
  }

  /** Of the rule attempts from the filled stream `ready`, rule `k`'s is the longest-match
      choice: `m` is its match and `end` the offset past its tokens. */
  ghost predicate LongestRuleMatch<V>(t: Table<V>, ready: TokenStream<V>, rules: seq<Pattern<Rule, NTAction<V>>>,
                                      fuel: nat, m: NTMatch<V>, end: nat)
  {
    && Valid(ready) && ready.offset < |ready.cache|
    && var all := Tried(t, ready, rules, 0, ready.offset, fuel);
    && |all| == |rules|
    && Select(AttemptLengths(all)).Some?
    && var k := Select(AttemptLengths(all)).value;
    && all[k].Some? && m == all[k].value.1 && end == ready.offset + all[k].value.0
  }

  /** A non-terminal that parses has a token to read, and its match is the one the
      longest-match rule picks among all of its rules' attempts. */
  lemma ParseNonTerminalChooses<V>(t: Table<V>, ts: TokenStream<V>, nt: SymbolID, fuel: nat)
    requires Valid(ts) && nt in t.symbols && t.symbols[nt].NonTerminal?
    ensures var r := ParseNonTerminal(t, ts, nt, fuel);
      r.Got? ==> && Fill(t.lexer, ts).Filled? && Fill(t.lexer, ts).ts.offset == ts.offset
                 && LongestRuleMatch(t, Fill(t.lexer, ts).ts, t.symbols[nt].rules, fuel, r.value.matched.nt, r.ts.offset)
  {
    var ready := Fill(t.lexer, ts).ts;
    if Fill(t.lexer, ts).Filled? {
      NTGetMatchChooses(t, ready, t.symbols[nt].rules, fuel);
    }
  }

  /** `MatchPatternTemplate` for a rule: each component is parsed in turn; a runtime error in
      any of them means the rule does not match.  Quantifiers other than one abort. */
  function RuleMatch<V>(t: Table<V>, ts: TokenStream<V>, rule: Rule, fuel: nat): (r: Out<Option<NTMatch<V>>, V>)
    requires Valid(ts)
    ensures Continues(ts, r)
    ensures r.Got? && r.value.Some? ==> r.ts.offset >= ts.offset && Matches(rule, r.value.value.args)
    ensures r.Got? && r.value.Some? && |r.value.value.args| > 0 ==> r.value.value.position == r.value.value.args[0].position
    decreases fuel, 1
  {
    match PeekToken(t.lexer, ts)
    case (_, FillFailed(e, left)) => Threw(e, true, left)
    case (None, Filled(_)) => assert false; Aborted
    case (Some(first), Filled(ready)) =>
      match ComponentsLoop(t, ready, rule, 0, [], fuel)
      case Got(Some(args), after) => Got(Some(NTMatch(MatchPosition(first.matched.position, args), args)), after)
      case Got(None, after) => Got(None, after)
      case Threw(_, _, _) => assert false; Aborted
      case Aborted => Aborted
      case OutOfFuel => OutOfFuel
  }

  function ComponentsLoop<V>(t: Table<V>, ts: TokenStream<V>, rule: Rule, j: nat, args: seq<PResult<V>>, fuel: nat): (r: Out<Option<seq<PResult<V>>>, V>)
    requires Valid(ts) && j <= |rule| && |args| == j
    requires forall i | 0 <= i < j :: ArgFor(rule[i], args[i])
    ensures Continues(ts, r)
    ensures !r.Threw?
    ensures r.Got? && r.value.Some? ==> r.ts.offset >= ts.offset && Matches(rule, r.value.value)
    ensures r.Got? && r.value.Some? && j > 0 ==> r.value.value[0] == args[0]
    decreases fuel, 0, |rule| - j
  {
    if j == |rule| then Got(Some(args), ts)
    else if rule[j].quantifier != One then Aborted
    else if fuel == 0 then OutOfFuel
    else
      match ParseSymbol(t, ts, rule[j].id, fuel - 1)
      case Got(arg, next) =>
        ComponentsLoop(t, next, rule, j + 1, args + [arg], fuel)
      case Threw(_, _, left) => Got(None, left)
      case Aborted => Aborted
      case OutOfFuel => OutOfFuel
  }

  /** `Parse`'s outcome: the result with the text stream after it, or the runtime error with the
      text stream put back; either way the table as validated. */
  datatype Parsing<!V> =
    | Parsed(result: PResult<V>, source: StringStream, table: Table<V>)
    | Failed(message: string, source: StringStream, table: Table<V>)
    | Abort
    | Exhausted

  /** `Parse`: validate the rules if they changed, lex the first token, parse the symbol; a
      runtime error puts the text stream back where it was. */
  function Parse<V>(t: Table<V>, ss: StringStream, id: SymbolID, order: seq<SymbolID>, fuel: nat): (r: Parsing<V>)
    requires Wf(t)
    requires |ss.data| > 0 && ss.offset <= |ss.data|
    requires forall x :: x in order <==> x in t.symbols
    ensures r.Failed? ==> r.source == ss
    ensures (r.Parsed? || r.Failed?) ==> Wf(r.table) && r.table.symbols == t.symbols && r.table.lexer == t.lexer
    ensures r.Parsed? ==> r.table.validated && Closed(r.table) && r.source.data == ss.data
    ensures r.Parsed? && id != ANY_TERMINAL && id != ANY_SYMBOL ==> r.result.id == id
    ensures !Closed(t) ==> r.Failed? && r.table == t
  {
    var checked := if t.validated then Done(t) else Validate(t, order);
    match checked
    case Thrown(e, same) => Failed(e, ss, same)
    case Done(ready) =>
      match NewTokenStream(ready.lexer, ss)
      case Err(e) => Failed(e, ss, ready)
      case Ok(ts) =>
        match ParseSymbol(ready, ts, id, fuel)
        case Got(res, after) => Parsed(res, after.source, ready)
        case Threw(e, _, _) => Failed(e, ss, ready)
        case Aborted => Abort
        case OutOfFuel => Exhausted
  }
}

=== FILE: table_stream.dfy ===
/** The streams and the pattern matcher of the grammar-table parser of c++/lpc/parser.h: a
    generic `Stream` over a vector, the character `StringStream` with its line table, the
    longest-match `PatternMatcher` that both the character `Lexer` and the grammar's
    non-terminals instantiate, and the `TokenStream` that lexes on demand. */
module TableStream {
  import opened Wrappers
  import opened Lines
  import opened Longest

  // ---------------------------------------------------------------------------------------
  // Stream<T>

  /** `Stream<T>`: the data and a read offset that may run past the end. */
  datatype Stream<T> = Stream(data: seq<T>, offset: nat)

  /** The constructor asserts that the data is not empty; `None` is that assertion failing. */
  function NewStream<T>(data: seq<T>): (r: Option<Stream<T>>)
    ensures r.Some? <==> |data| > 0
    ensures r.Some? ==> r.value.data == data && r.value.offset == 0
  {
    if |data| == 0 then None else Some(Stream(data, 0))
  }

  predicate IsEOS<T>(s: Stream<T>)
  {
    s.offset >= |s.data|
  }

  /** `Peek`: the element at the offset; at or past the end, the last element again. */
  function Peek<T>(s: Stream<T>): (x: T)
    requires |s.data| > 0
    ensures x in s.data
    ensures s.offset < |s.data| ==> x == s.data[s.offset]
    ensures s.offset >= |s.data| ==> x == s.data[|s.data| - 1]
  {
    if IsEOS(s) then s.data[|s.data| - 1] else s.data[s.offset]
  }

  /** `Get`: what `Peek` sees; the offset moves on by one even past the end. */
  function Get<T>(s: Stream<T>): (r: (T, Stream<T>))
    requires |s.data| > 0
    ensures r.0 == Peek(s) && r.0 in s.data
    ensures r.1.data == s.data && r.1.offset == s.offset + 1
  {
    (Peek(s), s.(offset := s.offset + 1))
  }

  /** `Ignore(amt)`: `amt` calls of `Get`, which together move the offset by exactly `amt`,
      without stopping at the end. */
  function Ignore<T>(s: Stream<T>, amt: nat): (r: Stream<T>)
    requires |s.data| > 0
    ensures r.data == s.data && r.offset == s.offset + amt
    decreases amt
  {
    if amt == 0 then s else Ignore(Get(s).1, amt - 1)
  }

  /** Once at the end, a stream keeps answering its last element, however far it is read. */
  lemma {:induction false} PeekPastEnd<T>(s: Stream<T>, amt: nat)
    requires |s.data| > 0 && IsEOS(s)
    ensures IsEOS(Ignore(s, amt)) && Peek(Ignore(s, amt)) == s.data[|s.data| - 1]
    ensures Get(Ignore(s, amt)).0 == s.data[|s.data| - 1]
  {
  }

  // ---------------------------------------------------------------------------------------
  // StringStream

  type StringStream = Stream<char>

  /** The line-start table the constructor builds: 0, then one past every '\n'. */
  function Starts(s: StringStream): (starts: seq<nat>)
    ensures WellFormed(starts, |s.data|)
  {
    CppLineStarts(s.data)
  }

  /** `GetDataAsString(start, length)` as written: the check `start + length >= size` refuses
      every range that reaches the last character, though such a range lies inside the data. */
  function DataAsStringAsWritten(s: StringStream, start: nat, length: nat): (r: Result<string, string>)
    ensures r.Ok? <==> start + length < |s.data|
    ensures r.Ok? ==> |r.value| == length && forall i :: 0 <= i < length ==> r.value[i] == s.data[start + i]
  {
    if start + length >= |s.data| then Err("Parameters out of range of data!")
    else Ok(s.data[start..start + length])
  }

  /** `GetDataAsString` with the range check the slice needs: any range inside the data. */
  function DataAsString(s: StringStream, start: nat, length: nat): (r: Result<string, string>)
    ensures r.Ok? <==> start + length <= |s.data|
    ensures r.Ok? ==> |r.value| == length && forall i :: 0 <= i < length ==> r.value[i] == s.data[start + i]
  {
    if start + length > |s.data| then Err("Parameters out of range of data!")
    else Ok(s.data[start..start + length])
  }

  /** The discrepancy: the rest of the data from any offset is refused as written, and is
      exactly what the corrected check returns. */
  lemma DataAsStringAsWrittenRefusesTail(s: StringStream, start: nat)
    requires start <= |s.data|
    ensures DataAsStringAsWritten(s, start, |s.data| - start).Err?
    ensures DataAsString(s, start, |s.data| - start) == Ok(s.data[start..])
  {
    assert s.data[start..start + (|s.data| - start)] == s.data[start..];
  }

  /** `GetPosition(offset)`: the 1-based line is the number of line starts at or before the
      offset and the column counts from 1 at the last of them; an offset past the end is a
      runtime error. */
  function GetPositionAt(s: StringStream, o: nat): (r: Result<Position, string>)
    ensures r.Err? <==> o > |s.data|
    ensures r.Ok? ==>
      var starts := Starts(s);
      && 1 <= r.value.line <= |starts|
      && starts[r.value.line - 1] <= o
      && (r.value.line < |starts| ==> o < starts[r.value.line])
      && r.value.column == o - starts[r.value.line - 1] + 1
  {
    if o > |s.data| then Err("Offset is out of range of data!")
    else Ok(PositionOf(Starts(s), o))
  }

  function GetPosition(s: StringStream): (r: Result<Position, string>)
    ensures r.Ok? <==> s.offset <= |s.data|
  {
    GetPositionAt(s, s.offset)
  }

  /** `SetPosition`: refuses line 0, a line past the table, column 0 and a column more than one
      past the end of its line; otherwise moves to the line's start plus the column. */
  function SetPosition(s: StringStream, p: Position): (r: Result<StringStream, string>)
    ensures var starts := Starts(s);
      r.Err? <==> (p.line == 0 || p.line > |starts| || p.column == 0 || p.column - 1 > LineWidth(starts, |s.data|, p.line))
    ensures r.Err? ==> r.error == "Invaild position: " + PositionString(p)
    ensures r.Ok? ==> r.value.data == s.data && r.value.offset == Starts(s)[p.line - 1] + p.column - 1
  {
    match OffsetOf(Starts(s), |s.data|, p)
    case None => Err("Invaild position: " + PositionString(p))
    case Some(o) => Ok(s.(offset := o))
  }

  /** Moving to the position of any offset of the text lands on that offset. */
  lemma SetPositionOfGetPosition(s: StringStream, o: nat)
    requires o <= |s.data|
    ensures SetPosition(s, GetPositionAt(s, o).value) == Ok(s.(offset := o))
  {
    OffsetOfPositionOf(Starts(s), |s.data|, o);
  }

  // ---------------------------------------------------------------------------------------
  // PatternMatcher

  const EOS_PATTERN_ID: nat := 0
  const UNKNOWN_PATTERN_ID: nat := 1

  /** A pattern's action: nothing, a `Function` whose result becomes the match's value, or a
      `Procedure`, run for its effect; the effect modelled is the runtime error it may throw. */
  datatype Action<!M, V> = NoAction | Function(f: M -> V) | Procedure(run: M -> Option<string>)

  /** The value an action gives a match (`std::any`, empty unless a `Function` ran), or the
      error a `Procedure` threw. */
  function Act<M, V>(a: Action<M, V>, m: M): Result<Option<V>, string>
  {
    match a
    case NoAction => Ok(None)
    case Function(f) => Ok(Some(f(m)))
    case Procedure(run) => if run(m).Some? then Err(run(m).value) else Ok(None)
  }

  datatype Pattern<P, A> = Pattern(id: nat, template: P, action: A)

  /** The IDs `AddPattern` hands out: the pattern registered n-th (from 0) has ID n + 2. */
  ghost predicate Numbered<P, A>(ps: seq<Pattern<P, A>>)
  {
    forall i :: 0 <= i < |ps| ==> ps[i].id == i + 2
  }

  /** `AddPattern`: appends the pattern under the ID `size + 2` and returns that ID. */
  function AddPattern<P, A>(ps: seq<Pattern<P, A>>, template: P, action: A): (r: (seq<Pattern<P, A>>, nat))
    ensures |r.0| == |ps| + 1 && r.0[..|ps|] == ps && r.0[|ps|] == Pattern(r.1, template, action)
  {
    (ps + [Pattern(|ps| + 2, template, action)], |ps| + 2)
  }

  /** Pattern IDs stay sequential, so the new ID is neither a sentinel's nor an earlier
      pattern's. */
  lemma AddPatternNumbered<P, A>(ps: seq<Pattern<P, A>>, template: P, action: A)
    requires Numbered(ps)
    ensures Numbered(AddPattern(ps, template, action).0)
    ensures var id := AddPattern(ps, template, action).1;
      id != EOS_PATTERN_ID && id != UNKNOWN_PATTERN_ID && forall i :: 0 <= i < |ps| ==> ps[i].id != id
  {
  }

  // ---------------------------------------------------------------------------------------
  // Lexer

  /** `LexerMatch`: where the match starts and the text it covers. */
  datatype LexerMatch = LexerMatch(position: Position, value: string)

  /** `PatternMatcher::Result` of the character lexer: a token. */
  datatype LexResult<V> = LexResult(patternID: nat, value: Option<V>, matched: LexerMatch)

  type LexAction<V> = Action<LexerMatch, V>

  datatype Lexer<V> = Lexer(onEOS: LexAction<V>, onUnknown: LexAction<V>, patterns: seq<Pattern<Matcher, LexAction<V>>>)

  /** `(char)EOF`: the byte 0xFF, the value of the end-of-stream match. */
  const EOF_CHAR: char := 0xFF as char

  /** A lexing outcome: the token and the stream after it, or the runtime error thrown and the
      stream as the throw left it (the stream is shared, so the advance stays). */
  datatype Lexed<V> = Lexed(token: LexResult<V>, stream: StringStream) | LexFailed(message: string, stream: StringStream)

  function Matchers<V>(lx: Lexer<V>): (ms: seq<Matcher>)
    ensures |ms| == |lx.patterns| && forall i :: 0 <= i < |ms| ==> ms[i] == lx.patterns[i].template
  {
    seq(|lx.patterns|, i requires 0 <= i < |lx.patterns| => lx.patterns[i].template)
  }

  /** The match lengths of every pattern at the offset, in registration order. */
  function Lengths<V>(lx: Lexer<V>, s: StringStream): (lens: seq<Option<nat>>)
    requires s.offset <= |s.data|
  {
    Attempts(Matchers(lx), s.data[s.offset..])
  }

  /** `GetMatch`: at the end, the zero-width EOS match; otherwise every pattern is tried from
      the same offset, the first strictly longest match wins and the stream moves past it; when
      none matches, the UNKNOWN match takes one character.  The winner's action then runs. */
  function LexGetMatch<V>(lx: Lexer<V>, s: StringStream): (r: Lexed<V>)
    requires |s.data| > 0 && s.offset <= |s.data|
    ensures r.stream.data == s.data && r.stream.offset <= |s.data|
  {
    var position := PositionOf(Starts(s), s.offset);
    if IsEOS(s) then
      Finish(lx.onEOS, EOS_PATTERN_ID, LexerMatch(position, [EOF_CHAR]), s)
    else
      var lens := Lengths(lx, s);
      match Select(lens)
      case None => Finish(lx.onUnknown, UNKNOWN_PATTERN_ID, LexerMatch(position, [s.data[s.offset]]), Get(s).1)
      case Some(k) =>
        var len := lens[k].value;
        var rest := s.data[s.offset..];
        assert rest[..len] == s.data[s.offset..s.offset + len];
        Finish(lx.patterns[k].action, lx.patterns[k].id, LexerMatch(position, rest[..len]), Ignore(s, len))
  }

  /** What `GetMatch` reads: the EOS match at the end; otherwise the pattern the longest-match
      rule picks, the stream moved past its match; or, when no pattern matches, one character
      as UNKNOWN.  Every match is placed at the position of the offset it starts from. */
  lemma LexGetMatchReads<V>(lx: Lexer<V>, s: StringStream)
    requires |s.data| > 0 && s.offset <= |s.data|
    ensures var r := LexGetMatch(lx, s);
      r.Lexed? ==> r.token.matched.position == PositionOf(Starts(s), s.offset)
    ensures var r := LexGetMatch(lx, s);
      r.Lexed? && IsEOS(s) ==>
        r.token.patternID == EOS_PATTERN_ID && r.token.matched.value == [EOF_CHAR] && r.stream == s
    ensures var r := LexGetMatch(lx, s);
      r.Lexed? && !IsEOS(s) && Select(Lengths(lx, s)).None? ==>
        && r.token.patternID == UNKNOWN_PATTERN_ID
        && r.token.matched.value == [s.data[s.offset]]
        && r.stream.offset == s.offset + 1
    ensures var r := LexGetMatch(lx, s);
      r.Lexed? && !IsEOS(s) && Select(Lengths(lx, s)).Some? ==>
        var k := Select(Lengths(lx, s)).value;
        && IsChoice(Lengths(lx, s), k)
        && r.token.patternID == lx.patterns[k].id
        && r.token.matched.value == s.data[s.offset..s.offset + Lengths(lx, s)[k].value]
        && r.stream.offset == s.offset + Lengths(lx, s)[k].value
  {
  }

  /** The end of `GetMatch`: the result, with the action's value or the error it threw. */
  function Finish<V>(a: LexAction<V>, id: nat, m: LexerMatch, after: StringStream): (r: Lexed<V>)
    ensures r.stream == after
    ensures r.Lexed? ==> r.token.patternID == id && r.token.matched == m
  {
    match Act(a, m)
    case Ok(value) => Lexed(LexResult(id, value, m), after)
    case Err(e) => LexFailed(e, after)
  }

  // ---------------------------------------------------------------------------------------
  // TokenStream

  /** `TokenStream`: the tokens lexed so far, the read offset among them, and the character
      stream the lexer reads from. */
  datatype TokenStream<V> = TokenStream(cache: seq<LexResult<V>>, offset: nat, source: StringStream)

  /** What every token stream satisfies: a non-empty cache, read from a non-empty text. */
  ghost predicate Valid<V>(ts: TokenStream<V>)
  {
    |ts.cache| > 0 && |ts.source.data| > 0 && ts.source.offset <= |ts.source.data|
  }

  predicate EndsAtEOS<V>(cache: seq<LexResult<V>>)
    requires |cache| > 0
  {
    cache[|cache| - 1].patternID == EOS_PATTERN_ID
  }

  /** A token stream, or the runtime error a lexer action threw together with the token
      stream as the throw left it: the tokens cached before it stay, and the character stream
      stays where the failed match left it. */
  datatype Filled<V> = Filled(ts: TokenStream<V>) | FillFailed(message: string, ts: TokenStream<V>)

  /** The constructor lexes the first token at once; if that throws, there is no stream. */
  function NewTokenStream<V>(lx: Lexer<V>, ss: StringStream): (r: Result<TokenStream<V>, string>)
    requires |ss.data| > 0 && ss.offset <= |ss.data|
    ensures r.Ok? ==> Valid(r.value) && r.value.offset == 0 && |r.value.cache| == 1 && r.value.source.data == ss.data
  {
    match LexGetMatch(lx, ss)
    case Lexed(t, after) => Ok(TokenStream([t], 0, after))
    case LexFailed(e, _) => Err(e)
  }

  /** The loop of `Peek`: lex further while the last token is not EOS and the offset has not
      got below the last cached index.  It ends because each round adds a token. */
  function Fill<V>(lx: Lexer<V>, ts: TokenStream<V>): (r: Filled<V>)
    requires Valid(ts)
    ensures Valid(r.ts) && r.ts.offset == ts.offset && ts.cache <= r.ts.cache && r.ts.source.data == ts.source.data
    ensures r.Filled? ==> EndsAtEOS(r.ts.cache) || ts.offset < |r.ts.cache| - 1
    ensures r.Filled? ==> forall i :: |ts.cache| - 1 <= i < |r.ts.cache| - 1 ==> r.ts.cache[i].patternID != EOS_PATTERN_ID
    ensures r.Filled? && (EndsAtEOS(ts.cache) || ts.offset < |ts.cache| - 1) ==> r.ts == ts
    decreases if EndsAtEOS(ts.cache) then 0 else ts.offset + 2 - |ts.cache|
  {
    if EndsAtEOS(ts.cache) || ts.offset < |ts.cache| - 1 then Filled(ts)
    else
      match LexGetMatch(lx, ts.source)
      case LexFailed(e, after) => FillFailed(e, ts.(source := after))
      case Lexed(t, after) => Fill(lx, TokenStream(ts.cache + [t], ts.offset, after))
  }

  /** `Peek`: the token at the offset after filling, or the EOS token at the end. */
  function PeekToken<V>(lx: Lexer<V>, ts: TokenStream<V>): (r: (Option<LexResult<V>>, Filled<V>))
    requires Valid(ts)
    ensures r.1 == Fill(lx, ts) && (r.0.Some? <==> r.1.Filled?)
    ensures r.1.Filled? ==> r.0.value == Peek(Stream(r.1.ts.cache, ts.offset))
  {
    match Fill(lx, ts)
    case FillFailed(e, left) => (None, FillFailed(e, left))
    case Filled(filled) => (Some(Peek(Stream(filled.cache, filled.offset))), Filled(filled))
  }

  /** `Get`: the peeked token, and the offset one further. */
  function GetToken<V>(lx: Lexer<V>, ts: TokenStream<V>): (r: (Option<LexResult<V>>, Filled<V>))
    requires Valid(ts)
    ensures r.0.Some? <==> r.1.Filled?
    ensures Valid(r.1.ts) && r.1.ts.source.data == ts.source.data && ts.cache <= r.1.ts.cache
    ensures r.1.Filled? ==> r.1.ts.offset == ts.offset + 1 && r.0 == PeekToken(lx, ts).0
    ensures r.1.Filled? ==> r.0.value == Peek(Stream(r.1.ts.cache, ts.offset))
    ensures r.1.Filled? && r.0.value.patternID != EOS_PATTERN_ID ==> ts.offset < |r.1.ts.cache|
  {
    match PeekToken(lx, ts)
    case (Some(t), Filled(filled)) => (Some(t), Filled(filled.(offset := filled.offset + 1)))
    case (_, f) => (None, f)
  }

  /** `Ignore` on a token stream: `amt` calls of `Get`, each of which may lex. */
  function IgnoreTokens<V>(lx: Lexer<V>, ts: TokenStream<V>, amt: nat): (r: Filled<V>)
    requires Valid(ts)
    ensures Valid(r.ts) && r.ts.source.data == ts.source.data
    ensures r.Filled? ==> r.ts.offset == ts.offset + amt
    decreases amt
  {
    if amt == 0 then Filled(ts)
    else
      match GetToken(lx, ts).1
      case FillFailed(e, left) => FillFailed(e, left)
      case Filled(next) => IgnoreTokens(lx, next, amt - 1)
  }

  /** A peeked token is the cached token at the offset, unless the lexer has run to EOS before
      reaching it, in which case it is that EOS: on a cache as `Fill` leaves it, `Peek` never
      answers a stale last token. */
  lemma PeekIsCached<V>(cache: seq<LexResult<V>>, offset: nat)
    requires |cache| > 0 && (EndsAtEOS(cache) || offset < |cache| - 1)
    ensures offset < |cache| ==> Peek(Stream(cache, offset)) == cache[offset]
    ensures offset >= |cache| ==> Peek(Stream(cache, offset)).patternID == EOS_PATTERN_ID
  {
  }
}

=== FILE: text.dfy ===
/** Text helpers shared by the message-building code of every module. */
module Text {

  /** The decimal digit for `d`. */
  function Digit(d: nat): (c: char)
    requires d < 10
    ensures '0' <= c <= '9'
  {
    "0123456789"[d]
  }

  /** Decimal rendering of a natural number, as Python's `str` and C++'s `std::to_string` print it. */
  function NatToString(n: nat): (s: string)
    ensures |s| > 0
    ensures forall i :: 0 <= i < |s| ==> '0' <= s[i] <= '9'
    decreases n
  {
    if n < 10 then [Digit(n)] else NatToString(n / 10) + [Digit(n % 10)]
  }

  /** The value of a string of decimal digits (the inverse of `NatToString`). */
  function DigitsValue(s: string): nat
  {
    if |s| == 0 then 0
    else DigitsValue(s[..|s| - 1]) * 10 + (if '0' <= s[|s| - 1] <= '9' then (s[|s| - 1] as int - '0' as int) else 0)
  }

  lemma {:induction false} NatToStringInverse(n: nat)
    ensures DigitsValue(NatToString(n)) == n
    decreases n
  {
    var s := NatToString(n);
    if n >= 10 {
      NatToStringInverse(n / 10);
      assert s[..|s| - 1] == NatToString(n / 10);
    }
  }

  /** The concatenation of `parts` with `sep` between neighbours (Python's `sep.join`). */
  function Join(sep: string, parts: seq<string>): (s: string)
    ensures |parts| == 0 ==> s == ""
    ensures |parts| == 1 ==> s == parts[0]
    decreases |parts|
  {
    if |parts| == 0 then ""
    else if |parts| == 1 then parts[0]
    else parts[0] + sep + Join(sep, parts[1..])
  }

  /** Does `pat` occur in `s` starting at index `i`? */
  predicate OccursAt(s: string, pat: string, i: nat)
  {
    i + |pat| <= |s| && s[i..i + |pat|] == pat
  }

  /** Python's `str.replace(pat, rep)` for a non-empty `pat`: every occurrence of `pat`,
      scanning from the left and never overlapping a replaced one, becomes `rep`. */
  function Replace(s: string, pat: string, rep: string): string
    requires |pat| > 0
    decreases |s|
  {
    if |s| < |pat| then s
    else if s[..|pat|] == pat then rep + Replace(s[|pat|..], pat, rep)
    else [s[0]] + Replace(s[1..], pat, rep)
  }

  /** Replacing a pattern that does not occur changes nothing. */
  lemma {:induction false} ReplaceAbsent(s: string, pat: string, rep: string)
    requires |pat| > 0
    requires forall i :: 0 <= i <= |s| ==> !OccursAt(s, pat, i)
    ensures Replace(s, pat, rep) == s
    decreases |s|
  {
    if |s| >= |pat| {
      assert !OccursAt(s, pat, 0);
      forall i | 0 <= i <= |s[1..]|
        ensures !OccursAt(s[1..], pat, i)
      {
        assert !OccursAt(s, pat, i + 1);
        if i + |pat| <= |s[1..]| {
          assert s[1..][i..i + |pat|] == s[i + 1..i + 1 + |pat|];
        }
      }
      ReplaceAbsent(s[1..], pat, rep);
    }
  }
}

=== FILE: wrappers.dfy ===
/** Failure-carrying result types shared by every module of the model. */
module Wrappers {

  /** An optional value: `None` where the source has "nothing" (a missing match, EOF, an empty slot). */
  datatype Option<+T> = None | Some(value: T) {

    /** The carried value, or `default` when there is none. */
    function GetOr(default: T): (r: T)
      ensures Some? ==> r == value
      ensures None? ==> r == default
    {
      match this
      case Some(v) => v
      case None => default
    }
  }

  /** The outcome of an operation that the source reports by raising or throwing:
      `Err` carries the message of the exception. */
  datatype Result<+T, +E> = Ok(value: T) | Err(error: E)
}
